=== FILE: README.md ===
# openpilot-rlog-viewer in Dafny

A model of the data core of openpilot-rlog-viewer, a desktop viewer for openpilot driving logs. The viewer imports the segments of a route (`rlog` event logs plus DBC-decoded CAN frames) into SQLite, dates every segment, and serves time-windowed signal queries to its charts, video player, log table and exporters. Around that core sit string and map helpers: signal-name parsing, DBC and Cap'n Proto comment translation, definition importers, dictionary rewriting and a JSON translation manager.

Cap'n Proto decoding, cantools, SQLite and Qt are not modelled. Events are an algebraic value tree given as input. The CAN decoder, formula evaluation, file contents and user answers are function or value parameters. Tables are maps and row lists. Times are integers.

One module per component:

| module | models |
|---|---|
| `Wrappers`, `Seqs`, `Strings`, `Ordering` | `Option`/`Result`, sequence filters and stable sorts, Python string operations (`split`, `replace`, `strip`, `lower`, `int`, `%03X`), and `sorted(set(...))` |
| `Events`, `FieldWalker`, `LogRecords` | the rlog event tree, `extract_numeric_value`, the recursive field walker with its ten-item list cap, and log-line rows |
| `SegmentPath`, `TimeResolution`, `CanNames`, `EventRouting`, `Batching`, `ImportFlow` | `src/core/segment_importer.py`: directory names, the segment-time fallback chain and route-start ratchet, CAN and camera routing, batch buffers, and the whole `import_segment` |
| `Store`, `StoreQueries`, `AutoRegister`, `Upsert` | `src/core/sqlite_manager.py`: route upsert, segment re-import, delete cascade, display times, window queries and auto-registration of definitions; generic `ON CONFLICT` upserts |
| `ReleaseImport`, `SqliteImport` | the two command-line importers |
| `SegmentScan`, `ReleaseSegmentScan`, `RouteManager` | the two segment browsers and the route manager dialog |
| `SignalSelector`, `FormulaNames`, `SignalCalculator`, `CustomSignalDialog` | the signal tree, formula name extraction, derived-signal time alignment and the custom-signal dialog |
| `DbcParser`, `DbcManager`, `CapnpAnnotations`, `DefinitionImport`, `ReleaseDefinitionImport` | DBC translation and lookups, the DBC cache, the capnp comment extractor, and the two definition importers |
| `ApplyTranslations`, `DictRegeneration`, `TranslateComments`, `Translation` | the translation tools and the translation manager |
| `SignalManager`, `LogTable`, `DataExport`, `ChartWidget`, `VideoPlayer` | view-side rules: the SQL script splitter and table filters, log filters, CSV/Parquet export, the chart window and axes, and video frame stepping |

## Model

| member | source | states |
|---|---|---|
| Events.PlainField | release/v1.0/tools/import_segment.py:50-63 | a value exists only for a field the message has whose value is an integer, float or boolean; a missing field or a non-struct gives None |
| Events.LookupIn | src/core/segment_importer.py:199 | a field read finds a field of that name with that value, and nothing exactly when no field has the name |
| Events.Lookup | src/core/segment_importer.py:199 | a field read gives the value of a field of that name of a struct, and nothing exactly when the value is not a struct or has no such field |
| Events.MessageOf | src/core/segment_importer.py:438-439 | an event's payload is read as a message of a type only when the event is of that type |
| Events.Numeric | src/core/segment_importer.py:198-212 | a value is numeric exactly when it is an integer, float, boolean or enum; an integer or float reads as its own value, a boolean as 1.0 or 0.0 and an enum as its raw number |
| Events.NumericPlain | release/v1.0/tools/import_segment.py:57-63 | the release tool's reading accepts integers, floats and booleans, agrees with the importer's on all of them, and refuses enums |
| FieldWalker.WalkExact | src/core/segment_importer.py:226-290 | a row (path, value) is emitted exactly when the message holds that numeric reading at that path: numeric fields, struct fields recursively, and list items below the cap |
| FieldWalker.WalkFieldsExact | src/core/segment_importer.py:235-251 | the rows of a struct's non-union fields are exactly the readings reachable through one of them |
| FieldWalker.WalkFieldExact | src/core/segment_importer.py:239-256 | a field is read as a number first, then as a struct, then as a list |
| FieldWalker.WalkItemsExact | src/core/segment_importer.py:256-261 | the rows of a list are exactly those of its first ten items, each under its index |
| FieldWalker.WalkItemExact | src/core/segment_importer.py:263-280 | a list item is expanded as a struct first, then read as a number; other items give nothing |
| FieldWalker.WalkCapped | src/core/segment_importer.py:261 | no emitted path carries a list index of 10 or more |
| FieldWalker.WalkBound | src/core/segment_importer.py:226-290 | a message never yields more rows than it has nodes |
| FieldWalker.ExtractAllFields | src/core/segment_importer.py:242-279 | one named row per walked reading, named by the prefix followed by its `.field` and `[i]` pieces, with the reading's value |
| FieldWalker.ExtractedNamesArePrefixed | src/core/segment_importer.py:242-272 | every emitted name starts with the prefix and a dot |
| LogRecords.ParseLogMessage | src/core/segment_importer.py:143-185 | text that is not JSON is kept whole with no daemon or function; decoded JSON gives its message and daemon; only a failure other than a decode error drops the line |
| SegmentPath.ParseSegmentName | src/core/segment_importer.py:111-125 | a name is accepted only when it splits on `--` into exactly three pieces; the route id is the first two joined by `--`, the time stamp is the second read as `int(..., 16)` reads it and the number the third read as `int()` reads it, surrounding whitespace, a sign and single `_` separators included |
| Strings.ParseIgnoresWhitespace | src/core/segment_importer.py:120-123 | `int()` and `int(..., 16)` read a text and its stripped form alike |
| Strings.IntSeparators | src/core/segment_importer.py:120 | `int()` skips a single `_` between digits and refuses two in a row |
| Strings.HexPrefixSeparator | src/core/segment_importer.py:123 | `int(..., 16)` skips a `0x` prefix and a `_` right after it |
| Strings.IntRoundTrip | src/core/segment_importer.py:120 | the decimal text of any integer, negative ones included, reads back as that integer |
| Strings.Hex3RoundTrip | src/core/segment_importer.py:676 | the `%03X` text of a number reads back through `int(..., 16)` as the number |
| SegmentPath.ParseRlogPath | src/core/segment_importer.py:111-116 | the rlog's parent directory name is parsed; a path without a parent directory is refused for its shape |
| SegmentPath.ParseSegmentDir | release/v1.0/tools/import_segment.py:31-45 | the release importer parses the segment directory's own last component |
| SegmentPath.ParseFormatRoundTrip | src/core/segment_importer.py:113-125 | `<dongle>--<hex>--<n>` built from dash-free parts parses back to route id `<dongle>--<hex>`, that dongle, the hex value and `n` |
| SegmentPath.RouteIdSplits | src/core/segment_importer.py:122 | a route id built from dash-free parts splits back into the dongle id and the hex stamp |
| SegmentPath.ParseSqliteTool | tools/import_segment_sqlite.py:56-71 | the SQLite tool parses the rlog's parent directory only when it has three `--` pieces; any other shape is refused |
| SegmentPath.SqliteToolAgreesWithImporter | tools/import_segment_sqlite.py:56-63 | whenever the segment importer accepts a path, the SQLite tool reads the same route id and segment number from it |
| SegmentPath.SqliteToolSkipsHexCheck | tools/import_segment_sqlite.py:59-63 | a stamp that is not hexadecimal is refused by the importer but still yields a route id in the SQLite tool |
| TimeResolution.FirstSortedIsLowest | src/core/segment_importer.py:337-372 | walking the siblings in ascending order, the first with a fix exists iff some sibling has one, and no sibling with a fix has a lower number |
| TimeResolution.WallTimeOffset | src/core/segment_importer.py:435-445 | the offset is `wallTimeNanos - logMonoTime` of the first readable `initData` among the first 100 events, and 0 when there is none |
| TimeResolution.FirstFixSeconds | src/core/segment_importer.py:457-469 | none exactly when no event carries a positive `unixTimestampMillis`; otherwise the first such fix in whole seconds |
| TimeResolution.Candidates | src/core/segment_importer.py:316-330 | the scanned siblings are exactly the directories named `<route id>--<n>` with an integer `n` |
| TimeResolution.ScanOrder | src/core/segment_importer.py:337 | the siblings are visited in ascending segment number, a rearrangement of the directory listing |
| TimeResolution.ScanRouteStart | src/core/segment_importer.py:310-313 | a missing route directory gives 0 |
| TimeResolution.ScanFixLowest | src/core/segment_importer.py:337-372 | the scan answers the back-dated fix of the lowest-numbered sibling with a fix, and nothing exactly when no sibling has one |
| TimeResolution.ScanFindsConsistentStart | src/core/segment_importer.py:354-363 | when every sibling's fix back-dates to the same start, the scan returns that start |
| TimeResolution.Resolve | src/core/segment_importer.py:473-520 | the timestamp comes from the own fix, else stored start plus 60 s per segment, else a positive scanned start likewise, else a positive wall offset in seconds, else the hex stamp; a start is saved exactly when none is stored and the fix or the scan gave the time, as the fix back-dated to segment 0 or the scanned start, and it equals the timestamp back-dated to segment 0 |
| TimeResolution.ResolveRoundTrip | src/core/segment_importer.py:478-496 | a start saved from segment `n`'s own fix gives that fix back for segment `n` when read from the database |
| CanNames.HexId | release/v1.0/tools/import_signal_definitions.py:422 | `0x%03X` of an address has at least three digits and reads back as the address |
| CanNames.CanSignalName | src/core/segment_importer.py:676 | a CAN signal's stored name starts with `CAN_0x` and ends with `_` and the signal name |
| CanNames.CanSignalNameRoundTrip | src/core/segment_importer.py:676 | the stored name gives back the address and the signal name it was built from |
| CanNames.CanSignalNameInjective | src/core/segment_importer.py:676 | two signals share a stored name only when they share address and signal name |
| EventRouting.CerealRows | src/core/segment_importer.py:640-651 | a listed message type yields one sample per walked reading, stamped with the event's segment and time; the k-th sample carries the name and value of the k-th row the field walker extracts under the message type |
| EventRouting.DecodedNumber | src/core/segment_importer.py:678-684 | integers, floats and named values are stored as their numeric value; any other decoded value is dropped |
| EventRouting.FrameRows | src/core/segment_importer.py:659-667 | every frame of a `can` event is stored raw, in order, with the event time, address, payload and bus |
| EventRouting.SignalRowsExact | src/core/segment_importer.py:671-688 | the samples of a decoded frame are exactly its numeric decoded signals, each named `CAN_0x%03X_<signal>` |
| EventRouting.FrameRowsExact | src/core/segment_importer.py:669-688 | the samples of a `can` event are exactly the numeric decoded signals of its frames, and none without a DBC |
| EventRouting.Camera | src/core/segment_importer.py:730-741 | the four index streams map to fcamera, qcamera, ecamera and dcamera, and nothing else has a camera |
| EventRouting.CameraInjective | src/core/segment_importer.py:730-741 | no two index streams feed the same camera |
| EventRouting.VideoRows | src/core/segment_importer.py:725-748 | an index event gives one frame-time row exactly when it carries both `frameId` and `timestampSof` |
| EventRouting.LogRows | src/core/segment_importer.py:707-723 | a log or error-log event gives one log row, of its kind and at its time, unless the text cannot be handled |
| EventRouting.EventRows | src/core/segment_importer.py:638-750 | a listed message type gives only samples; otherwise `can` gives frames and decoded samples, the log types log rows, the index streams frame times, and anything else nothing |
| EventRouting.EventRowsBelong | src/core/segment_importer.py:638-750 | every row an event gives belongs to the imported segment and samples carry the event time |
| EventRouting.SegmentRowsBelong | src/core/segment_importer.py:624-750 | every row of a segment's events belongs to that segment |
| Batching.Buffer | src/core/segment_importer.py:753-781 | every buffered row reaches exactly one insert, in order; no insert is empty and every insert but the last holds at least the threshold; each insert is whole consecutive events, and the rows before its last event number fewer than the threshold |
| Batching.FlushAtEnd | src/core/segment_importer.py:782-784 | the frame-time buffer is written in at most one insert after the loop, holding every row in order |
| ImportFlow.StoredStart | src/core/segment_importer.py:472-473 | the stored route start is the route row's `start_timestamp`, and absent for an unknown route |
| ImportFlow.TimeSpan | src/core/segment_importer.py:521-522 | the segment's start and end are the first and last event's `logMonoTime`, both 0 for an empty log |
| ImportFlow.DbcFileName | src/core/segment_importer.py:531 | the `dbc_file` column is the DBC path's file name, and absent exactly when no DBC path is given |
| ImportFlow.Stage | src/core/segment_importer.py:532-575 | after the route and segment inserts the route carries the resolved time, keeps a stored start unless a new one is persisted, and the segment row is present |
| ImportFlow.CerealTypes | src/core/segment_importer.py:603-613 | the message types read are exactly those of the stored Cereal definitions, and empty exactly when there is none |
| ImportFlow.AppendRows | src/core/segment_importer.py:753-784 | the batches append the segment's rows to the four child tables in order |
| ImportFlow.SampleRangeExact | src/core/segment_importer.py:836-843 | the MIN/MAX query yields a range exactly when the segment has samples, and it bounds every sample time and is attained |
| ImportFlow.SetRange | src/core/segment_importer.py:844-851 | only the rows of the segment get the new start and end; everything else in every row is kept |
| ImportFlow.UpdateTimeRange | src/core/segment_importer.py:836-855 | the segment's start and end become its sample range when both extremes are non-zero; otherwise, or without samples, the database is unchanged |
| ImportFlow.Load | src/core/segment_importer.py:624-855 | loading keeps the routes and segment ids, appends exactly the event rows and never drops a definition |
| ImportFlow.ImportEvents | src/core/segment_importer.py:532-870 | the import succeeds exactly when Cereal definitions exist; in every case the route row carries the resolved time and start |
| ImportFlow.Import | src/core/segment_importer.py:378-873 | without the schema, with a path that does not parse or an unreadable rlog the database is untouched and the result is false; otherwise the result is whether definitions exist |
| ImportFlow.KeyedRowUnique | src/core/sqlite_manager.py:602-612 | with (route, number) unique, the row found by that key is the row inserted |
| ImportFlow.ImportedRow | src/core/sqlite_manager.py:566-654 | the stored segment row carries the log's own GPS fix after an import |
| ImportFlow.DisplayMatchesResolve | src/core/sqlite_manager.py:711-724 | the segment list's displayed time agrees with the importer's tier chain whenever a GPS source or a scan is available |
| ImportFlow.ImportDisplaysResolvedTime | src/core/sqlite_manager.py:673-746 | after an import, the segment list shows the time the importer resolved |
| ImportFlow.FirstFixPersistsStart | src/core/segment_importer.py:477-486 | the first import of a route with a fix persists the fix less the segment's offset as the route start |
| ImportFlow.NoFixUsesStoredStart | src/core/segment_importer.py:488-495 | a segment without a fix takes the stored route start plus 60 s per segment and leaves the start alone |
| ImportFlow.NoFixUsesScan | src/core/segment_importer.py:496-507 | a first segment without a fix takes the scanned route start plus its offset and persists that start |
| ImportFlow.OrderIndependence | src/core/segment_importer.py:472-507 | a segment without a fix gets the same time and stored start whether or not a segment with a consistent fix was imported before it |
| ImportFlow.StageLeavesSegmentEmpty | src/core/sqlite_manager.py:609-618 | after the segment insert the segment has no child rows, whether it was new or re-imported |
| ImportFlow.AppendedRowsExact | src/core/segment_importer.py:753-784 | a segment that had no rows afterwards has exactly the appended ones |
| ImportFlow.AppendKeepsLinked | src/core/segment_importer.py:753-784 | appending rows of a known segment keeps every child row pointing at a known segment |
| ImportFlow.LoadRowsExact | src/core/segment_importer.py:624-784 | after loading, the segment's rows in each table are exactly those its events produce |
| ImportFlow.ImportEventsRowsExact | src/core/segment_importer.py:378-873 | an import with definitions succeeds, and leaves exactly the rows of the segment's events under its id in each child table, on a first import and a re-import alike |
| Store.ReinsertSegment | src/core/sqlite_manager.py:603-636 | re-importing stored row i returns its id and keeps the invariant; the row then carries the new attributes, only its route's segment total is recounted, samples of other segments stay and cereal definitions are untouched |
| Store.FirstInsertSegment | src/core/sqlite_manager.py:637-652 | a first import returns the next id and keeps the invariant; the new row carries the attributes, only its route's segment total is recounted, and every stored sample and cereal definition stays |
| Store.EmptyValid | src/core/sqlite_manager.py:225-250 | a fresh store keeps the row-id and uniqueness invariant |
| Store.Coalesce | src/core/sqlite_manager.py:416-418 | `COALESCE(new, old)` keeps the old value exactly when no new one is given |
| Store.InsertRoute | src/core/sqlite_manager.py:411-420 | a new route is inserted as given; an existing one keeps each stored column for which no new value is given; no other route and no other table changes |
| Store.StartKeptWithoutNewValue | src/core/sqlite_manager.py:417 | a route's stored start survives every later insert that passes no start |
| Store.FindSegment | src/core/sqlite_manager.py:597-601 | the first row with the route and a non-null number; none when the number is null or no row matches |
| Store.SegmentIdsOf | src/core/sqlite_manager.py:511-512 | exactly the ids of the route's segment rows |
| Store.ClearChildren | src/core/sqlite_manager.py:615-618 | no sample, CAN, log or frame-time row of the cleared ids remains, every other row of each of the four child tables remains, no row is added, and the parent tables are untouched |
| Store.RecountSegments | src/core/sqlite_manager.py:655-662 | the route's `total_segments` becomes its number of segment rows; a missing route is left alone |
| Store.SegmentNumberArg | src/core/sqlite_manager.py:592-593 | `segment_number` is used when given, else the `segment_num` alias |
| Store.ReplaceSegment | src/core/sqlite_manager.py:603-636 | a re-imported row keeps its id and takes the new attributes; its rows in the four child tables are gone, every other row of each child table stays, no row is added, and the invariant holds |
| Store.AppendSegment | src/core/sqlite_manager.py:637-652 | a first import appends one row under the next id, which no stored row has |
| Store.InsertSegment | src/core/sqlite_manager.py:566-672 | after the call the store holds a row with the returned id, the route, the number and the new attributes; the invariant holds; no route is added; every sample of another segment survives |
| Store.InsertSegmentReuses | src/core/sqlite_manager.py:603-612 | re-importing a stored (route, number) returns the stored id, adds no row and leaves none of that segment's child rows |
| Store.InsertSegmentAppends | src/core/sqlite_manager.py:637-652 | a first import appends exactly one row under a fresh id and touches no child table |
| Store.ReimportReusesSegment | src/core/sqlite_manager.py:596-652 | importing the same segment twice returns the same id, keeps the row count and drops the samples stored under it in between |
| Store.SameKeySameRow | src/core/sqlite_manager.py:597-601 | in a valid store a route and segment number identify at most one row |
| Store.DeleteRoute | src/core/sqlite_manager.py:507-564 | the route, its segments and their rows in the four child tables are gone; every other route, segment and row of each child table stays, no row is added, and the id counter and the definitions are untouched |
| Store.DeleteRouteValid | src/core/sqlite_manager.py:507-564 | deleting a route keeps the invariant |
| StoreQueries.NullsThenSortedSound | src/core/sqlite_manager.py:687-701 | every row listed, NULL numbers first and then sorted numbers, is a stored segment of the route |
| StoreQueries.NullsThenSortedComplete | src/core/sqlite_manager.py:687-701 | every stored segment of the route is listed |
| StoreQueries.DisplayStartOf | src/core/sqlite_manager.py:710-729 | a segment is shown from its own fix, else from a truthy route start plus 60 s per segment, else from its monotonic start plus the wall-time offset; the route branch with a NULL number raises |
| StoreQueries.RouteSegmentsOrdered | src/core/sqlite_manager.py:687-701 | the query lists as many rows as the route has segments |
| StoreQueries.RouteSegmentsOrderedExact | src/core/sqlite_manager.py:687-701 | `ORDER BY segment_number` lists exactly the route's segments, NULL numbers first and then ascending numbers |
| StoreQueries.NullsThenSortedAscending | src/core/sqlite_manager.py:700 | NULL numbers followed by ascending numbers is in `ORDER BY` order |
| StoreQueries.SegmentsWithTime | src/core/sqlite_manager.py:673-741 | one entry per segment of the route, in query order, with the row's id, number and display start; it raises exactly when some row's start cannot be computed |
| StoreQueries.DisplayAll | src/core/sqlite_manager.py:707-739 | one entry per row in order, and an exception exactly when some row raises |
| StoreQueries.StoredSeries | src/core/sqlite_manager.py:866-878 | the stored samples of the name, segment and closed time window, ordered by time, each exactly once |
| StoreQueries.SeriesMap | src/core/sqlite_manager.py:843-891 | every requested name gets a list and no other name does |
| StoreQueries.GetTimeseriesData | src/core/sqlite_manager.py:838-891 | a single name gets its list back, a list of names a map with exactly those names, each holding the stored or computed series |
| StoreQueries.StoredSeriesExact | src/core/sqlite_manager.py:866-878 | a stored signal's series is ordered by time and holds the point of every stored sample in the window and nothing else |
| StoreQueries.StoredSeriesComplete | src/core/sqlite_manager.py:866-878 | every stored sample of the name in the window appears in the series |
| StoreQueries.StoredSeriesInWindow | src/core/sqlite_manager.py:869-872 | every point of a stored series lies within the window, bounds included |
| AutoRegister.SampleNames | src/core/sqlite_manager.py:1311-1324 | the names of exactly the stored samples, of the given segment when one is given |
| AutoRegister.Candidates | src/core/sqlite_manager.py:1311-1326 | each name once: exactly the sample names with no cereal definition that are not `LIKE 'CAN_%'` |
| AutoRegister.MessageType | src/core/sqlite_manager.py:1337-1341 | the message type is the dot-free text before the first `.` |
| AutoRegister.SplitNameRoundTrip | src/core/sqlite_manager.py:1341-1342 | the message type, a dot and the signal name put back together give the full name |
| AutoRegister.DataType | src/core/sqlite_manager.py:1345-1353 | enum or counter words give Int32; otherwise `bool` or a flag word gives Bool; anything else Float32 |
| AutoRegister.UnitIsFirstRule | src/core/sqlite_manager.py:1356-1398 | the unit chain assigns the unit of the first of its fourteen rules the lower-cased name satisfies, and none when no rule matches |
| AutoRegister.RuleShape | src/core/sqlite_manager.py:1356-1398 | a unit rule matches when all its required words occur and, if it has alternatives, one of them does |
| AutoRegister.Infer | src/core/sqlite_manager.py:1337-1409 | a guessed definition splits the name at its first dot, takes the data type and the unit pair that the keyword rules give for the lower-cased full name, and leaves the Chinese name empty |
| AutoRegister.Register | src/core/sqlite_manager.py:1335-1413 | every dotted candidate gets the guessed definition by `INSERT OR REPLACE`; every other definition is kept |
| AutoRegister.AutoCreate | src/core/sqlite_manager.py:1297-1416 | only the definitions change, and the count is the number of dotted candidates |
| AutoRegister.AutoCreateDefs | src/core/sqlite_manager.py:1311-1413 | stored definitions are kept, every dotted candidate is defined, and a new definition is the guess for a dotted candidate |
| AutoRegister.AutoCreateIdempotent | src/core/sqlite_manager.py:1311-1416 | a second call right after the first creates nothing |
| Upsert.LastIndex | tools/import_signal_definitions_sqlite.py:741-749 | the last index with a key exists exactly when some entry has the key, and no later entry has it |
| Upsert.UpsertKeys | release/v1.0/tools/import_signal_definitions.py:305-320 | after the inserts the table's keys are the old keys and the entries' keys |
| Upsert.UpsertOnce | release/v1.0/tools/import_signal_definitions.py:305-320 | a key in exactly one entry holds that entry merged into the stored row, or the entry itself when new |
| Upsert.ReplaceLastWins | tools/import_signal_definitions_sqlite.py:741-749 | under `INSERT OR REPLACE` a key holds the row of its last entry |
| Upsert.ReplaceRows | tools/import_signal_definitions_sqlite.py:741-749 | under `INSERT OR REPLACE` every row is an untouched old row or the last entry of its key |
| ReleaseImport.TimeSpanBrackets | release/v1.0/tools/import_segment.py:151-153 | without events the span is (0, 0); for a log in time order the first/last logMonoTime bracket every event |
| ReleaseImport.Proceeds | release/v1.0/tools/import_segment.py:167-173 | a new segment is always imported; an existing one only on an answer equal to `yes` in any letter case |
| ReleaseImport.MessageRowsSound | release/v1.0/tools/import_segment.py:219-236 | every sample row of a message is a listed field's, stamped with the event time and carrying that field's numeric value |
| ReleaseImport.MessageRowsComplete | release/v1.0/tools/import_segment.py:219-236 | every listed field with a numeric value gets its row |
| ReleaseImport.ProcessEvent | release/v1.0/tools/import_segment.py:217-270 | an event is skipped iff its payload cannot be read as its type; only `can` events give raw rows and only carState/controlsState give samples |
| ReleaseImport.ProcessEventExact | release/v1.0/tools/import_segment.py:205-236 | a row named `which.f` exists iff `f` is in the type's field list and numeric in the message |
| ReleaseImport.ProcessEventKnown | release/v1.0/tools/import_segment.py:205-236 | every sample name is `carState.f` / `controlsState.f` with `f` from the matching field list |
| ReleaseImport.TypesExact | release/v1.0/tools/import_segment.py:222-240 | `signal_types` equals the set of names of all sample rows written, for any loop body |
| ReleaseImport.SkippedEventAddsNothing | release/v1.0/tools/import_segment.py:268-270 | an event that raises adds no row and no name and is counted as not processed |
| ReleaseImport.SkippedCount | release/v1.0/tools/import_segment.py:217-270 | the skipped events are exactly the events the loop body rejects |
| ReleaseImport.ImportLoopTypes | release/v1.0/tools/import_segment.py:205-270 | signal_types is the set of written names, all of them known names, and processed + skipped equals the event count |
| ReleaseImport.ImportRows | release/v1.0/tools/import_segment.py:197-277 | every row reaches exactly one insert in order, every insert but the last holds at least 5000 rows, each insert is whole consecutive events written once it reaches 5000, processed + unreadable = event count |
| ReleaseImport.CatalogUpdates | release/v1.0/tools/import_segment.py:297-311 | only collected names are updated |
| ReleaseImport.CatalogUpdateExact | release/v1.0/tools/import_segment.py:297-311 | a collected `which.f` is updated iff its description is truthy, with type `which` and that description |
| ReleaseImport.CatalogDescribed | release/v1.0/tools/import_segment.py:293-311 | a collected name is updated only when its struct is loaded with a non-empty comment for the field, and always then when the table phrases are non-empty |
| ReleaseImport.ImportLoopCounts | release/v1.0/tools/import_segment.py:217-270 | after the loop the names collected are those of the written rows, and the processed events plus the unreadable ones are all the events |
| ReleaseImport.SignalNameInjective | release/v1.0/tools/import_segment.py:228-238 | two fields of one message type never share a signal name |
| ReleaseImport.FrameRows | release/v1.0/tools/import_segment.py:243-251 | one CAN row per frame, in frame order, with the event time, address, payload and bus |
| SqliteImport.MinTime | tools/import_segment_sqlite.py:101-112 | the start is a logMonoTime of some event and no event is earlier |
| SqliteImport.MaxTime | tools/import_segment_sqlite.py:101-112 | the end is a logMonoTime of some event and no event is later |
| SqliteImport.InitDataIndex | tools/import_segment_sqlite.py:29-36 | the first `initData` event anywhere in the log; None iff the log has none |
| SqliteImport.SignalDefOfName | tools/import_segment_sqlite.py:205-226 | `name.split('.')[1]` of `type.field` with dot-free parts gives back `(type, field)` |
| SqliteImport.SignalRowsSome | tools/import_segment_sqlite.py:187-223 | a sampled message yields rows iff every listed signal has a value; otherwise the event raises |
| SqliteImport.SignalRowsInOrder | tools/import_segment_sqlite.py:187-223 | one row per listed signal, in list order, stamped with the event time and carrying the signal's value |
| SqliteImport.SignalRowsDefs | tools/import_segment_sqlite.py:203-223 | the definitions marked by a message are exactly the (type, field) pairs of its list |
| SqliteImport.FrameRows | tools/import_segment_sqlite.py:226-229 | one CAN row per frame, in frame order, with the event time, address and payload |
| SqliteImport.Process | tools/import_segment_sqlite.py:181-239 | only `can` events give CAN rows, only log events give log rows, and other message types give nothing |
| SqliteImport.ListedShape | tools/import_segment_sqlite.py:187-218 | the two signal lists are dot-free and no other message type is sampled |
| SqliteImport.ProcessDefs | tools/import_segment_sqlite.py:187-223 | a sampled message raises iff some listed signal has no value, and otherwise marks exactly its type's list |
| SqliteImport.RunFails | tools/import_segment_sqlite.py:181-303 | the loop completes iff no event raises |
| SqliteImport.RunDefs | tools/import_segment_sqlite.py:178-277 | after the loop `(w, f)` is a definition iff some event has type `w` and `f` is in its list, for any loop body that marks its lists |
| SqliteImport.Replaced | tools/import_segment_sqlite.py:135-142 | the deleted segment is the first stored one with the imported number; none iff no stored segment has it |
| SqliteImport.Import | tools/import_segment_sqlite.py:49-160 | a missing rlog fails as missing and an unparsable directory as a bad name; success needs an existing rlog, a parsable directory and an initData event, takes the route and number from the directory, replaces the first stored segment with that number, has the start at most the end and the wall offset wallTimeNanos minus the start |
| SqliteImport.ImportComplete | tools/import_segment_sqlite.py:101-277 | a completed import counts every event, its span contains every event and its definitions are exactly the listed signals of the message types present |
| SqliteImport.ImportAborts | tools/import_segment_sqlite.py:181-303 | past the path and initData checks the import fails iff some event raises |
| SqliteImport.Flush | tools/import_segment_sqlite.py:241-270 | each of the three buffers writes every row exactly once, in order, in inserts of at least 5000 rows except the last, each insert whole consecutive events written once it reaches 5000 |
| SqliteImport.SampledRowsDefs | tools/import_segment_sqlite.py:187-226 | a sampled message yields rows iff every listed field has a value, and then marks exactly its (type, field) pairs |
| SqliteImport.ProcessMarksListed | tools/import_segment_sqlite.py:187-227 | the loop body marks, for a sampled message, exactly the listed fields of its type |
| SegmentScan.ParseDirName | src/ui/dialogs/segment_selector_dialog.py:263-272 | a directory name is refused iff it does not have three `--` parts or its segment number is not an integer; whenever the importer's parser accepts it, both read the same route id and number |
| SegmentScan.ParseDirNameRoundTrip | src/ui/dialogs/segment_selector_dialog.py:263-275 | a name formatted from dash-free parts parses back to them, whatever the hex part holds |
| SegmentScan.DbTime | src/ui/dialogs/segment_selector_dialog.py:304-312 | the database gives no time without a row, and a time it gives is truthy or is the route timestamp plus one minute per segment |
| SegmentScan.RlogWallTime | src/ui/dialogs/segment_selector_dialog.py:338-353 | the wall time is none iff no initData with a positive wall clock is among the first 100 events, else the first such initData's own wall clock in seconds |
| SegmentScan.PriorityChain | src/ui/dialogs/segment_selector_dialog.py:290-363 | the time shown is the first truthy one of the stored GPS time, the route start plus one minute per segment, the first fix, the wall clock and the hex stamp |
| SegmentScan.DecideChain | src/ui/dialogs/segment_selector_dialog.py:317-363 | once the database time is falsy, the rlog's fix, its wall clock and the hex stamp are tried in that order |
| SegmentScan.ParseSegment | src/ui/dialogs/segment_selector_dialog.py:259-288 | a segment entry exists iff its directory name parses, and carries that path, name and number |
| SegmentScan.ScanSound | src/ui/dialogs/segment_selector_dialog.py:113-137 | every scanned entry is for a path found: the cache's record for a cached path, otherwise that path's parse |
| SegmentScan.ScanComplete | src/ui/dialogs/segment_selector_dialog.py:119-137 | every path found that is cached or parses yields an entry |
| SegmentScan.ScanReusesCache | src/ui/dialogs/segment_selector_dialog.py:123-130 | cached paths are never parsed: the scan depends on the parser only at new paths |
| SegmentScan.RescanOfCache | src/ui/dialogs/segment_selector_dialog.py:113-137 | finding exactly the cached paths, each once, yields the cached records in order |
| SegmentScan.UnchangedNotSaved | src/ui/dialogs/segment_selector_dialog.py:142-145 | an unchanged directory is not written back, and its records would be written unchanged |
| SegmentScan.AcceptSelection | src/ui/dialogs/segment_selector_dialog.py:679-683 | the dialog stays open iff no row is selected |
| SegmentScan.AcceptedPaths | src/ui/dialogs/segment_selector_dialog.py:685-689 | the selection holds exactly the paths of the selected rows that have one, at most one per distinct row |
| SegmentScan.ScanCachedHead | src/ui/dialogs/segment_selector_dialog.py:123-127 | a found path that is cached yields the cached record without parsing |
| SegmentScan.RescanSuffix | src/ui/dialogs/segment_selector_dialog.py:113-137 | rescanning paths that are exactly the tail of a cache with distinct paths gives back the cached records in order |
| SegmentScan.LookupFinds | src/ui/dialogs/segment_selector_dialog.py:123-125 | the cache lookup finds a record iff the path is cached |
| SegmentScan.PathsOfRowsExact | src/ui/dialogs/segment_selector_dialog.py:685-689 | a path is accepted iff some selected row has that path cell |
| ReleaseSegmentScan.RouteTimeAsWritten | release/v1.0/src/ui/dialogs/segment_selector_dialog.py:152-166 | as written, the database branch gives a time iff the route timestamp is truthy, and that time is the timestamp plus one minute per segment |
| ReleaseSegmentScan.RouteTime | release/v1.0/src/ui/dialogs/segment_selector_dialog.py:163-166 | the corrected database branch gives the route timestamp itself iff it is truthy |
| ReleaseSegmentScan.BackDatedFix | release/v1.0/src/ui/dialogs/segment_selector_dialog.py:177-189 | the rlog branch gives a time iff some event has a fix, and that time plus one minute per segment is the first fix |
| ReleaseSegmentScan.GpsColumn | release/v1.0/src/ui/dialogs/segment_selector_dialog.py:429-442 | the GPS column shows a time iff `gps_time` is truthy |
| ReleaseSegmentScan.WallColumn | release/v1.0/src/ui/dialogs/segment_selector_dialog.py:449-461 | the wall column shows only a truthy wall time, and only when there is no truthy GPS time |
| ReleaseSegmentScan.DatabaseOffsetTwice | release/v1.0/src/ui/dialogs/segment_selector_dialog.py:163-166 | as written, a segment dated by the database shows its route timestamp plus two minutes per segment |
| ReleaseSegmentScan.DatabaseOffsetTwiceExample | release/v1.0/src/ui/dialogs/segment_selector_dialog.py:431-434 | segment 1 of a route stamped 1000 shows 1120 as written and 1060 once corrected |
| ReleaseSegmentScan.DatabaseStartShown | release/v1.0/src/ui/dialogs/segment_selector_dialog.py:431-434 | once corrected, a segment dated by the database shows its own start and no wall time |
| ReleaseSegmentScan.FixShown | release/v1.0/src/ui/dialogs/segment_selector_dialog.py:184-189 | a segment dated by its rlog shows its first GPS fix, in both versions of the database branch |
| ReleaseSegmentScan.ColumnsChain | release/v1.0/src/ui/dialogs/segment_selector_dialog.py:149-218 | the columns show the first truthy clue among route start, back-dated fix, wall clock and hex stamp, with the GPS column moved to the segment start; neither shows a time iff there is none |
| ReleaseSegmentScan.AgreesWithLaterVersion | release/v1.0/src/ui/dialogs/segment_selector_dialog.py:431-434 | once corrected, the GPS column shows what the later browser shows for a route known to the database |
| ReleaseSegmentScan.ParseSegment | release/v1.0/src/ui/dialogs/segment_selector_dialog.py:118-147 | a segment entry exists iff its directory name parses, and carries that path, name and number |
| ReleaseSegmentScan.ScanIsUncachedScan | release/v1.0/src/ui/dialogs/segment_selector_dialog.py:45-64 | the scan is the later version's scan with an empty cache |
| ReleaseSegmentScan.ScanCount | release/v1.0/src/ui/dialogs/segment_selector_dialog.py:51-59 | the count reported is the number of paths found that parse |
| RouteManager.RouteIdOf | src/core/segment_importer.py:101-125 | a path yields a route id iff the importer's path parser accepts it, and it is the parser's route id |
| RouteManager.RouteGroups | release/v1.0/src/ui/dialogs/route_manager_dialog.py:415-425 | the grouped routes have no repeats |
| RouteManager.RouteGroupsExact | release/v1.0/src/ui/dialogs/route_manager_dialog.py:415-425 | a route is grouped iff some selected path parses to it; unparsable paths are skipped |
| RouteManager.StoredDbc | release/v1.0/src/ui/dialogs/route_manager_dialog.py:431-434 | a known route's DBC is its stored name, the default only when the field is absent, and none when it is NULL |
| RouteManager.NewRoutes | release/v1.0/src/ui/dialogs/route_manager_dialog.py:428-438 | the new routes are exactly the grouped routes the routes table lacks |
| RouteManager.NewRouteDbc | release/v1.0/src/ui/dialogs/route_manager_dialog.py:440-490 | without new routes nothing is asked; with new routes the import aborts iff no DBC is available and the user declines, or the list is cancelled or left empty; a chosen DBC is the picked item |
| RouteManager.ResolveDbcPath | release/v1.0/src/ui/dialogs/route_manager_dialog.py:281-301 | a DBC path exists iff the name is non-empty and its file under data/dbc exists, and it ends with the name |
| RouteManager.DbcPathFor | release/v1.0/src/ui/dialogs/route_manager_dialog.py:535-546 | a DBC path is handed over only for a named DBC, and is that name resolved |
| RouteManager.ImportLoopRoutes | release/v1.0/src/ui/dialogs/route_manager_dialog.py:526-535 | the imported routes are exactly the routes of the selected paths that parse, whether their import succeeds or not |
| RouteManager.ImportLoopCount | release/v1.0/src/ui/dialogs/route_manager_dialog.py:526-551 | the success count is the number of selected paths that parse and whose import reports success |
| RouteManager.RouteToRefresh | release/v1.0/src/ui/dialogs/route_manager_dialog.py:570-587 | the route refreshed is the only imported route when there is one, else the previously selected route iff it was imported, and always an imported route |
| RouteManager.ImportSegments | release/v1.0/src/ui/dialogs/route_manager_dialog.py:402-587 | nothing happens without a selection; a completed import counts at most one success per path and refreshes an imported route |
| RouteManager.ImportProceeds | release/v1.0/src/ui/dialogs/route_manager_dialog.py:405-490 | the import goes ahead iff something was selected and either every parsed route is known or a DBC was picked or declined explicitly |
| RouteManager.ImportCompleted | release/v1.0/src/ui/dialogs/route_manager_dialog.py:526-587 | a completed import counts the paths that import with their route's DBC and refreshes a route of a selected path |
| RouteManager.SegmentButtons | release/v1.0/src/ui/dialogs/route_manager_dialog.py:379-389 | delete is enabled iff a cell is selected; load iff the selected cells lie in one row |
| RouteManager.ParsedIdsExact | release/v1.0/src/ui/dialogs/route_manager_dialog.py:415-425 | a route id is collected iff some selected path parses to it |
| SignalSelector.ParsePath | src/ui/signal_selector.py:257-289 | no tree level is empty and none contains a dot |
| SignalSelector.ParsePathExampleFlat | src/ui/signal_selector.py:261 | `carState.vEgo` becomes the levels `carState`, `vEgo` |
| SignalSelector.ParsePathExampleNested | src/ui/signal_selector.py:262 | `carState.cruiseState.enabled` becomes three levels |
| SignalSelector.ParsePathExampleIndexed | src/ui/signal_selector.py:263 | `carState.events[0].name` becomes `carState`, `events`, `[0]`, `name` |
| SignalSelector.ParsePathExampleDroppedBracket | src/ui/signal_selector.py:273-280 | a `[` right after a `]` opens no part, so `a[0][1]` gives `a`, `[0]`, `1]` |
| SignalSelector.ParsePathIsDotSplit | src/ui/signal_selector.py:269-289 | on a name without brackets the levels are the non-empty pieces between dots |
| SignalSelector.GroupByExact | src/ui/signal_selector.py:229-245 | a group exists exactly for the keys some name has, and holds exactly the names with that key, in order |
| SignalSelector.CategorizeExact | src/ui/signal_selector.py:229-245 | every CAN group is named by a `0x` address and every name with an address or a message type lands in its group |
| SignalSelector.CategorizeDrops | src/ui/signal_selector.py:231-245 | a name that is neither a `0x` CAN name nor dotted appears in no group |
| SignalSelector.ColorOf | src/ui/signal_selector.py:589-602 | a known signal keeps its colour and the state; a new one gets the palette colour at the running index, which advances by one |
| SignalSelector.ColorStable | src/ui/signal_selector.py:599-602 | asking twice for one signal gives the same colour and leaves the state as the first call left it |
| SignalSelector.ColorKeepsPalette | src/ui/signal_selector.py:600 | every colour handed out is a palette colour |
| SignalSelector.ColorAllKeeps | src/ui/signal_selector.py:599 | a colour once assigned never changes |
| SignalSelector.ColorAllFresh | src/ui/signal_selector.py:600-601 | distinct new signals get consecutive palette colours, round robin from the running index |
| SignalSelector.DistinctColors | src/ui/signal_selector.py:600-601 | with ten different palette colours, up to ten new signals all get different colours |
| SignalSelector.TenSignalsTenColors | src/ui/signal_selector.py:34-46 | with the widget's own ten colours, the first ten new signals get ten different colours |
| SignalSelector.TallyCounts | src/ui/signal_selector.py:742-754 | the checked (unchecked) count is zero exactly when no child signal with data is checked (unchecked) |
| SignalSelector.ParentState | src/ui/signal_selector.py:726-767 | a category is checked when all its signals with data are, partial when some are, and unchecked when none is or it has none |
| SignalSelector.MarkAllPointwise | src/ui/signal_selector.py:701-724 | checking a subtree marks every item on its own |
| SignalSelector.CheckAll | src/ui/signal_selector.py:701-724 | every direct signal with data takes the target state; every other child keeps its state and name; unchecking leaves the colours alone, and checking keeps every colour already assigned |
| SignalSelector.CheckAllColors | src/ui/signal_selector.py:701-724 | checking assigns the palette's next colours, round-robin, to the category's signals with data that have none yet, in tree order, so that afterwards every such signal has a colour; unchecking assigns none |
| SignalSelector.CheckAllItems | src/ui/signal_selector.py:693-724 | checking a category sets exactly its signals with data, at any depth, and changes nothing else |
| SignalSelector.CheckAllSelection | src/ui/signal_selector.py:709-722 | checking (unchecking) a category adds (removes) exactly its signals with data to (from) the selection |
| SignalSelector.CheckAllThenParent | src/ui/signal_selector.py:693-767 | after checking (unchecking) a category it reads checked (unchecked), or unchecked when it has no direct signal with data |
| SignalSelector.AnyMatchTrees | src/ui/signal_selector.py:800-823 | a forest has a match exactly when one of its trees has one at its root or below |
| SignalSelector.SearchExact | src/ui/signal_selector.py:797-823 | a search shows an item exactly when it or something below it matches, and expands a category exactly when something below it matches |
| SignalSelector.ShowAllVisible | src/ui/signal_selector.py:785-795 | after clearing the search every item is shown and no category stays expanded |
| FormulaNames.DottedMatch | src/core/signal_calculator.py:82 | a match of the dotted alternative is a whole word of identifier characters and dots holding a dot |
| FormulaNames.CanMatch | src/core/signal_calculator.py:82 | a match of the CAN alternative is a whole word starting with `CAN_0x` |
| FormulaNames.MatchAt | src/core/signal_calculator.py:82 | a match at a position is a whole dotted or `CAN_0x` name starting there |
| FormulaNames.Spans | src/core/signal_calculator.py:83 | the matches found are names, each the match at its start, in order and without overlap |
| FormulaNames.Scan | src/core/signal_calculator.py:83 | the scan reports matches found at their starts, in order and without overlap |
| FormulaNames.ScanComplete | src/core/signal_calculator.py:83 | the scan misses no match: a position where a match starts is a reported span with that match's end, or lies inside an earlier span |
| FormulaNames.FindAll | src/core/signal_calculator.py:82-83 | every string `re.findall` returns is a dotted or `CAN_0x` name occurring in the formula |
| FormulaNames.FindAllComplete | src/core/signal_calculator.py:82-83 | every match whose start no earlier match covers has its text in the result |
| SignalCalculator.InsertRows | src/core/signal_calculator.py:125-130 | merging a dependency's times into the sorted union keeps it strictly increasing and holds exactly the old times and the dependency's |
| SignalCalculator.Load | src/core/signal_calculator.py:28-45 | a name is custom exactly when some row names it, and the last row's formula is stored |
| SignalCalculator.LoadLastWins | src/core/signal_calculator.py:38-39 | a name's formula is that of the last row naming it |
| SignalCalculator.FormulaOf | src/core/signal_calculator.py:47-69 | a formula is returned exactly for a custom signal, and it is the stored one |
| SignalCalculator.Dependencies | src/core/signal_calculator.py:71-84 | the dependencies are the distinct names the pattern finds, each once |
| SignalCalculator.Lookup | src/core/signal_calculator.py:115 | a value exists at an instant exactly when some row has that instant, and it is the value of the last row at that instant, as building the dictionary keeps it |
| SignalCalculator.Insert | src/core/signal_calculator.py:122-126 | adding an instant to the sorted instants keeps them strictly increasing and adds exactly it |
| SignalCalculator.AllTimes | src/core/signal_calculator.py:122-126 | the sorted union holds exactly the instants some dependency has, strictly increasing |
| SignalCalculator.Points | src/core/signal_calculator.py:128-153 | each point is at one of the instants, where every dependency has a value and the formula gives the point's value, in increasing time |
| SignalCalculator.PointsComplete | src/core/signal_calculator.py:128-153 | every instant where all dependencies have a value and the formula evaluates gives a point |
| SignalCalculator.AlignedEmpty | src/core/signal_calculator.py:106-119 | no dependencies, or one without samples, gives no points |
| SignalCalculator.CalculateEmpty | src/core/signal_calculator.py:100-103 | a name that is not custom, or has an empty formula, gives no points |
| SignalCalculator.AlignedExact | src/core/signal_calculator.py:105-156 | the points are at exactly the instants where every dependency has a sample and the formula evaluates, increasing, each computed from the values at its instant |
| SignalCalculator.CalculateAligned | src/core/signal_calculator.py:100-156 | for a custom signal with a formula the result is the aligned computation over its dependencies |
| CustomSignalDialog.KnownOnce | release/v1.0/src/ui/dialogs/custom_signal_dialog.py:345-353 | the kept names are exactly the matches that are known signals, each once |
| CustomSignalDialog.ExtractSignalNames | release/v1.0/src/ui/dialogs/custom_signal_dialog.py:339-353 | the names returned are exactly the known signals the dialog's pattern finds in the formula, each once |
| CustomSignalDialog.Optional | release/v1.0/src/ui/dialogs/custom_signal_dialog.py:456-458 | an optional field is stored as NULL exactly when it is blank, and otherwise stripped |
| CustomSignalDialog.NewRow | release/v1.0/src/ui/dialogs/custom_signal_dialog.py:452-458 | the inserted row carries the stripped name and formula, and each optional column is NULL exactly when its field is blank |
| CustomSignalDialog.SaveChecks | release/v1.0/src/ui/dialogs/custom_signal_dialog.py:410-450 | each refusal happens exactly under its own condition, in the dialog's order, and leaves the table unchanged |
| CustomSignalDialog.SaveStores | release/v1.0/src/ui/dialogs/custom_signal_dialog.py:410-461 | a row is stored exactly for a valid new name with a formula that names a known signal or is confirmed, and nothing else changes |
| CustomSignalDialog.SaveForm | release/v1.0/src/ui/dialogs/custom_signal_dialog.py:400-461 | from the dialog's fields, a valid new name with a usable formula is saved with the row built from the stripped fields |
| CustomSignalDialog.FirstValues | release/v1.0/src/ui/dialogs/custom_signal_dialog.py:296-319 | the values exist exactly when every name has a stored sample, one per name, its first; otherwise a name without one is reported |
| CustomSignalDialog.TestNames | release/v1.0/src/ui/dialogs/custom_signal_dialog.py:286-326 | once a formula and a segment are present, the trial reports no signals exactly when none is mentioned |
| CustomSignalDialog.TestFormulaChecks | release/v1.0/src/ui/dialogs/custom_signal_dialog.py:266-293 | a trial stops for an empty formula, then for no segment, then when no known signal is mentioned, each exactly under its condition |
| CustomSignalDialog.TestNamesOutcome | release/v1.0/src/ui/dialogs/custom_signal_dialog.py:294-336 | a trial stops at a signal with no sample when there is one; otherwise it evaluates the formula on each signal's first sample and reports the result or the failure |
| DbcParser.TranslationsWellFormed | release/v1.0/src/core/dbc_parser.py:17-59 | no key and no value of the word table is empty |
| DbcParser.LookupExact | release/v1.0/src/core/dbc_parser.py:97-98 | an exact-match value exists exactly when some entry's key is the text, and it is that entry's value |
| DbcParser.Translate | release/v1.0/src/core/dbc_parser.py:83-106 | an empty text comes back empty and a text that is a key gets that key's value |
| DbcParser.ReplaceFoundNone | release/v1.0/src/core/dbc_parser.py:102-104 | entries whose key is not in the original text change nothing |
| DbcParser.TranslateUnmatched | release/v1.0/src/core/dbc_parser.py:96-106 | a text that is not a key and holds no key comes back unchanged |
| DbcParser.ReplaceFoundIsFiltered | release/v1.0/src/core/dbc_parser.py:101-104 | the partial match is the in-order replacement by exactly the entries whose key occurs in the original text |
| DbcParser.TranslateNonEmpty | release/v1.0/src/core/dbc_parser.py:83-106 | with non-empty values, a translation is empty exactly when the text is |
| DbcParser.Cn | release/v1.0/src/core/dbc_parser.py:83-106 | with the parser's own table, a translation is empty exactly when the text is |
| DbcParser.MessageById | release/v1.0/src/core/dbc_parser.py:108-113 | no message is found exactly when none has the id, and a found one has it |
| DbcParser.DecodeMessage | release/v1.0/src/core/dbc_parser.py:115-135 | an unknown id decodes to nothing, and a known one to what the decoder gives its message |
| DbcParser.SignalByName | release/v1.0/src/core/dbc_parser.py:149 | no signal is found exactly when none has the name, and a found one has it |
| DbcParser.SignalInfoOf | release/v1.0/src/core/dbc_parser.py:137-173 | information exists exactly for a known message and signal; it carries the name, its translation, and a translated unit and description exactly when those are present |
| DbcParser.MessageSummary | release/v1.0/src/core/dbc_parser.py:183-202 | a message's dictionary has its id, name and one entry per signal in order, and its `id_hex` reads back as the id |
| DbcParser.Summaries | release/v1.0/src/core/dbc_parser.py:196-203 | one signal entry per signal, in order |
| DbcParser.AllMessages | release/v1.0/src/core/dbc_parser.py:175-207 | one dictionary per message, in database order |
| DbcParser.DescriptionHead | release/v1.0/src/core/dbc_parser.py:219-228 | an unknown id is described as unknown; an untranslated name stands alone; otherwise the translation precedes the name |
| DbcParser.IdSuffixReadsBack | release/v1.0/src/core/dbc_parser.py:221-228 | whatever the head, the description keeps it in front and its three-digit hexadecimal id part reads back as the id |
| DbcParser.MessageDescriptionReadsBack | release/v1.0/src/core/dbc_parser.py:209-228 | every description starts with its head and ends with the id in hexadecimal, which reads back as the id |
| DbcManager.Init | release/v1.0/src/utils/dbc_manager.py:20-29 | a new manager has no parsers and `vw_mqb.dbc` as its default |
| DbcManager.JoinPath | release/v1.0/src/utils/dbc_manager.py:49 | the joined path ends with the name and starts with a non-empty directory |
| DbcManager.Resolve | release/v1.0/src/utils/dbc_manager.py:46-49 | an absolute name is its own path; any other is joined to the manager's directory |
| DbcManager.LoadCached | release/v1.0/src/utils/dbc_manager.py:42-44 | a cached name returns its parser and changes nothing, whatever the file system says |
| DbcManager.LoadFailure | release/v1.0/src/utils/dbc_manager.py:51-57 | a failed load leaves the cache as it was, and reports the resolved path as missing exactly when the file does not exist |
| DbcManager.LoadThenCached | release/v1.0/src/utils/dbc_manager.py:51-60 | a new name is cached under the name as given, with the parser of its resolved path, no other entry changes, and a second load returns the same parser |
| DbcManager.GetParser | release/v1.0/src/utils/dbc_manager.py:62-75 | without a name the default file is loaded |
| DbcManager.SetDefault | release/v1.0/src/utils/dbc_manager.py:77-80 | only the default file changes |
| DbcManager.ScanDirectory | release/v1.0/src/utils/dbc_manager.py:82-98 | the names found are exactly the listed ones ending in `.dbc`, in listing order, and none when the listing fails |
| DbcManager.LoadedFiles | release/v1.0/src/utils/dbc_manager.py:100-102 | the loaded files are exactly the cached names |
| DbcManager.Unload | release/v1.0/src/utils/dbc_manager.py:104-108 | exactly the name's entry is removed, and an unknown name changes nothing |
| DbcManager.ClearAll | release/v1.0/src/utils/dbc_manager.py:110-113 | the cache is emptied and nothing else changes |
| DbcManager.LoadUnload | release/v1.0/src/utils/dbc_manager.py:31-108 | unloading a name just loaded gives back the manager as it was |
| CapnpAnnotations.BalanceAppend | release/v1.0/src/utils/capnp_annotation_extractor.py:106-112 | the brace depth of two joined texts is the sum of their depths, so counting line by line equals counting the joined text |
| CapnpAnnotations.CloseFromFirst | release/v1.0/src/utils/capnp_annotation_extractor.py:107-115 | the character loop resumed at any index with the depth so far returns the first position where a `}` brings a started count to zero, and nothing when there is none |
| CapnpAnnotations.FirstCloseSpec | release/v1.0/src/utils/capnp_annotation_extractor.py:107-115 | on one line, the loop stops at the first closing `}` and finds none exactly when no position closes |
| CapnpAnnotations.NoCloseWithoutBrace | release/v1.0/src/utils/capnp_annotation_extractor.py:111-115 | a line without `}` never ends the struct |
| CapnpAnnotations.EndFromFirst | release/v1.0/src/utils/capnp_annotation_extractor.py:103-118 | the line loop resumed at any line returns the first line on which the counted text from the header closes, or none when no line does |
| CapnpAnnotations.StructEnd | release/v1.0/src/utils/capnp_annotation_extractor.py:98-122 | `struct_end` is the first line from the header on that closes the struct, and is missing exactly when no line closes it |
| CapnpAnnotations.SpanWhileExact | release/v1.0/src/utils/capnp_annotation_extractor.py:153 | a greedy class run over a prefix of matching characters followed by a non-matching one has exactly the prefix's length |
| CapnpAnnotations.SkipSpaces | release/v1.0/src/utils/capnp_annotation_extractor.py:153 | the pattern's `\s*` consumes exactly the leading whitespace and leaves a rest starting with a non-space |
| CapnpAnnotations.SkipSpacesSuffix | release/v1.0/src/utils/capnp_annotation_extractor.py:153 | what is left after the whitespace is a suffix of the text |
| CapnpAnnotations.TrailingComment | release/v1.0/src/utils/capnp_annotation_extractor.py:153-165 | after the `;`, only spaces give an empty comment, anything but `#` after the spaces is no match, and a comment is always stripped |
| CapnpAnnotations.TypeAndComment | release/v1.0/src/utils/capnp_annotation_extractor.py:153 | `[^;]+;` needs a non-empty type and a `;`, and the comment returned is stripped |
| CapnpAnnotations.NumberAndRest | release/v1.0/src/utils/capnp_annotation_extractor.py:153 | `@\d+` needs a leading digit, and the comment returned is stripped |
| CapnpAnnotations.FieldLine | release/v1.0/src/utils/capnp_annotation_extractor.py:153-165 | a matched field line gives a non-empty word-character name taken from the start of the line and a stripped comment |
| CapnpAnnotations.TrailingCommentRoundTrip | release/v1.0/src/utils/capnp_annotation_extractor.py:153-165 | a stripped comment written after `;` as `  # comment` reads back as itself, and an empty one as `""` |
| CapnpAnnotations.TypeAndCommentRoundTrip | release/v1.0/src/utils/capnp_annotation_extractor.py:153 | a `;`-free type followed by `;` hands exactly the text after the `;` to the comment reader |
| CapnpAnnotations.NumberAndRestRoundTrip | release/v1.0/src/utils/capnp_annotation_extractor.py:153 | an ordinal of digits followed by ` :` hands the rest to the type reader |
| CapnpAnnotations.FieldLineSplit | release/v1.0/src/utils/capnp_annotation_extractor.py:153-157 | a word name followed by ` @` matches exactly when the ordinal, type and comment do, with that name |
| CapnpAnnotations.FieldLineRoundTrip | release/v1.0/src/utils/capnp_annotation_extractor.py:153-165 | a field line written as `name @n :Type;  # comment` reads back as its name and comment |
| CapnpAnnotations.StepSound | release/v1.0/src/utils/capnp_annotation_extractor.py:128-165 | one line of the field loop adds or changes at most the field of that line, and only when it is a top-level field line |
| CapnpAnnotations.StepRecords | release/v1.0/src/utils/capnp_annotation_extractor.py:128-165 | at the top level, a line opening no block keeps the loop at the top level, keeps every field and records the line's field |
| CapnpAnnotations.StepWithSound | release/v1.0/src/utils/capnp_annotation_extractor.py:128-165 | the field loop's step adds only the field of its own line, for every state and line |
| CapnpAnnotations.StepWithRecords | release/v1.0/src/utils/capnp_annotation_extractor.py:128-165 | the field loop's step records every top-level field line that opens no block, for every state |
| CapnpAnnotations.FieldsSound | release/v1.0/src/utils/capnp_annotation_extractor.py:128-165 | every field the loop holds afterwards was held before or comes from a field line of the input, with that line's comment |
| CapnpAnnotations.FlatFieldsComplete | release/v1.0/src/utils/capnp_annotation_extractor.py:128-165 | with no line opening a nested block, every field line is recorded and nothing already held is lost |
| CapnpAnnotations.QuietStep | release/v1.0/src/utils/capnp_annotation_extractor.py:131-150 | inside a nested block, a blank, comment or brace-free line changes nothing |
| CapnpAnnotations.UnchangedLinesSkipped | release/v1.0/src/utils/capnp_annotation_extractor.py:128-165 | lines on which the step leaves the state alone can be dropped from the loop |
| CapnpAnnotations.OpenerStep | release/v1.0/src/utils/capnp_annotation_extractor.py:136-150 | a line naming struct, enum or union with one `{` and no `}` enters the nested block at depth 1 and keeps the fields |
| CapnpAnnotations.CloserStep | release/v1.0/src/utils/capnp_annotation_extractor.py:141-150 | a line holding only `}` at depth 1 leaves the nested block |
| CapnpAnnotations.NestedBlockSkipped | release/v1.0/src/utils/capnp_annotation_extractor.py:135-150 | a nested struct, enum or union with a quiet body contributes no field, and the loop resumes at the top level after its closing line |
| CapnpAnnotations.HeaderIndex | release/v1.0/src/utils/capnp_annotation_extractor.py:87-96 | the struct start is the first line matching `struct Name\s+`, and is missing exactly when no line matches |
| CapnpAnnotations.StructLines | release/v1.0/src/utils/capnp_annotation_extractor.py:87-122 | the struct's lines are its first header and the first line that closes it, missing when either is |
| CapnpAnnotations.ExtractStructFields | release/v1.0/src/utils/capnp_annotation_extractor.py:94-96 | a struct that is not found gives no fields |
| CapnpAnnotations.BodyFieldsSound | release/v1.0/src/utils/capnp_annotation_extractor.py:128-165 | every field read between two lines comes from a top-level field line strictly between them, with its comment |
| CapnpAnnotations.ExtractSound | release/v1.0/src/utils/capnp_annotation_extractor.py:70-172 | fields are extracted only when the struct and its end are found, and each comes from a top-level field line strictly inside the struct, carrying that line's comment |
| CapnpAnnotations.BodyFieldsCompleteFlat | release/v1.0/src/utils/capnp_annotation_extractor.py:128-165 | between two lines none of which opens a block, every field line's name is read |
| CapnpAnnotations.ExtractCompleteFlat | release/v1.0/src/utils/capnp_annotation_extractor.py:70-172 | in a found struct with no nested block, every field line inside it is extracted |
| CapnpAnnotations.TranslateWith | release/v1.0/src/utils/capnp_annotation_extractor.py:174-198 | an empty comment stays empty, and the result is either the comment itself or one of the table's phrases |
| CapnpAnnotations.TranslateExact | release/v1.0/src/utils/capnp_annotation_extractor.py:187-189 | a comment equal to a key translates to that key's phrase |
| CapnpAnnotations.TranslatePartial | release/v1.0/src/utils/capnp_annotation_extractor.py:191-196 | a comment equal to no key translates to the phrase of the first key, in table order, contained in it ignoring case |
| CapnpAnnotations.TranslateKept | release/v1.0/src/utils/capnp_annotation_extractor.py:191-198 | a comment neither equal to nor containing any key is returned unchanged |
| CapnpAnnotations.LoadAll | release/v1.0/src/utils/capnp_annotation_extractor.py:200-216 | each schema file present replaces its struct's entry with the fields extracted from it, and a missing file leaves the entry as it was |
| CapnpAnnotations.SignalType | release/v1.0/src/utils/capnp_annotation_extractor.py:264 | lowering the first letter keeps the name's length |
| CapnpAnnotations.SignalTypes | release/v1.0/src/utils/capnp_annotation_extractor.py:264 | the two loaded structs are keyed `carState` and `controlsState` |
| CapnpAnnotations.StructOfSignalType | release/v1.0/src/utils/capnp_annotation_extractor.py:231-237 | the type mapping of the single query inverts the bulk query's key derivation on every loadable struct |
| CapnpAnnotations.GetSignalDescription | release/v1.0/src/utils/capnp_annotation_extractor.py:218-248 | a description exists exactly for a mapped signal type of a loaded struct and a field with a non-empty comment, and without translation it is that comment |
| CapnpAnnotations.Describe | release/v1.0/src/utils/capnp_annotation_extractor.py:266-271 | every field is described, and an empty comment or an untranslated request keeps the comment |
| CapnpAnnotations.GetAllDescriptions | release/v1.0/src/utils/capnp_annotation_extractor.py:250-273 | there is an entry for exactly the loaded structs, under their signal types, with exactly their fields, and without translation they are the stored comments |
| CapnpAnnotations.DescriptionsAgree | release/v1.0/src/utils/capnp_annotation_extractor.py:218-273 | the single query answers exactly for fields with a comment, and then agrees with the bulk query |
| CapnpAnnotations.ExportToDict | release/v1.0/src/utils/capnp_annotation_extractor.py:275-294 | the export has the bulk query's structs and fields, with the stored comment as English and the translated description as Chinese |
| DefinitionImport.StoredTags | tools/import_signal_definitions_sqlite.py:287-320 | exactly the boolean and numeric slot types are inserted as signals |
| DefinitionImport.LowerKeepsDeg | tools/import_signal_definitions_sqlite.py:327-337 | `deg` in the name as written is `deg` in its lower-case form too |
| DefinitionImport.UnitOfDiffersOnlyOnDeg | tools/import_signal_definitions_sqlite.py:329-346 | the script's unit guess and the corrected one differ only for a name with `deg` in another case, which the corrected one gives degrees |
| DefinitionImport.AsWrittenNoUnit | tools/import_signal_definitions_sqlite.py:324-346 | a field with no speed, acceleration or torque word, no lower-case `deg` and not under a wheel gets no unit from the script |
| DefinitionImport.CorrectedAngle | tools/import_signal_definitions_sqlite.py:335-337 | an angle field with `deg` in any case and no earlier word gets degrees from the corrected guess |
| DefinitionImport.SteeringAngleAsWritten | tools/import_signal_definitions_sqlite.py:335 | the script gives `carState.steeringAngleDeg` no unit, since it looks for lower-case `deg` in `steeringAngleDeg` |
| DefinitionImport.SteeringAngleCorrected | tools/import_signal_definitions_sqlite.py:335-337 | the corrected guess gives `carState.steeringAngleDeg` degrees |
| DefinitionImport.SpeedIsMetresPerSecond | tools/import_signal_definitions_sqlite.py:329-343 | a speed field gets m/s whether or not it is under a wheel struct, unless an acceleration or degree rule comes first |
| DefinitionImport.WalkersAgree | tools/import_signal_definitions_sqlite.py:498-519 | the two walkers' guesses differ only where the schema walker's gas, brake and fuel rules apply |
| DefinitionImport.SignalNameIsTail | tools/import_signal_definitions_sqlite.py:348-356 | for a prefix under the message type, the signal name is the full name without the message type and its dot |
| DefinitionImport.GrowsTrans | tools/import_signal_definitions_sqlite.py:273-375 | two walk steps that each only add rows under the base make one that does |
| DefinitionImport.Definition | tools/import_signal_definitions_sqlite.py:320-366 | the inserted row belongs to the message type and carries the field's mapped type name |
| DefinitionImport.VisitField | tools/import_signal_definitions_sqlite.py:273-377 | one field step keeps the catalogue consistent, changes no stored row, and adds only rows of stored types under the field's base |
| DefinitionImport.WalkFields | tools/import_signal_definitions_sqlite.py:250-378 | a walk over a struct's fields keeps the catalogue consistent and adds only rows of stored types under its base |
| DefinitionImport.VisitFieldInserts | tools/import_signal_definitions_sqlite.py:273-377 | a field not yet imported, of a stored type, gets its definition under its full name |
| DefinitionImport.VisitFieldKeyed | tools/import_signal_definitions_sqlite.py:273-377 | a visited field of a stored type has a row under its full name |
| DefinitionImport.WalkFieldsCovers | tools/import_signal_definitions_sqlite.py:250-378 | after the loop every field of a stored type has a row under its full name |
| DefinitionImport.VisitFieldDefined | tools/import_signal_definitions_sqlite.py:273-377 | every row a field step adds is a visited field's definition under its full name |
| DefinitionImport.WalkFieldsDefined | tools/import_signal_definitions_sqlite.py:250-378 | every row the loop adds is a visited field's definition under its full name |
| DefinitionImport.ClassName | tools/import_signal_definitions_sqlite.py:595 | the class name is the type name with its first letter upper-cased |
| DefinitionImport.FrogPilotClassName | tools/import_signal_definitions_sqlite.py:609-610 | a `frogpilot` type's class name is `FrogPilot` followed by the rest of the name with its first letter upper-cased |
| DefinitionImport.ImportTypes | tools/import_signal_definitions_sqlite.py:586-654 | the loop over the event types keeps the catalogue consistent and adds only rows of stored types for listed, unskipped types, keyed under their type |
| DefinitionImport.ImportTypesCovers | tools/import_signal_definitions_sqlite.py:586-654 | every stored top-level field of every unskipped type that resolves to a class has a row under `type.field`, and every added row is a visited field's definition with its type's walker |
| DefinitionImport.ImportCereal | tools/import_signal_definitions_sqlite.py:557-657 | after dropping the old catalogue, the count is the number of rows, and each row is of a stored type, belongs to an unskipped listed type and is keyed under it |
| DefinitionImport.ImportCerealCovers | tools/import_signal_definitions_sqlite.py:557-657 | after the import every stored top-level field of every unskipped type that resolves to a class has its row, and every row is a visited field's definition |
| DefinitionImport.CanRow | tools/import_signal_definitions_sqlite.py:716-728 | the description is the translated comment, or the translated name without one, and a translated unit exists exactly when a unit does |
| DefinitionImport.InsertAllFacts | tools/import_signal_definitions_sqlite.py:739-763 | after the inserts every old key and every entry's key is present, and each row is an untouched old row or one of the entries |
| DefinitionImport.PairsComplete | tools/import_signal_definitions_sqlite.py:714-722 | every signal of every message is visited |
| DefinitionImport.SignalCountIsPairs | tools/import_signal_definitions_sqlite.py:714-763 | the number of inserts is the number of signals over all messages |
| DefinitionImport.PairEntries | tools/import_signal_definitions_sqlite.py:722-752 | one keyed row per visited signal, in order |
| DefinitionImport.InsertCovers | tools/import_signal_definitions_sqlite.py:714-763 | every signal's key is in the table afterwards |
| DefinitionImport.InsertSound | tools/import_signal_definitions_sqlite.py:714-763 | every new row of the file is the row of a signal with that key |
| DefinitionImport.ImportWith | tools/import_signal_definitions_sqlite.py:704-763 | other files' rows are kept, and the file's rows are exactly those of its signals |
| DefinitionImport.ImportCan | tools/import_signal_definitions_sqlite.py:659-768 | a DBC file that cannot be loaded imports nothing and leaves the table; otherwise the file's old rows are replaced by exactly one row per `CAN_0x%03X_<signal>` name of the database, other files' rows stay, and the count is the number of signals |
| ReleaseDefinitionImport.SkippedTypesRelease | release/v1.0/tools/import_signal_definitions.py:196 | the release script skips what the SQLite script skips except `errorLogMessage` |
| ReleaseDefinitionImport.NumericIsStoredNotBool | release/v1.0/tools/import_signal_definitions.py:242-295 | a field is numeric exactly when its type is an integer or floating-point one; `Bool` is not |
| ReleaseDefinitionImport.GeneratedDescription | release/v1.0/tools/import_signal_definitions.py:236 | the generated description starts with the message type and ends with the field name and the word for field |
| ReleaseDefinitionImport.CerealRow | release/v1.0/tools/import_signal_definitions.py:224-301 | the row has the field's Chinese name, a non-empty description (the Chinese name or the generated one), the table's unit and its Chinese name only with a unit, the type's category or `sensor`, and is numeric only for a readable non-boolean type |
| ReleaseDefinitionImport.ClassFields | release/v1.0/tools/import_signal_definitions.py:203-220 | a type's fields come from its class in the log module, else in the car module, and the type is skipped when neither has it |
| ReleaseDefinitionImport.Specs | release/v1.0/tools/import_signal_definitions.py:195-227 | every visited pair is a field of a listed, unskipped type whose class was found |
| ReleaseDefinitionImport.SpecsComplete | release/v1.0/tools/import_signal_definitions.py:195-227 | every field of every listed, unskipped type whose class was found is visited |
| ReleaseDefinitionImport.CerealEntries | release/v1.0/tools/import_signal_definitions.py:232-322 | one upsert per visited field, keyed by `msgType.field` |
| ReleaseDefinitionImport.ImportCereal | release/v1.0/tools/import_signal_definitions.py:167-183 | when the schema files cannot be loaded the catalogue is left empty and the count is 0 |
| ReleaseDefinitionImport.ImportCerealCovers | release/v1.0/tools/import_signal_definitions.py:155-336 | after the delete and the upserts, every visited field has its row, every row is a visited field's, and the count is the number of fields visited |
| ReleaseDefinitionImport.FieldKeyed | release/v1.0/tools/import_signal_definitions.py:227-232 | each field of an imported type has an upsert under its full name |
| ReleaseDefinitionImport.ImportSpecsRows | release/v1.0/tools/import_signal_definitions.py:304-322 | under each name the upserts leave the row of a visited field with that name, or the old row |
| ReleaseDefinitionImport.MessageFields | release/v1.0/tools/import_signal_definitions.py:339-397 | a type the hand-written table lists gets its fields, any other none |
| ReleaseDefinitionImport.CanRow | release/v1.0/tools/import_signal_definitions.py:420-466 | the row has the frame id and its `0x%03X` form, the translated name, the translated comment or name as description, a translated unit exactly with a unit, and the category `can_powertrain` |
| ReleaseDefinitionImport.MergeCn | release/v1.0/tools/import_signal_definitions.py:450-456 | a conflict refreshes exactly the four Chinese columns and keeps every other stored column |
| ReleaseDefinitionImport.MergeCnIdempotent | release/v1.0/tools/import_signal_definitions.py:450-456 | merging the same row again changes nothing |
| ReleaseDefinitionImport.KeyedRows | release/v1.0/tools/import_signal_definitions.py:429-466 | one upsert per signal keyed by `CAN_0x%03X_<signal>` |
| ReleaseDefinitionImport.CanEntries | release/v1.0/tools/import_signal_definitions.py:419-466 | the number of upserts is the number of signals over all messages |
| ReleaseDefinitionImport.ImportCan | release/v1.0/tools/import_signal_definitions.py:399-472 | a DBC file that cannot be loaded imports nothing and counts 0; otherwise the count is the number of signals |
| ReleaseDefinitionImport.ImportCanKeys | release/v1.0/tools/import_signal_definitions.py:419-472 | every signal's name is in the table afterwards, and a name no signal has keeps its row |
| ReleaseDefinitionImport.SignalKeyed | release/v1.0/tools/import_signal_definitions.py:419-429 | each signal of the database has an upsert under its full name |
| ReleaseDefinitionImport.ImportCanUnique | release/v1.0/tools/import_signal_definitions.py:438-456 | a signal whose name no other signal shares gets its new row when new, and otherwise keeps the stored row with the four Chinese columns refreshed |
| ApplyTranslations.Translated | release/v1.0/tools/apply_translations.py:52-64 | an updated row keeps its names and takes the entry's three fields, `''` for a missing one |
| ApplyTranslations.LiteralHead | release/v1.0/tools/apply_translations.py:98 | a wildcard-free head of a LIKE pattern matches the same number of characters, ignoring ASCII case |
| ApplyTranslations.LeadingPercent | release/v1.0/tools/apply_translations.py:98 | a leading `%` lets the rest of the pattern match any suffix |
| ApplyTranslations.LikeContains | release/v1.0/tools/apply_translations.py:98-104 | for a key without wildcards, `full_name LIKE '%key%'` holds iff the key occurs in the full name, ignoring ASCII case |
| ApplyTranslations.UnderscoreIsWildcard | release/v1.0/tools/apply_translations.py:98-104 | a key with `_` matches full names that do not contain it |
| ApplyTranslations.Update | release/v1.0/tools/apply_translations.py:93-105 | one UPDATE gives every matching row the entry's fields and leaves the rest alone |
| ApplyTranslations.LastApplied | release/v1.0/tools/apply_translations.py:41-64 | the position found is an applicable entry matching the row, and no later entry is |
| ApplyTranslations.LastEntryWins | release/v1.0/tools/apply_translations.py:41-74 | after the loop each row carries the fields of the last applicable entry matching it, and is unchanged when none does |
| ApplyTranslations.CountIsMatches | release/v1.0/tools/apply_translations.py:82-115 | the count returned is the number of pairs of applicable entry and matching row |
| ApplyTranslations.SkippedEntriesIgnored | release/v1.0/tools/apply_translations.py:41-48 | comment keys and non-object values change no row and count nothing |
| ApplyTranslations.NamesKept | release/v1.0/tools/apply_translations.py:52-64 | updates never change the names rows are matched by |
| ApplyTranslations.MatchedSameNames | release/v1.0/tools/apply_translations.py:93-105 | the number of rows an UPDATE matches depends only on the rows' names |
| ApplyTranslations.PercentMatchesAll | release/v1.0/tools/apply_translations.py:98 | the pattern `%` matches every text |
| DictRegeneration.DictEndSpec | release/v1.0/tools/apply_translations.py:130-140 | the end is just past the first `}` after which the braces counted from the opening balance, and the opening itself when no `}` does |
| DictRegeneration.Splice | release/v1.0/tools/apply_translations.py:124-170 | without the opening text nothing is written; otherwise the text before the opening and after the old dictionary's end is kept and the new dictionary sits in between |
| DictRegeneration.SpliceStable | release/v1.0/tools/apply_translations.py:124-170 | updating again with a closed dictionary that starts with the opening changes nothing |
| DictRegeneration.Named | release/v1.0/tools/apply_translations.py:146-161 | the pairs listed come from the sorted keys, carry their names, and are in strictly ascending key order |
| DictRegeneration.CerealPairsExact | release/v1.0/tools/apply_translations.py:146-161 | a pair is listed iff its key is not a comment, its value is an object, and its `name_cn` is that non-empty name |
| DictRegeneration.Categories | release/v1.0/tools/apply_translations.py:226-232 | the categories are ascending without repeats, exactly those of the pairs written |
| DictRegeneration.GroupsExact | release/v1.0/tools/apply_translations.py:211-236 | every group is non-empty, and a pair lies in a group iff the group is its category's |
| DictRegeneration.OneGroupEach | release/v1.0/tools/apply_translations.py:211-236 | a pair lies in one group only |
| DictRegeneration.CanGroupsExact | release/v1.0/tools/apply_translations.py:208-236 | the CAN groups are ascending and non-empty, and list each written key in the group of its category, defaulting to `其他` |
| DictRegeneration.DictTextClosed | release/v1.0/tools/apply_translations.py:143-163 | a generated dictionary with brace-free content is closed by its own last `}` |
| DictRegeneration.CerealUpdateStable | release/v1.0/tools/apply_translations.py:118-177 | with brace-free keys and fields, running the cereal update twice gives the text of running it once |
| DictRegeneration.CanUpdateStable | release/v1.0/tools/apply_translations.py:180-254 | with brace-free keys and fields, running the CAN update twice gives the text of running it once |
| DictRegeneration.CerealPairs | release/v1.0/tools/apply_translations.py:146-161 | the cereal pairs are listed in strictly ascending key order |
| DictRegeneration.NamedComplete | release/v1.0/tools/apply_translations.py:146-161 | every sorted key that has a name is listed with that name |
| DictRegeneration.Groups | release/v1.0/tools/apply_translations.py:211-236 | the groups are the categories of the pairs, each holding exactly the pairs of its category |
| TranslateComments.TranslateNoKeys | release/v1.0/tools/translate_comments.py:99-105 | a docstring holding none of the table's words comes back unchanged |
| TranslateComments.TranslateCjkFree | release/v1.0/tools/translate_comments.py:99-105 | with Chinese table words, a docstring without ideographs comes back unchanged |
| TranslateComments.MatchAt | release/v1.0/tools/translate_comments.py:115 | a match is three quotes, a non-empty body without `"`, and three closing quotes |
| TranslateComments.RewriteDocstring | release/v1.0/tools/translate_comments.py:115-125 | a docstring at the front is replaced by its converted body between quotes and the scan resumes after it |
| TranslateComments.RewriteNoQuotes | release/v1.0/tools/translate_comments.py:115-125 | text without three quotes in a row is left as it is |
| TranslateComments.RewriteCjkFree | release/v1.0/tools/translate_comments.py:117-125 | a file without CJK ideographs comes back unchanged |
| TranslateComments.ProcessFile | release/v1.0/tools/translate_comments.py:107-133 | the file is written iff its content changed, with the rewritten content, and never when it holds no ideograph |
| TranslateComments.CountWritten | release/v1.0/tools/translate_comments.py:144-147 | the count is the number of files reported written, and zero when none is |
| TranslateComments.CountUpdated | release/v1.0/tools/translate_comments.py:135-149 | `main` counts the files whose rewrite changed them, none when no file holds an ideograph |
| Translation.LanguageName | src/i18n/translator.py:163-170 | a code has a display name other than `Unknown` iff it is supported |
| Translation.Initial | src/i18n/translator.py:24-26 | a new manager is English with no translations, a valid state |
| Translation.LoadLanguage | src/i18n/translator.py:41-80 | an unsupported code changes nothing and fails; English clears the table and succeeds; another language takes its file's table on success, and on a missing or unreadable file falls back to English with no translations and fails; valid states stay valid |
| Translation.LoadReportsCurrent | src/i18n/translator.py:41-80 | from a valid state the flag returned is true iff the requested language is now current |
| Translation.EnglishShowsKeys | src/i18n/translator.py:56-60 | in English every key shows as itself |
| Translation.LoadedKeys | src/i18n/translator.py:63-93 | after a failed load or an English load keys show as themselves; after a successful load they show the file's entry, or themselves when the file lacks them |
| Translation.LoadsKeepValid | src/i18n/translator.py:24-80 | any sequence of loads from a new manager leaves a supported language, so its name is never `Unknown` |
| Translation.LanguagePartIs | src/i18n/translator.py:109 | the part of a locale before its first `_` is `p` iff the locale is `p` or starts with `p_` |
| Translation.SystemLanguage | src/i18n/translator.py:95-116 | the result is always supported, and a supported locale is returned as it is |
| Translation.SystemLanguageChinese | src/i18n/translator.py:102-116 | the system language is Traditional Chinese iff the locale is `zh` or starts with `zh_` |
| Translation.LanguagePreference | src/i18n/translator.py:129-143 | the result is supported; a saved supported code is used, otherwise the system language |
| SignalManager.SplitStatements | src/ui/dialogs/signal_and_database_manager_dialog.py:1385-1400 | every stripped line that is neither blank nor a `--` comment lands in exactly one statement, in order; each statement ends at its first line ending in `;` except possibly the last; statements are their lines joined by newlines and are never blank |
| SignalManager.FeedKeeps | src/ui/dialogs/signal_and_database_manager_dialog.py:1388-1397 | one line of the loop keeps the finished statements closed and the open one unclosed, and adds the line to the open statement iff it is kept |
| SignalManager.ExecuteCounts | src/ui/dialogs/signal_and_database_manager_dialog.py:1402-1415 | without blank statements, successes plus errors equal the number of statements and the successes are those the database accepts |
| SignalManager.UpdateSchema | src/ui/dialogs/signal_and_database_manager_dialog.py:1382-1415 | the reported success and error counts add up to the statements split from the script |
| SignalManager.RowShown | src/ui/dialogs/signal_and_database_manager_dialog.py:685-695 | a row is shown iff the lowercased query occurs in the lowercased text of one of its present cells |
| SignalManager.HiddenRows | src/ui/dialogs/signal_and_database_manager_dialog.py:697-707 | one flag per row, hidden iff the row is not shown |
| SignalManager.FilterProperties | src/ui/dialogs/signal_and_database_manager_dialog.py:685-695 | the filter ignores the query's case, and an empty query shows every row that has a cell |
| SignalManager.Nullable | src/ui/dialogs/signal_and_database_manager_dialog.py:721-734 | an edited cell is stored NULL iff it is all whitespace, else stripped and non-empty |
| SignalManager.ShownSaved | src/ui/dialogs/signal_and_database_manager_dialog.py:721-734 | saving a shown value keeps a normal one, always yields a normal one, and a second save changes nothing |
| SignalManager.SaveTranslations | src/ui/dialogs/signal_and_database_manager_dialog.py:762-778 | one update per row with its id, every stored field normal; the count reported is the number of rows |
| SignalManager.UneditedSaveKeeps | src/ui/dialogs/signal_and_database_manager_dialog.py:712-737 | saving an unedited table writes back the normal values it loaded |
| SignalManager.CerealRows | src/ui/dialogs/signal_and_database_manager_dialog.py:507-520 | the cereal table lists every definition with the option set, otherwise exactly those whose name is present and does not contain DEPRECATED in any ASCII case, in the database's order |
| SignalManager.CanIdCell | src/ui/dialogs/signal_and_database_manager_dialog.py:579 | the CAN id cell is empty iff the id is NULL, else `0x` followed by hex digits that read back as the id |
| SignalManager.StripAll | src/ui/dialogs/signal_and_database_manager_dialog.py:1385-1390 | one stripped line per line, none starting with whitespace |
| SignalManager.NullableNormal | src/ui/dialogs/signal_and_database_manager_dialog.py:721-734 | a stored cell is always NULL or a non-blank text |
| SignalManager.NormalKept | src/ui/dialogs/signal_and_database_manager_dialog.py:721-734 | showing a NULL-or-non-blank value and saving the shown text gives the value back |
| LogTable.ApplyFilters | release/v1.0/src/ui/data_table.py:269-303 | the shown logs are the loaded logs that pass every set criterion, in their loaded order, and a log is shown iff it is loaded and passes |
| LogTable.ShownExactly | release/v1.0/src/ui/data_table.py:274-300 | a log is in the filtered list iff it is loaded, has the chosen type and daemon when those are set, and mentions the keyword when one is set |
| LogTable.FilterKeepsOrder | release/v1.0/src/ui/data_table.py:272-300 | filtering works log by log: two blocks filter to their filtered parts in order, and one log is kept iff it passes |
| LogTable.KeywordIgnoresCase | release/v1.0/src/ui/data_table.py:285-297 | a keyword and its lowercase form show the same logs |
| LogTable.ResetShowsAll | release/v1.0/src/ui/data_table.py:328-336 | after a reset every loaded log is shown, in order |
| LogTable.Daemons | release/v1.0/src/ui/data_table.py:250-255 | the daemon names collected are exactly the non-empty daemons of the loaded logs |
| LogTable.DaemonOptions | release/v1.0/src/ui/data_table.py:248-267 | the first entry is `All`, the rest are the distinct non-empty daemons in ascending order, and the entry shown before stays shown when still listed, else `All` |
| LogTable.RetranslateDaemons | release/v1.0/src/ui/data_table.py:360-371 | only the first entry is relabelled, and only when it reads `All` or its Chinese form; an `All` entry that was shown is shown under its new label |
| LogTable.FiltersAsWritten | release/v1.0/src/ui/data_table.py:305-326 | a type text other than the English labels leaves the type filter unchanged; the daemon filter is unset iff the text is `All`, else it is the text; the keyword is stripped |
| LogTable.FiltersOf | release/v1.0/src/ui/data_table.py:305-326 | the first entry of either drop-down unsets that filter, other entries set it; the keyword is stripped |
| LogTable.EnglishLabelsAgree | release/v1.0/src/ui/data_table.py:305-326 | with the English labels shown and no daemon named `All`, comparing texts and reading positions give the same criteria |
| LogTable.TranslatedTypeIgnored | release/v1.0/src/ui/data_table.py:308-315 | a translated type entry does not change the type filter |
| LogTable.TranslatedAllHidesLogs | release/v1.0/src/ui/data_table.py:362-371 | after relabelling, the first daemon entry as written hides a log no filter was chosen for; read by position, it is shown |
| LogTable.FunctionColumn | release/v1.0/src/ui/data_table.py:435-441 | the column is empty iff the function name is not truthy; it starts with the name, and with a truthy line number continues with `:` and digits that read back as it |
| DataExport.AllTimes | src/ui/dialogs/export_data_dialog.py:69-73 | the collected times are exactly the sample times of the chosen signals |
| DataExport.TimeAxis | src/ui/dialogs/export_data_dialog.py:69-75 | the time axis is ascending without repeats and holds exactly the times some chosen signal has a sample at |
| DataExport.CellAt | src/ui/dialogs/export_data_dialog.py:109-111 | a signal's cell at a time is the value of its last sample at that time, and empty when it has no sample there |
| DataExport.CsvHeader | src/ui/dialogs/export_data_dialog.py:106-107 | the header is `time_ns`, `relative_time_s`, then the signal names in the chosen order |
| DataExport.CsvRows | src/ui/dialogs/export_data_dialog.py:113-124 | one row per axis time in axis order, each with its time, its time relative to the segment start in seconds, and one cell per chosen signal holding its value at that time or nothing |
| DataExport.RelativeTimes | src/ui/dialogs/export_data_dialog.py:150 | one relative time per axis time: its distance from the segment start in seconds |
| DataExport.ParquetColumns | src/ui/dialogs/export_data_dialog.py:153-161 | one column per chosen signal, as long as the axis, holding the signal's value at each time or None |
| DataExport.FormatsAgree | src/ui/dialogs/export_data_dialog.py:113-161 | the Parquet columns are the CSV rows' cells read column-wise, and the two formats carry the same relative times |
| DataExport.EverySampleExported | src/ui/dialogs/export_data_dialog.py:69-124 | every sample of a chosen signal lands on the axis, and the row at its time carries its value unless a later sample at the same time replaces it |
| DataExport.NoEmptyTimes | src/ui/dialogs/export_data_dialog.py:69-75 | every axis time is the time of some chosen signal's sample |
| DataExport.Run | src/ui/dialogs/export_data_dialog.py:35-91 | a missing segment or an empty axis fails before anything is written; otherwise the count is the number of axis times, and the file is the CSV header and one row per axis time, or the Parquet axis, its relative times and one column per signal, as chosen |
| DataExport.Ticked | src/ui/dialogs/export_data_dialog.py:389-394 | the signals taken from the list are exactly the names of the ticked entries |
| DataExport.TickedInOrder | src/ui/dialogs/export_data_dialog.py:389-394 | the names come in list order, one per ticked entry |
| DataExport.StartExport | src/ui/dialogs/export_data_dialog.py:377-400 | an empty path is rejected first, then an empty signal list; otherwise the export starts with the chart's or the ticked signals in the chosen format |
| DataExport.StartedExportQueries | src/ui/dialogs/export_data_dialog.py:377-421 | once started, the export finds no data iff none of the chosen signals has a sample |
| ChartWidget.QueryWindowExact | src/ui/chart_widget.py:379-388 | a time is queried iff it lies within 10 s of the current time and inside the known segment start and end |
| ChartWidget.UpdateTimeWindow | src/ui/chart_widget.py:285-297 | `charts_updated` is emitted on every call; paused, the charts redraw and the counter resets; playing, the counter stays below 3 |
| ChartWidget.PlayingRedraws | src/ui/chart_widget.py:285-292 | while playing, n calls from counter c redraw (c + n) / 3 times and leave the counter at (c + n) mod 3 |
| ChartWidget.PausedRedraws | src/ui/chart_widget.py:293-297 | while paused every call redraws |
| ChartWidget.Plotted | src/ui/chart_widget.py:418-428 | a point is plotted iff the query returned that time with a value |
| ChartWidget.PlottedKeepsOrder | src/ui/chart_widget.py:423-427 | rows with values keep their relative order |
| ChartWidget.PlotData | src/ui/chart_widget.py:416-436 | exactly the signals with at least one value are drawn, each with its plotted points |
| ChartWidget.Nearest | src/ui/chart_widget.py:600-608 | the index found has the least distance to the hover time, and every earlier sample is strictly farther; none only for no samples |
| ChartWidget.HoverValue | src/ui/chart_widget.py:600-612 | a value is shown iff some sample lies less than a second away, and it is the value of the first nearest sample |
| ChartWidget.Ranges | src/ui/chart_widget.py:322-330 | each signal with values contributes its smallest and largest value |
| ChartWidget.RangesInOrder | src/ui/chart_widget.py:322-330 | the pairs are the smallest and largest values of the signals with values, one per such signal, in signal order |
| ChartWidget.DualNeedsTwo | src/ui/chart_widget.py:312-337 | dual axes are used only when enabled and at least two signals have values |
| ChartWidget.GlobalCoversRanges | src/ui/chart_widget.py:339-342 | no signal's range exceeds the global range |
| ChartWidget.FlatBesideVarying | src/ui/chart_widget.py:347-363 | a constant signal beside a varying one turns the second axis on |
| ChartWidget.SameSpanOneAxis | src/ui/chart_widget.py:339-367 | signals that all span the same interval share one axis |
| ChartWidget.Widest | src/ui/chart_widget.py:474-476 | the left signal has the largest range and is the first with it |
| ChartWidget.SortDesc | src/ui/chart_widget.py:475 | the sorted list is a rearrangement of the input in descending range |
| ChartWidget.SortDescStable | src/ui/chart_widget.py:475 | the sort is stable: signals of equal range keep their order |
| ChartWidget.DualSplit | src/ui/chart_widget.py:466-477 | left and right together are the drawn signals; the left one is the first of widest range and the right ones descend by range |
| ChartWidget.UpdateCharts | src/ui/chart_widget.py:369-446 | nothing is drawn without a database, segment and signals; otherwise the window's plotted data is drawn, on two axes exactly when the decision says so and there are two signals or more, the widest signal then on the left and the others on the right, widest first |
| ChartWidget.InsertDesc | src/ui/chart_widget.py:475 | inserting into a descending list keeps it descending and adds exactly that element |
| VideoPlayer.StartTime | release/v1.0/src/ui/video_player.py:204-223 | the start is the earliest stored sample time when there is a non-zero one, and the segment start when there is none or it is zero |
| VideoPlayer.LoadTimestamps | release/v1.0/src/ui/video_player.py:418-442 | stored timestamps are kept iff there is a database and a segment, the read succeeds and there is one per frame; otherwise there are none |
| VideoPlayer.CalculatedTimesAscend | release/v1.0/src/ui/video_player.py:484-487 | without timestamps a later frame is never announced earlier |
| VideoPlayer.StoredTimesUsed | release/v1.0/src/ui/video_player.py:479-481 | with one timestamp per frame, each frame is announced at its own timestamp |
| VideoPlayer.DisplayFrame | release/v1.0/src/ui/video_player.py:444-492 | an index outside the frames changes nothing and announces nothing; otherwise it becomes current and its time and index are announced |
| VideoPlayer.StepFrame | release/v1.0/src/ui/video_player.py:622-629 | without frames nothing happens; otherwise a frame is always shown and it is the new current one |
| VideoPlayer.StepLands | release/v1.0/src/ui/video_player.py:627-629 | a step lands delta away when that frame exists, and on the first or last frame otherwise |
| VideoPlayer.StepBack | release/v1.0/src/ui/video_player.py:622-629 | stepping back undoes a step that stayed inside the frames |
| VideoPlayer.AdvanceFrame | release/v1.0/src/ui/video_player.py:604-620 | it advances iff there are frames, playback is on and the current frame is not the last; at the last frame it stops playback |
| VideoPlayer.TimerTick | release/v1.0/src/ui/video_player.py:592-602 | in sync mode the timer changes nothing; otherwise it shows the next frame, or stops playback at the last one |
| VideoPlayer.AdvanceToEnd | release/v1.0/src/ui/video_player.py:604-620 | repeated advances walk frame by frame to the last frame, and the next one stops playback there |

## Left out

- Cap'n Proto decoding (`capnp.load`, `read_multiple_bytes`, schema reflection): events and payloads are the `Events` value tree, given as input.
- Bit-level CAN decoding and DBC file parsing: cantools does them, so the decoder and the parsed database are parameters. Scale and offset are not modelled.
- SQLite engine details: transactions, commits, SQL text and PRAGMAs are not modelled. The relaxed PRAGMAs of src/core/segment_importer.py:583-588 are restored only on the success path (858-863). The model says nothing about them after an exception.
- StoreQueries.StoredSeries: rows with equal `time_ns` are listed in insertion order. `ORDER BY time_ns` allows any order among them, so this is one allowed order, not every one.
- Formula evaluation with `eval` (src/core/signal_calculator.py:165-208, release/v1.0/src/ui/dialogs/custom_signal_dialog.py:355-398): an uninterpreted, possibly failing function parameter.
- Floating point: samples and chart values are exact reals and times are integers. Rounding is not modelled, nor are the video fps correction, x-axis bounds, MM:SS.mmm and datetime formatting.
- Strings.ParseInt: Python's `int()` also accepts non-ASCII Unicode decimal digits, such as Arabic-Indic ones; the model reads ASCII digits only.
- Strings.ParseHex: the non-ASCII digits that Strings.ParseInt leaves out are not modelled here either.
- SegmentPath.ParseSegmentName: reads its two numbers with Strings.ParseHex and Strings.ParseInt, so it shares their Unicode limits.
- DataExport.CsvRows: the relative time is the exact quotient of the distance from the segment start by 10^9. The float division and the `%.6f` formatting at src/ui/dialogs/export_data_dialog.py:117-119 are not modelled.
- DataExport.Run: the Parquet relative times are exact quotients too; the float division at src/ui/dialogs/export_data_dialog.py:150 is not modelled.
- Strings.Lower: lower-cases ASCII letters only. `\b` and `\w` in the regular expressions are ASCII-only too.
- Video and image work: frame decoding, thumbnails, slider, and the play/pause toggle. Frames are represented by their count.
- Qt widgets, layouts, colours of cells, themes, menus, QSettings, dialogs, progress and log callbacks, and `logger` output.
- Concurrency: the scanner thread and worker threads. The scan is one pure function over its inputs.
- The file system, JSON and XML files, subprocess calls and the startup code: directory listings, file existence, file contents and user answers are parameters.
- Stale call sites: tools/import_segment_sqlite.py:133,137 call SQLiteManager with signatures and keys it does not have, and tools/import_segment_sqlite.py:247,251,266,268 call `insert_timeseries_batch` and `insert_can_batch` without the `segment_id` argument those methods require (src/core/sqlite_manager.py:801,973). As written, the tool raises at its first sample or CAN batch insert, so SqliteImport.Import's success path and SqliteImport.Flush model the flow the tool evidently intends. src/ui/dialogs/signal_and_database_manager_dialog.py:1103 uses an undefined name. src/ui/dialogs/export_data_dialog.py:54,361 call methods SQLiteManager lacks. Only the pure logic around these calls is modelled.
- DefinitionImport.ImportCan: the copy of the DBC file into `data/dbc` (tools/import_signal_definitions_sqlite.py:678-689) is file I/O and is left out. A failed copy only logs a warning, so the imported rows do not depend on it.
- TranslateComments: the script's word table is a parameter instead of its literal entries, and reading and writing the files is left out.
- CapnpAnnotations.LoadAll: an existing file that cannot be read, which the source records as a struct with no fields, is not told apart from a missing file.
- CapnpAnnotations.ExtractCompleteFlat: completeness is proved for structs without nested blocks. NestedBlockSkipped covers a nested block whose body opens no further block. Arbitrary nesting depth has no completeness lemma.
- ChartWidget: colours, pens, legends, axis labels and tick formatting.
- DefinitionImport.Definition: takes its unit from the corrected, case-insensitive `deg` test (DefinitionImport.UnitOf), not the script's case-sensitive one at tools/import_signal_definitions_sqlite.py:335,338 and 504,507; the script as written is DefinitionImport.UnitOfAsWritten, and the difference is the finding below.
- DefinitionImport.VisitField: builds rows with DefinitionImport.Definition, so a name with `Deg` in another case gets degrees, which the script as written does not give.
- DefinitionImport.WalkFields: the same corrected unit test as DefinitionImport.VisitField.
- DefinitionImport.ImportTypes: the same corrected unit test as DefinitionImport.VisitField.
- DefinitionImport.ImportCereal: the same corrected unit test as DefinitionImport.VisitField.
- DefinitionImport.ImportTypesCovers: states rows equal to DefinitionImport.Definition, with the corrected unit test.
- DefinitionImport.ImportCerealCovers: states rows equal to DefinitionImport.Definition, with the corrected unit test.
- DbcParser.MessageById: with two messages of one frame id, cantools' lookup table keeps the later one while the model finds the first; the contract promises only a message with that id.
- DbcParser.SignalByName: with two signals of one name in a message, cantools keeps the later one while the model finds the first; the contract promises only a signal with that name.

## Findings

| source | as written | input that shows it | evidently intended | confidence | as-written member | corrected member |
|---|---|---|---|---|---|---|
| release/v1.0/src/ui/dialogs/segment_selector_dialog.py:163-166 | the database branch stores the route timestamp plus one minute per segment as `gps_time`, and the GPS column (434) adds one minute per segment again | segment 1 of a route stamped 1000 shows 1120 | `gps_time` holds the route start, as in the rlog branch, so the column shows 1060 | medium, not executed | ReleaseSegmentScan.DatabaseOffsetTwice | ReleaseSegmentScan.DatabaseStartShown |
| release/v1.0/src/ui/data_table.py:305-326 | `on_filter_changed` compares the drop-down texts with `All`, `Log` and `Error`, but `update_ui_text` (338-371) shows translated labels | in Chinese, the daemon drop-down's first entry reads `全部`, so a `controlsd` log is hidden with no daemon chosen; the translated `Error` entry leaves the type filter unchanged | the first entry of each drop-down means no filter and the others set it, read by position | high, not executed | LogTable.TranslatedAllHidesLogs | LogTable.FiltersOf |
| tools/import_signal_definitions_sqlite.py:335-338 | the angle and rate unit rules test `'deg' in field_name` on the original spelling, while the other rules test the lower-cased name | `steeringAngleDeg` contains `Deg` but not `deg`, so it gets no unit | the angle rule matches `deg` in any case and gives `deg`, as the release script's unit table and the store's inference do | high, not executed | DefinitionImport.SteeringAngleAsWritten | DefinitionImport.SteeringAngleCorrected |

=== FILE: apply_translations.dfy ===
/** The database half of release/v1.0/tools/apply_translations.py: the
    entries of a translation JSON file are written into the cereal and CAN
    definition tables. Comment keys (starting with `_`) and values that are
    not objects are skipped; every other entry updates the rows it matches,
    and the count reported is the number of row updates. */
module ApplyTranslations {
  import opened Wrappers
  import opened Strings

  /** A value of the translation file: an object of text fields, or
      anything else. */
  datatype Json = Object(fields: map<string, string>) | NonObject

  /** `trans.get(name, '')`. */
  function Field(fields: map<string, string>, name: string): string {
    if name in fields then fields[name] else ""
  }

  /** The entries the loops act on: not a comment key, and an object. */
  predicate Applicable(key: string, value: Json) {
    !StartsWith(key, "_") && value.Object?
  }

  /** The translated columns of a definition row, and the two names it is
      matched by. */
  datatype Definition = Definition(
    signalName: string,
    fullName: Option<string>,
    nameCn: Option<string>,
    descriptionCn: Option<string>,
    unitCn: Option<string>)

  /** A row after `SET name_cn = ?, description_cn = ?, unit_cn = ?`: the
      three fields of the entry, `''` for a missing one. */
  function Translated(d: Definition, fields: map<string, string>): (r: Definition)
    ensures r.signalName == d.signalName && r.fullName == d.fullName
    ensures r.nameCn == Some(Field(fields, "name_cn")) && r.descriptionCn == Some(Field(fields, "description_cn"))
    ensures r.unitCn == Some(Field(fields, "unit_cn"))
  {
    d.(nameCn := Some(Field(fields, "name_cn")), descriptionCn := Some(Field(fields, "description_cn")),
       unitCn := Some(Field(fields, "unit_cn")))
  }

  // ---------------------------------------------------------------------------
  // SQLite LIKE

  /** SQLite `s LIKE p` without an ESCAPE clause: `%` matches any run of
      characters, `_` any one character, and ASCII letters match either
      case. */
  predicate Like(s: string, p: string)
    decreases |p|, |s|
  {
    if |p| == 0 then |s| == 0
    else if p[0] == '%' then Like(s, p[1..]) || (|s| > 0 && Like(s[1..], p))
    else |s| > 0 && (p[0] == '_' || LowerChar(s[0]) == LowerChar(p[0])) && Like(s[1..], p[1..])
  }

  /** A pattern text without wildcards. */
  predicate Literal(k: string) {
    '%' !in k && '_' !in k
  }

  /** A literal head of a pattern matches the same number of characters,
      ignoring ASCII case. */
  lemma {:induction false} LiteralHead(s: string, k: string, rest: string)
    requires Literal(k)
    decreases |k|
    ensures Like(s, k + rest) <==> |s| >= |k| && Lower(s[..|k|]) == Lower(k) && Like(s[|k|..], rest)
  {
    if |k| == 0 {
      assert k + rest == rest;
      assert s[..0] == [] && s[0..] == s;
    } else {
      assert (k + rest)[0] == k[0] && (k + rest)[1..] == k[1..] + rest;
      assert Literal(k[1..]) by {
        assert forall c | c in k[1..] :: c in k;
      }
      assert k[0] in k;
      if |s| > 0 {
        LiteralHead(s[1..], k[1..], rest);
        if |s| >= |k| {
          assert s[1..][|k| - 1..] == s[|k|..];
          assert s[1..][..|k| - 1] == s[1..|k|];
          assert Lower(s[..|k|]) == Lower(k) <==> LowerChar(s[0]) == LowerChar(k[0]) && Lower(s[1..|k|]) == Lower(k[1..]) by {
            assert Lower(s[..|k|]) == [LowerChar(s[0])] + Lower(s[1..|k|]);
            assert Lower(k) == [LowerChar(k[0])] + Lower(k[1..]);
          }
        }
      }
    }
  }

  /** A leading `%` lets the rest of the pattern match any suffix. */
  lemma {:induction false} LeadingPercent(s: string, q: string)
    decreases |s|
    ensures Like(s, "%" + q) <==> exists i | 0 <= i <= |s| :: Like(s[i..], q)
  {
    assert ("%" + q)[0] == '%' && ("%" + q)[1..] == q;
    assert s[0..] == s;
    if |s| > 0 {
      LeadingPercent(s[1..], q);
      assert forall i | 0 <= i <= |s| - 1 :: s[1..][i..] == s[i + 1..];
      if exists i | 0 <= i <= |s| :: Like(s[i..], q) {
        var i :| 0 <= i <= |s| && Like(s[i..], q);
        if i > 0 {
          assert Like(s[1..][i - 1..], q);
        }
      }
    }
  }

  /** A trailing `%` matches anything. */
  lemma {:induction false} PercentMatchesAll(s: string)
    decreases |s|
    ensures Like(s, "%")
  {
    assert "%"[1..] == "";
    if |s| > 0 {
      PercentMatchesAll(s[1..]);
    }
  }

  /** `full_name LIKE '%key%'` for a key without wildcards: the key occurs
      in the name, ignoring ASCII case. */
  lemma LikeContains(s: string, k: string)
    requires Literal(k)
    ensures Like(s, "%" + k + "%") <==> Contains(Lower(s), Lower(k))
  {
    assert "%" + k + "%" == "%" + (k + "%");
    LeadingPercent(s, k + "%");
    forall i | 0 <= i <= |s|
      ensures Like(s[i..], k + "%") <==> OccursAt(Lower(s), Lower(k), i)
    {
      LikeAt(s, k, i);
    }
    if Contains(Lower(s), Lower(k)) {
      var i: nat :| i <= |Lower(s)| && OccursAt(Lower(s), Lower(k), i);
      assert Like(s[i..], k + "%");
    }
  }

  /** The literal-then-`%` pattern matches the suffix from `i` iff the key
      occurs at `i`, ignoring ASCII case. */
  lemma LikeAt(s: string, k: string, i: nat)
    requires Literal(k) && i <= |s|
    ensures Like(s[i..], k + "%") <==> OccursAt(Lower(s), Lower(k), i)
  {
    LiteralHead(s[i..], k, "%");
    if i + |k| <= |s| {
      PercentMatchesAll(s[i..][|k|..]);
      assert s[i..][..|k|] == s[i..i + |k|];
      assert Lower(s)[i..i + |k|] == Lower(s[i..i + |k|]);
    }
  }

  /** A key with `_` in it is itself a pattern: `ESP_21` matches `ESPx21`. */
  lemma UnderscoreIsWildcard()
    ensures Like("ESPx21", "%ESP_21%")
    ensures !Contains("ESPx21", "ESP_21")
  {
    assert Like("", "%");
    assert Like("ESPx21", "ESP_21%");
    assert !Contains("ESPx21", "ESP_21") by {
      MissingCharNoOccurrence("ESPx21", "ESP_21", 3);
    }
  }

  // ---------------------------------------------------------------------------
  // The two update loops

  /** `WHERE signal_name = ? OR full_name = ?`. */
  function CerealMatch(): (Definition, string) -> bool {
    (d: Definition, key: string) => d.signalName == key || d.fullName == Some(key)
  }

  /** `WHERE signal_name = ? OR full_name LIKE '%' || ? || '%'`; a NULL full
      name matches nothing. */
  function CanMatch(): (Definition, string) -> bool {
    (d: Definition, key: string) => d.signalName == key || (d.fullName.Some? && Like(d.fullName.value, "%" + key + "%"))
  }

  /** The number of rows an entry's UPDATE touches. */
  function Matched(rows: seq<Definition>, key: string, matches: (Definition, string) -> bool): (n: nat)
    decreases |rows|
    ensures n <= |rows|
  {
    if |rows| == 0 then 0
    else (if matches(rows[0], key) then 1 else 0) + Matched(rows[1..], key, matches)
  }

  /** One UPDATE: every matching row takes the entry's fields. */
  function Update(rows: seq<Definition>, key: string, fields: map<string, string>, matches: (Definition, string) -> bool): (r: seq<Definition>)
    ensures |r| == |rows|
    ensures forall i | 0 <= i < |rows| :: r[i] == if matches(rows[i], key) then Translated(rows[i], fields) else rows[i]
  {
    seq(|rows|, i requires 0 <= i < |rows| => if matches(rows[i], key) then Translated(rows[i], fields) else rows[i])
  }

  /** `apply_cereal_translations` / `apply_can_translations`: the entries in
      file order; the table afterwards and the count returned. */
  function ApplyAll(rows: seq<Definition>, entries: seq<(string, Json)>, matches: (Definition, string) -> bool): (r: (seq<Definition>, nat))
    decreases |entries|
    ensures |r.0| == |rows|
  {
    if |entries| == 0 then (rows, 0)
    else
      var (before, count) := ApplyAll(rows, entries[..|entries| - 1], matches);
      var (key, value) := entries[|entries| - 1];
      if Applicable(key, value) then (Update(before, key, value.fields, matches), count + Matched(before, key, matches))
      else (before, count)
  }

  /** The position of the last entry that is applied to a row. */
  function LastApplied(d: Definition, entries: seq<(string, Json)>, matches: (Definition, string) -> bool): (r: Option<nat>)
    decreases |entries|
    ensures r.Some? ==> (r.value < |entries| && Applicable(entries[r.value].0, entries[r.value].1)
      && matches(d, entries[r.value].0))
    ensures forall j | (if r.Some? then r.value + 1 else 0) <= j < |entries| ::
      !(Applicable(entries[j].0, entries[j].1) && matches(d, entries[j].0))
  {
    if |entries| == 0 then None
    else
      var (key, value) := entries[|entries| - 1];
      if Applicable(key, value) && matches(d, key) then Some(|entries| - 1)
      else LastApplied(d, entries[..|entries| - 1], matches)
  }

  /** Updates leave the names a row is matched by alone. */
  lemma {:induction false} NamesKept(rows: seq<Definition>, entries: seq<(string, Json)>, matches: (Definition, string) -> bool, i: nat)
    requires i < |rows|
    decreases |entries|
    ensures ApplyAll(rows, entries, matches).0[i].signalName == rows[i].signalName
    ensures ApplyAll(rows, entries, matches).0[i].fullName == rows[i].fullName
  {
    if |entries| > 0 {
      NamesKept(rows, entries[..|entries| - 1], matches, i);
    }
  }

  /** Matching looks only at the two names. */
  ghost predicate ByNames(matches: (Definition, string) -> bool) {
    forall d: Definition, e: Definition, key: string ::
      d.signalName == e.signalName && d.fullName == e.fullName ==> matches(d, key) == matches(e, key)
  }

  lemma MatchesByNames()
    ensures ByNames(CerealMatch()) && ByNames(CanMatch())
  {
  }

  /** Each row ends up with the fields of the last applicable entry that
      matches it, and unchanged when none does: later entries win. */
  lemma {:induction false} LastEntryWins(rows: seq<Definition>, entries: seq<(string, Json)>, matches: (Definition, string) -> bool, i: nat)
    requires i < |rows| && ByNames(matches)
    decreases |entries|
    ensures ApplyAll(rows, entries, matches).0[i] ==
      match LastApplied(rows[i], entries, matches)
      case None => rows[i]
      case Some(j) => Translated(rows[i], entries[j].1.fields)
  {
    if |entries| > 0 {
      var init := entries[..|entries| - 1];
      LastEntryWins(rows, init, matches, i);
      NamesKept(rows, init, matches, i);
      var before := ApplyAll(rows, init, matches).0;
      var (key, value) := entries[|entries| - 1];
      assert matches(before[i], key) == matches(rows[i], key);
      if !(Applicable(key, value) && matches(rows[i], key)) {
        assert LastApplied(rows[i], entries, matches) == LastApplied(rows[i], init, matches);
        match LastApplied(rows[i], init, matches)
        case None =>
        case Some(j) =>
          assert entries[j] == init[j];
      }
    }
  }

  /** The count returned is the number of (applicable entry, matching row)
      pairs, judged on the table as it was. */
  lemma {:induction false} CountIsMatches(rows: seq<Definition>, entries: seq<(string, Json)>, matches: (Definition, string) -> bool)
    requires ByNames(matches)
    decreases |entries|
    ensures ApplyAll(rows, entries, matches).1 == TotalMatched(rows, entries, matches)
  {
    if |entries| > 0 {
      var init := entries[..|entries| - 1];
      CountIsMatches(rows, init, matches);
      var before := ApplyAll(rows, init, matches).0;
      forall i | 0 <= i < |rows| ensures before[i].signalName == rows[i].signalName && before[i].fullName == rows[i].fullName {
        NamesKept(rows, init, matches, i);
      }
      MatchedSameNames(before, rows, entries[|entries| - 1].0, matches);
    }
  }

  /** The number of row updates the entries make on the table as given. */
  function TotalMatched(rows: seq<Definition>, entries: seq<(string, Json)>, matches: (Definition, string) -> bool): nat
    decreases |entries|
  {
    if |entries| == 0 then 0
    else
      var (key, value) := entries[|entries| - 1];
      TotalMatched(rows, entries[..|entries| - 1], matches) + (if Applicable(key, value) then Matched(rows, key, matches) else 0)
  }

  lemma {:induction false} MatchedSameNames(a: seq<Definition>, b: seq<Definition>, key: string, matches: (Definition, string) -> bool)
    requires |a| == |b| && ByNames(matches)
    requires forall i | 0 <= i < |a| :: a[i].signalName == b[i].signalName && a[i].fullName == b[i].fullName
    decreases |a|
    ensures Matched(a, key, matches) == Matched(b, key, matches)
  {
    if |a| > 0 {
      MatchedSameNames(a[1..], b[1..], key, matches);
    }
  }

  /** Comment keys and non-object values change nothing and count nothing. */
  lemma {:induction false} SkippedEntriesIgnored(rows: seq<Definition>, entries: seq<(string, Json)>, matches: (Definition, string) -> bool)
    requires forall j | 0 <= j < |entries| :: StartsWith(entries[j].0, "_") || entries[j].1.NonObject?
    decreases |entries|
    ensures ApplyAll(rows, entries, matches) == (rows, 0)
  {
    if |entries| > 0 {
      SkippedEntriesIgnored(rows, entries[..|entries| - 1], matches);
    }
  }
}

=== FILE: auto_register.dfy ===
/** src/core/sqlite_manager.py `auto_create_missing_signal_definitions`:
    every stored sample name that has no cereal definition and does not look
    like a CAN signal gets a guessed definition. The message type is the
    text before the first `.`, the data type and unit are guessed from
    keywords of the lower-cased name. */
module AutoRegister {
  import opened Wrappers
  import opened Strings
  import opened Seqs
  import opened Store

  // ---------------------------------------------------------------------------
  // Which names are candidates
  // ---------------------------------------------------------------------------

  /** SQLite `name LIKE 'CAN_%'`: `CAN` in any ASCII case, then any one
      character, then anything. */
  predicate LikeCan(name: string) {
    |name| >= 4 && LowerChar(name[0]) == 'c' && LowerChar(name[1]) == 'a' && LowerChar(name[2]) == 'n'
  }

  /** `WHERE t.segment_id = ?` when a segment is given. */
  function InScope(segmentId: Option<nat>): Sample -> bool {
    (x: Sample) => segmentId.None? || x.segmentId == segmentId.value
  }

  /** The names of the stored samples, of one segment when one is given. */
  function SampleNames(samples: seq<Sample>, segmentId: Option<nat>): (r: seq<string>)
    ensures forall k | 0 <= k < |r| :: exists i | 0 <= i < |samples| ::
              samples[i].name == r[k] && (segmentId.Some? ==> samples[i].segmentId == segmentId.value)
    ensures forall i | 0 <= i < |samples| && (segmentId.Some? ==> samples[i].segmentId == segmentId.value) ::
              samples[i].name in r
  {
    var xs := Filter(samples, InScope(segmentId));
    FilterMembers(samples, InScope(segmentId));
    var r := seq(|xs|, k requires 0 <= k < |xs| => xs[k].name);
    assert forall k | 0 <= k < |r| :: exists i | 0 <= i < |samples| ::
             samples[i].name == r[k] && (segmentId.Some? ==> samples[i].segmentId == segmentId.value) by {
      forall k | 0 <= k < |r|
        ensures exists i | 0 <= i < |samples| ::
                  samples[i].name == r[k] && (segmentId.Some? ==> samples[i].segmentId == segmentId.value)
      {
        assert InScope(segmentId)(xs[k]);
        var i :| 0 <= i < |samples| && samples[i] == xs[k];
      }
    }
    assert forall i | 0 <= i < |samples| && (segmentId.Some? ==> samples[i].segmentId == segmentId.value) ::
             samples[i].name in r by {
      forall i | 0 <= i < |samples| && (segmentId.Some? ==> samples[i].segmentId == segmentId.value)
        ensures samples[i].name in r
      {
        assert InScope(segmentId)(samples[i]);
        var k :| 0 <= k < |xs| && xs[k] == samples[i];
        assert r[k] == samples[i].name;
      }
    }
    r
  }

  /** The `LEFT JOIN ... IS NULL AND NOT LIKE 'CAN_%'` test. */
  function Undefined(defs: map<string, CerealDef>): string -> bool {
    (n: string) => n !in defs && !LikeCan(n)
  }

  /** `SELECT DISTINCT` of the undefined, non-CAN sample names. */
  function Candidates(db: Db, segmentId: Option<nat>): (r: seq<string>)
    ensures NoDuplicates(r)
    ensures forall k | 0 <= k < |r| :: r[k] !in db.cerealDefs && !LikeCan(r[k]) && r[k] in SampleNames(db.samples, segmentId)
    ensures forall n | n in SampleNames(db.samples, segmentId) && n !in db.cerealDefs && !LikeCan(n) :: n in r
  {
    var names := SampleNames(db.samples, segmentId);
    FilterMembers(names, Undefined(db.cerealDefs));
    var r := Distinct(Filter(names, Undefined(db.cerealDefs)));
    assert forall k | 0 <= k < |r| :: r[k] in Filter(names, Undefined(db.cerealDefs));
    r
  }

  // ---------------------------------------------------------------------------
  // Splitting a name
  // ---------------------------------------------------------------------------

  /** `len(name.split('.')) >= 2`. */
  predicate HasDot(name: string) {
    '.' in name
  }

  /** `parts[0]`: the text before the first `.`. */
  function MessageType(name: string): (r: string)
    requires HasDot(name)
    ensures '.' !in r && |r| < |name| && name[..|r|] == r && name[|r|] == '.'
  {
    var i := FirstIndex(name, IsDot).value;
    name[..i]
  }

  predicate IsDot(c: char) {
    c == '.'
  }

  /** `full_signal_name[len(msg_type) + 1:]`. */
  function SignalName(name: string): string
    requires HasDot(name)
  {
    name[|MessageType(name)| + 1..]
  }

  /** Message type and signal name put back together give the full name,
      and the message type is the longest dot-free prefix. */
  lemma SplitNameRoundTrip(name: string)
    requires HasDot(name)
    ensures MessageType(name) + "." + SignalName(name) == name
    ensures '.' !in MessageType(name)
  {
  }

  // ---------------------------------------------------------------------------
  // Guessing the data type and unit
  // ---------------------------------------------------------------------------

  /** Python `any(x in s for x in kws)`. */
  predicate AnyOf(s: string, kws: seq<string>) {
    exists k | 0 <= k < |kws| :: Contains(s, kws[k])
  }

  const EnumWords: seq<string> := ["type", "state", "mode", "name", "ecu", "event"]
  const CounterWords: seq<string> := ["index", "count", "id", "frame"]
  const FlagWords: seq<string> := ["pressed", "active", "valid", "enabled", "detected"]

  /** The first matching keyword group decides the data type. */
  function DataType(lower: string): (r: string)
    ensures r in {"Int32", "Bool", "Float32"}
    ensures r == "Bool" <==> (!AnyOf(lower, EnumWords) && !AnyOf(lower, CounterWords)
                              && (Contains(lower, "bool") || AnyOf(lower, FlagWords)))
    ensures r == "Float32" <==> (!AnyOf(lower, EnumWords) && !AnyOf(lower, CounterWords)
                                 && !Contains(lower, "bool") && !AnyOf(lower, FlagWords))
  {
    if AnyOf(lower, EnumWords) then "Int32"
    else if AnyOf(lower, CounterWords) then "Int32"
    else if Contains(lower, "bool") || AnyOf(lower, FlagWords) then "Bool"
    else "Float32"
  }

  /** A unit rule: every word of `all` must occur and, when `some` is not
      empty, one of its words too. */
  datatype UnitRule = UnitRule(all: seq<string>, some: seq<string>, unit: string, unitCn: string)

  predicate RuleMatches(rule: UnitRule, s: string) {
    (forall k | 0 <= k < |rule.all| :: Contains(s, rule.all[k])) && (|rule.some| == 0 || AnyOf(s, rule.some))
  }

  /** The fourteen unit rules in the order they are tried. */
  const UnitRules: seq<UnitRule> := [
    UnitRule([], ["speed", "velocity"], "m/s", "公尺/秒"),
    UnitRule(["accel"], [], "m/s²", "公尺/秒²"),
    UnitRule(["angle", "deg"], [], "deg", "度"),
    UnitRule(["rate"], ["deg", "yaw", "pitch"], "deg/s", "度/秒"),
    UnitRule([], ["distance", "drel", "wheelbase"], "m", "公尺"),
    UnitRule(["torque"], [], "Nm", "牛頓·公尺"),
    UnitRule([], ["temp", "temperature"], "°C", "攝氏度"),
    UnitRule(["percent"], [], "%", "%"),
    UnitRule(["voltage"], [], "V", "伏特"),
    UnitRule(["current"], [], "A", "安培"),
    UnitRule(["power", "w"], [], "W", "瓦特"),
    UnitRule(["time"], ["ms", "milli"], "ms", "毫秒"),
    UnitRule(["time"], [], "s", "秒"),
    UnitRule(["rpm"], [], "rpm", "轉/分")
  ]

  /** The unit and its Chinese name as the `if / elif` chain assigns them;
      `("", "")` when no rule applies. */
  function Unit(lower: string): (string, string) {
    if Contains(lower, "speed") || Contains(lower, "velocity") then ("m/s", "公尺/秒")
    else if Contains(lower, "accel") then ("m/s²", "公尺/秒²")
    else if Contains(lower, "angle") && Contains(lower, "deg") then ("deg", "度")
    else if Contains(lower, "rate") && (Contains(lower, "deg") || Contains(lower, "yaw") || Contains(lower, "pitch")) then ("deg/s", "度/秒")
    else if Contains(lower, "distance") || Contains(lower, "drel") || Contains(lower, "wheelbase") then ("m", "公尺")
    else if Contains(lower, "torque") then ("Nm", "牛頓·公尺")
    else if Contains(lower, "temp") || Contains(lower, "temperature") then ("°C", "攝氏度")
    else if Contains(lower, "percent") then ("%", "%")
    else if Contains(lower, "voltage") then ("V", "伏特")
    else if Contains(lower, "current") then ("A", "安培")
    else if Contains(lower, "power") && Contains(lower, "w") then ("W", "瓦特")
    else if Contains(lower, "time") && (Contains(lower, "ms") || Contains(lower, "milli")) then ("ms", "毫秒")
    else if Contains(lower, "time") then ("s", "秒")
    else if Contains(lower, "rpm") then ("rpm", "轉/分")
    else ("", "")
  }

  /** The unit of the first rule of the table, from index `i` on, that
      matches; `("", "")` when none does. */
  function FirstRuleUnit(rules: seq<UnitRule>, i: nat, s: string): (r: (string, string))
    decreases |rules| - i
  {
    if i >= |rules| then ("", "")
    else if RuleMatches(rules[i], s) then (rules[i].unit, rules[i].unitCn)
    else FirstRuleUnit(rules, i + 1, s)
  }

  lemma AnyOfTwo(s: string, a: string, b: string)
    ensures AnyOf(s, [a, b]) <==> Contains(s, a) || Contains(s, b)
  {
    if Contains(s, a) {
      assert [a, b][0] == a;
    }
    if Contains(s, b) {
      assert [a, b][1] == b;
    }
  }

  lemma AnyOfThree(s: string, a: string, b: string, c: string)
    ensures AnyOf(s, [a, b, c]) <==> Contains(s, a) || Contains(s, b) || Contains(s, c)
  {
    if Contains(s, a) {
      assert [a, b, c][0] == a;
    }
    if Contains(s, b) {
      assert [a, b, c][1] == b;
    }
    if Contains(s, c) {
      assert [a, b, c][2] == c;
    }
  }

  lemma RuleShape(rule: UnitRule, s: string)
    requires |rule.all| <= 2
    ensures RuleMatches(rule, s) <==>
              (|rule.all| < 1 || Contains(s, rule.all[0])) && (|rule.all| < 2 || Contains(s, rule.all[1]))
              && (|rule.some| == 0 || AnyOf(s, rule.some))
  {
  }

  /** The `if / elif` chain is the first-match reading of the rule table. */
  lemma UnitIsFirstRule(lower: string)
    ensures Unit(lower) == FirstRuleUnit(UnitRules, 0, lower)
  {
    var rs := UnitRules;
    AnyOfTwo(lower, "speed", "velocity");
    AnyOfThree(lower, "deg", "yaw", "pitch");
    AnyOfThree(lower, "distance", "drel", "wheelbase");
    AnyOfTwo(lower, "temp", "temperature");
    AnyOfTwo(lower, "ms", "milli");
    forall i | 0 <= i < |rs| {
      RuleShape(rs[i], lower);
    }
    var u := FirstRuleUnit(rs, 14, lower);
    var u13 := FirstRuleUnit(rs, 13, lower);
    var u12 := FirstRuleUnit(rs, 12, lower);
    var u11 := FirstRuleUnit(rs, 11, lower);
    var u10 := FirstRuleUnit(rs, 10, lower);
    var u9 := FirstRuleUnit(rs, 9, lower);
    var u8 := FirstRuleUnit(rs, 8, lower);
    var u7 := FirstRuleUnit(rs, 7, lower);
    var u6 := FirstRuleUnit(rs, 6, lower);
    var u5 := FirstRuleUnit(rs, 5, lower);
    var u4 := FirstRuleUnit(rs, 4, lower);
    var u3 := FirstRuleUnit(rs, 3, lower);
    var u2 := FirstRuleUnit(rs, 2, lower);
    var u1 := FirstRuleUnit(rs, 1, lower);
    var u0 := FirstRuleUnit(rs, 0, lower);
  }

  /** The guessed definition of a dotted name; the Chinese name is left
      empty. */
  function Infer(name: string): (r: CerealDef)
    requires HasDot(name)
    ensures r.messageType + "." + r.signalName == name && '.' !in r.messageType
    ensures r.dataType == DataType(Lower(name))
    ensures (r.unit, r.unitCn) == Unit(Lower(name))
    ensures r.nameCn == ""
  {
    SplitNameRoundTrip(name);
    var (unit, unitCn) := Unit(Lower(name));
    CerealDef(MessageType(name), SignalName(name), DataType(Lower(name)), unit, unitCn, "")
  }

  // ---------------------------------------------------------------------------
  // The whole pass
  // ---------------------------------------------------------------------------

  /** The dotted names of a list. */
  function Dotted(names: seq<string>): (r: set<string>)
    ensures forall n | n in r :: HasDot(n)
  {
    if |names| == 0 then {} else (if HasDot(names[0]) then {names[0]} else {}) + Dotted(names[1..])
  }

  lemma {:induction false} DottedMembers(names: seq<string>, n: string)
    ensures n in Dotted(names) <==> HasDot(n) && exists k | 0 <= k < |names| :: names[k] == n
  {
    if |names| > 0 {
      DottedMembers(names[1..], n);
      if exists k | 0 <= k < |names| :: names[k] == n {
        var k :| 0 <= k < |names| && names[k] == n;
        if k > 0 {
          assert names[1..][k - 1] == n;
        }
      }
      if exists k | 0 <= k < |names[1..]| :: names[1..][k] == n {
        var k :| 0 <= k < |names[1..]| && names[1..][k] == n;
        assert names[k + 1] == n;
      }
    }
  }

  /** The loop over the candidates: an `INSERT OR REPLACE` per dotted name
      (each one counted), with the definition `guess` makes of it. */
  function Register(defs: map<string, CerealDef>, names: seq<string>, guess: string --> CerealDef): (r: map<string, CerealDef>)
    requires forall n | HasDot(n) :: guess.requires(n)
    ensures r.Keys == defs.Keys + Dotted(names)
    ensures forall n | n in Dotted(names) :: r[n] == guess(n)
    ensures forall n | n in defs && n !in Dotted(names) :: r[n] == defs[n]
  {
    if |names| == 0 then defs
    else
      var d := Register(defs, names[1..], guess);
      var n := names[0];
      if HasDot(n) then d[n := guess(n)] else d
  }

  /** `auto_create_missing_signal_definitions(segment_id)`: the new
      definitions and how many rows were written. Only the definitions
      change. */
  function AutoCreate(db: Db, segmentId: Option<nat>): (r: (Db, nat))
    ensures r.0 == db.(cerealDefs := r.0.cerealDefs)
    ensures r.1 == Count(Candidates(db, segmentId), HasDot)
  {
    var cands := Candidates(db, segmentId);
    (db.(cerealDefs := Register(db.cerealDefs, cands, Infer)), Count(cands, HasDot))
  }

  /** Stored definitions are kept; a new one is the guess for a dotted
      candidate; and every dotted candidate gets one. */
  lemma AutoCreateDefs(db: Db, segmentId: Option<nat>)
    ensures var defs := AutoCreate(db, segmentId).0.cerealDefs;
            forall n | n in db.cerealDefs :: n in defs && defs[n] == db.cerealDefs[n]
    ensures var defs := AutoCreate(db, segmentId).0.cerealDefs;
            forall n | n in defs && n !in db.cerealDefs ::
              n in Candidates(db, segmentId) && HasDot(n) && defs[n] == Infer(n)
    ensures var defs := AutoCreate(db, segmentId).0.cerealDefs;
            forall n | n in Candidates(db, segmentId) && HasDot(n) :: n in defs
  {
    var cands := Candidates(db, segmentId);
    var defs := AutoCreate(db, segmentId).0.cerealDefs;
    assert defs == Register(db.cerealDefs, cands, Infer);
    forall n | n in defs && n !in db.cerealDefs ensures n in cands && HasDot(n) && defs[n] == Infer(n) {
      DottedMembers(cands, n);
    }
    forall n | n in cands && HasDot(n) ensures n in defs {
      DottedMembers(cands, n);
    }
    forall n | n in db.cerealDefs ensures n in defs && defs[n] == db.cerealDefs[n] {
      DottedMembers(cands, n);
    }
  }

  /** A second pass right after the first creates nothing: every dotted
      candidate now has a definition. */
  lemma AutoCreateIdempotent(db: Db, segmentId: Option<nat>)
    ensures var once := AutoCreate(db, segmentId).0;
            AutoCreate(once, segmentId).1 == 0
  {
    var once := AutoCreate(db, segmentId).0;
    AutoCreateDefs(db, segmentId);
    var again := Candidates(once, segmentId);
    assert once.samples == db.samples;
    forall k | 0 <= k < |again| ensures !HasDot(again[k]) {
      var n := again[k];
      if HasDot(n) {
        assert n !in db.cerealDefs;
        assert n in Candidates(db, segmentId);
      }
    }
    NoneCounted(again, HasDot);
  }

  lemma {:induction false} NoneCounted<T>(xs: seq<T>, p: T -> bool)
    requires forall k | 0 <= k < |xs| :: !p(xs[k])
    ensures Count(xs, p) == 0
  {
    if |xs| > 0 {
      assert forall k | 0 <= k < |xs[1..]| :: !p(xs[1..][k]) by {
        forall k | 0 <= k < |xs[1..]| ensures !p(xs[1..][k]) {
          assert xs[1..][k] == xs[k + 1];
        }
      }
      NoneCounted(xs[1..], p);
    }
  }
}

=== FILE: batching.dfy ===
/** The row buffers of the import loops (src/core/segment_importer.py,
    release/v1.0/tools/import_segment.py, tools/import_segment_sqlite.py):
    each event appends its rows to a buffer, the buffer is written out as
    one batch insert once it holds at least the threshold, and whatever is
    left is written after the loop. */
module Batching {
  /** Thresholds of src/core/segment_importer.py. */
  const TimeseriesThreshold: nat := 50000
  const CanThreshold: nat := 50000
  const LogThreshold: nat := 5000
  /** Threshold of both command-line import tools, for every buffer. */
  const ToolThreshold: nat := 5000

  /** The rows of a list of batches, in order. */
  function Flatten<T>(xss: seq<seq<T>>): seq<T> {
    if |xss| == 0 then [] else Flatten(xss[..|xss| - 1]) + xss[|xss| - 1]
  }

  lemma FlattenSnoc<T>(xss: seq<seq<T>>, xs: seq<T>)
    ensures Flatten(xss + [xs]) == Flatten(xss) + xs
  {
    assert (xss + [xs])[..|xss|] == xss;
  }

  lemma FlattenSliceSnoc<T>(groups: seq<seq<T>>, a: nat, b: nat)
    requires a <= b < |groups|
    ensures Flatten(groups[a..b + 1]) == Flatten(groups[a..b]) + groups[b]
  {
    assert groups[a..b + 1] == groups[a..b] + [groups[b]];
    FlattenSnoc(groups[a..b], groups[b]);
  }

  /** `ins` is the rows of the whole groups `a` up to `b`, and the rows
      before its last group number fewer than `threshold`: a buffer
      flushed at `threshold` writes it as soon as it reaches the
      threshold, or at the end. */
  ghost predicate Piece<T>(groups: seq<seq<T>>, threshold: nat, ins: seq<T>, a: nat, b: nat) {
    && a < b <= |groups|
    && ins == Flatten(groups[a..b])
    && |Flatten(groups[a..b - 1])| < threshold
  }

  /** `cuts` splits the groups before `upTo` into `inserts`, insert `k`
      being the piece from `cuts[k]` to `cuts[k + 1]`. */
  ghost predicate CutsUpTo<T>(groups: seq<seq<T>>, threshold: nat, inserts: seq<seq<T>>, cuts: seq<nat>, upTo: nat) {
    && upTo <= |groups|
    && |cuts| == |inserts| + 1 && cuts[0] == 0
    && (forall k | 0 <= k < |cuts| :: cuts[k] <= upTo)
    && (forall k | 0 <= k < |inserts| :: Piece(groups, threshold, inserts[k], cuts[k], cuts[k + 1]))
  }

  /** The cuts account for every group, and the groups after the last
      insert hold no rows. */
  ghost predicate Cuts<T>(groups: seq<seq<T>>, threshold: nat, inserts: seq<seq<T>>, cuts: seq<nat>) {
    CutsUpTo(groups, threshold, inserts, cuts, |groups|) && Flatten(groups[cuts[|inserts|]..]) == []
  }

  /** Some choice of cut points explains the inserts. */
  ghost predicate Greedy<T>(groups: seq<seq<T>>, threshold: nat, inserts: seq<seq<T>>) {
    exists cuts: seq<nat> :: Cuts(groups, threshold, inserts, cuts)
  }

  /** Writing out the buffer, which holds the groups from the last cut up to
      `upTo`, adds one insert and one cut. */
  lemma CutAt<T>(groups: seq<seq<T>>, threshold: nat, inserts: seq<seq<T>>, cuts: seq<nat>, upTo: nat)
    requires 1 <= upTo <= |groups| && CutsUpTo(groups, threshold, inserts, cuts, upTo)
    requires cuts[|inserts|] < upTo
    requires |Flatten(groups[cuts[|inserts|]..upTo - 1])| < threshold
    ensures CutsUpTo(groups, threshold, inserts + [Flatten(groups[cuts[|inserts|]..upTo])], cuts + [upTo], upTo)
  {
    var n := |inserts|;
    var ins := inserts + [Flatten(groups[cuts[n]..upTo])];
    var cs := cuts + [upTo];
    assert Piece(groups, threshold, ins[n], cs[n], cs[n + 1]);
    forall k | 0 <= k < |ins|
      ensures Piece(groups, threshold, ins[k], cs[k], cs[k + 1])
    {
      if k < n {
        assert ins[k] == inserts[k] && cs[k] == cuts[k] && cs[k + 1] == cuts[k + 1];
      }
    }
    assert forall k | 0 <= k < |cs| :: cs[k] <= upTo;
  }

  /** A group that does not fill the buffer moves the bound on. */
  lemma CutsExtend<T>(groups: seq<seq<T>>, threshold: nat, inserts: seq<seq<T>>, cuts: seq<nat>, upTo: nat)
    requires upTo < |groups| && CutsUpTo(groups, threshold, inserts, cuts, upTo)
    ensures CutsUpTo(groups, threshold, inserts, cuts, upTo + 1)
  {
  }

  /** With every group accounted for and nothing left over, the cuts are
      complete. */
  lemma CutsDone<T>(groups: seq<seq<T>>, threshold: nat, inserts: seq<seq<T>>, cuts: seq<nat>)
    requires CutsUpTo(groups, threshold, inserts, cuts, |groups|)
    requires Flatten(groups[cuts[|inserts|]..|groups|]) == []
    ensures Greedy(groups, threshold, inserts)
  {
    assert groups[cuts[|inserts|]..] == groups[cuts[|inserts|]..|groups|];
    assert Cuts(groups, threshold, inserts, cuts);
  }

  /** The state of the buffer after the first `i` groups: the inserts
      written so far and the buffer hold the rows of those groups in order,
      every insert reached the threshold, the buffer has not, and the
      buffer holds the groups from the last cut. */
  ghost predicate BufferState<T>(groups: seq<seq<T>>, threshold: nat, inserts: seq<seq<T>>, cuts: seq<nat>, buf: seq<T>, i: nat) {
    && i <= |groups|
    && Flatten(inserts) + buf == Flatten(groups[..i])
    && (forall k | 0 <= k < |inserts| :: |inserts[k]| >= threshold)
    && |buf| < threshold
    && CutsUpTo(groups, threshold, inserts, cuts, i)
    && buf == Flatten(groups[cuts[|inserts|]..i])
  }

  /** One group moves the buffer on; if that fills it, writing it out adds
      an insert and a cut. */
  lemma BufferStep<T>(groups: seq<seq<T>>, threshold: nat, inserts: seq<seq<T>>, cuts: seq<nat>, buf: seq<T>, i: nat)
    requires i < |groups| && BufferState(groups, threshold, inserts, cuts, buf, i)
    ensures |buf + groups[i]| < threshold ==> BufferState(groups, threshold, inserts, cuts, buf + groups[i], i + 1)
    ensures |buf + groups[i]| >= threshold ==> BufferState(groups, threshold, inserts + [buf + groups[i]], cuts + [i + 1], [], i + 1)
  {
    assert groups[..i + 1] == groups[..i] + [groups[i]];
    FlattenSnoc(groups[..i], groups[i]);
    FlattenSliceSnoc(groups, cuts[|inserts|], i);
    CutsExtend(groups, threshold, inserts, cuts, i);
    var next := buf + groups[i];
    if |next| >= threshold {
      FlattenSnoc(inserts, next);
      CutAt(groups, threshold, inserts, cuts, i + 1);
      assert groups[i + 1..i + 1] == [];
    }
  }

  /** After the last group, what is left in the buffer is the last insert,
      if there is anything left. */
  lemma BufferEnd<T>(groups: seq<seq<T>>, threshold: nat, inserts: seq<seq<T>>, cuts: seq<nat>, buf: seq<T>)
    requires threshold > 0 && BufferState(groups, threshold, inserts, cuts, buf, |groups|)
    ensures var all := if |buf| > 0 then inserts + [buf] else inserts;
      && Flatten(all) == Flatten(groups)
      && (forall k | 0 <= k < |all| :: |all[k]| > 0)
      && (forall k | 0 <= k < |all| - 1 :: |all[k]| >= threshold)
      && Greedy(groups, threshold, all)
  {
    assert groups[..|groups|] == groups;
    if |buf| > 0 {
      FlattenSnoc(inserts, buf);
      BufferEndCut(groups, threshold, inserts, cuts, buf);
    } else {
      CutsDone(groups, threshold, inserts, cuts);
    }
  }

  /** A non-empty remainder is the piece from the last cut to the end. */
  lemma BufferEndCut<T>(groups: seq<seq<T>>, threshold: nat, inserts: seq<seq<T>>, cuts: seq<nat>, buf: seq<T>)
    requires CutsUpTo(groups, threshold, inserts, cuts, |groups|)
    requires buf == Flatten(groups[cuts[|inserts|]..|groups|]) && 0 < |buf| < threshold
    ensures Greedy(groups, threshold, inserts + [buf])
  {
    assert |groups[cuts[|inserts|]..|groups|]| != 0;
    FlattenSliceSnoc(groups, cuts[|inserts|], |groups| - 1);
    CutAt(groups, threshold, inserts, cuts, |groups|);
    assert groups[|groups|..|groups|] == [];
    CutsDone(groups, threshold, inserts + [buf], cuts + [|groups|]);
  }

  /** One buffer fed with the rows of each event in turn: the batch inserts
      it performs. Every row reaches exactly one insert, in order; no insert
      is empty; every insert but the last holds at least `threshold` rows;
      and each insert is whole consecutive groups, written once the
      threshold is reached. */
  method Buffer<T>(groups: seq<seq<T>>, threshold: nat) returns (inserts: seq<seq<T>>)
    requires threshold > 0
    ensures Flatten(inserts) == Flatten(groups)
    ensures forall k | 0 <= k < |inserts| :: |inserts[k]| > 0
    ensures forall k | 0 <= k < |inserts| - 1 :: |inserts[k]| >= threshold
    ensures Greedy(groups, threshold, inserts)
  {
    var buf: seq<T> := [];
    inserts := [];
    ghost var cuts: seq<nat> := [0];
    for i := 0 to |groups|
      invariant BufferState(groups, threshold, inserts, cuts, buf, i)
    {
      BufferStep(groups, threshold, inserts, cuts, buf, i);
      buf := buf + groups[i];
      if |buf| >= threshold {
        inserts := inserts + [buf];
        cuts := cuts + [i + 1];
        buf := [];
      }
    }
    BufferEnd(groups, threshold, inserts, cuts, buf);
    if |buf| > 0 {
      inserts := inserts + [buf];
    }
  }

  /** The frame-time buffer is never flushed inside the loop: one insert at
      the end, if there is anything to insert. */
  function FlushAtEnd<T>(groups: seq<seq<T>>): (inserts: seq<seq<T>>)
    ensures Flatten(inserts) == Flatten(groups)
    ensures |inserts| <= 1
    ensures forall k | 0 <= k < |inserts| :: |inserts[k]| > 0
  {
    if |Flatten(groups)| == 0 then [] else [Flatten(groups)]
  }
}

=== FILE: can_names.dfy ===
/** The names under which decoded CAN signals are stored and listed:
    `CAN_0x%03X_<signal>` (src/core/segment_importer.py,
    tools/import_signal_definitions_sqlite.py,
    release/v1.0/tools/import_signal_definitions.py) and the `0x%03X`
    rendering of an arbitration id. */
module CanNames {
  import opened Wrappers
  import opened Strings

  const CanPrefix: string := "CAN_0x"

  /** `f"0x{can_id:03X}"`. */
  function HexId(address: nat): (r: string)
    ensures StartsWith(r, "0x") && |r| >= 5
    ensures ParseHex(r[2..]) == Some(address)
  {
    var r := "0x" + Hex3(address);
    assert r[2..] == Hex3(address);
    Hex3RoundTrip(address);
    r
  }

  /** `f"CAN_0x{can_id:03X}_{signal_name}"`. */
  function CanSignalName(address: nat, signal: string): (r: string)
    ensures StartsWith(r, CanPrefix)
    ensures EndsWith(r, "_" + signal)
  {
    var front := CanPrefix + Hex3(address);
    var r := front + ("_" + signal);
    assert r[..|CanPrefix|] == CanPrefix;
    assert r[|r| - |"_" + signal|..] == "_" + signal;
    r
  }

  /** Reads a stored CAN signal name back: the address is the hex run after
      `CAN_0x` up to the first `_`, the signal is everything after it. */
  function ParseCanSignalName(name: string): (r: Option<(nat, string)>)
    ensures r.Some? ==> StartsWith(name, CanPrefix)
  {
    if !StartsWith(name, CanPrefix) then None
    else
      var rest := name[|CanPrefix|..];
      match Find(rest, "_")
      case None => None
      case Some(i) =>
        var hex := rest[..i];
        if |hex| > 0 && AllHexDigits(hex) then Some((HexValue(hex), rest[i + 1..])) else None
  }

  /** The stored name determines the address and the signal: parsing it
      gives back what it was built from. */
  lemma CanSignalNameRoundTrip(address: nat, signal: string)
    ensures ParseCanSignalName(CanSignalName(address, signal)) == Some((address, signal))
  {
    var name := CanSignalName(address, signal);
    var h := Hex3(address);
    var rest := name[|CanPrefix|..];
    assert rest == h + "_" + signal;
    assert OccursAt(rest, "_", |h|);
    forall j: nat | j < |h| ensures !OccursAt(rest, "_", j) {
      assert rest[j] == h[j];
      assert IsHexDigit(h[j]);
    }
    assert Find(rest, "_") == Some(|h|);
    assert rest[..|h|] == h;
    assert rest[|h| + 1..] == signal;
    Hex3Value(address);
  }

  /** The digits of `%03X` read back as the number. */
  lemma Hex3Value(n: nat)
    ensures HexValue(Hex3(n)) == n
  {
    Hex3RoundTrip(n);
    ParseHexDigits(Hex3(n));
  }

  /** Two signals share a stored name only if they share address and name. */
  lemma CanSignalNameInjective(a1: nat, s1: string, a2: nat, s2: string)
    requires CanSignalName(a1, s1) == CanSignalName(a2, s2)
    ensures a1 == a2 && s1 == s2
  {
    CanSignalNameRoundTrip(a1, s1);
    CanSignalNameRoundTrip(a2, s2);
  }
}

=== FILE: capnp_annotations.dfy ===
/** The field-comment extractor of release/v1.0/src/utils/capnp_annotation_extractor.py:
    finds a struct in the lines of a `.capnp` file by brace counting, reads
    the `name @n :Type;  # comment` lines at its top level, and translates
    the comments into Chinese through a phrase table. Reading the files is
    left to the caller: a file is its list of lines, `None` when absent. */
module CapnpAnnotations {
  import opened Wrappers
  import opened Strings
  import Seqs

  // ---------------------------------------------------------------------------
  // Brace counting
  // ---------------------------------------------------------------------------

  /** The number of `{` minus the number of `}`. */
  function Balance(s: string): int {
    if |s| == 0 then 0
    else Balance(s[..|s| - 1]) + (if s[|s| - 1] == '{' then 1 else if s[|s| - 1] == '}' then -1 else 0)
  }

  lemma {:induction false} BalanceAppend(a: string, b: string)
    decreases |b|
    ensures Balance(a + b) == Balance(a) + Balance(b)
  {
    if |b| > 0 {
      assert (a + b)[..|a + b| - 1] == a + b[..|b| - 1];
      assert (a + b)[|a + b| - 1] == b[|b| - 1];
      BalanceAppend(a, b[..|b| - 1]);
    } else {
      assert a + b == a;
    }
  }

  /** Starting from depth `count` (and `started` if a `{` was already seen),
      the `}` at index `q` of `s` brings the depth back to 0 after a `{`. */
  predicate ClosesAt(s: string, count: int, started: bool, q: nat) {
    q < |s| && s[q] == '}' && count + Balance(s[..q + 1]) == 0 && (started || '{' in s[..q])
  }

  /** The character loop from index `i`, where the depth is `count` and
      `started` says whether a `{` has been seen. */
  function CloseFrom(s: string, i: nat, count: int, started: bool): Option<nat>
    requires i <= |s|
    decreases |s| - i
  {
    if i == |s| then None
    else if s[i] == '{' then CloseFrom(s, i + 1, count + 1, true)
    else if s[i] == '}' then
      if started && count - 1 == 0 then Some(i) else CloseFrom(s, i + 1, count - 1, started)
    else CloseFrom(s, i + 1, count, started)
  }

  lemma {:induction false} CloseFromFirst(s: string, count0: int, started0: bool, i: nat, count: int, started: bool)
    requires i <= |s|
    requires count == count0 + Balance(s[..i]) && started == (started0 || '{' in s[..i])
    requires forall q: nat | q < i :: !ClosesAt(s, count0, started0, q)
    decreases |s| - i
    ensures var r := CloseFrom(s, i, count, started);
      && (r.Some? ==> ClosesAt(s, count0, started0, r.value) && forall q: nat | q < r.value :: !ClosesAt(s, count0, started0, q))
      && (r.None? ==> forall q: nat | q < |s| :: !ClosesAt(s, count0, started0, q))
  {
    if i < |s| {
      assert s[..i + 1][..i] == s[..i];
      assert Balance(s[..i + 1]) == Balance(s[..i]) + (if s[i] == '{' then 1 else if s[i] == '}' then -1 else 0);
      assert '{' in s[..i + 1] <==> '{' in s[..i] || s[i] == '{' by {
        assert s[..i + 1] == s[..i] + [s[i]];
      }
      if s[i] == '{' {
        CloseFromFirst(s, count0, started0, i + 1, count + 1, true);
      } else if s[i] == '}' {
        if !(started && count - 1 == 0) {
          CloseFromFirst(s, count0, started0, i + 1, count - 1, started);
        }
      } else {
        CloseFromFirst(s, count0, started0, i + 1, count, started);
      }
    }
  }

  /** The character loop of `struct_end` on one line: the index of the `}`
      that brings the depth from `count` back to 0 after a `{` (one already
      seen when `started`). */
  function FirstClose(s: string, count: int, started: bool): Option<nat> {
    CloseFrom(s, 0, count, started)
  }

  /** `FirstClose` finds the first closing `}` of the line, and `None`
      exactly when the line has none. */
  lemma FirstCloseSpec(s: string, count: int, started: bool)
    ensures var r := FirstClose(s, count, started);
      && (r.Some? ==> ClosesAt(s, count, started, r.value))
      && (r.Some? ==> forall q: nat | q < r.value :: !ClosesAt(s, count, started, q))
      && (r.None? <==> forall q: nat | q < |s| :: !ClosesAt(s, count, started, q))
  {
    assert s[..0] == [];
    CloseFromFirst(s, count, started, 0, count, started);
  }

  /** A line without `}` closes nothing. */
  lemma NoCloseWithoutBrace(s: string, count: int, started: bool)
    requires '}' !in s
    ensures FirstClose(s, count, started).None?
  {
    FirstCloseSpec(s, count, started);
    forall q: nat | q < |s| ensures !ClosesAt(s, count, started, q) {
      assert s[q] in s;
    }
  }

  /** All lines from `start` up to `j`, joined. */
  function Concat(lines: seq<string>): string {
    if |lines| == 0 then "" else Concat(lines[..|lines| - 1]) + lines[|lines| - 1]
  }

  /** The line loop from line `i`, with the depth and `started` carried over
      from the lines before it. */
  function EndFrom(lines: seq<string>, i: nat, count: int, started: bool): Option<nat>
    requires i <= |lines|
    decreases |lines| - i
  {
    if i == |lines| then None
    else if FirstClose(lines[i], count, started).Some? then Some(i)
    else EndFrom(lines, i + 1, count + Balance(lines[i]), started || '{' in lines[i])
  }

  /** Line `j` closes the struct opened at line `start`: reading the lines
      from `start` on, the depth first returns to 0 after a `{` on line `j`. */
  predicate ClosesOnLine(lines: seq<string>, start: nat, j: nat)
    requires start <= j < |lines|
  {
    var before := Concat(lines[start..j]);
    FirstClose(lines[j], Balance(before), '{' in before).Some?
  }

  lemma ConcatSnoc(lines: seq<string>, start: nat, i: nat)
    requires start <= i < |lines|
    ensures Concat(lines[start..i + 1]) == Concat(lines[start..i]) + lines[i]
  {
    var xs := lines[start..i + 1];
    assert xs[..|xs| - 1] == lines[start..i];
    assert xs[|xs| - 1] == lines[i];
  }

  lemma {:induction false} EndFromFirst(lines: seq<string>, start: nat, i: nat, count: int, started: bool)
    requires start <= i <= |lines|
    requires count == Balance(Concat(lines[start..i])) && started == ('{' in Concat(lines[start..i]))
    requires forall j | start <= j < i :: !ClosesOnLine(lines, start, j)
    decreases |lines| - i
    ensures var r := EndFrom(lines, i, count, started);
      && (r.Some? ==> i <= r.value < |lines| && ClosesOnLine(lines, start, r.value)
                      && forall j | start <= j < r.value :: !ClosesOnLine(lines, start, j))
      && (r.None? ==> forall j | start <= j < |lines| :: !ClosesOnLine(lines, start, j))
  {
    if i < |lines| && FirstClose(lines[i], count, started).None? {
      var before := Concat(lines[start..i]);
      var after := Concat(lines[start..i + 1]);
      ConcatSnoc(lines, start, i);
      assert Balance(after) == count + Balance(lines[i]) by { BalanceAppend(before, lines[i]); }
      assert ('{' in after) == (started || '{' in lines[i]);
      assert !ClosesOnLine(lines, start, i);
      EndFromFirst(lines, start, i + 1, count + Balance(lines[i]), started || '{' in lines[i]);
    }
  }

  /** `struct_end`: the first line from `start` on where the depth returns to
      0 after the first `{`; `None` when the file ends first. */
  function StructEnd(lines: seq<string>, start: nat): (r: Option<nat>)
    requires start <= |lines|
    ensures r.Some? ==> start <= r.value < |lines| && ClosesOnLine(lines, start, r.value)
    ensures r.Some? ==> forall j | start <= j < r.value :: !ClosesOnLine(lines, start, j)
    ensures r.None? <==> forall j | start <= j < |lines| :: !ClosesOnLine(lines, start, j)
  {
    assert lines[start..start] == [];
    EndFromFirst(lines, start, start, 0, false);
    EndFrom(lines, start, 0, false)
  }

  // ---------------------------------------------------------------------------
  // Header and field lines
  // ---------------------------------------------------------------------------

  /** The length of the longest prefix of `s` whose characters satisfy `p`. */
  function SpanWhile(s: string, p: char -> bool): (n: nat)
    ensures n <= |s| && (forall k | 0 <= k < n :: p(s[k])) && (n < |s| ==> !p(s[n]))
  {
    if |s| > 0 && p(s[0]) then 1 + SpanWhile(s[1..], p) else 0
  }

  lemma {:induction false} SpanWhileExact(a: string, b: string, p: char -> bool)
    requires forall k | 0 <= k < |a| :: p(a[k])
    requires b == [] || !p(b[0])
    ensures SpanWhile(a + b, p) == |a|
  {
    if |a| > 0 {
      assert (a + b)[1..] == a[1..] + b;
      SpanWhileExact(a[1..], b, p);
    }
  }

  /** `re.match(rf'struct {struct_name}\s+', line)`. */
  predicate IsHeader(line: string, structName: string) {
    var p := "struct " + structName;
    StartsWith(line, p) && |line| > |p| && IsSpace(line[|p|])
  }

  /** Only `\w` characters. */
  predicate Word(s: string) {
    forall k | 0 <= k < |s| :: IsWordChar(s[k])
  }

  /** Drops leading whitespace; a string with none is returned as it is. */
  function SkipSpaces(s: string): (r: string)
    decreases |s|
    ensures |r| <= |s|
    ensures forall k | 0 <= k < |s| - |r| :: IsSpace(s[k])
    ensures r == [] || !IsSpace(r[0])
  {
    if |s| > 0 && IsSpace(s[0]) then SkipSpaces(s[1..]) else s
  }

  /** What is left is the rest of the string after the whitespace. */
  lemma {:induction false} SkipSpacesSuffix(s: string)
    decreases |s|
    ensures SkipSpaces(s) == s[|s| - |SkipSpaces(s)|..]
  {
    if |s| > 0 && IsSpace(s[0]) {
      SkipSpacesSuffix(s[1..]);
      assert s[1..][|s| - 1 - |SkipSpaces(s)|..] == s[|s| - |SkipSpaces(s)|..];
    }
  }

  /** A comment as the field pattern captures and strips it: empty, or with
      no whitespace at either end. */
  predicate Trimmed(comment: string) {
    comment == "" || (!IsSpace(comment[0]) && !IsSpace(comment[|comment| - 1]))
  }

  /** What follows the `;` of a field line, `\s*(?:#\s*(.+?))?$`: `None` when
      it does not match, the stripped comment otherwise (`""` for none). */
  function TrailingComment(g: string): (r: Option<string>)
    ensures r.Some? ==> Trimmed(r.value)
    ensures SkipSpaces(g) == "" ==> r == Some("")
    ensures SkipSpaces(g) != "" && SkipSpaces(g)[0] != '#' ==> r.None?
  {
    var g2 := SkipSpaces(g);
    if g2 == "" then Some("")
    else if g2[0] != '#' || |g2| == 1 then None
    else Some(Strip(g2[1..]))
  }

  /** `[^;]+;` and then the trailing comment. */
  function TypeAndComment(f: string): (r: Option<string>)
    ensures r.Some? ==> Trimmed(r.value)
    ensures r.Some? ==> exists j | 0 < j < |f| :: f[j] == ';'
  {
    match Find(f, ";")
    case None => None
    case Some(j) =>
      if j == 0 then None
      else
        assert f[j..j + 1] == ";";
        TrailingComment(f[j + 1..])
  }

  /** `\d+\s*:` and then the type and comment. */
  function NumberAndRest(c: string): (r: Option<string>)
    ensures r.Some? ==> Trimmed(r.value)
    ensures r.Some? ==> |c| > 0 && IsDigit(c[0])
  {
    var d := SpanWhile(c, IsDigit);
    var e2 := SkipSpaces(c[d..]);
    if d == 0 || e2 == "" || e2[0] != ':' then None else TypeAndComment(e2[1..])
  }

  /** `re.match(r'(\w+)\s+@\d+\s*:[^;]+;\s*(?:#\s*(.+?))?$', line)`: the field
      name and its stripped comment. */
  function FieldLine(line: string): (r: Option<(string, string)>)
    ensures r.Some? ==> r.value.0 != "" && StartsWith(line, r.value.0)
    ensures r.Some? ==> Word(r.value.0)
    ensures r.Some? ==> Trimmed(r.value.1)
  {
    var n := SpanWhile(line, IsWordChar);
    var name := line[..n];
    assert Word(name);
    var a := line[n..];
    var b := SkipSpaces(a);
    if n == 0 || |b| == |a| || b == "" || b[0] != '@' then None
    else
      match NumberAndRest(b[1..])
      case None => None
      case Some(comment) => Some((name, comment))
  }

  /** The comment part as schema files write it. */
  function FormatComment(comment: string): string {
    if comment == "" then "" else "  # " + comment
  }

  /** A field line as schema files write it. */
  function FormatField(name: string, number: string, typ: string, comment: string): string {
    name + " @" + (number + " :" + (typ + ";" + FormatComment(comment)))
  }

  lemma {:induction false} SkipSpacesBefore(spaces: string, rest: string)
    requires forall k | 0 <= k < |spaces| :: IsSpace(spaces[k])
    requires rest == [] || !IsSpace(rest[0])
    ensures SkipSpaces(spaces + rest) == rest
  {
    if |spaces| > 0 {
      assert (spaces + rest)[1..] == spaces[1..] + rest;
      SkipSpacesBefore(spaces[1..], rest);
    }
  }

  lemma StripAfterSpace(comment: string)
    requires comment != "" && Trimmed(comment)
    ensures Strip(" " + comment) == comment
  {
    assert (" " + comment)[1..] == comment;
  }

  lemma TrailingCommentRoundTrip(comment: string)
    requires Trimmed(comment)
    ensures TrailingComment(FormatComment(comment)) == Some(comment)
  {
    var g := FormatComment(comment);
    if comment != "" {
      var g2 := "# " + comment;
      assert g == "  " + g2;
      assert SkipSpaces(g) == g2 by { SkipSpacesBefore("  ", g2); }
      assert g2[0] == '#' && |g2| > 1;
      assert g2[1..] == " " + comment;
      assert Strip(g2[1..]) == comment by { StripAfterSpace(comment); }
    } else {
      assert SkipSpaces(g) == "";
    }
  }

  lemma TypeAndCommentRoundTrip(typ: string, tail: string)
    requires typ != "" && ';' !in typ
    ensures TypeAndComment(typ + ";" + tail) == TrailingComment(tail)
  {
    var f := typ + ";" + tail;
    assert OccursAt(f, ";", |typ|) by { assert f[|typ|..|typ| + 1] == ";"; }
    forall k: nat | k < |typ| ensures !OccursAt(f, ";", k) {
      assert f[k..k + 1][0] == f[k] == typ[k];
      assert typ[k] in typ;
    }
    var j := Find(f, ";").value;
    assert f[j + 1..] == tail;
  }

  lemma NumberAndRestRoundTrip(number: string, rest: string)
    requires number != "" && AllDigits(number)
    ensures NumberAndRest(number + " :" + rest) == TypeAndComment(rest)
  {
    var c := number + " :" + rest;
    var e := " " + (":" + rest);
    assert c == number + e;
    assert SpanWhile(c, IsDigit) == |number| by { SpanWhileExact(number, e, IsDigit); }
    assert c[|number|..] == e;
    assert SkipSpaces(e) == ":" + rest by { SkipSpacesBefore(" ", ":" + rest); }
    assert (":" + rest)[1..] == rest;
  }

  lemma FieldLineSplit(name: string, c: string)
    requires name != "" && Word(name)
    ensures FieldLine(name + " @" + c) == if NumberAndRest(c).Some? then Some((name, NumberAndRest(c).value)) else None
  {
    FieldLineHead(name, c);
    assert ("@" + c)[1..] == c;
  }

  /** The name, the spaces and the `@` of a field line. */
  lemma FieldLineHead(name: string, c: string)
    requires name != "" && Word(name)
    ensures var line := name + " @" + c;
      && SpanWhile(line, IsWordChar) == |name| && line[..|name|] == name
      && |line[|name|..]| == |c| + 2 && SkipSpaces(line[|name|..]) == "@" + c
  {
    var line := name + " @" + c;
    var a := " " + ("@" + c);
    assert line == name + a;
    assert SpanWhile(line, IsWordChar) == |name| by { SpanWhileExact(name, a, IsWordChar); }
    assert line[|name|..] == a;
    assert line[..|name|] == name;
    SkipSpacesBefore(" ", "@" + c);
  }

  /** A well-formed field line reads back as its name and comment. */
  lemma FieldLineRoundTrip(name: string, number: string, typ: string, comment: string)
    requires name != "" && Word(name)
    requires number != "" && AllDigits(number)
    requires typ != "" && ';' !in typ
    requires Trimmed(comment)
    ensures FieldLine(FormatField(name, number, typ, comment)) == Some((name, comment))
  {
    var rest := typ + ";" + FormatComment(comment);
    assert TypeAndComment(rest) == Some(comment) by {
      TypeAndCommentRoundTrip(typ, FormatComment(comment));
      TrailingCommentRoundTrip(comment);
    }
    assert NumberAndRest(number + " :" + rest) == Some(comment) by {
      NumberAndRestRoundTrip(number, rest);
    }
    FieldLineSplit(name, number + " :" + rest);
  }

  // ---------------------------------------------------------------------------
  // Top-level fields of a struct
  // ---------------------------------------------------------------------------

  /** A line that opens a nested struct, enum or union. */
  predicate Opener(line: string) {
    Contains(line, "struct ") || Contains(line, "enum ") || Contains(line, "union ")
  }

  /** The state of the field loop: inside a nested block (and its depth),
      and the fields found so far. */
  datatype Scan = Scan(nested: bool, depth: int, fields: map<string, string>)

  /** A reader of one stripped line into a field name and comment. */
  type FieldParser = string -> Option<(string, string)>

  /** One line of the field loop, with `parse` reading field lines. */
  function Step(st: Scan, raw: string, parse: FieldParser): Scan {
    var line := Strip(raw);
    if line == "" || line[0] == '#' then st
    else
      var nested := st.nested || Opener(line);
      var depth := if Opener(line) then 0 else st.depth;
      if nested then
        if FirstClose(line, depth, true).Some? then Scan(false, 0, st.fields)
        else Scan(true, depth + Balance(line), st.fields)
      else match parse(line)
        case Some((name, comment)) => st.(fields := st.fields[name := comment])
        case None => st
  }

  /** One line of a loop over lines. */
  type LineStep = (Scan, string) -> Scan

  /** The field loop's step, with `parse` reading field lines. */
  function StepWith(parse: FieldParser): LineStep {
    (st: Scan, raw: string) => Step(st, raw, parse)
  }

  /** The loop over `lines`. */
  function Fields(st: Scan, lines: seq<string>, step: LineStep): Scan
    decreases |lines|
  {
    if |lines| == 0 then st else Fields(step(st, lines[0]), lines[1..], step)
  }

  /** A top-level field line: not blank, not a comment, opening no block,
      and matching the field pattern. */
  predicate IsFieldLine(raw: string, name: string, comment: string, parse: FieldParser) {
    var line := Strip(raw);
    line != "" && line[0] != '#' && !Opener(line) && parse(line) == Some((name, comment))
  }

  /** Line `i` of `lines` is a top-level field line. */
  predicate FieldAt(lines: seq<string>, i: nat, name: string, comment: string, parse: FieldParser)
    requires i < |lines|
  {
    IsFieldLine(lines[i], name, comment, parse)
  }

  /** One line adds at most its own field and leaves the other rows alone. */
  lemma StepSound(st: Scan, raw: string, parse: FieldParser)
    ensures var r := Step(st, raw, parse).fields;
      forall k | k in r && !(k in st.fields && r[k] == st.fields[k]) :: IsFieldLine(raw, k, r[k], parse)
  {
    var line := Strip(raw);
    var r := Step(st, raw, parse).fields;
    if line == "" || line[0] == '#' || st.nested || Opener(line) || parse(line).None? {
      assert r == st.fields;
    } else {
      var (name, comment) := parse(line).value;
      assert r == st.fields[name := comment];
      assert IsFieldLine(raw, name, comment, parse);
    }
  }

  /** At the top level, a field line adds its field, keeps the others and
      stays at the top level. */
  lemma StepRecords(st: Scan, raw: string, parse: FieldParser)
    requires !st.nested && !Opener(Strip(raw))
    ensures !Step(st, raw, parse).nested
    ensures st.fields.Keys <= Step(st, raw, parse).fields.Keys
    ensures forall name, comment | IsFieldLine(raw, name, comment, parse) :: name in Step(st, raw, parse).fields
  {
  }

  /** Each step adds at most the field of its own line. */
  ghost predicate SoundStep(step: LineStep, parse: FieldParser) {
    forall st: Scan, raw: string, k | k in step(st, raw).fields && !(k in st.fields && step(st, raw).fields[k] == st.fields[k]) ::
      IsFieldLine(raw, k, step(st, raw).fields[k], parse)
  }

  /** At the top level, each step on a line opening no block records the
      line's field, keeps the others and stays at the top level. */
  ghost predicate RecordingStep(step: LineStep, parse: FieldParser) {
    forall st: Scan, raw: string | !st.nested && !Opener(Strip(raw)) ::
      && !step(st, raw).nested
      && st.fields.Keys <= step(st, raw).fields.Keys
      && forall name, comment | IsFieldLine(raw, name, comment, parse) :: name in step(st, raw).fields
  }

  lemma StepWithSound(parse: FieldParser)
    ensures SoundStep(StepWith(parse), parse)
  {
    forall st: Scan, raw: string ensures var r := StepWith(parse)(st, raw).fields;
      forall k | k in r && !(k in st.fields && r[k] == st.fields[k]) :: IsFieldLine(raw, k, r[k], parse)
    {
      StepSound(st, raw, parse);
    }
  }

  lemma StepWithRecords(parse: FieldParser)
    ensures RecordingStep(StepWith(parse), parse)
  {
    forall st: Scan, raw: string | !st.nested && !Opener(Strip(raw))
      ensures var r := StepWith(parse)(st, raw);
        && !r.nested && st.fields.Keys <= r.fields.Keys
        && forall name, comment | IsFieldLine(raw, name, comment, parse) :: name in r.fields
    {
      StepRecords(st, raw, parse);
    }
  }

  /** Every field the loop records comes from a field line (so never from a
      line that opens a block), with that line's comment. */
  lemma {:induction false} FieldsSound(st: Scan, lines: seq<string>, step: LineStep, parse: FieldParser)
    requires SoundStep(step, parse)
    decreases |lines|
    ensures var r := Fields(st, lines, step).fields;
      forall k | k in r :: (k in st.fields && r[k] == st.fields[k]) || exists raw | raw in lines :: IsFieldLine(raw, k, r[k], parse)
  {
    if |lines| > 0 {
      var st1 := step(st, lines[0]);
      FieldsSound(st1, lines[1..], step, parse);
      var r := Fields(st, lines, step).fields;
      assert r == Fields(st1, lines[1..], step).fields;
      assert lines[0] in lines;
      assert forall raw | raw in lines[1..] :: raw in lines;
    }
  }

  /** Outside any nested block and with no line opening one, every field
      line is recorded. */
  lemma {:induction false} FlatFieldsComplete(st: Scan, lines: seq<string>, step: LineStep, parse: FieldParser)
    requires RecordingStep(step, parse)
    requires !st.nested
    requires forall i | 0 <= i < |lines| :: !Opener(Strip(lines[i]))
    decreases |lines|
    ensures forall i, name, comment | 0 <= i < |lines| && FieldAt(lines, i, name, comment, parse) ::
      name in Fields(st, lines, step).fields
    ensures forall k | k in st.fields :: k in Fields(st, lines, step).fields
  {
    if |lines| > 0 {
      var st1 := step(st, lines[0]);
      forall i | 0 <= i < |lines[1..]| ensures !Opener(Strip(lines[1..][i])) {
        assert lines[1..][i] == lines[i + 1];
      }
      FlatFieldsComplete(st1, lines[1..], step, parse);
      assert Fields(st, lines, step) == Fields(st1, lines[1..], step);
      forall i, name, comment | 0 <= i < |lines| && FieldAt(lines, i, name, comment, parse)
        ensures name in Fields(st, lines, step).fields
      {
        if i > 0 {
          assert lines[1..][i - 1] == lines[i];
          assert FieldAt(lines[1..], i - 1, name, comment, parse);
        }
      }
    }
  }

  /** A string with no braces leaves the depth unchanged. */
  lemma {:induction false} BraceFreeBalance(s: string)
    requires '{' !in s && '}' !in s
    ensures Balance(s) == 0
  {
    if |s| > 0 {
      assert s[|s| - 1] in s;
      assert forall c | c in s[..|s| - 1] :: c in s;
      BraceFreeBalance(s[..|s| - 1]);
    }
  }

  /** A line inside a nested block that is blank, a comment, or free of
      braces and opens no further block. */
  predicate QuietLine(raw: string) {
    var l := Strip(raw);
    l == "" || l[0] == '#' || (!Opener(l) && '{' !in l && '}' !in l)
  }

  /** A quiet line inside a nested block changes nothing. */
  lemma QuietStep(st: Scan, raw: string, parse: FieldParser)
    requires st.nested && QuietLine(raw)
    ensures Step(st, raw, parse) == st
  {
    var l := Strip(raw);
    if !(l == "" || l[0] == '#') {
      BraceFreeBalance(l);
      NoCloseWithoutBrace(l, st.depth, true);
    }
  }

  /** Lines on which the step leaves the state as it is can be dropped. */
  lemma {:induction false} UnchangedLinesSkipped(st: Scan, body: seq<string>, more: seq<string>, step: LineStep)
    requires forall i | 0 <= i < |body| :: step(st, body[i]) == st
    decreases |body|
    ensures Fields(st, body + more, step) == Fields(st, more, step)
  {
    if |body| > 0 {
      var x := body + more;
      assert x[0] == body[0];
      assert x[1..] == body[1..] + more;
      assert Fields(st, x, step) == Fields(st, x[1..], step);
      forall i | 0 <= i < |body[1..]| ensures step(st, body[1..][i]) == st {
        assert body[1..][i] == body[i + 1];
      }
      UnchangedLinesSkipped(st, body[1..], more, step);
    } else {
      assert body + more == more;
    }
  }

  /** A line opening a block with one `{` and no `}` enters it at depth 1. */
  lemma OpenerStep(st: Scan, header: string, parse: FieldParser)
    requires !st.nested
    requires Opener(Strip(header)) && Strip(header)[0] != '#'
    requires Balance(Strip(header)) == 1 && '}' !in Strip(header)
    ensures Step(st, header, parse) == Scan(true, 1, st.fields)
  {
    NoCloseWithoutBrace(Strip(header), 0, true);
  }

  /** A line holding only `}` at depth 1 leaves the block. */
  lemma CloserStep(st: Scan, closer: string, parse: FieldParser)
    requires st.nested && st.depth == 1 && Strip(closer) == "}"
    ensures Step(st, closer, parse) == Scan(false, 0, st.fields)
  {
    MissingCharNoOccurrence("}", "struct ", 0);
    MissingCharNoOccurrence("}", "enum ", 0);
    MissingCharNoOccurrence("}", "union ", 0);
    assert FirstClose("}", 1, true) == Some(0);
  }

  /** A block opened by a line with one `{` and no `}`, a body of quiet
      lines, and a line holding only `}`: the loop skips all of it, whatever
      the body says, and is back at the top level afterwards. */
  lemma NestedBlockSkipped(st: Scan, header: string, body: seq<string>, closer: string, rest: seq<string>, parse: FieldParser)
    requires !st.nested
    requires Opener(Strip(header)) && Strip(header)[0] != '#'
    requires Balance(Strip(header)) == 1 && '}' !in Strip(header)
    requires forall i | 0 <= i < |body| :: QuietLine(body[i])
    requires Strip(closer) == "}"
    ensures var step := StepWith(parse);
      Fields(st, [header] + (body + ([closer] + rest)), step) == Fields(Scan(false, 0, st.fields), rest, step)
  {
    var step := StepWith(parse);
    var tail := [closer] + rest;
    var lines := [header] + (body + tail);
    var st1 := Scan(true, 1, st.fields);
    assert Fields(st, lines, step) == Fields(st1, body + tail, step) by {
      OpenerStep(st, header, parse);
      assert lines[0] == header;
      assert lines[1..] == body + tail;
    }
    assert Fields(st1, body + tail, step) == Fields(st1, tail, step) by {
      forall i | 0 <= i < |body| ensures step(st1, body[i]) == st1 {
        QuietStep(st1, body[i], parse);
      }
      UnchangedLinesSkipped(st1, body, tail, step);
    }
    assert Fields(st1, tail, step) == Fields(Scan(false, 0, st.fields), rest, step) by {
      CloserStep(st1, closer, parse);
      assert tail[0] == closer;
      assert tail[1..] == rest;
    }
  }

  /** The index of the first line that opens the struct. */
  function HeaderIndex(lines: seq<string>, structName: string): (r: Option<nat>)
    ensures r.Some? ==> r.value < |lines| && IsHeader(lines[r.value], structName)
    ensures r.Some? ==> forall j | 0 <= j < r.value :: !IsHeader(lines[j], structName)
    ensures r.None? <==> forall j | 0 <= j < |lines| :: !IsHeader(lines[j], structName)
  {
    Seqs.FirstIndex(lines, (l: string) => IsHeader(l, structName))
  }

  /** The header line of the struct and the line that closes it. */
  function StructLines(lines: seq<string>, structName: string): (r: Option<(nat, nat)>)
    ensures r.Some? ==> r.value.0 <= r.value.1 < |lines|
    ensures r.Some? ==> HeaderIndex(lines, structName) == Some(r.value.0) && StructEnd(lines, r.value.0) == Some(r.value.1)
    ensures r.None? ==> HeaderIndex(lines, structName).None? || StructEnd(lines, HeaderIndex(lines, structName).value).None?
  {
    match HeaderIndex(lines, structName)
    case None => None
    case Some(s) =>
      match StructEnd(lines, s)
      case None => None
      case Some(e) => Some((s, e))
  }

  /** The fields read from the lines strictly between `s` and `e`. */
  function BodyFields(lines: seq<string>, s: nat, e: nat, parse: FieldParser): map<string, string>
    requires s <= e <= |lines|
  {
    if e <= s + 1 then map[] else Fields(Scan(false, 0, map[]), lines[s + 1..e], StepWith(parse)).fields
  }

  /** `extract_struct_fields`: the top-level fields strictly between the
      struct's header line and the line that closes it, each with its
      comment; empty when the struct or its end is missing. */
  function ExtractStructFields(lines: seq<string>, structName: string): (r: map<string, string>)
    ensures HeaderIndex(lines, structName).None? ==> r == map[]
  {
    match StructLines(lines, structName)
    case None => map[]
    case Some((s, e)) => BodyFields(lines, s, e, FieldLine)
  }

  lemma BodyFieldsSound(lines: seq<string>, s: nat, e: nat, parse: FieldParser)
    requires s <= e <= |lines|
    ensures var r := BodyFields(lines, s, e, parse);
      forall k | k in r :: exists raw | raw in lines[s + 1..e] :: IsFieldLine(raw, k, r[k], parse)
  {
    if e > s + 1 {
      StepWithSound(parse);
      FieldsSound(Scan(false, 0, map[]), lines[s + 1..e], StepWith(parse), parse);
    }
  }

  /** Every extracted field comes from a top-level field line between the
      struct's header and its closing line, carrying that line's comment. */
  lemma ExtractSound(lines: seq<string>, structName: string)
    ensures var r := ExtractStructFields(lines, structName);
      r != map[] ==> StructLines(lines, structName).Some?
    ensures var r := ExtractStructFields(lines, structName);
      forall k | k in r :: exists raw | raw in lines[StructLines(lines, structName).value.0 + 1..StructLines(lines, structName).value.1] ::
        IsFieldLine(raw, k, r[k], FieldLine)
  {
    match StructLines(lines, structName)
    case None =>
    case Some((s, e)) => BodyFieldsSound(lines, s, e, FieldLine);
  }

  /** In a struct with no nested blocks, every field line is extracted. */
  lemma BodyFieldsCompleteFlat(lines: seq<string>, s: nat, e: nat, parse: FieldParser, i: nat, name: string, comment: string)
    requires s < i < e <= |lines|
    requires forall j | s < j < e :: !Opener(Strip(lines[j]))
    requires FieldAt(lines, i, name, comment, parse)
    ensures name in BodyFields(lines, s, e, parse)
  {
    var body := lines[s + 1..e];
    forall j | 0 <= j < |body| ensures !Opener(Strip(body[j])) {
      assert body[j] == lines[s + 1 + j];
    }
    assert body[i - s - 1] == lines[i];
    assert FieldAt(body, i - s - 1, name, comment, parse);
    StepWithRecords(parse);
    FlatFieldsComplete(Scan(false, 0, map[]), body, StepWith(parse), parse);
  }

  /** In a struct with no nested blocks, every field line is extracted. */
  lemma ExtractCompleteFlat(lines: seq<string>, structName: string, i: nat, name: string, comment: string)
    requires StructLines(lines, structName).Some?
    requires var (s, e) := StructLines(lines, structName).value;
      s < i < e && forall j | s < j < e :: !Opener(Strip(lines[j]))
    requires FieldAt(lines, i, name, comment, FieldLine)
    ensures name in ExtractStructFields(lines, structName)
  {
    var (s, e) := StructLines(lines, structName).value;
    BodyFieldsCompleteFlat(lines, s, e, FieldLine, i, name, comment);
  }

  // ---------------------------------------------------------------------------
  // Translation
  // ---------------------------------------------------------------------------

  /** The phrase table, in its insertion order. */
  const Translations: seq<(string, string)> := [
    ("best estimate of speed", "速度最佳估計值"),
    ("best estimate of acceleration", "加速度最佳估計值"),
    ("unfiltered speed from CAN sensors", "來自 CAN 感測器的未過濾速度"),
    ("best estimate of speed shown on car's instrument cluster, used for UI", "儀表板顯示速度（用於 UI）"),
    ("best estimate of yaw rate", "偏航率最佳估計值"),
    ("this is user pedal only", "僅為使用者踏板"),
    ("gas pedal", "油門踏板"),
    ("brake pedal", "煞車踏板"),
    ("steering wheel", "方向盤"),
    ("Offset betweens sensors in case there multiple", "多個感測器間的偏移"),
    ("if the user is using the steering wheel", "使用者是否正在使用方向盤"),
    ("temporary EPS fault", "暫時 EPS 故障"),
    ("permanent EPS fault", "永久 EPS 故障"),
    ("actual set speed", "實際設定速度"),
    ("set speed to display in the UI", "UI 顯示的設定速度"),
    ("can OP be engaged?", "OP 可否啟動？"),
    ("invalid counter/checksums", "無效的計數器/校驗和"),
    ("CAN bus dropped out", "CAN 匯流排斷線"),
    ("some ECU is faulted, but car remains controllable", "某個 ECU 故障，但車輛仍可控制"),
    ("path curvature from vehicle model", "車輛模型的路徑曲率"),
    ("lag adjusted curvatures used by lateral controllers", "橫向控制器使用的延遲調整曲率"),
    ("UI alerts", "UI 警報")
  ]

  /** Key `i` of `table` occurs, ignoring case, inside `comment`. */
  predicate KeyInside(table: seq<(string, string)>, comment: string, i: nat)
    requires i < |table|
  {
    Contains(Lower(comment), Lower(table[i].0))
  }

  /** `translate_comment` over a phrase table: an empty comment stays
      empty, an exact key gives its phrase, then the first key found inside
      the comment ignoring case gives its phrase, and otherwise the comment
      is kept. */
  function TranslateWith(table: seq<(string, string)>, comment: string): (r: string)
    ensures comment == "" ==> r == ""
    ensures r == comment || exists i | 0 <= i < |table| :: table[i].1 == r
  {
    if comment == "" then comment
    else
      match Seqs.FirstIndex(table, (e: (string, string)) => e.0 == comment)
      case Some(i) => table[i].1
      case None =>
        match Seqs.FirstIndex(table, (e: (string, string)) => Contains(Lower(comment), Lower(e.0)))
        case Some(i) => table[i].1
        case None => comment
  }

  /** The table's keys are distinct, as the keys of a dictionary are. */
  predicate DistinctKeys(table: seq<(string, string)>) {
    forall i, j | 0 <= i < j < |table| :: table[i].0 != table[j].0
  }

  /** A comment that is a key gives that key's phrase. */
  lemma TranslateExact(table: seq<(string, string)>, comment: string, i: nat)
    requires DistinctKeys(table)
    requires comment != "" && i < |table| && table[i].0 == comment
    ensures TranslateWith(table, comment) == table[i].1
  {
    var p := (e: (string, string)) => e.0 == comment;
    var k := Seqs.FirstIndex(table, p);
    assert p(table[i]);
    assert k.value == i;
  }

  /** A comment that is no key gives the phrase of the first key inside it,
      ignoring case. */
  lemma TranslatePartial(table: seq<(string, string)>, comment: string, i: nat)
    requires comment != "" && i < |table|
    requires forall j | 0 <= j < |table| :: table[j].0 != comment
    requires KeyInside(table, comment, i) && forall j | 0 <= j < i :: !KeyInside(table, comment, j)
    ensures TranslateWith(table, comment) == table[i].1
  {
    var p := (e: (string, string)) => e.0 == comment;
    assert Seqs.FirstIndex(table, p).None? by {
      forall j | 0 <= j < |table| ensures !p(table[j]) { }
    }
    var q := (e: (string, string)) => Contains(Lower(comment), Lower(e.0));
    var k := Seqs.FirstIndex(table, q);
    assert q(table[i]);
    assert k.value == i by {
      if k.value < i { assert q(table[k.value]); assert KeyInside(table, comment, k.value); }
    }
  }

  /** A comment with no key equal to it or inside it is kept. */
  lemma TranslateKept(table: seq<(string, string)>, comment: string)
    requires forall j | 0 <= j < |table| :: table[j].0 != comment && !KeyInside(table, comment, j)
    ensures TranslateWith(table, comment) == comment
  {
    var p := (e: (string, string)) => e.0 == comment;
    var q := (e: (string, string)) => Contains(Lower(comment), Lower(e.0));
    if comment != "" {
      assert Seqs.FirstIndex(table, p).None? by {
        forall j | 0 <= j < |table| ensures !p(table[j]) { }
      }
      assert Seqs.FirstIndex(table, q).None? by {
        forall j | 0 <= j < |table| ensures !q(table[j]) { assert !KeyInside(table, comment, j); }
      }
    }
  }

  // ---------------------------------------------------------------------------
  // The loaded annotations and queries on them
  // ---------------------------------------------------------------------------

  /** The extractor's `annotations`: the fields of `CarState` and of
      `ControlsState`, each present once its schema file was loaded. */
  datatype Annotations = Annotations(carState: Option<map<string, string>>, controlsState: Option<map<string, string>>)

  /** `load_all_annotations`: `car.capnp` and `log.capnp` as their lines,
      `None` when the file does not exist; a missing file leaves its entry
      as it was. */
  function LoadAll(a: Annotations, carCapnp: Option<seq<string>>, logCapnp: Option<seq<string>>): (r: Annotations)
    ensures carCapnp.None? ==> r.carState == a.carState
    ensures logCapnp.None? ==> r.controlsState == a.controlsState
    ensures carCapnp.Some? ==> r.carState == Some(ExtractStructFields(carCapnp.value, "CarState"))
    ensures logCapnp.Some? ==> r.controlsState == Some(ExtractStructFields(logCapnp.value, "ControlsState"))
  {
    Annotations(
      if carCapnp.Some? then Some(ExtractStructFields(carCapnp.value, "CarState")) else a.carState,
      if logCapnp.Some? then Some(ExtractStructFields(logCapnp.value, "ControlsState")) else a.controlsState)
  }

  /** The struct name of a loaded entry and its fields. */
  function Loaded(a: Annotations): map<string, map<string, string>> {
    (if a.carState.Some? then map["CarState" := a.carState.value] else map[])
    + (if a.controlsState.Some? then map["ControlsState" := a.controlsState.value] else map[])
  }

  /** `struct_name[0].lower() + struct_name[1:]`. */
  function SignalType(structName: string): (r: string)
    ensures |r| == |structName|
  {
    if structName == "" then "" else [LowerChar(structName[0])] + structName[1..]
  }

  /** The signal types of the two structs the extractor loads. */
  lemma SignalTypes()
    ensures SignalType("CarState") == "carState" && SignalType("ControlsState") == "controlsState"
  {
    assert "CarState"[1..] == "arState";
    assert "ControlsState"[1..] == "ontrolsState";
  }

  /** The `type_mapping` of `get_signal_description`. */
  function StructOf(signalType: string): Option<string> {
    if signalType == "carState" then Some("CarState")
    else if signalType == "controlsState" then Some("ControlsState")
    else None
  }

  /** The type mapping inverts `SignalType` on every struct that can be
      loaded. */
  lemma StructOfSignalType(a: Annotations, structName: string)
    requires structName in Loaded(a)
    ensures StructOf(SignalType(structName)) == Some(structName)
  {
    SignalTypes();
  }

  /** `get_signal_description`: the comment of a field of a loaded struct
      (translated through `table` when asked), and `None` for an unknown
      signal type, a struct not loaded, an unknown field or an empty
      comment. */
  function GetSignalDescription(a: Annotations, table: seq<(string, string)>, signalType: string, fieldName: string, translate: bool): (r: Option<string>)
    ensures r.Some? <==> (StructOf(signalType).Some? && StructOf(signalType).value in Loaded(a)
      && fieldName in Loaded(a)[StructOf(signalType).value] && Loaded(a)[StructOf(signalType).value][fieldName] != "")
    ensures r.Some? && !translate ==> r.value == Loaded(a)[StructOf(signalType).value][fieldName]
  {
    var loaded := Loaded(a);
    match StructOf(signalType)
    case None => None
    case Some(name) =>
      if name !in loaded || fieldName !in loaded[name] || loaded[name][fieldName] == "" then None
      else
        var comment := loaded[name][fieldName];
        Some(if translate then TranslateWith(table, comment) else comment)
  }

  /** The descriptions of one struct's fields: translated only when asked
      and only for non-empty comments. */
  function Describe(fields: map<string, string>, table: seq<(string, string)>, translate: bool): (r: map<string, string>)
    ensures r.Keys == fields.Keys
    ensures forall f | f in fields && (fields[f] == "" || !translate) :: r[f] == fields[f]
  {
    map f | f in fields :: if translate && fields[f] != "" then TranslateWith(table, fields[f]) else fields[f]
  }

  /** `get_all_descriptions`: for each loaded struct, keyed by its signal
      type, the description of each of its fields. */
  function GetAllDescriptions(a: Annotations, table: seq<(string, string)>, translate: bool): (r: map<string, map<string, string>>)
    ensures forall st :: st in r <==> StructOf(st).Some? && StructOf(st).value in Loaded(a)
    ensures forall st | st in r :: r[st].Keys == Loaded(a)[StructOf(st).value].Keys
    ensures !translate ==> forall st | st in r :: r[st] == Loaded(a)[StructOf(st).value]
  {
    var loaded := Loaded(a);
    map st | st in {"carState", "controlsState"} && StructOf(st).Some? && StructOf(st).value in loaded ::
      Describe(loaded[StructOf(st).value], table, translate)
  }

  /** The single query and the bulk one agree on every field with a comment. */
  lemma DescriptionsAgree(a: Annotations, table: seq<(string, string)>, structName: string, fieldName: string, translate: bool)
    requires structName in Loaded(a) && fieldName in Loaded(a)[structName]
    ensures var d := GetSignalDescription(a, table, SignalType(structName), fieldName, translate);
      d.Some? <==> Loaded(a)[structName][fieldName] != ""
    ensures var d := GetSignalDescription(a, table, SignalType(structName), fieldName, translate);
      d.Some? ==> d.value == GetAllDescriptions(a, table, translate)[SignalType(structName)][fieldName]
  {
    StructOfSignalType(a, structName);
    SignalTypes();
  }

  /** One field in `export_to_dict`. */
  datatype Description = Description(en: string, cn: string)

  /** `export_to_dict`: both the stored comment and its translation for
      every field of every loaded struct. */
  function ExportToDict(a: Annotations, table: seq<(string, string)>): (r: map<string, map<string, Description>>)
    ensures r.Keys == GetAllDescriptions(a, table, true).Keys
    ensures forall st | st in r :: r[st].Keys == GetAllDescriptions(a, table, true)[st].Keys
    ensures forall st, f | st in r && f in r[st] ::
      r[st][f].en == GetAllDescriptions(a, table, false)[st][f] && r[st][f].cn == GetAllDescriptions(a, table, true)[st][f]
  {
    var en := GetAllDescriptions(a, table, false);
    map st | st in en ::
      map f | f in en[st] :: Description(en[st][f], if en[st][f] != "" then TranslateWith(table, en[st][f]) else "")
  }
}

=== FILE: chart_widget.dfy ===
/** The time-series chart of src/ui/chart_widget.py: the ±10 s query
    window, the frame skipping while playing, the filtering of NULL
    samples, the hover read-out, and the choice and layout of a second Y
    axis. The database query is a parameter; values are exact reals. */
module ChartWidget {
  import opened Wrappers
  import Seqs

  /** One second, in nanoseconds. */
  const Second: int := 1_000_000_000
  /** Half the width of the query window. */
  const Window: int := 10 * Second

  // ---------------------------------------------------------------------------
  // The query window

  function Max(a: int, b: int): int { if a < b then b else a }
  function Min(a: int, b: int): int { if a < b then a else b }

  /** `update_charts`: ±10 s around the current time, cut to the segment's
      bounds where they are known. */
  function QueryWindow(current: int, segStart: Option<int>, segEnd: Option<int>): (r: (int, int))
  {
    var lo := current - Window;
    var hi := current + Window;
    (if segStart.Some? then Max(lo, segStart.value) else lo,
     if segEnd.Some? then Min(hi, segEnd.value) else hi)
  }

  /** A time is queried iff it is within 10 s of the current time and
      inside the known segment bounds. */
  lemma QueryWindowExact(current: int, segStart: Option<int>, segEnd: Option<int>, t: int)
    ensures var (lo, hi) := QueryWindow(current, segStart, segEnd);
      lo <= t <= hi <==>
        && current - Window <= t <= current + Window
        && (segStart.Some? ==> segStart.value <= t)
        && (segEnd.Some? ==> t <= segEnd.value)
  {
  }

  // ---------------------------------------------------------------------------
  // Frame skipping

  /** Charts redraw on every third call while playing. */
  const SkipInterval: nat := 3

  datatype Playback = Playback(playing: bool, counter: nat)

  /** The state after `update_time_window`, whether the charts were
      redrawn, and whether `charts_updated` was emitted. */
  datatype Tick = Tick(next: Playback, redrawn: bool, emitted: bool)

  function UpdateTimeWindow(p: Playback): (r: Tick)
    ensures r.emitted
    ensures r.next.playing == p.playing
    ensures !p.playing ==> r.redrawn && r.next.counter == 0
    ensures p.playing && p.counter < SkipInterval ==> r.next.counter < SkipInterval
  {
    if p.playing then
      var c := p.counter + 1;
      if c >= SkipInterval then Tick(Playback(true, 0), true, true)
      else Tick(Playback(true, c), false, true)
    else Tick(Playback(false, 0), true, true)
  }

  /** `n` calls in a row: the final state and the number of redraws. */
  function Ticks(p: Playback, n: nat): (Playback, nat)
    decreases n
  {
    if n == 0 then (p, 0)
    else
      var t := UpdateTimeWindow(p);
      var (q, k) := Ticks(t.next, n - 1);
      (q, k + if t.redrawn then 1 else 0)
  }

  /** While playing, `n` calls from counter `c` redraw `(c + n) / 3` times
      and leave the counter at `(c + n) % 3`. */
  lemma {:induction false} PlayingRedraws(c: nat, n: nat)
    requires c < SkipInterval
    decreases n
    ensures Ticks(Playback(true, c), n) == (Playback(true, (c + n) % SkipInterval), (c + n) / SkipInterval)
  {
    if n > 0 {
      if c + 1 == SkipInterval {
        PlayingRedraws(0, n - 1);
        assert (n - 1) / SkipInterval + 1 == (c + n) / SkipInterval;
        assert (n - 1) % SkipInterval == (c + n) % SkipInterval;
      } else {
        PlayingRedraws(c + 1, n - 1);
      }
    }
  }

  /** While paused, every call redraws. */
  lemma {:induction false} PausedRedraws(c: nat, n: nat)
    decreases n
    ensures Ticks(Playback(false, c), n).1 == n
  {
    if n > 0 {
      PausedRedraws(0, n - 1);
    }
  }

  // ---------------------------------------------------------------------------
  // Plotted data

  /** A row as the query returns it; `None` is a NULL value. */
  type Row = (int, Option<real>)
  /** A plotted sample. */
  type Point = (int, real)

  /** The rows of a signal with a value, in order. */
  function Plotted(rows: seq<Row>): (r: seq<Point>)
    decreases |rows|
    ensures |r| <= |rows|
    ensures forall t, v :: (t, v) in r <==> (t, Some(v)) in rows
  {
    if |rows| == 0 then []
    else
      var rest := Plotted(rows[1..]);
      assert forall x :: x in rows <==> x == rows[0] || x in rows[1..];
      if rows[0].1.Some? then [(rows[0].0, rows[0].1.value)] + rest else rest
  }

  /** Dropping NULL rows keeps the order of the rest. */
  lemma {:induction false} PlottedKeepsOrder(rows: seq<Row>, i: nat, j: nat)
    requires i < j < |rows| && rows[i].1.Some? && rows[j].1.Some?
    decreases |rows|
    ensures exists a, b | 0 <= a < b < |Plotted(rows)| ::
      Plotted(rows)[a] == (rows[i].0, rows[i].1.value) && Plotted(rows)[b] == (rows[j].0, rows[j].1.value)
  {
    var p := Plotted(rows);
    var rest := Plotted(rows[1..]);
    var pi, pj := (rows[i].0, rows[i].1.value), (rows[j].0, rows[j].1.value);
    assert p == if rows[0].1.Some? then [(rows[0].0, rows[0].1.value)] + rest else rest;
    assert rows[1..][j - 1] == rows[j];
    if i == 0 {
      assert pj in rest;
      var b :| 0 <= b < |rest| && rest[b] == pj;
      assert 0 < b + 1 < |p| && p[0] == pi && p[b + 1] == pj;
    } else {
      assert rows[1..][i - 1] == rows[i];
      PlottedKeepsOrder(rows[1..], i - 1, j - 1);
      var a, b :| 0 <= a < b < |rest| && rest[a] == pi && rest[b] == pj;
      if rows[0].1.Some? {
        assert 0 <= a + 1 < b + 1 < |p| && p[a + 1] == pi && p[b + 1] == pj;
      } else {
        assert 0 <= a < b < |p| && p[a] == pi && p[b] == pj;
      }
    }
  }

  /** The signals drawn: those with at least one value, each with its
      values, in the query's order. */
  function PlotData(all: seq<(string, seq<Row>)>): (r: seq<(string, seq<Point>)>)
    decreases |all|
    ensures |r| <= |all|
    ensures forall k | 0 <= k < |r| :: |r[k].1| > 0
    ensures forall n, pts :: (n, pts) in r <==> exists k | 0 <= k < |all| :: all[k].0 == n && pts == Plotted(all[k].1) && |pts| > 0
  {
    if |all| == 0 then []
    else
      var rest := PlotData(all[1..]);
      var pts := Plotted(all[0].1);
      assert forall k | 1 <= k < |all| :: all[k] == all[1..][k - 1];
      if |pts| > 0 then [(all[0].0, pts)] + rest else rest
  }

  // ---------------------------------------------------------------------------
  // Hover

  function Dist(a: int, b: int): nat {
    if a < b then b - a else a - b
  }

  /** The nearest-sample search of `on_mouse_moved`: the index of the
      first sample at the least distance from the hover time. */
  method Nearest(data: seq<Point>, hover: int) returns (best: Option<nat>)
    ensures best.None? <==> |data| == 0
    ensures best.Some? ==> best.value < |data|
    ensures best.Some? ==> forall j | 0 <= j < |data| :: Dist(data[j].0, hover) >= Dist(data[best.value].0, hover)
    ensures best.Some? ==> forall j | 0 <= j < best.value :: Dist(data[j].0, hover) > Dist(data[best.value].0, hover)
  {
    best := None;
    for i := 0 to |data|
      invariant best.None? <==> i == 0
      invariant best.Some? ==> best.value < i
      invariant best.Some? ==> forall j | 0 <= j < i :: Dist(data[j].0, hover) >= Dist(data[best.value].0, hover)
      invariant best.Some? ==> forall j | 0 <= j < best.value :: Dist(data[j].0, hover) > Dist(data[best.value].0, hover)
    {
      if best.None? || Dist(data[i].0, hover) < Dist(data[best.value].0, hover) {
        best := Some(i);
      }
    }
  }

  /** `on_mouse_moved`'s value for one signal: the nearest sample's value,
      shown only when it lies less than a second away. */
  method HoverValue(data: seq<Point>, hover: int) returns (shown: Option<real>)
    ensures shown.Some? <==> exists j | 0 <= j < |data| :: Dist(data[j].0, hover) < Second
    ensures shown.Some? ==> exists j | 0 <= j < |data| ::
      (&& data[j].1 == shown.value
       && Dist(data[j].0, hover) < Second
       && (forall k | 0 <= k < |data| :: Dist(data[k].0, hover) >= Dist(data[j].0, hover))
       && (forall k | 0 <= k < j :: Dist(data[k].0, hover) > Dist(data[j].0, hover)))
  {
    var best := Nearest(data, hover);
    match best
    case None =>
      shown := None;
    case Some(i) =>
      if Dist(data[i].0, hover) < Second {
        shown := Some(data[i].1);
      } else {
        shown := None;
      }
  }

  // ---------------------------------------------------------------------------
  // The second Y axis

  function MaxOf(xs: seq<real>): (m: real)
    requires |xs| > 0
    ensures m in xs && forall k | 0 <= k < |xs| :: xs[k] <= m
  {
    if |xs| == 1 then xs[0]
    else
      var rest := MaxOf(xs[1..]);
      assert forall k | 1 <= k < |xs| :: xs[k] == xs[1..][k - 1];
      if xs[0] < rest then rest else xs[0]
  }

  function MinOf(xs: seq<real>): (m: real)
    requires |xs| > 0
    ensures m in xs && forall k | 0 <= k < |xs| :: m <= xs[k]
  {
    if |xs| == 1 then xs[0]
    else
      var rest := MinOf(xs[1..]);
      assert forall k | 1 <= k < |xs| :: xs[k] == xs[1..][k - 1];
      if rest < xs[0] then rest else xs[0]
  }

  function Values(pts: seq<Point>): (r: seq<real>)
    ensures |r| == |pts| && forall k | 0 <= k < |r| :: r[k] == pts[k].1
  {
    seq(|pts|, k requires 0 <= k < |pts| => pts[k].1)
  }

  /** The spread of a signal's values. */
  function Range(pts: seq<Point>): (r: real)
    requires |pts| > 0
    ensures r >= 0.0
  {
    MaxOf(Values(pts)) - MinOf(Values(pts))
  }

  type Series = seq<(string, seq<Point>)>

  /** The non-empty signals, each with its smallest and largest value. */
  function Ranges(data: Series): (r: seq<(real, real)>)
    decreases |data|
    ensures |r| <= |data|
    ensures forall k | 0 <= k < |r| :: r[k].0 <= r[k].1
  {
    if |data| == 0 then []
    else
      var rest := Ranges(data[1..]);
      var pts := data[0].1;
      if |pts| > 0 then [(MinOf(Values(pts)), MaxOf(Values(pts)))] + rest else rest
  }

  predicate HasValues(e: (string, seq<Point>)) {
    |e.1| > 0
  }

  /** A signal's smallest and largest value; nothing for a signal with no
      values. */
  function Bounds(e: (string, seq<Point>)): (real, real) {
    if |e.1| > 0 then (MinOf(Values(e.1)), MaxOf(Values(e.1))) else (0.0, 0.0)
  }

  /** `Ranges` lists the bounds of the signals with values, in the order
      of the signals, one pair per such signal. */
  lemma {:induction false} RangesInOrder(data: Series)
    ensures Seqs.Selects(data, HasValues, Bounds, Ranges(data))
  {
    if |data| == 0 {
      assert Seqs.SelectedAt(data, HasValues, Bounds, [], []);
    } else {
      RangesInOrder(data[1..]);
      Seqs.SelectsCons(data, HasValues, Bounds, Ranges(data[1..]));
    }
  }

  function Lows(rs: seq<(real, real)>): (r: seq<real>)
    ensures |r| == |rs| && forall k | 0 <= k < |r| :: r[k] == rs[k].0
  {
    seq(|rs|, k requires 0 <= k < |rs| => rs[k].0)
  }

  function Highs(rs: seq<(real, real)>): (r: seq<real>)
    ensures |r| == |rs| && forall k | 0 <= k < |r| :: r[k] == rs[k].1
  {
    seq(|rs|, k requires 0 <= k < |rs| => rs[k].1)
  }

  /** Some range takes up less than a tenth of the global range. */
  predicate Compressed(rs: seq<(real, real)>, global: real) {
    exists k | 0 <= k < |rs| :: (rs[k].1 - rs[k].0) * 10.0 < global
  }

  /** `_should_use_dual_y_axis`: enabled, two signals or more, two with
      values or more, a non-zero global range, and one signal's range below
      10 % of it. */
  function ShouldUseDual(enabled: bool, data: Series): (r: bool)
  {
    if !enabled || |data| < 2 then false
    else
      var rs := Ranges(data);
      if |rs| < 2 then false
      else
        var global := MaxOf(Highs(rs)) - MinOf(Lows(rs));
        if global == 0.0 then false
        else Compressed(rs, global)
  }

  /** Dual axes need two signals with values. */
  lemma DualNeedsTwo(enabled: bool, data: Series)
    ensures ShouldUseDual(enabled, data) ==> enabled && |Ranges(data)| >= 2
  {
  }

  /** The global range covers every signal's range, so no signal's range
      exceeds it. */
  lemma GlobalCoversRanges(rs: seq<(real, real)>)
    requires |rs| > 0 && forall k | 0 <= k < |rs| :: rs[k].0 <= rs[k].1
    ensures forall k | 0 <= k < |rs| :: rs[k].1 - rs[k].0 <= MaxOf(Highs(rs)) - MinOf(Lows(rs))
  {
    forall k | 0 <= k < |rs| ensures rs[k].1 - rs[k].0 <= MaxOf(Highs(rs)) - MinOf(Lows(rs)) {
      assert Highs(rs)[k] == rs[k].1 && Lows(rs)[k] == rs[k].0;
    }
  }

  /** A flat signal next to a varying one calls for a second axis. */
  lemma FlatBesideVarying(data: Series, flat: nat)
    requires |Ranges(data)| >= 2 && flat < |Ranges(data)|
    requires Ranges(data)[flat].0 == Ranges(data)[flat].1
    requires exists k | 0 <= k < |Ranges(data)| :: Ranges(data)[k].0 < Ranges(data)[k].1
    ensures ShouldUseDual(true, data)
  {
    var rs := Ranges(data);
    var k :| 0 <= k < |rs| && rs[k].0 < rs[k].1;
    GlobalCoversRanges(rs);
    assert (rs[flat].1 - rs[flat].0) * 10.0 < MaxOf(Highs(rs)) - MinOf(Lows(rs));
  }

  /** Signals that all span the same interval share one axis. */
  lemma SameSpanOneAxis(enabled: bool, data: Series)
    requires forall k | 0 <= k < |Ranges(data)| :: Ranges(data)[k] == Ranges(data)[0]
    ensures !ShouldUseDual(enabled, data)
  {
    var rs := Ranges(data);
    if enabled && |data| >= 2 && |rs| >= 2 {
      var lo := MinOf(Lows(rs));
      var hi := MaxOf(Highs(rs));
      assert lo == rs[0].0 by {
        var i :| 0 <= i < |rs| && Lows(rs)[i] == lo;
      }
      assert hi == rs[0].1 by {
        var i :| 0 <= i < |rs| && Highs(rs)[i] == hi;
      }
      forall k | 0 <= k < |rs| ensures !((rs[k].1 - rs[k].0) * 10.0 < hi - lo) {
      }
    }
  }

  // ---------------------------------------------------------------------------
  // The dual-axis layout

  /** A drawn signal's range; every drawn signal has a value. */
  function Spread(e: (string, seq<Point>)): real {
    if |e.1| > 0 then Range(e.1) else 0.0
  }

  /** The first index with the largest key. */
  function Widest<T>(xs: seq<T>, key: T -> real): (i: nat)
    requires |xs| > 0
    decreases |xs|
    ensures i < |xs|
    ensures forall k | 0 <= k < |xs| :: key(xs[k]) <= key(xs[i])
    ensures forall k | 0 <= k < i :: key(xs[k]) < key(xs[i])
  {
    if |xs| == 1 then 0
    else
      var j := Widest(xs[1..], key) + 1;
      assert forall k | 1 <= k < |xs| :: xs[k] == xs[1..][k - 1];
      if key(xs[0]) < key(xs[j]) then j else 0
  }

  predicate Descending<T>(xs: seq<T>, key: T -> real) {
    forall i, j | 0 <= i < j < |xs| :: key(xs[i]) >= key(xs[j])
  }

  /** A head no smaller than the rest keeps a descending list descending. */
  lemma ConsDescending<T>(y: T, rest: seq<T>, key: T -> real)
    requires Descending(rest, key)
    requires forall k | 0 <= k < |rest| :: key(rest[k]) <= key(y)
    ensures Descending([y] + rest, key)
  {
    forall i, j | 0 <= i < j < |rest| + 1 ensures key(([y] + rest)[i]) >= key(([y] + rest)[j]) {
      if i > 0 {
        assert ([y] + rest)[i] == rest[i - 1];
      }
      assert ([y] + rest)[j] == rest[j - 1];
    }
  }

  /** A rearrangement of bounded elements and one more bounded element is
      bounded. */
  lemma BoundedPermutation<T>(r: seq<T>, xs: seq<T>, x: T, key: T -> real, bound: real)
    requires multiset(r) == multiset(xs) + multiset{x}
    requires key(x) <= bound && forall k | 0 <= k < |xs| :: key(xs[k]) <= bound
    ensures forall k | 0 <= k < |r| :: key(r[k]) <= bound
  {
    forall k | 0 <= k < |r| ensures key(r[k]) <= bound {
      assert r[k] in multiset(r);
      if r[k] != x {
        assert r[k] in xs;
      }
    }
  }

  /** Inserting into a list in descending key order, after the entries of
      equal key. */
  function InsertDesc<T>(x: T, xs: seq<T>, key: T -> real): (r: seq<T>)
    requires Descending(xs, key)
    decreases |xs|
    ensures multiset(r) == multiset(xs) + multiset{x}
    ensures Descending(r, key)
  {
    if |xs| == 0 then [x]
    else if key(xs[0]) >= key(x) then
      var rest := InsertDesc(x, xs[1..], key);
      assert xs == [xs[0]] + xs[1..];
      BoundedPermutation(rest, xs[1..], x, key, key(xs[0]));
      ConsDescending(xs[0], rest, key);
      [xs[0]] + rest
    else
      ConsDescending(x, xs, key);
      [x] + xs
  }

  /** A stable sort by descending key. */
  function SortDesc<T>(xs: seq<T>, key: T -> real): (r: seq<T>)
    decreases |xs|
    ensures multiset(r) == multiset(xs)
    ensures Descending(r, key)
  {
    if |xs| == 0 then []
    else
      assert xs == xs[..|xs| - 1] + [xs[|xs| - 1]];
      InsertDesc(xs[|xs| - 1], SortDesc(xs[..|xs| - 1], key), key)
  }

  /** The elements whose key is `v`. */
  function KeyIs<T>(key: T -> real, v: real): T -> bool {
    x => key(x) == v
  }

  /** Inserting puts the new element after every element of equal key. */
  lemma {:induction false} InsertDescStable<T>(x: T, xs: seq<T>, key: T -> real, v: real)
    requires Descending(xs, key)
    decreases |xs|
    ensures Seqs.Filter(InsertDesc(x, xs, key), KeyIs(key, v))
         == Seqs.Filter(xs, KeyIs(key, v)) + (if key(x) == v then [x] else [])
  {
    var p := KeyIs(key, v);
    var mine := if key(x) == v then [x] else [];
    if |xs| == 0 {
      FilterAbove(x, xs, key, v);
    } else if key(xs[0]) >= key(x) {
      assert xs == [xs[0]] + xs[1..];
      InsertDescStable(x, xs[1..], key, v);
      Seqs.FilterConsBoth(xs[0], xs[1..], InsertDesc(x, xs[1..], key), p, mine);
    } else {
      FilterAbove(x, xs, key, v);
    }
  }

  /** An element put in front of smaller keys comes after the (no) elements
      of its own key. */
  lemma FilterAbove<T>(x: T, xs: seq<T>, key: T -> real, v: real)
    requires forall k | 0 <= k < |xs| :: key(xs[k]) < key(x)
    ensures Seqs.Filter([x] + xs, KeyIs(key, v))
         == Seqs.Filter(xs, KeyIs(key, v)) + (if key(x) == v then [x] else [])
  {
    var p := KeyIs(key, v);
    Seqs.FilterCons(x, xs, p);
    if key(x) == v {
      forall k | 0 <= k < |xs| ensures !p(xs[k]) {
      }
      Seqs.FilterNone(xs, p);
    }
  }

  /** `SortDesc` is stable: the elements of any one key keep their order. */
  lemma {:induction false} SortDescStable<T>(xs: seq<T>, key: T -> real, v: real)
    decreases |xs|
    ensures Seqs.Filter(SortDesc(xs, key), KeyIs(key, v)) == Seqs.Filter(xs, KeyIs(key, v))
  {
    if |xs| > 0 {
      var p := KeyIs(key, v);
      var init := xs[..|xs| - 1];
      var last := xs[|xs| - 1];
      assert xs == init + [last];
      Seqs.FilterAppend(init, [last], p);
      var sorted := SortDesc(init, key);
      assert SortDesc(xs, key) == InsertDesc(last, sorted, key);
      SortDescStable(init, key, v);
      InsertDescStable(last, sorted, key, v);
      assert Seqs.Filter([last], p) == if key(last) == v then [last] else [] by {
        assert [last][1..] == [];
      }
    }
  }

  /** `_plot_with_dual_y_axis`: the first signal of widest range goes on
      the left axis, the others on the right, widest first. */
  function DualSplit(data: Series): (r: ((string, seq<Point>), Series))
    requires |data| >= 2
    ensures multiset{r.0} + multiset(r.1) == multiset(data)
    ensures |r.1| == |data| - 1
    ensures forall k | 0 <= k < |data| :: Spread(data[k]) <= Spread(r.0)
    ensures exists i | 0 <= i < |data| :: data[i] == r.0 && forall k | 0 <= k < i :: Spread(data[k]) < Spread(r.0)
    ensures Descending(r.1, Spread)
  {
    var w := Widest(data, Spread);
    var others := data[..w] + data[w + 1..];
    assert data == data[..w] + [data[w]] + data[w + 1..];
    var right := SortDesc(others, Spread);
    assert |right| == |multiset(right)| == |others|;
    (data[w], right)
  }

  // ---------------------------------------------------------------------------
  // A redraw

  /** What `update_charts` leaves on the chart. */
  datatype Chart =
    | Cleared
    | Single(window: (int, int), lines: Series)
    | Dual(window: (int, int), left: (string, seq<Point>), right: Series)

  /** `update_charts`: nothing is queried without a database, a segment
      and chosen signals; otherwise the window's rows, without NULLs, are
      drawn on one axis or split over two. */
  function UpdateCharts(hasDb: bool, segmentId: string, selected: seq<string>, current: int,
                        segStart: Option<int>, segEnd: Option<int>, dualEnabled: bool,
                        query: ((int, int)) -> seq<(string, seq<Row>)>): (r: Chart)
    ensures r.Cleared? <==> !hasDb || segmentId == "" || |selected| == 0
    ensures !r.Cleared? ==> r.window == QueryWindow(current, segStart, segEnd)
    ensures r.Single? ==> r.lines == PlotData(query(r.window))
    ensures r.Dual? ==> |PlotData(query(r.window))| >= 2 && ShouldUseDual(dualEnabled, PlotData(query(r.window)))
    ensures r.Dual? ==> multiset{r.left} + multiset(r.right) == multiset(PlotData(query(r.window)))
    // the axes are split exactly when the data calls for it
    ensures !r.Cleared? ==>
      (r.Dual? <==> ShouldUseDual(dualEnabled, PlotData(query(r.window))) && |PlotData(query(r.window))| >= 2)
    ensures r.Dual? ==> (r.left, r.right) == DualSplit(PlotData(query(r.window)))
  {
    if !hasDb || segmentId == "" || |selected| == 0 then Cleared
    else
      var window := QueryWindow(current, segStart, segEnd);
      var data := PlotData(query(window));
      if ShouldUseDual(dualEnabled, data) && |data| >= 2 then
        var (left, right) := DualSplit(data);
        Dual(window, left, right)
      else Single(window, data)
  }
}

=== FILE: custom_signal.dfy ===
/** The dialog that defines a custom signal
    (release/v1.0/src/ui/dialogs/custom_signal_dialog.py): which known
    signals a formula mentions, the checks `save_signal` makes before
    inserting a row into `custom_signals`, and the trial evaluation
    `test_formula` runs on the first stored sample of each mentioned
    signal. The stored samples, the user's answer to the "save anyway?"
    question and formula evaluation are parameters. */
module CustomSignalDialog {
  import opened Wrappers
  import opened Strings
  import Seqs
  import FormulaNames

  /** `^[a-zA-Z_][a-zA-Z0-9_]*$`, on a name that has been stripped. */
  predicate ValidName(n: string) {
    |n| > 0 && IsIdentStart(n[0]) && forall k | 0 <= k < |n| :: IsWordChar(n[k])
  }

  function IsAvailable(available: set<string>): string -> bool {
    n => n in available
  }

  /** The names in `matches` that are known signals, each once. */
  function KnownOnce(matches: seq<string>, available: set<string>): (r: seq<string>)
    ensures Seqs.NoDuplicates(r)
    ensures forall k | 0 <= k < |r| :: r[k] in available && r[k] in matches
    ensures forall m | m in matches && m in available :: m in r
  {
    var valid := Seqs.Filter(matches, IsAvailable(available));
    Seqs.FilterMembers(matches, IsAvailable(available));
    var r := Seqs.Distinct(valid);
    assert forall m | m in matches && m in available :: m in valid by {
      forall m | m in matches && m in available ensures m in valid {
        var k :| 0 <= k < |matches| && matches[k] == m;
      }
    }
    assert forall k | 0 <= k < |r| :: r[k] in valid;
    assert forall m | m in valid :: m in r by {
      forall m | m in valid ensures m in r {
        var k :| 0 <= k < |valid| && valid[k] == m;
      }
    }
    r
  }

  /** `extract_signal_names`: the names the dialog's pattern finds in the
      formula that are known signals, each once. */
  function ExtractSignalNames(formula: string, available: set<string>): (r: seq<string>)
    ensures Seqs.NoDuplicates(r)
    ensures forall k | 0 <= k < |r| :: r[k] in available && r[k] in FormulaNames.FindAll(formula, false)
    ensures forall m | m in FormulaNames.FindAll(formula, false) && m in available :: m in r
  {
    KnownOnce(FormulaNames.FindAll(formula, false), available)
  }

  /** An optional text field: empty after stripping is stored as NULL. */
  function Optional(s: string): (r: Option<string>)
    ensures r == None <==> Strip(s) == ""
    ensures r.Some? ==> r.value == Strip(s)
  {
    var v := Strip(s);
    if v == "" then None else Some(v)
  }

  /** A row of `custom_signals`. */
  datatype CustomSignal = CustomSignal(
    name: string, nameCn: Option<string>, description: Option<string>,
    formula: string, unit: Option<string>, unitCn: Option<string>)

  /** What the dialog's text fields hold when Save is pressed. */
  datatype Form = Form(name: string, nameCn: string, description: string,
                       formula: string, unit: string, unitCn: string)

  datatype SaveOutcome =
    | MissingName | MissingFormula | BadName | NotConfirmed | AlreadyExists | Saved

  /** The row `save_signal` inserts: the stripped name and formula, and
      each optional field stripped, NULL when empty. */
  function NewRow(name: string, formula: string, form: Form): (row: CustomSignal)
    ensures row.name == name && row.formula == formula
    ensures row.nameCn == None <==> Strip(form.nameCn) == ""
    ensures row.description == None <==> Strip(form.description) == ""
    ensures row.unit == None <==> Strip(form.unit) == ""
    ensures row.unitCn == None <==> Strip(form.unitCn) == ""
  {
    CustomSignal(name, Optional(form.nameCn), Optional(form.description),
                 formula, Optional(form.unit), Optional(form.unitCn))
  }

  /** `save_signal` once the fields are stripped: `known` says whether
      the formula mentions a known signal, `confirm` is the answer to the
      question asked when it does not, and `row` is the row to insert. */
  function SaveStripped(table: map<string, CustomSignal>, name: string, formula: string, row: CustomSignal,
                        known: bool, confirm: bool): (r: (SaveOutcome, map<string, CustomSignal>))
  {
    if name == "" then (MissingName, table)
    else if formula == "" then (MissingFormula, table)
    else if !ValidName(name) then (BadName, table)
    else if !known && !confirm then (NotConfirmed, table)
    else if name in table then (AlreadyExists, table)
    else (Saved, table[name := row])
  }

  /** `save_signal`: the outcome and the table after it. */
  function Save(table: map<string, CustomSignal>, form: Form, available: set<string>, confirm: bool)
    : (r: (SaveOutcome, map<string, CustomSignal>))
  {
    var name := Strip(form.name);
    var formula := Strip(form.formula);
    SaveStripped(table, name, formula, NewRow(name, formula, form),
                 ExtractSignalNames(formula, available) != [], confirm)
  }

  /** The checks come in the order the dialog makes them, and every outcome
      but `Saved` leaves the table as it was. */
  lemma SaveChecks(table: map<string, CustomSignal>, name: string, formula: string, row: CustomSignal,
                   known: bool, confirm: bool)
    ensures var r := SaveStripped(table, name, formula, row, known, confirm);
      (r.0 != Saved ==> r.1 == table)
      && (r.0 == MissingName <==> name == "")
      && (r.0 == MissingFormula <==> name != "" && formula == "")
      && (r.0 == BadName <==> name != "" && formula != "" && !ValidName(name))
      && (r.0 == NotConfirmed <==> ValidName(name) && formula != "" && !known && !confirm)
      && (r.0 == AlreadyExists <==> ValidName(name) && formula != "" && (known || confirm) && name in table)
  {
  }

  /** A row is stored exactly when the name is valid, the formula is not
      empty, the formula names a known signal or the user confirms, and the
      name is new; then that one row is added and nothing else in the table
      changes. */
  lemma SaveStores(table: map<string, CustomSignal>, name: string, formula: string, row: CustomSignal,
                   known: bool, confirm: bool)
    ensures var r := SaveStripped(table, name, formula, row, known, confirm);
      (r.0 == Saved <==> ValidName(name) && formula != "" && (known || confirm) && name !in table)
      && (r.0 == Saved ==>
            r.1.Keys == table.Keys + {name}
            && (forall n | n in table :: r.1[n] == table[n])
            && r.1[name] == row)
  {
  }

  /** The same for the dialog's fields: a valid new name with a non-empty
      formula that mentions a known signal, or is confirmed, is stored with
      its row built by `NewRow`. */
  lemma SaveForm(table: map<string, CustomSignal>, form: Form, available: set<string>, confirm: bool)
    requires ValidName(Strip(form.name)) && Strip(form.formula) != "" && Strip(form.name) !in table
    requires ExtractSignalNames(Strip(form.formula), available) != [] || confirm
    ensures var r := Save(table, form, available, confirm);
      r.0 == Saved && r.1 == table[Strip(form.name) := NewRow(Strip(form.name), Strip(form.formula), form)]
  {
    var name := Strip(form.name);
    var formula := Strip(form.formula);
    var known := ExtractSignalNames(formula, available) != [];
    var row := NewRow(name, formula, form);
    assert Save(table, form, available, confirm) == SaveStripped(table, name, formula, row, known, confirm);
    SaveStores(table, name, formula, row, known, confirm);
  }

  /** What `test_formula` reports. */
  datatype TestOutcome =
    | EmptyFormula
    | NoSegment
    | NoSignals
    | NoData(signal: string)
    | EvalFailed
    | Evaluated(signals: seq<string>, values: map<string, real>, result: real)

  /** The first stored value of each name in `names`, or the first name
      without any. */
  function FirstValues(names: seq<string>, first: string -> Option<real>): (r: Result<map<string, real>, string>)
    ensures r.Success? <==> forall k | 0 <= k < |names| :: first(names[k]).Some?
    ensures r.Success? ==> r.value.Keys == set k | 0 <= k < |names| :: names[k]
    ensures r.Success? ==> forall k | 0 <= k < |names| :: r.value[names[k]] == first(names[k]).value
    ensures r.Failure? ==> exists k | 0 <= k < |names| ::
      r.error == names[k] && first(names[k]).None? && forall l | 0 <= l < k :: first(names[l]).Some?
    decreases |names|
  {
    if |names| == 0 then Success(map[])
    else if first(names[0]).None? then Failure(names[0])
    else
      var rest := FirstValues(names[1..], first);
      assert forall k | 1 <= k < |names| :: names[k] == names[1..][k - 1];
      if rest.Failure? then
        var k :| 0 <= k < |names[1..]| && rest.error == names[1..][k] && first(names[1..][k]).None?
          && forall l | 0 <= l < k :: first(names[1..][l]).Some?;
        assert forall l | 1 <= l < k + 1 :: names[l] == names[1..][l - 1];
        Failure(rest.error)
      else
        var m := rest.value[names[0] := first(names[0]).value];
        assert m.Keys == set k | 0 <= k < |names| :: names[k] by {
          forall x | x in m.Keys ensures x in set k | 0 <= k < |names| :: names[k] {
            if x != names[0] {
              var k :| 0 <= k < |names[1..]| && names[1..][k] == x;
              assert names[k + 1] == x;
            }
          }
        }
        Success(m)
  }

  /** `test_formula` after the mentioned signals `names` are known. */
  function TestNames(formula: string, names: seq<string>, first: string -> Option<real>,
                     eval: (string, map<string, real>) -> Option<real>): (r: TestOutcome)
    ensures r == NoSignals <==> names == []
    ensures !r.EmptyFormula? && !r.NoSegment?
  {
    if names == [] then NoSignals
    else match FirstValues(names, first)
      case Failure(n) => NoData(n)
      case Success(values) =>
        match eval(formula, values)
        case None => EvalFailed
        case Some(v) => Evaluated(names, values, v)
  }

  /** `test_formula`. `segmentSelected` says whether a segment is chosen,
      `first(n)` is the first of the (up to ten) non-null samples of `n`
      in that segment, and `eval` evaluates the formula on the values. */
  function TestFormula(text: string, segmentSelected: bool, available: set<string>,
                       first: string -> Option<real>,
                       eval: (string, map<string, real>) -> Option<real>): (r: TestOutcome)
  {
    var formula := Strip(text);
    if formula == "" then EmptyFormula
    else if !segmentSelected then NoSegment
    else TestNames(formula, ExtractSignalNames(formula, available), first, eval)
  }

  /** A trial needs a formula and a segment, and stops when no known signal
      is mentioned. */
  lemma TestFormulaChecks(text: string, segmentSelected: bool, available: set<string>,
                          first: string -> Option<real>,
                          eval: (string, map<string, real>) -> Option<real>)
    ensures var r := TestFormula(text, segmentSelected, available, first, eval);
      (r == EmptyFormula <==> Strip(text) == "")
      && (r == NoSegment <==> Strip(text) != "" && !segmentSelected)
      && (r == NoSignals <==> Strip(text) != "" && segmentSelected
                              && ExtractSignalNames(Strip(text), available) == [])
  {
  }

  /** Over a non-empty list of mentioned signals, a trial stops at a signal
      with no stored sample when there is one; otherwise it evaluates the
      formula on exactly one value per mentioned signal, that signal's
      first sample, and reports the evaluation's result. */
  lemma TestNamesOutcome(formula: string, names: seq<string>, first: string -> Option<real>,
                         eval: (string, map<string, real>) -> Option<real>)
    requires names != []
    ensures var r := TestNames(formula, names, first, eval);
      (r.NoData? ==> r.signal in names && first(r.signal).None?)
      && (r.NoData? <==> exists n | n in names :: first(n).None?)
      && (r.EvalFailed? <==> (forall n | n in names :: first(n).Some?)
                             && eval(formula, map n | n in names :: first(n).value).None?)
      && (r.Evaluated? ==>
            r.signals == names
            && r.values == (map n | n in names :: first(n).value)
            && eval(formula, r.values) == Some(r.result))
  {
    var fv := FirstValues(names, first);
    if exists n | n in names :: first(n).None? {
      var n :| n in names && first(n).None?;
      var k :| 0 <= k < |names| && names[k] == n;
      assert !fv.Success?;
    }
    if fv.Success? {
      assert forall n | n in names :: first(n).Some? by {
        forall n | n in names ensures first(n).Some? {
          var k :| 0 <= k < |names| && names[k] == n;
        }
      }
      var m := map n | n in names :: first(n).value;
      assert fv.value == m by {
        forall n | n in names ensures n in fv.value && fv.value[n] == m[n] {
          var k :| 0 <= k < |names| && names[k] == n;
        }
        forall n | n in fv.value ensures n in names {
          var k :| 0 <= k < |names| && names[k] == n;
        }
      }
    }
  }
}

=== FILE: data_export.dfy ===
/** The data export of src/ui/dialogs/export_data_dialog.py: the chosen
    signals' samples laid out on one time axis, the union of their sample
    times, and written as CSV rows or Parquet columns. The database read is
    a parameter (`query`: a signal's `(time_ns, value)` samples in order);
    a NULL value is `None`. */
module DataExport {
  import opened Wrappers
  import Ordering
  import Upsert
  import Seqs

  /** One stored sample: its time and its possibly NULL value. */
  type Sample<V> = (int, Option<V>)

  /** The sample times of one signal. */
  function TimesOf<V>(data: seq<Sample<V>>): (r: seq<int>)
    ensures |r| == |data|
    ensures forall k | 0 <= k < |r| :: r[k] == data[k].0
  {
    seq(|data|, k requires 0 <= k < |data| => data[k].0)
  }

  /** Every sample time of the chosen signals, signal after signal. */
  function AllTimes<V>(names: seq<string>, query: string -> seq<Sample<V>>): (r: seq<int>)
    decreases |names|
    ensures forall t :: t in r <==> Sampled(names, query, t)
  {
    if |names| == 0 then []
    else
      var rest := AllTimes(names[1..], query);
      assert forall t :: Sampled(names, query, t) <==> t in TimesOf(query(names[0])) || Sampled(names[1..], query, t) by {
        forall t ensures Sampled(names, query, t) <==> t in TimesOf(query(names[0])) || Sampled(names[1..], query, t) {
          if Sampled(names, query, t) {
            var i, j :| 0 <= i < |names| && 0 <= j < |query(names[i])| && query(names[i])[j].0 == t;
            if i > 0 {
              assert names[1..][i - 1] == names[i];
            } else {
              assert TimesOf(query(names[0]))[j] == t;
            }
          }
          if t in TimesOf(query(names[0])) {
            var j :| 0 <= j < |query(names[0])| && TimesOf(query(names[0]))[j] == t;
            assert query(names[0])[j].0 == t;
          }
          if Sampled(names[1..], query, t) {
            var i, j :| 0 <= i < |names[1..]| && 0 <= j < |query(names[1..][i])| && query(names[1..][i])[j].0 == t;
            assert names[1..][i] == names[i + 1];
          }
        }
      }
      TimesOf(query(names[0])) + rest
  }

  /** Some chosen signal has a sample at time `t`. */
  ghost predicate Sampled<V>(names: seq<string>, query: string -> seq<Sample<V>>, t: int) {
    exists i, j | 0 <= i < |names| && 0 <= j < |query(names[i])| :: query(names[i])[j].0 == t
  }

  /** `sorted(all_times)`: the time axis is ascending, without repeats, and
      holds exactly the times some chosen signal has a sample at. */
  function TimeAxis<V>(names: seq<string>, query: string -> seq<Sample<V>>): (r: seq<int>)
    ensures Ordering.Ascending(r)
    ensures forall t :: t in r <==> Sampled(names, query, t)
  {
    Ordering.SortDistinctInts(AllTimes(names, query))
  }

  /** The cell of one signal at one time: the value of its LAST sample at
      that time (a dict built from the samples keeps the last), and empty
      when it has none there or the value is NULL. */
  function CellAt<V>(data: seq<Sample<V>>, t: int): (r: Option<V>)
    ensures r.Some? ==> exists j | 0 <= j < |data| :: data[j] == (t, r)
    ensures (forall j | 0 <= j < |data| :: data[j].0 != t) ==> r.None?
    ensures forall j | 0 <= j < |data| && data[j].0 == t ::
      (forall k | j < k < |data| :: data[k].0 != t) ==> r == data[j].1
  {
    match Upsert.LastIndex(data, t)
    case None => None
    case Some(j) => data[j].1
  }

  // ---------------------------------------------------------------------------
  // The two formats

  datatype Format = Csv | Parquet

  /** A CSV data row: the absolute time, the seconds since the segment's
      start, and one cell per chosen signal, in the chosen order; `None` is
      written as an empty field. */
  datatype CsvRow<V> = CsvRow(timeNs: int, relativeS: real, cells: seq<Option<V>>)

  const NsPerSecond: real := 1000000000.0

  /** `(time_ns - segment_start_time_ns) / 1e9` for every axis time: read
      back in nanoseconds from the segment's start, each gives its time. */
  function RelativeTimes(axis: seq<int>, start: int): (r: seq<real>)
    ensures |r| == |axis|
    ensures forall i | 0 <= i < |r| :: r[i] * NsPerSecond + start as real == axis[i] as real
  {
    seq(|axis|, i requires 0 <= i < |axis| => (axis[i] - start) as real / NsPerSecond)
  }

  /** The CSV header. */
  function CsvHeader(names: seq<string>): (r: seq<string>)
    ensures |r| == |names| + 2 && r[0] == "time_ns" && r[1] == "relative_time_s"
    ensures r[2..] == names
  {
    ["time_ns", "relative_time_s"] + names
  }

  /** `_export_csv`'s data rows: one per axis time, in axis order, each
      the time, its offset from the segment's start in seconds, and the
      signals' cells, matching the header's `|names| + 2` columns. */
  function CsvRows<V>(axis: seq<int>, start: int, names: seq<string>, query: string -> seq<Sample<V>>): (r: seq<CsvRow<V>>)
    ensures |r| == |axis|
    ensures forall i | 0 <= i < |r| :: r[i].timeNs == axis[i] && |r[i].cells| == |names|
    ensures forall i | 0 <= i < |r| :: 2 + |r[i].cells| == |CsvHeader(names)|
    ensures forall i | 0 <= i < |r| :: r[i].relativeS * NsPerSecond + start as real == axis[i] as real
    ensures forall i, k | 0 <= i < |r| && 0 <= k < |names| :: r[i].cells[k] == CellAt(query(names[k]), axis[i])
  {
    var rel := RelativeTimes(axis, start);
    seq(|axis|, i requires 0 <= i < |axis| =>
      CsvRow(axis[i], rel[i], seq(|names|, k requires 0 <= k < |names| => CellAt(query(names[k]), axis[i]))))
  }

  /** `_export_parquet`'s signal columns: one per chosen signal, each as long
      as the axis, `None` where the signal has no value at that time. */
  function ParquetColumns<V>(axis: seq<int>, names: seq<string>, query: string -> seq<Sample<V>>): (r: seq<seq<Option<V>>>)
    ensures |r| == |names|
    ensures forall k | 0 <= k < |r| :: |r[k]| == |axis|
    ensures forall k, i | 0 <= k < |r| && 0 <= i < |axis| :: r[k][i] == CellAt(query(names[k]), axis[i])
  {
    seq(|names|, k requires 0 <= k < |names| =>
      seq(|axis|, i requires 0 <= i < |axis| => CellAt(query(names[k]), axis[i])))
  }

  /** The two formats hold the same table: the Parquet relative-time
      column is the CSV rows' second field, and the signal columns are the
      CSV rows' cells read column-wise. */
  lemma FormatsAgree<V>(axis: seq<int>, start: int, names: seq<string>, query: string -> seq<Sample<V>>)
    ensures var rows := CsvRows(axis, start, names, query);
      var cols := ParquetColumns(axis, names, query);
      && (forall i | 0 <= i < |axis| :: RelativeTimes(axis, start)[i] == rows[i].relativeS)
      && (forall k, i | 0 <= k < |names| && 0 <= i < |axis| :: cols[k][i] == rows[i].cells[k])
  {
    var rows := CsvRows(axis, start, names, query);
    var rel := RelativeTimes(axis, start);
    forall i | 0 <= i < |axis| ensures rel[i] == rows[i].relativeS {
      assert rel[i] * NsPerSecond == rows[i].relativeS * NsPerSecond;
    }
  }

  /** Every sample of a chosen signal is on the axis, and the cell for it
      holds the value of the signal's last sample at that time. */
  lemma EverySampleExported<V>(names: seq<string>, query: string -> seq<Sample<V>>, start: int, k: nat, j: nat)
    requires k < |names| && j < |query(names[k])|
    requires forall m | j < m < |query(names[k])| :: query(names[k])[m].0 != query(names[k])[j].0
    ensures var axis := TimeAxis(names, query);
      exists i | 0 <= i < |axis| :: axis[i] == query(names[k])[j].0
        && CsvRows(axis, start, names, query)[i].cells[k] == query(names[k])[j].1
  {
    var axis := TimeAxis(names, query);
    var t := query(names[k])[j].0;
    assert Sampled(names, query, t);
    var i :| 0 <= i < |axis| && axis[i] == t;
  }

  /** No row is padding: each axis time is a sample time of some chosen
      signal. */
  lemma NoEmptyTimes<V>(names: seq<string>, query: string -> seq<Sample<V>>, i: nat)
    requires i < |TimeAxis(names, query)|
    ensures exists k, j | 0 <= k < |names| && 0 <= j < |query(names[k])| :: query(names[k])[j].0 == TimeAxis(names, query)[i]
  {
    assert TimeAxis(names, query)[i] in TimeAxis(names, query);
  }

  // ---------------------------------------------------------------------------
  // The worker

  /** The file the worker writes. */
  datatype Written<V> =
    | CsvFile(header: seq<string>, rows: seq<CsvRow<V>>)
    | ParquetFile(timeNs: seq<int>, relativeS: seq<real>, columns: seq<seq<Option<V>>>)

  /** `ExportWorker.run`'s outcome: a failure before anything is written,
      or the file written. */
  datatype Outcome<V> = NoSegment | NoData | Exported(count: nat, file: Written<V>)

  /** `ExportWorker.run`: the segment must exist (`segment` is its
      `start_time_ns`, `None` when it is not found); the time axis must not
      be empty; then the file is written in the chosen format and the count
      reported is the number of axis times. */
  function Run<V>(segment: Option<int>, names: seq<string>, query: string -> seq<Sample<V>>, format: Format): (r: Outcome<V>)
    ensures r.NoSegment? <==> segment.None?
    ensures r.NoData? <==> segment.Some? && forall t :: !Sampled(names, query, t)
    ensures r.Exported? ==> r.count == |TimeAxis(names, query)| && r.count > 0
    ensures r.Exported? ==> (r.file.CsvFile? <==> format == Csv)
    // the file holds the whole table on the merged axis
    ensures r.Exported? && format == Csv ==>
      r.file == CsvFile(CsvHeader(names), CsvRows(TimeAxis(names, query), segment.value, names, query))
    ensures r.Exported? && format == Parquet ==>
      r.file == ParquetFile(TimeAxis(names, query), RelativeTimes(TimeAxis(names, query), segment.value),
                            ParquetColumns(TimeAxis(names, query), names, query))
  {
    if segment.None? then NoSegment
    else
      var axis := TimeAxis(names, query);
      if |axis| == 0 then
        assert forall t :: !Sampled(names, query, t) by {
          forall t ensures !Sampled(names, query, t) {
            assert t !in axis;
          }
        }
        NoData
      else
        assert Sampled(names, query, axis[0]) by {
          assert axis[0] in axis;
        }
        var file := match format
          case Csv => CsvFile(CsvHeader(names), CsvRows(axis, segment.value, names, query))
          case Parquet => ParquetFile(axis, RelativeTimes(axis, segment.value), ParquetColumns(axis, names, query));
        Exported(|axis|, file)
  }

  // ---------------------------------------------------------------------------
  // Starting an export

  /** `start_export`'s checks: a save path is required, then at least one
      signal (the chart's signals, or the ticked list entries in list
      order). */
  datatype Start = NoPath | NoSignals | Begin(path: string, names: seq<string>, format: Format)

  function IsTicked(e: (string, bool)): bool {
    e.1
  }

  function EntryName(e: (string, bool)): string {
    e.0
  }

  /** The ticked entries of the signal list, in list order. */
  function Ticked(entries: seq<(string, bool)>): (r: seq<string>)
    decreases |entries|
    ensures forall s :: s in r <==> exists i | 0 <= i < |entries| :: entries[i] == (s, true)
    ensures |r| <= |entries|
  {
    if |entries| == 0 then []
    else
      var rest := Ticked(entries[1..]);
      assert forall i | 0 < i < |entries| :: entries[i] == entries[1..][i - 1];
      if entries[0].1 then [entries[0].0] + rest else rest
  }

  /** The ticked names come in list order, one per ticked entry. */
  lemma {:induction false} TickedInOrder(entries: seq<(string, bool)>)
    ensures Seqs.Selects(entries, IsTicked, EntryName, Ticked(entries))
  {
    if |entries| == 0 {
      assert Seqs.SelectedAt(entries, IsTicked, EntryName, [], []);
    } else {
      TickedInOrder(entries[1..]);
      Seqs.SelectsCons(entries, IsTicked, EntryName, Ticked(entries[1..]));
    }
  }

  function StartExport(path: string, useCurrent: bool, current: seq<string>, entries: seq<(string, bool)>, csvChosen: bool): (r: Start)
    ensures r.NoPath? <==> path == ""
    ensures r.NoSignals? <==> path != "" && |if useCurrent then current else Ticked(entries)| == 0
    ensures r.Begin? ==> r.path == path && |r.names| > 0
    ensures r.Begin? ==> r.names == (if useCurrent then current else Ticked(entries))
    ensures r.Begin? ==> (r.format == Csv <==> csvChosen)
  {
    if path == "" then NoPath
    else
      var names := if useCurrent then current else Ticked(entries);
      if |names| == 0 then NoSignals
      else Begin(path, names, if csvChosen then Csv else Parquet)
  }

  /** An export that starts reaches the worker with signals to query: a
      `NoData` outcome then means none of them has a sample. */
  lemma StartedExportQueries<V>(path: string, useCurrent: bool, current: seq<string>, entries: seq<(string, bool)>, csvChosen: bool,
                                query: string -> seq<Sample<V>>, start: int)
    requires StartExport(path, useCurrent, current, entries, csvChosen).Begin?
    ensures var s := StartExport(path, useCurrent, current, entries, csvChosen);
      Run(Some(start), s.names, query, s.format).NoData? <==> forall k | 0 <= k < |s.names| :: |query(s.names[k])| == 0
  {
    var s := StartExport(path, useCurrent, current, entries, csvChosen);
    if forall k | 0 <= k < |s.names| :: |query(s.names[k])| == 0 {
      assert forall t :: !Sampled(s.names, query, t);
    } else {
      var k :| 0 <= k < |s.names| && |query(s.names[k])| != 0;
      assert Sampled(s.names, query, query(s.names[k])[0].0);
    }
  }
}

=== FILE: dbc_manager.dfy ===
/** The DBC cache of release/v1.0/src/utils/dbc_manager.py: parsers keyed
    by the name they were asked for, with a default file. The file system
    is a parameter (`fileExists` for `os.path.exists`, `listing` for
    `os.listdir`), and so is parsing, which the cantools library does and
    which may fail. POSIX paths: absolute means starting with `/`. */
module DbcManager {
  import opened Wrappers
  import opened Strings
  import Seqs
  import DbcParser

  /** A loaded parser: the resolved path it read and what it read there. */
  datatype Parser = Parser(path: string, db: DbcParser.Database)

  datatype Manager = Manager(directory: string, parsers: map<string, Parser>, defaultDbc: string)

  datatype LoadError = NotFound(path: string) | ParseFailed(path: string)

  /** `DBCManager(dbc_directory)`: no parser loaded, default `vw_mqb.dbc`. */
  function Init(directory: string): (m: Manager)
    ensures m.parsers == map[] && m.defaultDbc == "vw_mqb.dbc"
  {
    Manager(directory, map[], "vw_mqb.dbc")
  }

  predicate IsAbsolute(p: string) {
    StartsWith(p, "/")
  }

  /** `os.path.join(directory, name)` for a relative `name`. */
  function JoinPath(directory: string, name: string): (r: string)
    ensures EndsWith(r, name)
    ensures directory == "" ==> r == name
    ensures directory != "" ==> StartsWith(r, directory) && |r| >= |directory| + |name|
  {
    if directory == "" || EndsWith(directory, "/") then directory + name
    else directory + "/" + name
  }

  /** The path `load_dbc` reads for a file name. */
  function Resolve(m: Manager, name: string): (r: string)
    ensures IsAbsolute(name) ==> r == name
    ensures !IsAbsolute(name) ==> r == JoinPath(m.directory, name)
  {
    if IsAbsolute(name) then name else JoinPath(m.directory, name)
  }

  /** `load_dbc`: the manager afterwards and the parser or the error. */
  function Load(m: Manager, name: string, fileExists: string -> bool,
                parse: string -> Option<DbcParser.Database>): (r: (Manager, Result<Parser, LoadError>))
  {
    if name in m.parsers then (m, Success(m.parsers[name]))
    else
      var path := Resolve(m, name);
      if !fileExists(path) then (m, Failure(NotFound(path)))
      else match parse(path)
        case None => (m, Failure(ParseFailed(path)))
        case Some(db) =>
          var p := Parser(path, db);
          (m.(parsers := m.parsers[name := p]), Success(p))
  }

  /** A cached name returns its parser without looking at the file system
      or parsing, and changes nothing. */
  lemma LoadCached(m: Manager, name: string, fileExists: string -> bool,
                   parse: string -> Option<DbcParser.Database>)
    requires name in m.parsers
    ensures Load(m, name, fileExists, parse) == (m, Success(m.parsers[name]))
  {
  }

  /** A failed load leaves the cache as it was; a missing file is reported
      with the resolved path. */
  lemma LoadFailure(m: Manager, name: string, fileExists: string -> bool,
                    parse: string -> Option<DbcParser.Database>)
    requires Load(m, name, fileExists, parse).1.Failure?
    ensures Load(m, name, fileExists, parse).0 == m
    ensures name !in m.parsers
    ensures Load(m, name, fileExists, parse).1.error == NotFound(Resolve(m, name)) <==> !fileExists(Resolve(m, name))
  {
  }

  /** A successful load of a new name caches the parser under the name as
      given (not the resolved path) and changes no other entry; loading the
      same name again returns the same parser, whatever the file system now
      says. */
  lemma LoadThenCached(m: Manager, name: string, fileExists: string -> bool,
                       parse: string -> Option<DbcParser.Database>,
                       fileExists2: string -> bool, parse2: string -> Option<DbcParser.Database>)
    requires name !in m.parsers
    requires Load(m, name, fileExists, parse).1.Success?
    ensures var (m1, r) := Load(m, name, fileExists, parse);
      r.value.path == Resolve(m, name)
      && m1.parsers.Keys == m.parsers.Keys + {name}
      && (forall k | k in m.parsers :: m1.parsers[k] == m.parsers[k])
      && m1.directory == m.directory && m1.defaultDbc == m.defaultDbc
      && Load(m1, name, fileExists2, parse2) == (m1, r)
  {
  }

  /** `get_parser`: `None` asks for the default file. */
  function GetParser(m: Manager, name: Option<string>, fileExists: string -> bool,
                     parse: string -> Option<DbcParser.Database>): (r: (Manager, Result<Parser, LoadError>))
    ensures name.None? ==> r == Load(m, m.defaultDbc, fileExists, parse)
    ensures name.Some? ==> r == Load(m, name.value, fileExists, parse)
  {
    Load(m, if name.Some? then name.value else m.defaultDbc, fileExists, parse)
  }

  /** `set_default_dbc`. */
  function SetDefault(m: Manager, name: string): (r: Manager)
    ensures r.defaultDbc == name && r.parsers == m.parsers && r.directory == m.directory
  {
    m.(defaultDbc := name)
  }

  function IsDbcFile(): string -> bool {
    f => EndsWith(f, ".dbc")
  }

  /** `scan_dbc_directory`: the `.dbc` entries of the listing, in listing
      order; an unreadable directory gives none. */
  function ScanDirectory(listing: Option<seq<string>>): (r: seq<string>)
    ensures listing.None? ==> r == []
    ensures forall k | 0 <= k < |r| :: EndsWith(r[k], ".dbc") && listing.Some? && r[k] in listing.value
    ensures listing.Some? ==> forall k | 0 <= k < |listing.value| ::
      EndsWith(listing.value[k], ".dbc") ==> listing.value[k] in r
    // in listing order, each entry once
    ensures listing.Some? ==> Seqs.Selects(listing.value, IsDbcFile(), Seqs.Id, r)
  {
    match listing
    case None => []
    case Some(files) =>
      Seqs.FilterMembers(files, IsDbcFile());
      Seqs.FilterSelects(files, IsDbcFile());
      Seqs.Filter(files, IsDbcFile())
  }

  /** `get_loaded_dbc_files`, as a set. */
  function LoadedFiles(m: Manager): (r: set<string>)
    ensures forall n :: n in r <==> n in m.parsers
  {
    m.parsers.Keys
  }

  /** `unload_dbc`: removes that name only; nothing happens for a name
      that is not loaded. */
  function Unload(m: Manager, name: string): (r: Manager)
    ensures r.directory == m.directory && r.defaultDbc == m.defaultDbc
    ensures r.parsers.Keys == m.parsers.Keys - {name}
    ensures forall k | k in r.parsers :: r.parsers[k] == m.parsers[k]
    ensures name !in m.parsers ==> r == m
  {
    if name in m.parsers then m.(parsers := m.parsers - {name}) else m
  }

  /** `clear_all`. */
  function ClearAll(m: Manager): (r: Manager)
    ensures r.parsers == map[] && r.directory == m.directory && r.defaultDbc == m.defaultDbc
  {
    m.(parsers := map[])
  }

  /** Unloading a name just loaded gives the cache back as it was. */
  lemma LoadUnload(m: Manager, name: string, fileExists: string -> bool,
                   parse: string -> Option<DbcParser.Database>)
    requires name !in m.parsers
    ensures Unload(Load(m, name, fileExists, parse).0, name) == m
  {
    var m1 := Load(m, name, fileExists, parse).0;
    if m1 != m {
      assert Unload(m1, name).parsers == m.parsers;
    }
  }
}

=== FILE: dbc_parser.dfy ===
/** The DBC wrapper of release/v1.0/src/core/dbc_parser.py: the word
    table that renders German signal and message names in Chinese, and the
    lookups over a loaded DBC database. Reading the DBC file and decoding
    a frame's bytes are done by the cantools library, which is not part of
    this model: the database is given as a list of message definitions and
    the decoder as a possibly failing function. */
module DbcParser {
  import opened Wrappers
  import opened Strings
  import Seqs
  import CanNames

  // ---------------------------------------------------------------------------
  // Translation table
  // ---------------------------------------------------------------------------

  /** A word table in its declaration order. */
  type Table = seq<(string, string)>

  predicate KeysNonEmpty(table: Table) {
    forall k | 0 <= k < |table| :: |table[k].0| > 0
  }

  /** `DBCParser.TRANSLATIONS`. */
  const Translations: Table := [
    ("Anzeige", "顯示"),
    ("Anforderung", "請求"),
    ("Signal", "訊號"),
    ("Status", "狀態"),
    ("Drehzahl", "轉速"),
    ("Fahrpedal", "油門踏板"),
    ("Gang", "檔位"),
    ("Gas", "油門"),
    ("Getriebe", "變速箱"),
    ("Kupplung", "離合器"),
    ("Motor", "引擎"),
    ("Druck", "壓力"),
    ("Temperatur", "溫度"),
    ("Bremsdruck", "煞車壓力"),
    ("Bremse", "煞車"),
    ("Diagnose", "診斷"),
    ("Fehler", "故障"),
    ("Lenkmoment", "方向盤扭矩"),
    ("Lenkung", "方向盤"),
    ("Lenkwinkel", "方向盤角度"),
    ("Geschwindigkeit", "速度"),
    ("Spannung", "電壓"),
    ("Strom", "電流")
  ]

  lemma TranslationsWellFormed()
    ensures KeysNonEmpty(Translations) && ValuesNonEmpty(Translations)
  {
  }

  /** Every value is non-empty. */
  predicate ValuesNonEmpty(table: Table) {
    forall k | 0 <= k < |table| :: |table[k].1| > 0
  }

  /** The value of the first entry whose key is `text`. */
  function LookupExact(table: Table, text: string): (r: Option<string>)
    ensures r.None? <==> forall k | 0 <= k < |table| :: table[k].0 != text
    ensures r.Some? ==> exists k | 0 <= k < |table| :: table[k] == (text, r.value)
  {
    if |table| == 0 then None
    else if table[0].0 == text then Some(table[0].1)
    else
      var r := LookupExact(table[1..], text);
      assert forall k | 1 <= k < |table| :: table[k] == table[1..][k - 1];
      r
  }

  /** The table walk of `translate_to_chinese`: each key found in the
      ORIGINAL text is replaced, everywhere, in the running result. */
  function ReplaceFound(original: string, running: string, table: Table): string
    requires KeysNonEmpty(table)
    decreases |table|
  {
    if |table| == 0 then running
    else
      var next := if Contains(original, table[0].0) then ReplaceAll(running, table[0].0, table[0].1) else running;
      ReplaceFound(original, next, table[1..])
  }

  /** Reference: every entry's replacement applied in order, unconditionally. */
  function ReplaceEach(running: string, table: Table): string
    requires KeysNonEmpty(table)
    decreases |table|
  {
    if |table| == 0 then running
    else ReplaceEach(ReplaceAll(running, table[0].0, table[0].1), table[1..])
  }

  function FoundIn(original: string): ((string, string)) -> bool {
    (e: (string, string)) => Contains(original, e.0)
  }

  /** `translate_to_chinese`. */
  function Translate(table: Table, text: string): (r: string)
    requires KeysNonEmpty(table)
    ensures text == "" ==> r == ""
    ensures text != "" && LookupExact(table, text).Some? ==> r == LookupExact(table, text).value
  {
    if text == "" then text
    else match LookupExact(table, text)
      case Some(v) => v
      case None => ReplaceFound(text, text, table)
  }

  /** Entries whose key is not in the original text change nothing. */
  lemma {:induction false} ReplaceFoundNone(original: string, running: string, table: Table)
    requires KeysNonEmpty(table)
    requires forall k | 0 <= k < |table| :: !Contains(original, table[k].0)
    ensures ReplaceFound(original, running, table) == running
    decreases |table|
  {
    if |table| > 0 {
      assert forall k | 0 <= k < |table[1..]| :: table[1..][k] == table[k + 1];
      ReplaceFoundNone(original, running, table[1..]);
    }
  }

  /** A text that is not a key and holds no key comes back unchanged. */
  lemma TranslateUnmatched(table: Table, text: string)
    requires KeysNonEmpty(table)
    requires forall k | 0 <= k < |table| :: !Contains(text, table[k].0)
    ensures Translate(table, text) == text
  {
    if text != "" {
      assert forall k | 0 <= k < |table| :: table[k].0 != text by {
        forall k | 0 <= k < |table| ensures table[k].0 != text {
          if table[k].0 == text {
            ContainsSelf(text);
          }
        }
      }
      ReplaceFoundNone(text, text, table);
    }
  }

  lemma FilterKeysNonEmpty(table: Table, p: ((string, string)) -> bool)
    requires KeysNonEmpty(table)
    ensures KeysNonEmpty(Seqs.Filter(table, p))
  {
    Seqs.FilterMembers(table, p);
    var f := Seqs.Filter(table, p);
    forall k | 0 <= k < |f| ensures |f[k].0| > 0 {
      var j :| 0 <= j < |table| && table[j] == f[k];
    }
  }

  /** The table walk is the in-order replacement by exactly the entries
      whose key occurs in the original text. */
  lemma {:induction false} ReplaceFoundIsFiltered(original: string, running: string, table: Table)
    requires KeysNonEmpty(table)
    ensures KeysNonEmpty(Seqs.Filter(table, FoundIn(original)))
    ensures ReplaceFound(original, running, table) == ReplaceEach(running, Seqs.Filter(table, FoundIn(original)))
    decreases |table|
  {
    FilterKeysNonEmpty(table, FoundIn(original));
    if |table| > 0 {
      assert KeysNonEmpty(table[1..]) by {
        assert forall k | 0 <= k < |table[1..]| :: table[1..][k] == table[k + 1];
      }
      var next := if Contains(original, table[0].0) then ReplaceAll(running, table[0].0, table[0].1) else running;
      ReplaceFoundIsFiltered(original, next, table[1..]);
    }
  }

  /** `translate_to_chinese` with the parser's own table. */
  function Cn(text: string): (r: string)
    ensures r == "" <==> text == ""
  {
    TranslationsWellFormed();
    TranslateNonEmpty(Translations, text);
    Translate(Translations, text)
  }

  // ---------------------------------------------------------------------------
  // Database lookups
  // ---------------------------------------------------------------------------

  /** A signal of a DBC message. An absent unit or comment is "". */
  datatype SignalDef = SignalDef(
    name: string, unit: string, minimum: Option<real>, maximum: Option<real>,
    scale: real, offset: real, comment: string)

  datatype MessageDef = MessageDef(
    frameId: nat, name: string, length: nat, comment: string, signals: seq<SignalDef>)

  datatype Database = Database(messages: seq<MessageDef>)

  /** `get_message_by_id`: `None` for an unknown frame id. */
  function MessageById(db: Database, id: nat): (r: Option<MessageDef>)
    ensures r.None? <==> forall k | 0 <= k < |db.messages| :: db.messages[k].frameId != id
    ensures r.Some? ==> r.value in db.messages && r.value.frameId == id
  {
    match Seqs.FirstIndex(db.messages, (m: MessageDef) => m.frameId == id)
    case None => None
    case Some(k) => Some(db.messages[k])
  }

  /** `decode_message`: `None` for an unknown id or when the decoder fails. */
  function DecodeMessage(db: Database, id: nat, data: seq<bv8>,
                         decode: (MessageDef, seq<bv8>) -> Option<map<string, real>>): (r: Option<map<string, real>>)
    ensures MessageById(db, id).None? ==> r.None?
    ensures MessageById(db, id).Some? ==> r == decode(MessageById(db, id).value, data)
  {
    match MessageById(db, id)
    case None => None
    case Some(m) => decode(m, data)
  }

  /** The dictionary `get_signal_info` builds. */
  datatype SignalInfo = SignalInfo(
    name: string, nameCn: string, unit: string, unitCn: string,
    minimum: Option<real>, maximum: Option<real>, scale: real, offset: real,
    description: string, descriptionCn: string)

  /** The first signal of `m` with that name. */
  function SignalByName(m: MessageDef, name: string): (r: Option<SignalDef>)
    ensures r.None? <==> forall k | 0 <= k < |m.signals| :: m.signals[k].name != name
    ensures r.Some? ==> r.value in m.signals && r.value.name == name
  {
    match Seqs.FirstIndex(m.signals, (s: SignalDef) => s.name == name)
    case None => None
    case Some(k) => Some(m.signals[k])
  }

  function Info(s: SignalDef): SignalInfo {
    SignalInfo(s.name, Cn(s.name),
               s.unit, if s.unit != "" then Cn(s.unit) else "",
               s.minimum, s.maximum, s.scale, s.offset,
               s.comment, if s.comment != "" then Cn(s.comment) else "")
  }

  /** `get_signal_info`. */
  function SignalInfoOf(db: Database, id: nat, name: string): (r: Option<SignalInfo>)
    ensures r.None? <==> MessageById(db, id).None? || SignalByName(MessageById(db, id).value, name).None?
    ensures r.Some? ==> r.value.name == name
    ensures r.Some? ==> r.value.nameCn == Cn(name)
    ensures r.Some? ==> (r.value.unitCn == "" <==> r.value.unit == "")
    ensures r.Some? ==> (r.value.descriptionCn == "" <==> r.value.description == "")
  {
    match MessageById(db, id)
    case None => None
    case Some(m) =>
      match SignalByName(m, name)
      case None => None
      case Some(s) =>
        Some(Info(s))
  }

  lemma {:induction false} ReplaceFoundNonEmpty(original: string, running: string, table: Table)
    requires KeysNonEmpty(table) && ValuesNonEmpty(table) && running != ""
    ensures ReplaceFound(original, running, table) != ""
    decreases |table|
  {
    if |table| > 0 {
      var next := if Contains(original, table[0].0) then ReplaceAll(running, table[0].0, table[0].1) else running;
      if Contains(original, table[0].0) {
        ReplaceAllNonEmpty(running, table[0].0, table[0].1);
      }
      assert forall k | 0 <= k < |table[1..]| :: table[1..][k] == table[k + 1];
      ReplaceFoundNonEmpty(original, next, table[1..]);
    }
  }

  lemma TranslateNonEmpty(table: Table, text: string)
    requires KeysNonEmpty(table) && ValuesNonEmpty(table)
    ensures Translate(table, text) == "" <==> text == ""
  {
    if text != "" && LookupExact(table, text).None? {
      ReplaceFoundNonEmpty(text, text, table);
    }
  }

  /** The per-message dictionaries of `get_all_messages`. */
  datatype SignalSummary = SignalSummary(name: string, nameCn: string, unit: string, unitCn: string)

  datatype MessageInfo = MessageInfo(
    id: nat, idHex: string, name: string, nameCn: string, length: nat,
    comment: string, commentCn: string, signals: seq<SignalSummary>)

  function Summary(s: SignalDef): SignalSummary {
    SignalSummary(s.name, Cn(s.name),
                  s.unit, if s.unit != "" then Cn(s.unit) else "")
  }

  /** One message's dictionary: its id, an `id_hex` that reads back as
      the id, and one entry per signal in message order. */
  function MessageSummary(m: MessageDef): (r: MessageInfo)
    ensures r.id == m.frameId && r.name == m.name
    ensures StartsWith(r.idHex, "0x") && ParseHex(r.idHex[2..]) == Some(r.id)
    ensures |r.signals| == |m.signals|
    ensures forall j | 0 <= j < |r.signals| :: r.signals[j].name == m.signals[j].name
  {
    var idHex := CanNames.HexId(m.frameId);
    assert StartsWith(idHex, "0x") && ParseHex(idHex[2..]) == Some(m.frameId);
    MessageInfo(m.frameId, idHex, m.name, Cn(m.name), m.length,
                m.comment, if m.comment != "" then Cn(m.comment) else "",
                Summaries(m.signals))
  }

  function Summaries(signals: seq<SignalDef>): (r: seq<SignalSummary>)
    ensures |r| == |signals|
    ensures forall j | 0 <= j < |r| :: r[j] == Summary(signals[j])
    ensures forall j | 0 <= j < |r| :: r[j].name == signals[j].name
  {
    seq(|signals|, k requires 0 <= k < |signals| => Summary(signals[k]))
  }

  /** `get_all_messages`: one entry per message in database order. */
  function AllMessages(db: Database): (r: seq<MessageInfo>)
    ensures |r| == |db.messages|
    ensures forall k | 0 <= k < |r| :: r[k] == MessageSummary(db.messages[k])
  {
    seq(|db.messages|, k requires 0 <= k < |db.messages| => MessageSummary(db.messages[k]))
  }

  /** The id part of a message description, `%03X` in hexadecimal. */
  function IdSuffix(id: nat): string {
    " (ID: 0x" + Hex3(id) + ")"
  }

  /** What precedes the id: the Chinese and original names when the
      translation changes the name, the name alone when it does not, and
      "unknown message" for an id the database does not have. */
  function DescriptionHead(db: Database, id: nat): (h: string)
    ensures MessageById(db, id).None? ==> h == "未知訊息"
    ensures MessageById(db, id).Some? ==>
      var m := MessageById(db, id).value;
      (Cn(m.name) == m.name ==> h == m.name) && (Cn(m.name) != m.name ==> h == Cn(m.name) + " / " + m.name)
  {
    match MessageById(db, id)
    case None => "未知訊息"
    case Some(m) => if Cn(m.name) == m.name then m.name else Cn(m.name) + " / " + m.name
  }

  /** `get_message_description`. */
  function MessageDescription(db: Database, id: nat): string {
    DescriptionHead(db, id) + IdSuffix(id)
  }

  /** Whatever the head, the description keeps it in front, and the
      hexadecimal digits of the id part read back as the id. */
  lemma IdSuffixReadsBack(head: string, id: nat)
    ensures var r := head + IdSuffix(id);
      StartsWith(r, head) && EndsWith(r, ")") && ParseHex(r[|head| + 8..|r| - 1]) == Some(id)
  {
    StartsWithConcat(head, IdSuffix(id));
    var h := Hex3(id);
    var front := head + " (ID: 0x";
    var r := head + IdSuffix(id);
    assert |front| == |head| + 8;
    assert r == front + h + ")";
    assert forall k | 0 <= k < |h| :: r[|front| + k] == h[k];
    assert r[|head| + 8..|r| - 1] == h;
    assert r[|r| - 1..] == ")";
    Hex3RoundTrip(id);
  }

  /** Every description ends with the id in three-digit hexadecimal, which
      reads back as the id, after the head that names the message. */
  lemma MessageDescriptionReadsBack(db: Database, id: nat)
    ensures var r := MessageDescription(db, id);
      var h := DescriptionHead(db, id);
      StartsWith(r, h) && EndsWith(r, ")") && ParseHex(r[|h| + 8..|r| - 1]) == Some(id)
  {
    IdSuffixReadsBack(DescriptionHead(db, id), id);
  }
}

=== FILE: definition_import.dfy ===
/** The signal-definition importer of tools/import_signal_definitions_sqlite.py:
    the catalogue of cereal signals, built by walking the Cap'n Proto schema
    of every event type, and of CAN signals, built from a DBC database.
    The schema is given as a tree of fields (reading it through pycapnp is
    not part of this model), as are the Chinese field-name table and which
    event classes the schema modules provide. */
module DefinitionImport {
  import opened Wrappers
  import opened Strings
  import Store
  import DbcParser
  import CanNames
  import Upsert

  // ---------------------------------------------------------------------------
  // Field types and units
  // ---------------------------------------------------------------------------

  /** `type_map.get(which, 'Unknown')`. */
  function TypeName(tag: string): string {
    match tag
    case "void" => "Void"
    case "bool" => "Bool"
    case "int8" => "Int8"
    case "int16" => "Int16"
    case "int32" => "Int32"
    case "int64" => "Int64"
    case "uint8" => "UInt8"
    case "uint16" => "UInt16"
    case "uint32" => "UInt32"
    case "uint64" => "UInt64"
    case "float32" => "Float32"
    case "float64" => "Float64"
    case "text" => "Text"
    case "data" => "Data"
    case "list" => "List"
    case "enum" => "Enum"
    case "struct" => "Struct"
    case "interface" => "Interface"
    case "anyPointer" => "AnyPointer"
    case _ => "Unknown"
  }

  const NumericTags: set<string> :=
    {"bool", "int8", "int16", "int32", "int64", "uint8", "uint16", "uint32", "uint64", "float32", "float64"}

  /** The type names that are inserted as signals. */
  predicate Stored(dataType: string) {
    dataType in {"Bool", "Int8", "Int16", "Int32", "Int64", "UInt8", "UInt16", "UInt32", "UInt64", "Float32", "Float64"}
  }

  /** Exactly the boolean and numeric slot types are stored; text, lists,
      enums, structs and unknown tags are not. */
  lemma StoredTags(tag: string)
    ensures Stored(TypeName(tag)) <==> tag in NumericTags
  {
  }

  /** The two field walkers: the one over a message instance, and the
      schema-only one used when no instance can be made, which also knows
      the gas, brake and fuel units. */
  datatype Walker = FromInstance | FromSchema

  /** The guessed `(unit, unit_cn)` of a field as the import script writes
      it: `deg` is looked for in the field name as written, the other words
      in its lower-case form. */
  function UnitOfAsWritten(field: string, fullName: string, walker: Walker): (r: (string, string))
  {
    var fl := Lower(field);
    var wheel := Contains(Lower(fullName), "wheel");
    if Contains(fl, "vego") || (Contains(fl, "speed") && !wheel) then ("m/s", "公尺/秒")
    else if Contains(fl, "aego") || Contains(fl, "accel") then ("m/s²", "公尺/秒²")
    else if Contains(fl, "angle") && Contains(field, "deg") then ("deg", "度")
    else if Contains(fl, "rate") && Contains(field, "deg") then ("deg/s", "度/秒")
    else if wheel && Contains(fl, "speed") then ("m/s", "公尺/秒")
    else if Contains(fl, "torque") then ("Nm", "牛頓·公尺")
    else if walker == FromSchema && (Contains(fl, "gas") || Contains(fl, "brake")) then ("0-1", "0-1")
    else if walker == FromSchema && Contains(fl, "fuel") then ("0-1", "0-1")
    else ("", "")
  }

  /** The guessed unit with `deg` looked for case-insensitively like every
      other word, as the database layer's own guess does; the walkers use
      this one. */
  function UnitOf(field: string, fullName: string, walker: Walker): (r: (string, string))
  {
    var fl := Lower(field);
    var wheel := Contains(Lower(fullName), "wheel");
    if Contains(fl, "vego") || (Contains(fl, "speed") && !wheel) then ("m/s", "公尺/秒")
    else if Contains(fl, "aego") || Contains(fl, "accel") then ("m/s²", "公尺/秒²")
    else if Contains(fl, "angle") && Contains(fl, "deg") then ("deg", "度")
    else if Contains(fl, "rate") && Contains(fl, "deg") then ("deg/s", "度/秒")
    else if wheel && Contains(fl, "speed") then ("m/s", "公尺/秒")
    else if Contains(fl, "torque") then ("Nm", "牛頓·公尺")
    else if walker == FromSchema && (Contains(fl, "gas") || Contains(fl, "brake")) then ("0-1", "0-1")
    else if walker == FromSchema && Contains(fl, "fuel") then ("0-1", "0-1")
    else ("", "")
  }

  /** `deg` in the name as written is `deg` in its lower-case form too. */
  lemma LowerKeepsDeg(field: string)
    requires Contains(field, "deg")
    ensures Contains(Lower(field), "deg")
  {
    var i: nat :| i <= |field| && OccursAt(field, "deg", i);
    assert field[i..i + 3] == "deg";
    assert field[i] == 'd' && field[i + 1] == 'e' && field[i + 2] == 'g';
    assert Lower(field)[i..i + 3] == "deg";
    assert OccursAt(Lower(field), "deg", i);
  }

  /** The two guesses differ only where the field name has `deg` in some
      other case: the corrected guess then says degrees (or degrees per
      second) and the script's says something else. */
  lemma UnitOfDiffersOnlyOnDeg(field: string, fullName: string, walker: Walker)
    ensures UnitOf(field, fullName, walker) != UnitOfAsWritten(field, fullName, walker) ==>
      Contains(Lower(field), "deg") && !Contains(field, "deg")
      && UnitOf(field, fullName, walker).0 in {"deg", "deg/s"}
  {
    if Contains(field, "deg") {
      LowerKeepsDeg(field);
    }
  }

  /** A field the script gives no unit: no speed, acceleration or torque
      word, `deg` nowhere in the name as written, not under a wheel. */
  lemma AsWrittenNoUnit(field: string, fullName: string)
    requires var fl := Lower(field);
      !Contains(fl, "vego") && !Contains(fl, "speed") && !Contains(fl, "aego")
      && !Contains(fl, "accel") && !Contains(fl, "torque")
    requires !Contains(field, "deg") && !Contains(Lower(fullName), "wheel")
    ensures UnitOfAsWritten(field, fullName, FromInstance) == ("", "")
  {
  }

  /** A degree angle the corrected guess recognises. */
  lemma CorrectedAngle(field: string, fullName: string, walker: Walker)
    requires var fl := Lower(field);
      !Contains(fl, "vego") && !Contains(fl, "speed") && !Contains(fl, "aego")
      && !Contains(fl, "accel") && Contains(fl, "angle") && Contains(fl, "deg")
    ensures UnitOf(field, fullName, walker) == ("deg", "度")
  {
  }

  lemma LowerSteeringAngle()
    ensures Lower("steeringAngleDeg") == "steeringangledeg"
    ensures Lower("carState.steeringAngleDeg") == "carstate.steeringangledeg"
  {
  }

  /** The lower-case field name has none of the speed, acceleration or
      torque words, and the full name no `wheel`. */
  lemma SteeringAngleWords(fl: string, fullLower: string)
    requires fl == "steeringangledeg" && fullLower == "carstate.steeringangledeg"
    ensures !Contains(fl, "vego") && !Contains(fl, "speed") && !Contains(fl, "aego")
      && !Contains(fl, "accel") && !Contains(fl, "torque") && !Contains(fullLower, "wheel")
    ensures Contains(fl, "angle") && Contains(fl, "deg")
  {
    assert !Contains(fl, "vego") by { MissingCharNoOccurrence(fl, "vego", 0); }
    assert !Contains(fl, "speed") by { MissingCharNoOccurrence(fl, "speed", 1); }
    assert !Contains(fl, "aego") by { MissingCharNoOccurrence(fl, "aego", 3); }
    assert !Contains(fl, "accel") by { MissingCharNoOccurrence(fl, "accel", 1); }
    assert !Contains(fl, "torque") by { MissingCharNoOccurrence(fl, "torque", 1); }
    assert !Contains(fullLower, "wheel") by { MissingCharNoOccurrence(fullLower, "wheel", 0); }
    SteeringAngleHasDeg(fl);
  }

  lemma SteeringAngleHasDeg(fl: string)
    requires fl == "steeringangledeg"
    ensures Contains(fl, "angle") && Contains(fl, "deg")
  {
    assert fl[8..13] == "angle";
    assert fl[13..16] == "deg";
    assert OccursAt(fl, "angle", 8);
    assert OccursAt(fl, "deg", 13);
  }

  /** `carState.steeringAngleDeg` gets no unit from the script, because its
      `Deg` is capitalised. */
  lemma SteeringAngleAsWritten(field: string, fullName: string)
    requires field == "steeringAngleDeg" && fullName == "carState.steeringAngleDeg"
    ensures UnitOfAsWritten(field, fullName, FromInstance) == ("", "")
  {
    LowerSteeringAngle();
    SteeringAngleWords(Lower(field), Lower(fullName));
    MissingCharNoOccurrence(field, "deg", 0);
    AsWrittenNoUnit(field, fullName);
  }

  /** The corrected guess gives it degrees. */
  lemma SteeringAngleCorrected(field: string, fullName: string)
    requires field == "steeringAngleDeg" && fullName == "carState.steeringAngleDeg"
    ensures UnitOf(field, fullName, FromInstance) == ("deg", "度")
  {
    LowerSteeringAngle();
    SteeringAngleWords(Lower(field), Lower(fullName));
    CorrectedAngle(field, fullName, FromInstance);
  }

  /** A speed field gets m/s whether or not it sits under a wheel struct:
      the first rule takes speeds outside wheels, the fifth those inside,
      unless an acceleration or an angle/rate-in-degrees rule comes first. */
  lemma SpeedIsMetresPerSecond(field: string, fullName: string, walker: Walker)
    requires Contains(Lower(field), "speed")
    requires !Contains(Lower(field), "aego") && !Contains(Lower(field), "accel")
    requires !Contains(Lower(field), "deg")
    ensures UnitOf(field, fullName, walker) == ("m/s", "公尺/秒")
  {
  }

  /** The two walkers agree except on the gas, brake and fuel rules, which
      only the schema walker has. */
  lemma WalkersAgree(field: string, fullName: string)
    ensures UnitOf(field, fullName, FromInstance) != UnitOf(field, fullName, FromSchema)
        ==> UnitOf(field, fullName, FromInstance) == ("", "")
            && UnitOf(field, fullName, FromSchema) == ("0-1", "0-1")
  {
  }

  // ---------------------------------------------------------------------------
  // Names
  // ---------------------------------------------------------------------------

  /** The name a walk at `prefix` hangs its fields under. */
  function Base(msgType: string, prefix: string): string {
    if prefix != "" then prefix else msgType
  }

  /** `full_name`. */
  function FullName(msgType: string, prefix: string, field: string): string {
    Base(msgType, prefix) + "." + field
  }

  /** `signal_name`: the path below the message type. */
  function SignalName(msgType: string, prefix: string, field: string): string {
    if prefix != "" && StartsWith(prefix, msgType + ".") then prefix[|msgType| + 1..] + "." + field
    else field
  }

  /** For every prefix a walk uses (none, or one under the message type),
      the signal name is the full name without `msgType.`. */
  lemma SignalNameIsTail(msgType: string, prefix: string, field: string)
    requires prefix == "" || StartsWith(prefix, msgType + ".")
    ensures FullName(msgType, prefix, field) == msgType + "." + SignalName(msgType, prefix, field)
  {
    if prefix != "" {
      assert prefix == (msgType + ".") + prefix[|msgType| + 1..];
    }
  }

  // ---------------------------------------------------------------------------
  // The schema walk
  // ---------------------------------------------------------------------------

  /** A non-union field: its name, its slot type tag, and the fields of
      the struct it holds as far as the walker can reach them (none for a
      field that is not a struct, or whose struct cannot be loaded). */
  datatype Field = Field(name: string, tag: string, nested: seq<Field>)

  /** The catalogue and the run's `imported_signals`, with the count. */
  datatype Walk = Walk(defs: map<string, Store.CerealDef>, imported: set<string>, count: nat)

  /** Every inserted full name is in `imported_signals` and counted once. */
  predicate Consistent(w: Walk) {
    w.defs.Keys == w.imported && w.count == |w.imported|
  }

  /** What one walk step may do to the state: keep it consistent, add
      imported names only under `base.`, and add rows only of stored types
      for `msgType`, never changing an existing row. */
  predicate Grows(w: Walk, r: Walk, msgType: string, base: string) {
    && (Consistent(w) ==> Consistent(r))
    && w.imported <= r.imported
    && (forall k | k in r.imported && k !in w.imported :: StartsWith(k, base + "."))
    && (Consistent(w) ==> forall k | k in w.defs :: k in r.defs && r.defs[k] == w.defs[k])
    && (Consistent(w) ==> forall k | k in r.defs && k !in w.defs ::
          Stored(r.defs[k].dataType) && r.defs[k].messageType == msgType)
  }

  lemma GrowsTrans(w: Walk, w1: Walk, r: Walk, msgType: string, base: string)
    requires Grows(w, w1, msgType, base) && Grows(w1, r, msgType, base)
    ensures Grows(w, r, msgType, base)
  {
  }

  /** The row inserted for a stored field. */
  function Definition(msgType: string, prefix: string, f: Field, walker: Walker, names: map<string, string>): (d: Store.CerealDef)
    ensures d.messageType == msgType && d.dataType == TypeName(f.tag)
  {
    var full := FullName(msgType, prefix, f.name);
    var (unit, unitCn) := UnitOf(f.name, full, walker);
    var nameCn := if f.name in names then names[f.name] else "";
    Store.CerealDef(msgType, SignalName(msgType, prefix, f.name), TypeName(f.tag), unit, unitCn, nameCn)
  }

  /** One field of the loop: skipped when its full name is already
      imported; otherwise its struct is walked first and the field itself
      is then inserted when its type is stored. */
  function VisitField(msgType: string, prefix: string, f: Field, w: Walk,
                      walker: Walker, names: map<string, string>): (r: Walk)
    decreases f, 1
    ensures Grows(w, r, msgType, Base(msgType, prefix))
  {
    var full := FullName(msgType, prefix, f.name);
    if full in w.imported then w
    else
      var w0 := WalkFields(msgType, full, f.nested, w, walker, names);
      assert Grows(w, w0, msgType, Base(msgType, prefix)) by {
        forall k | k in w0.imported && k !in w.imported ensures StartsWith(k, Base(msgType, prefix) + ".") {
          assert StartsWith(k, full + ".");
          assert (full + ".")[..|Base(msgType, prefix) + "."|] == Base(msgType, prefix) + ".";
        }
      }
      if Stored(TypeName(f.tag)) then
        assert full !in w0.imported by {
          forall k | k in w0.imported && k !in w.imported ensures k != full {
            assert StartsWith(k, full + ".");
          }
        }
        var r := Walk(w0.defs[full := Definition(msgType, prefix, f, walker, names)], w0.imported + {full}, w0.count + 1);
        assert Grows(w0, r, msgType, Base(msgType, prefix));
        GrowsTrans(w, w0, r, msgType, Base(msgType, prefix));
        r
      else w0
  }

  /** `_process_struct_fields(_from_instance)`: the fields in order. */
  function WalkFields(msgType: string, prefix: string, fields: seq<Field>, w: Walk,
                      walker: Walker, names: map<string, string>): (r: Walk)
    decreases fields, 0
    ensures Grows(w, r, msgType, Base(msgType, prefix))
  {
    if |fields| == 0 then w
    else
      var w1 := VisitField(msgType, prefix, fields[0], w, walker, names);
      var r := WalkFields(msgType, prefix, fields[1..], w1, walker, names);
      GrowsTrans(w, w1, r, msgType, Base(msgType, prefix));
      r
  }

  // ---------------------------------------------------------------------------
  // Event types
  // ---------------------------------------------------------------------------

  /** Event union members that are not signal sources. */
  const SkippedTypes: set<string> := {"initData", "can", "sendcan", "logMessage", "errorLogMessage", "androidLog"}

  function UpperChar(c: char): char {
    if 'a' <= c <= 'z' then (c as int - 'a' as int + 'A' as int) as char else c
  }

  /** `msg_type[0].upper() + msg_type[1:]`. */
  function ClassName(msgType: string): (r: string)
    requires msgType != ""
    ensures |r| == |msgType| && r[0] == UpperChar(msgType[0]) && r[1..] == msgType[1..]
  {
    [UpperChar(msgType[0])] + msgType[1..]
  }

  /** `'FrogPilot' + msg_type[9].upper() + msg_type[10:]` for a name longer
      than `frogpilot`. */
  function FrogPilotClassName(msgType: string): (r: string)
    requires |msgType| > 9
    ensures r == "FrogPilot" + [UpperChar(msgType[9])] + msgType[10..]
  {
    "FrogPilot" + [UpperChar(msgType[9])] + msgType[10..]
  }

  /** The fields of the class an event type resolves to: a `frogpilot...`
      type is first looked up under its FrogPilot class name in the custom
      module, then every type under its own class name in the modules in
      order. `None` when nothing is found, or when the name is exactly
      `frogpilot` or empty (the indexing raises and the type is skipped). */
  function ClassFields(msgType: string, custom: string -> Option<seq<Field>>,
                       modules: string -> Option<seq<Field>>): Option<seq<Field>>
  {
    if msgType == "" then None
    else if StartsWith(msgType, "frogpilot") then
      if |msgType| <= 9 then None
      else match custom(FrogPilotClassName(msgType))
        case Some(fs) => Some(fs)
        case None => modules(ClassName(msgType))
    else modules(ClassName(msgType))
  }

  /** The instance walker, unless no instance of the type can be made. */
  function WalkerFor(noInstance: string -> bool, t: string): Walker {
    if noInstance(t) then FromSchema else FromInstance
  }

  /** The loop of `import_cereal_signals` over the event union members,
      from `w`; `noInstance` says for which types no instance can be made. */
  function ImportTypes(types: seq<string>, custom: string -> Option<seq<Field>>,
                       modules: string -> Option<seq<Field>>, noInstance: string -> bool,
                       names: map<string, string>, w: Walk): (r: Walk)
    decreases |types|
    ensures Consistent(w) ==> Consistent(r)
    ensures Consistent(w) ==> forall k | k in w.defs :: k in r.defs && r.defs[k] == w.defs[k]
    ensures Consistent(w) ==> forall k | k in r.defs && k !in w.defs ::
      Stored(r.defs[k].dataType) && r.defs[k].messageType in types && r.defs[k].messageType !in SkippedTypes
      && StartsWith(k, r.defs[k].messageType + ".")
  {
    if |types| == 0 then w
    else
      var t := types[0];
      var w1 :=
        if t in SkippedTypes then w
        else match ClassFields(t, custom, modules)
          case None => w
          case Some(fs) => WalkFields(t, "", fs, w, WalkerFor(noInstance, t), names);
      var r := ImportTypes(types[1..], custom, modules, noInstance, names, w1);
      assert forall x | x in types[1..] :: x in types;
      r
  }

  /** `import_cereal_signals`: the old catalogue is dropped, and the count
      returned is the number of rows in the new one. Each row is keyed by
      `msgType.` followed by its signal name, is of a stored type, and
      belongs to an event type that is not skipped. */
  function ImportCereal(types: seq<string>, custom: string -> Option<seq<Field>>,
                        modules: string -> Option<seq<Field>>, noInstance: string -> bool,
                        names: map<string, string>): (r: (map<string, Store.CerealDef>, nat))
    ensures r.1 == |r.0.Keys|
    ensures forall k | k in r.0 ::
      Stored(r.0[k].dataType) && r.0[k].messageType in types && r.0[k].messageType !in SkippedTypes
      && StartsWith(k, r.0[k].messageType + ".")
  {
    var w := ImportTypes(types, custom, modules, noInstance, names, Walk(map[], {}, 0));
    (w.defs, w.count)
  }

  // ---------------------------------------------------------------------------
  // Completeness of the walk
  // ---------------------------------------------------------------------------

  /** Every row `r` holds beyond those of `w` is the definition of a field
      the walk of `msgType` visited, stored under that field's full name. */
  ghost predicate RowsDefined(w: Walk, r: Walk, msgType: string, walker: Walker, names: map<string, string>) {
    forall k | k in r.defs && k !in w.defs ::
      exists p: string, g: Field :: k == FullName(msgType, p, g.name) && r.defs[k] == Definition(msgType, p, g, walker, names)
  }

  /** A field not yet imported, of a stored type, gets its definition. */
  lemma VisitFieldInserts(msgType: string, prefix: string, f: Field, w: Walk, walker: Walker, names: map<string, string>)
    requires Consistent(w) && FullName(msgType, prefix, f.name) !in w.imported && Stored(TypeName(f.tag))
    ensures var r := VisitField(msgType, prefix, f, w, walker, names);
      FullName(msgType, prefix, f.name) in r.defs
      && r.defs[FullName(msgType, prefix, f.name)] == Definition(msgType, prefix, f, walker, names)
  {
    var full := FullName(msgType, prefix, f.name);
    var w0 := WalkFields(msgType, full, f.nested, w, walker, names);
    assert full !in w0.imported by {
      assert !StartsWith(full, full + ".");
    }
  }

  /** A field of a stored type has a row once it is visited, whether it was
      inserted now or imported before. */
  lemma VisitFieldKeyed(msgType: string, prefix: string, f: Field, w: Walk, walker: Walker, names: map<string, string>)
    requires Consistent(w) && Stored(TypeName(f.tag))
    ensures FullName(msgType, prefix, f.name) in VisitField(msgType, prefix, f, w, walker, names).defs
  {
    if FullName(msgType, prefix, f.name) !in w.imported {
      VisitFieldInserts(msgType, prefix, f, w, walker, names);
    }
  }

  /** After the loop over `fields`, each of them of a stored type has a row
      under its full name. */
  lemma {:induction false} WalkFieldsCovers(msgType: string, prefix: string, fields: seq<Field>, w: Walk,
                                            walker: Walker, names: map<string, string>)
    requires Consistent(w)
    decreases |fields|
    ensures forall f | f in fields && Stored(TypeName(f.tag)) ::
      FullName(msgType, prefix, f.name) in WalkFields(msgType, prefix, fields, w, walker, names).defs
  {
    if |fields| > 0 {
      var w1 := VisitField(msgType, prefix, fields[0], w, walker, names);
      var r := WalkFields(msgType, prefix, fields[1..], w1, walker, names);
      WalkFieldsCovers(msgType, prefix, fields[1..], w1, walker, names);
      if Stored(TypeName(fields[0].tag)) {
        VisitFieldKeyed(msgType, prefix, fields[0], w, walker, names);
      }
      forall f | f in fields && Stored(TypeName(f.tag)) ensures FullName(msgType, prefix, f.name) in r.defs {
        if f !in fields[1..] {
          assert f == fields[0];
        }
      }
    }
  }

  lemma RowsDefinedTrans(w: Walk, w1: Walk, r: Walk, msgType: string, base: string, walker: Walker, names: map<string, string>)
    requires Consistent(w) && Grows(w, w1, msgType, base) && Grows(w1, r, msgType, base)
    requires RowsDefined(w, w1, msgType, walker, names) && RowsDefined(w1, r, msgType, walker, names)
    ensures RowsDefined(w, r, msgType, walker, names)
  {
    forall k | k in r.defs && k !in w.defs
      ensures exists p: string, g: Field :: k == FullName(msgType, p, g.name) && r.defs[k] == Definition(msgType, p, g, walker, names)
    {
      if k in w1.defs {
        assert r.defs[k] == w1.defs[k];
      }
    }
  }

  /** Every row a visit adds is a field's definition under its full name. */
  lemma {:induction false} VisitFieldDefined(msgType: string, prefix: string, f: Field, w: Walk,
                                             walker: Walker, names: map<string, string>)
    requires Consistent(w)
    decreases f, 1
    ensures RowsDefined(w, VisitField(msgType, prefix, f, w, walker, names), msgType, walker, names)
  {
    var full := FullName(msgType, prefix, f.name);
    if full !in w.imported {
      var w0 := WalkFields(msgType, full, f.nested, w, walker, names);
      WalkFieldsDefined(msgType, full, f.nested, w, walker, names);
      if Stored(TypeName(f.tag)) {
        var r := VisitField(msgType, prefix, f, w, walker, names);
        forall k | k in r.defs && k !in w.defs
          ensures exists p: string, g: Field :: k == FullName(msgType, p, g.name) && r.defs[k] == Definition(msgType, p, g, walker, names)
        {
          if k == full {
            assert r.defs[k] == Definition(msgType, prefix, f, walker, names);
          } else {
            assert r.defs[k] == w0.defs[k];
          }
        }
      }
    }
  }

  /** Every row the loop adds is a field's definition under its full name. */
  lemma {:induction false} WalkFieldsDefined(msgType: string, prefix: string, fields: seq<Field>, w: Walk,
                                             walker: Walker, names: map<string, string>)
    requires Consistent(w)
    decreases fields, 0
    ensures RowsDefined(w, WalkFields(msgType, prefix, fields, w, walker, names), msgType, walker, names)
  {
    if |fields| > 0 {
      var w1 := VisitField(msgType, prefix, fields[0], w, walker, names);
      var r := WalkFields(msgType, prefix, fields[1..], w1, walker, names);
      VisitFieldDefined(msgType, prefix, fields[0], w, walker, names);
      WalkFieldsDefined(msgType, prefix, fields[1..], w1, walker, names);
      RowsDefinedTrans(w, w1, r, msgType, Base(msgType, prefix), walker, names);
    }
  }

  /** After the type loop, every stored top-level field of every type that
      is not skipped and resolves to a class has its row under
      `msgType.field`, and every added row is the definition of a visited
      field of its type, with that type's walker. */
  lemma {:induction false} ImportTypesCovers(types: seq<string>, custom: string -> Option<seq<Field>>,
                                             modules: string -> Option<seq<Field>>, noInstance: string -> bool,
                                             names: map<string, string>, w: Walk)
    requires Consistent(w)
    decreases |types|
    ensures var r := ImportTypes(types, custom, modules, noInstance, names, w);
      && (forall t, f | t in types && t !in SkippedTypes && ClassFields(t, custom, modules).Some?
            && f in ClassFields(t, custom, modules).value && Stored(TypeName(f.tag)) ::
            t + "." + f.name in r.defs)
      && (forall k | k in r.defs && k !in w.defs ::
            exists p: string, g: Field :: k == FullName(r.defs[k].messageType, p, g.name)
              && r.defs[k] == Definition(r.defs[k].messageType, p, g, WalkerFor(noInstance, r.defs[k].messageType), names))
  {
    if |types| > 0 {
      var t := types[0];
      var w1 :=
        if t in SkippedTypes then w
        else match ClassFields(t, custom, modules)
          case None => w
          case Some(fs) => WalkFields(t, "", fs, w, WalkerFor(noInstance, t), names);
      var r := ImportTypes(types, custom, modules, noInstance, names, w);
      assert r == ImportTypes(types[1..], custom, modules, noInstance, names, w1);
      if t !in SkippedTypes && ClassFields(t, custom, modules).Some? {
        var fs := ClassFields(t, custom, modules).value;
        WalkFieldsCovers(t, "", fs, w, WalkerFor(noInstance, t), names);
        WalkFieldsDefined(t, "", fs, w, WalkerFor(noInstance, t), names);
      }
      assert Consistent(w1);
      ImportTypesCovers(types[1..], custom, modules, noInstance, names, w1);
      forall t', f | t' in types && t' !in SkippedTypes && ClassFields(t', custom, modules).Some?
        && f in ClassFields(t', custom, modules).value && Stored(TypeName(f.tag))
        ensures t' + "." + f.name in r.defs
      {
        if t' !in types[1..] {
          assert t' == t;
          assert FullName(t, "", f.name) == t + "." + f.name;
        }
      }
      forall k | k in r.defs && k !in w.defs
        ensures exists p: string, g: Field :: (k == FullName(r.defs[k].messageType, p, g.name)
          && r.defs[k] == Definition(r.defs[k].messageType, p, g, WalkerFor(noInstance, r.defs[k].messageType), names))
      {
        if k in w1.defs {
          assert r.defs[k] == w1.defs[k];
        }
      }
    }
  }

  /** `import_cereal_signals` is complete: every stored top-level field of
      every event type that is not skipped and resolves to a class has its
      row, and every row is the definition of a visited field of its type. */
  lemma ImportCerealCovers(types: seq<string>, custom: string -> Option<seq<Field>>,
                           modules: string -> Option<seq<Field>>, noInstance: string -> bool,
                           names: map<string, string>)
    ensures var r := ImportCereal(types, custom, modules, noInstance, names).0;
      && (forall t, f | t in types && t !in SkippedTypes && ClassFields(t, custom, modules).Some?
            && f in ClassFields(t, custom, modules).value && Stored(TypeName(f.tag)) ::
            t + "." + f.name in r)
      && (forall k | k in r ::
            exists p: string, g: Field :: k == FullName(r[k].messageType, p, g.name)
              && r[k] == Definition(r[k].messageType, p, g, WalkerFor(noInstance, r[k].messageType), names))
  {
    ImportTypesCovers(types, custom, modules, noInstance, names, Walk(map[], {}, 0));
  }

  // ---------------------------------------------------------------------------
  // CAN definitions
  // ---------------------------------------------------------------------------

  /** A row of `can_signal_definitions` (bit layout columns left out). */
  datatype CanDef = CanDef(
    canId: nat, canIdHex: string, messageName: string, messageNameCn: string,
    signalName: string, signalNameCn: string, descriptionCn: string,
    unit: string, unitCn: string, comment: string)

  /** The table, keyed by DBC file and full name. */
  type CanTable = map<(string, string), CanDef>

  function CanRow(m: DbcParser.MessageDef, s: DbcParser.SignalDef): (d: CanDef)
    ensures d.descriptionCn == (if s.comment == "" then DbcParser.Cn(s.name) else DbcParser.Cn(s.comment))
    ensures d.unitCn == "" <==> s.unit == ""
  {
    CanDef(m.frameId, CanNames.HexId(m.frameId), m.name, DbcParser.Cn(m.name),
           s.name, DbcParser.Cn(s.name),
           if s.comment != "" then DbcParser.Cn(s.comment) else DbcParser.Cn(s.name),
           s.unit, if s.unit != "" then DbcParser.Cn(s.unit) else "", s.comment)
  }

  /** Where a signal's row goes: its DBC file and `CAN_0x%03X_<signal>`. */
  function CanKey(dbc: string, m: DbcParser.MessageDef, s: DbcParser.SignalDef): (string, string) {
    (dbc, CanNames.CanSignalName(m.frameId, s.name))
  }

  /** `INSERT OR REPLACE` of each entry in order. */
  function InsertAll(t: CanTable, entries: seq<((string, string), CanDef)>): CanTable {
    Upsert.UpsertAll(t, entries, Upsert.Replace())
  }

  /** After the inserts the table holds the old keys and every entry's key;
      each row is either an old row that no entry replaced or one of the
      entries. */
  lemma InsertAllFacts(t: CanTable, entries: seq<((string, string), CanDef)>)
    ensures var r := InsertAll(t, entries);
      && (forall k | k in t :: k in r)
      && (forall i | 0 <= i < |entries| :: entries[i].0 in r)
      && (forall k | k in r :: (k in t && r[k] == t[k]) || exists i | 0 <= i < |entries| :: entries[i] == (k, r[k]))
  {
    var r := InsertAll(t, entries);
    Upsert.UpsertKeys(t, entries, Upsert.Replace());
    Upsert.ReplaceRows(t, entries);
    forall i | 0 <= i < |entries| ensures entries[i].0 in r {
      assert Upsert.HasKey(entries, entries[i].0);
    }
  }

  /** Every (message, signal) pair of the database, in database order. */
  function Pairs(messages: seq<DbcParser.MessageDef>): (r: seq<(DbcParser.MessageDef, DbcParser.SignalDef)>)
    decreases |messages|
    ensures forall i | 0 <= i < |r| :: r[i].0 in messages && r[i].1 in r[i].0.signals
  {
    if |messages| == 0 then []
    else
      var m := messages[0];
      var head := seq(|m.signals|, i requires 0 <= i < |m.signals| => (m, m.signals[i]));
      var rest := Pairs(messages[1..]);
      assert forall i | 0 <= i < |rest| :: rest[i].0 in messages[1..];
      head + rest
  }

  /** Every signal of every message appears among the pairs. */
  lemma {:induction false} PairsComplete(messages: seq<DbcParser.MessageDef>, m: DbcParser.MessageDef, s: DbcParser.SignalDef)
    decreases |messages|
    requires m in messages && s in m.signals
    ensures (m, s) in Pairs(messages)
  {
    var m0 := messages[0];
    var head := seq(|m0.signals|, i requires 0 <= i < |m0.signals| => (m0, m0.signals[i]));
    assert Pairs(messages) == head + Pairs(messages[1..]);
    if m == m0 {
      var j :| 0 <= j < |m.signals| && m.signals[j] == s;
      assert head[j] == (m, s);
    } else {
      PairsComplete(messages[1..], m, s);
    }
  }

  /** The number of signals over all messages. */
  function SignalCount(messages: seq<DbcParser.MessageDef>): nat {
    if |messages| == 0 then 0 else |messages[0].signals| + SignalCount(messages[1..])
  }

  /** The count is the number of (message, signal) pairs inserted. */
  lemma {:induction false} SignalCountIsPairs(messages: seq<DbcParser.MessageDef>)
    decreases |messages|
    ensures SignalCount(messages) == |Pairs(messages)|
  {
    if |messages| > 0 {
      SignalCountIsPairs(messages[1..]);
    }
  }

  type NameBuilder = (DbcParser.MessageDef, DbcParser.SignalDef) -> string
  type RowBuilder = (DbcParser.MessageDef, DbcParser.SignalDef) -> CanDef

  /** One entry per (message, signal) pair: its key and its row. */
  function PairEntries(dbc: string, pairs: seq<(DbcParser.MessageDef, DbcParser.SignalDef)>,
                       name: NameBuilder, row: RowBuilder): (r: seq<((string, string), CanDef)>)
    ensures |r| == |pairs|
    ensures forall i | 0 <= i < |r| :: r[i] == ((dbc, name(pairs[i].0, pairs[i].1)), row(pairs[i].0, pairs[i].1))
  {
    seq(|pairs|, i requires 0 <= i < |pairs| => ((dbc, name(pairs[i].0, pairs[i].1)), row(pairs[i].0, pairs[i].1)))
  }

  /** Every signal's key is in the table after the inserts. */
  lemma InsertCovers(kept: CanTable, dbc: string, messages: seq<DbcParser.MessageDef>,
                     name: NameBuilder, row: RowBuilder)
    ensures var r := InsertAll(kept, PairEntries(dbc, Pairs(messages), name, row));
      forall m, s | m in messages && s in m.signals :: (dbc, name(m, s)) in r
  {
    var pairs := Pairs(messages);
    var entries := PairEntries(dbc, pairs, name, row);
    InsertAllFacts(kept, entries);
    forall m, s | m in messages && s in m.signals ensures (dbc, name(m, s)) in InsertAll(kept, entries) {
      PairsComplete(messages, m, s);
      var i :| 0 <= i < |pairs| && pairs[i] == (m, s);
      assert entries[i].0 == (dbc, name(m, s));
    }
  }

  /** A key the inserts added under `dbc` holds the row of a signal with
      that name, unless `kept` already had it. */
  lemma InsertSound(kept: CanTable, dbc: string, messages: seq<DbcParser.MessageDef>,
                    name: NameBuilder, row: RowBuilder)
    ensures var r := InsertAll(kept, PairEntries(dbc, Pairs(messages), name, row));
      forall k | k in r && k !in kept ::
        exists m, s | m in messages && s in m.signals :: k == (dbc, name(m, s)) && r[k] == row(m, s)
  {
    var pairs := Pairs(messages);
    var entries := PairEntries(dbc, pairs, name, row);
    var r := InsertAll(kept, entries);
    InsertAllFacts(kept, entries);
    forall k | k in r && k !in kept
      ensures exists m, s | m in messages && s in m.signals :: k == (dbc, name(m, s)) && r[k] == row(m, s)
    {
      var i :| 0 <= i < |entries| && entries[i] == (k, r[k]);
      assert pairs[i].0 in messages && pairs[i].1 in pairs[i].0.signals;
    }
  }

  /** The import with the row and the name as parameters, so the proof does
      not depend on how either is computed. */
  function ImportWith(t: CanTable, dbc: string, messages: seq<DbcParser.MessageDef>,
                      name: NameBuilder, row: RowBuilder): (r: CanTable)
    ensures forall k | k in t && k.0 != dbc :: k in r && r[k] == t[k]
    ensures forall k | k in r && k.0 == dbc ::
      exists m, s | m in messages && s in m.signals :: k == (dbc, name(m, s)) && r[k] == row(m, s)
    ensures forall m, s | m in messages && s in m.signals :: (dbc, name(m, s)) in r
    ensures forall k | k in r && k.0 != dbc :: k in t
  {
    var kept := map k | k in t && k.0 != dbc :: t[k];
    var entries := PairEntries(dbc, Pairs(messages), name, row);
    InsertAllFacts(kept, entries);
    InsertCovers(kept, dbc, messages, name, row);
    InsertSound(kept, dbc, messages, name, row);
    InsertAll(kept, entries)
  }

  /** `import_can_signals`: a DBC file that cannot be loaded (`None`)
      leaves the table alone and counts 0. Otherwise the rows of the same
      DBC file are deleted first and those of other files stay as they were;
      afterwards the file's rows are exactly one per signal name of the
      database, each built from a signal with that name, and the count is
      the number of signals inserted. */
  function ImportCan(t: CanTable, dbc: string, db: Option<DbcParser.Database>): (r: (CanTable, nat))
    ensures db.None? ==> r == (t, 0)
    ensures forall k | k in t && k.0 != dbc :: k in r.0 && r.0[k] == t[k]
    ensures db.Some? ==> forall k | k in r.0 && k.0 == dbc ::
      exists m, s | m in db.value.messages && s in m.signals :: k == CanKey(dbc, m, s) && r.0[k] == CanRow(m, s)
    ensures db.Some? ==> forall m, s | m in db.value.messages && s in m.signals :: CanKey(dbc, m, s) in r.0
    ensures forall k | k in r.0 && k.0 != dbc :: k in t
    ensures db.Some? ==> r.1 == SignalCount(db.value.messages)
  {
    match db
    case None => (t, 0)
    case Some(d) =>
      var name := (m: DbcParser.MessageDef, s: DbcParser.SignalDef) => CanNames.CanSignalName(m.frameId, s.name);
      (ImportWith(t, dbc, d.messages, name, CanRow), SignalCount(d.messages))
  }
}

=== FILE: dict_regeneration.dfy ===
/** The source-file half of release/v1.0/tools/apply_translations.py:
    `update_python_dict_cereal` and `update_python_dict_can` find a
    dictionary literal in a Python file by its opening text, find its end by
    counting braces from there, and replace exactly that span with a
    dictionary generated from the translation file. */
module DictRegeneration {
  import opened Wrappers
  import opened Strings
  import Ordering
  import Upsert
  import CapnpAnnotations
  import ApplyTranslations

  type Entries = seq<(string, ApplyTranslations.Json)>

  // ---------------------------------------------------------------------------
  // Finding and replacing the dictionary

  /** The brace scan from `start`: the index just past the `}` that brings
      the count back to 0, or `start` itself when no `}` does. */
  function DictEnd(content: string, start: nat): (e: nat)
    requires start <= |content|
    ensures start <= e <= |content|
  {
    match CapnpAnnotations.FirstClose(content[start..], 0, true)
    case Some(q) =>
      CapnpAnnotations.FirstCloseSpec(content[start..], 0, true);
      start + q + 1
    case None => start
  }

  /** The scan stops at the first `}` after which the braces counted from
      `start` balance; without one the end is the start. */
  lemma DictEndSpec(content: string, start: nat)
    requires start <= |content|
    ensures var e := DictEnd(content, start);
      && (e > start ==> content[e - 1] == '}' && CapnpAnnotations.Balance(content[start..e]) == 0)
      && (forall q | start <= q < e - 1 :: content[q] == '}' ==> CapnpAnnotations.Balance(content[start..q + 1]) != 0)
      && (e == start ==> forall q | start <= q < |content| :: content[q] == '}' ==> CapnpAnnotations.Balance(content[start..q + 1]) != 0)
  {
    var s := content[start..];
    CapnpAnnotations.FirstCloseSpec(s, 0, true);
    var r := CapnpAnnotations.FirstClose(s, 0, true);
    forall q | start <= q < |content| && (r.None? || q < start + r.value) && content[q] == '}'
      ensures CapnpAnnotations.Balance(content[start..q + 1]) != 0
    {
      assert s[..q - start + 1] == content[start..q + 1];
      assert !CapnpAnnotations.ClosesAt(s, 0, true, q - start);
    }
    if r.Some? {
      assert s[..r.value + 1] == content[start..start + r.value + 1];
    }
  }

  /** The file text after the update: `None` when the opening text is
      missing (nothing is written); otherwise the text before the opening,
      the new dictionary, and the text after the old dictionary's end. */
  function Splice(content: string, opening: string, dict: string): (r: Option<string>)
    ensures r.None? <==> !Contains(content, opening)
    ensures r.Some? ==> var s := Find(content, opening).value;
      && s <= |content| && |r.value| == s + |dict| + |content| - DictEnd(content, s)
      && r.value[..s] == content[..s]
      && r.value[s..s + |dict|] == dict
      && r.value[s + |dict|..] == content[DictEnd(content, s)..]
  {
    match Find(content, opening)
    case None => None
    case Some(s) =>
      var r := content[..s] + dict + content[DictEnd(content, s)..];
      assert r[..s] == content[..s] && r[s..s + |dict|] == dict && r[s + |dict|..] == content[DictEnd(content, s)..];
      Some(r)
  }

  /** A dictionary text the scan closes exactly at its last character: it
      ends with its only `}`, and its braces balance. */
  predicate Closed(dict: string) {
    && |dict| > 0 && dict[|dict| - 1] == '}'
    && '}' !in dict[..|dict| - 1]
    && CapnpAnnotations.Balance(dict) == 0
  }

  /** The scan from the start of a closed dictionary stops at its end,
      whatever follows. */
  lemma ClosedEnds(dict: string, rest: string)
    requires Closed(dict)
    ensures DictEnd(dict + rest, 0) == |dict|
  {
    var s := (dict + rest)[0..];
    assert s == dict + rest;
    CapnpAnnotations.FirstCloseSpec(s, 0, true);
    assert s[..|dict|] == dict;
    assert CapnpAnnotations.ClosesAt(s, 0, true, |dict| - 1);
    forall q: nat | q < |dict| - 1 ensures !CapnpAnnotations.ClosesAt(s, 0, true, q) {
      assert s[q] == dict[..|dict| - 1][q];
    }
  }

  /** Two texts that agree up to the end of an occurrence of `t` at `s`
      have their first occurrence of `t` at the same place. */
  lemma FindSamePrefix(a: string, b: string, t: string, s: nat)
    requires Find(a, t) == Some(s)
    requires s + |t| <= |a| && s + |t| <= |b| && a[..s + |t|] == b[..s + |t|]
    ensures Find(b, t) == Some(s)
  {
    assert a[s..s + |t|] == a[..s + |t|][s..];
    assert b[s..s + |t|] == b[..s + |t|][s..];
    assert OccursAt(b, t, s);
    var r := Find(b, t);
    assert r.Some?;
    if r.value < s {
      assert b[r.value..r.value + |t|] == b[..s + |t|][r.value..r.value + |t|];
      assert a[r.value..r.value + |t|] == a[..s + |t|][r.value..r.value + |t|];
      assert OccursAt(a, t, r.value);
      assert false;
    }
  }

  /** Running the update a second time with the same dictionary changes
      nothing: the opening is found at the same place and the scan stops at
      the end of the dictionary written the first time. */
  lemma SpliceStable(content: string, opening: string, dict: string)
    requires StartsWith(dict, opening) && Closed(dict)
    requires Splice(content, opening, dict).Some?
    ensures Splice(Splice(content, opening, dict).value, opening, dict) == Splice(content, opening, dict)
  {
    var s := Find(content, opening).value;
    var e := DictEnd(content, s);
    var once := Splice(content, opening, dict).value;
    assert once == content[..s] + dict + content[e..];
    assert content[s..s + |opening|] == opening;
    assert once[..s + |opening|] == content[..s] + opening;
    assert content[..s + |opening|] == content[..s] + opening;
    FindSamePrefix(content, once, opening, s);
    assert once[s..] == dict + content[e..];
    ClosedEnds(dict, content[e..]);
    assert DictEnd(once, s) == s + |dict| by {
      assert CapnpAnnotations.FirstClose(once[s..], 0, true) == CapnpAnnotations.FirstClose(dict + content[e..], 0, true);
      assert (dict + content[e..])[0..] == dict + content[e..];
    }
    assert once[s + |dict|..] == content[e..];
  }

  // ---------------------------------------------------------------------------
  // The entries that are written

  /** The keys of the translation file. */
  function Keys(entries: Entries): (r: seq<string>)
    ensures |r| == |entries| && forall i | 0 <= i < |r| :: r[i] == entries[i].0
  {
    seq(|entries|, i requires 0 <= i < |entries| => entries[i].0)
  }

  /** `translations[key]`: the value of the key's last entry. */
  function Value(entries: Entries, key: string): (r: Option<ApplyTranslations.Json>)
    ensures r.Some? <==> key in Keys(entries)
  {
    match Upsert.LastIndex(entries, key)
    case None =>
      assert forall i | 0 <= i < |entries| :: entries[i].0 != key;
      None
    case Some(j) => Some(entries[j].1)
  }

  /** A key's name to write: its value is an object whose `name_cn` is not
      empty, and the key is not a comment. */
  function NameToWrite(entries: Entries, key: string): (r: Option<string>)
    ensures r.Some? ==> key in Keys(entries) && r.value != ""
  {
    match Value(entries, key)
    case Some(v) =>
      if ApplyTranslations.Applicable(key, v) && ApplyTranslations.Field(v.fields, "name_cn") != "" then
        Some(ApplyTranslations.Field(v.fields, "name_cn"))
      else None
    case None => None
  }

  function Names(entries: Entries): string -> Option<string> {
    (k: string) => NameToWrite(entries, k)
  }

  /** The `(key, name)` pairs of `sorted` that have a name, in order. */
  function Named(sorted: seq<string>, name: string -> Option<string>): (r: seq<(string, string)>)
    requires Ordering.StrictlySorted(sorted)
    decreases |sorted|
    ensures forall i | 0 <= i < |r| :: r[i].0 in sorted && name(r[i].0) == Some(r[i].1)
    ensures Ordering.StrictlySorted(KeysOf(r))
  {
    if |sorted| == 0 then []
    else
      var rest := Named(sorted[1..], name);
      assert forall i | 0 <= i < |rest| :: Ordering.Lt(sorted[0], rest[i].0);
      match name(sorted[0])
      case Some(n) =>
        var r := [(sorted[0], n)] + rest;
        assert KeysOf(r) == [sorted[0]] + KeysOf(rest);
        r
      case None => rest
  }

  lemma {:induction false} NamedComplete(sorted: seq<string>, name: string -> Option<string>, k: string)
    requires Ordering.StrictlySorted(sorted) && k in sorted && name(k).Some?
    decreases |sorted|
    ensures (k, name(k).value) in Named(sorted, name)
  {
    if k != sorted[0] {
      NamedComplete(sorted[1..], name, k);
    }
  }

  function KeysOf<T>(pairs: seq<(string, T)>): (r: seq<string>)
    ensures |r| == |pairs| && forall i | 0 <= i < |r| :: r[i] == pairs[i].0
  {
    seq(|pairs|, i requires 0 <= i < |pairs| => pairs[i].0)
  }

  /** The cereal dictionary's entries: the keys in ascending order, those
      whose name is written. */
  function CerealPairs(entries: Entries): (r: seq<(string, string)>)
    ensures Ordering.StrictlySorted(KeysOf(r))
  {
    Named(Ordering.SortDistinct(Keys(entries)), Names(entries))
  }

  /** Exactly the keys whose name is written are listed, each with that
      name, each once. */
  lemma CerealPairsExact(entries: Entries, k: string, n: string)
    ensures (k, n) in CerealPairs(entries) <==> NameToWrite(entries, k) == Some(n)
  {
    if NameToWrite(entries, k) == Some(n) {
      NamedComplete(Ordering.SortDistinct(Keys(entries)), Names(entries), k);
    }
    if (k, n) in CerealPairs(entries) {
      var i :| 0 <= i < |CerealPairs(entries)| && CerealPairs(entries)[i] == (k, n);
      assert Names(entries)(k) == Some(n);
    }
  }

  // ---------------------------------------------------------------------------
  // CAN categories

  /** The default category. */
  const Other: string := "\U{5176}\U{4ED6}"

  /** `trans.get('category', '其他')` for a key whose name is written. */
  function CategoryOf(entries: Entries, key: string): string {
    match Value(entries, key)
    case Some(Object(fields)) => if "category" in fields then fields["category"] else Other
    case _ => Other
  }

  function CategoriesOf(entries: Entries): string -> string {
    (k: string) => CategoryOf(entries, k)
  }

  /** The categories of the pairs, each once, ascending. */
  function Categories(pairs: seq<(string, string)>, cat: string -> string): (r: seq<string>)
    ensures Ordering.StrictlySorted(r)
    ensures forall c :: c in r <==> exists i | 0 <= i < |pairs| :: cat(pairs[i].0) == c
  {
    var cats := seq(|pairs|, i requires 0 <= i < |pairs| => cat(pairs[i].0));
    assert forall c :: c in cats <==> exists i | 0 <= i < |pairs| :: cat(pairs[i].0) == c by {
      forall c ensures c in cats <==> exists i | 0 <= i < |pairs| :: cat(pairs[i].0) == c {
        if exists i | 0 <= i < |pairs| :: cat(pairs[i].0) == c {
          var i :| 0 <= i < |pairs| && cat(pairs[i].0) == c;
          assert cats[i] == c;
        }
      }
    }
    Ordering.SortDistinct(cats)
  }

  /** The pairs of one category, in their order. */
  function InCategory(pairs: seq<(string, string)>, cat: string -> string, c: string): (r: seq<(string, string)>)
    decreases |pairs|
    ensures forall p :: p in r <==> p in pairs && cat(p.0) == c
    ensures |r| <= |pairs|
  {
    if |pairs| == 0 then []
    else
      var rest := InCategory(pairs[1..], cat, c);
      assert forall p :: p in pairs <==> p == pairs[0] || p in pairs[1..];
      if cat(pairs[0].0) == c then [pairs[0]] + rest else rest
  }

  /** The groups: one per category, ascending, each holding its pairs in
      their order. */
  function Groups(pairs: seq<(string, string)>, cat: string -> string): (r: seq<(string, seq<(string, string)>)>)
    ensures KeysOf(r) == Categories(pairs, cat)
    ensures forall i | 0 <= i < |r| :: r[i].1 == InCategory(pairs, cat, r[i].0)
  {
    var cats := Categories(pairs, cat);
    seq(|cats|, i requires 0 <= i < |cats| => (cats[i], InCategory(pairs, cat, cats[i])))
  }

  /** Every group is non-empty, and a pair lies in a group iff it is one of
      the pairs and the group is its category's. */
  lemma GroupsExact(pairs: seq<(string, string)>, cat: string -> string)
    ensures var r := Groups(pairs, cat);
      && (forall i | 0 <= i < |r| :: |r[i].1| > 0)
      && (forall p :: p in pairs <==> exists i | 0 <= i < |r| :: p in r[i].1 && cat(p.0) == r[i].0)
  {
    var r := Groups(pairs, cat);
    var cats := Categories(pairs, cat);
    forall i | 0 <= i < |r| ensures |r[i].1| > 0 {
      assert r[i].0 == cats[i] && cats[i] in cats;
      var j :| 0 <= j < |pairs| && cat(pairs[j].0) == cats[i];
      assert pairs[j] in r[i].1;
    }
    forall p | p in pairs ensures exists i | 0 <= i < |r| :: p in r[i].1 && cat(p.0) == r[i].0 {
      var j :| 0 <= j < |pairs| && pairs[j] == p;
      assert cat(p.0) in cats;
      var i :| 0 <= i < |cats| && cats[i] == cat(p.0);
      assert r[i].0 == cats[i];
      assert p in r[i].1;
    }
  }

  /** Each pair lies in one group only. */
  lemma OneGroupEach(pairs: seq<(string, string)>, cat: string -> string, p: (string, string), i: nat, j: nat)
    requires i < j < |Groups(pairs, cat)|
    requires p in Groups(pairs, cat)[i].1
    ensures p !in Groups(pairs, cat)[j].1
  {
    var g := Groups(pairs, cat);
    assert g[i].0 == KeysOf(g)[i] && g[j].0 == KeysOf(g)[j];
    Ordering.SortedDistinct(KeysOf(g), i, j);
  }

  /** `update_python_dict_can`'s groups. */
  function CanGroups(entries: Entries): seq<(string, seq<(string, string)>)> {
    Groups(CerealPairs(entries), CategoriesOf(entries))
  }

  /** The CAN dictionary lists each key whose name is written exactly in
      the group of its category; the groups are ascending and non-empty. */
  lemma CanGroupsExact(entries: Entries, k: string, n: string)
    ensures Ordering.StrictlySorted(KeysOf(CanGroups(entries)))
    ensures forall i | 0 <= i < |CanGroups(entries)| :: |CanGroups(entries)[i].1| > 0
    ensures NameToWrite(entries, k) == Some(n) <==>
      exists i | 0 <= i < |CanGroups(entries)| :: (k, n) in CanGroups(entries)[i].1 && CategoryOf(entries, k) == CanGroups(entries)[i].0
  {
    GroupsExact(CerealPairs(entries), CategoriesOf(entries));
    CerealPairsExact(entries, k, n);
  }

  // ---------------------------------------------------------------------------
  // The generated text

  /** One dictionary line: `'key': 'name',` after `indent`. */
  function EntryLine(indent: string, k: string, n: string): string {
    indent + "'" + k + "': '" + n + "',\n"
  }

  function EntryLines(indent: string, pairs: seq<(string, string)>): string
    decreases |pairs|
  {
    if |pairs| == 0 then "" else EntryLine(indent, pairs[0].0, pairs[0].1) + EntryLines(indent, pairs[1..])
  }

  const CerealOpening: string := "self.cereal_translations = {"
  const CanOpening: string := "TRANSLATIONS = {"

  /** The generated cereal dictionary. */
  function CerealDict(entries: Entries): string {
    DictText(CerealOpening, EntryLines("            ", CerealPairs(entries)), "        ")
  }

  /** A dictionary literal: the opening, a line break, the body, and the
      closing brace after `indent`. */
  function DictText(opening: string, body: string, indent: string): string {
    opening + "\n" + body + indent + "}"
  }

  function GroupText(group: (string, seq<(string, string)>)): string {
    "        # " + group.0 + "\n" + EntryLines("        ", group.1) + "\n"
  }

  function GroupsText(groups: seq<(string, seq<(string, string)>)>): string
    decreases |groups|
  {
    if |groups| == 0 then "" else GroupText(groups[0]) + GroupsText(groups[1..])
  }

  /** The generated CAN dictionary. */
  function CanDict(entries: Entries): string {
    DictText(CanOpening, GroupsText(CanGroups(entries)), "    ")
  }

  /** `update_python_dict_cereal` on a file's text. */
  function UpdateCereal(content: string, entries: Entries): Option<string> {
    Splice(content, CerealOpening, CerealDict(entries))
  }

  /** `update_python_dict_can` on a file's text. */
  function UpdateCan(content: string, entries: Entries): Option<string> {
    Splice(content, CanOpening, CanDict(entries))
  }

  // ---------------------------------------------------------------------------
  // The generated dictionaries are closed

  predicate BraceFree(s: string) {
    '{' !in s && '}' !in s
  }

  lemma {:induction false} BraceFreeBalance(s: string)
    requires BraceFree(s)
    decreases |s|
    ensures CapnpAnnotations.Balance(s) == 0
  {
    if |s| > 0 {
      assert s[|s| - 1] in s;
      assert forall c | c in s[..|s| - 1] :: c in s;
      BraceFreeBalance(s[..|s| - 1]);
    }
  }

  lemma BraceFreeAppend(a: string, b: string)
    requires BraceFree(a) && BraceFree(b)
    ensures BraceFree(a + b)
  {
    assert forall c | c in a + b :: c in a || c in b;
  }

  /** Keys, names and categories without braces. */
  predicate Plain(entries: Entries) {
    forall k | k in Keys(entries) ::
      && BraceFree(k)
      && (match Value(entries, k)
          case Some(Object(fields)) => forall f | f in fields :: BraceFree(fields[f])
          case _ => true)
  }

  lemma {:induction false} EntryLinesBraceFree(indent: string, pairs: seq<(string, string)>)
    requires BraceFree(indent)
    requires forall i | 0 <= i < |pairs| :: BraceFree(pairs[i].0) && BraceFree(pairs[i].1)
    decreases |pairs|
    ensures BraceFree(EntryLines(indent, pairs))
  {
    if |pairs| > 0 {
      EntryLinesBraceFree(indent, pairs[1..]);
      var k := pairs[0].0;
      var n := pairs[0].1;
      BraceFreeAppend(indent, "'");
      BraceFreeAppend(indent + "'", k);
      BraceFreeAppend(indent + "'" + k, "': '");
      BraceFreeAppend(indent + "'" + k + "': '", n);
      BraceFreeAppend(indent + "'" + k + "': '" + n, "',\n");
      BraceFreeAppend(EntryLine(indent, k, n), EntryLines(indent, pairs[1..]));
    }
  }

  lemma PairsBraceFree(entries: Entries, pairs: seq<(string, string)>)
    requires Plain(entries)
    requires forall i | 0 <= i < |pairs| :: NameToWrite(entries, pairs[i].0) == Some(pairs[i].1)
    ensures forall i | 0 <= i < |pairs| :: BraceFree(pairs[i].0) && BraceFree(pairs[i].1)
  {
    forall i | 0 <= i < |pairs| ensures BraceFree(pairs[i].0) && BraceFree(pairs[i].1) {
      var k := pairs[i].0;
      assert k in Keys(entries);
      var v := Value(entries, k).value;
      assert v.Object? && "name_cn" in v.fields;
    }
  }

  /** A dictionary whose opening ends with its only `{` and whose body and
      indent are brace-free is closed and starts with its opening. */
  lemma DictTextClosed(opening: string, body: string, indent: string)
    requires |opening| > 0 && opening[|opening| - 1] == '{' && BraceFree(opening[..|opening| - 1])
    requires BraceFree(body) && BraceFree(indent)
    ensures Closed(DictText(opening, body, indent)) && StartsWith(DictText(opening, body, indent), opening)
  {
    var d := DictText(opening, body, indent);
    var o := opening[..|opening| - 1];
    var mid := "\n" + body + indent;
    BraceFreeAppend("\n", body);
    BraceFreeAppend("\n" + body, indent);
    assert opening == o + "{";
    assert d == o + "{" + mid + "}";
    BraceFreeBalance(o);
    BraceFreeBalance(mid);
    CapnpAnnotations.BalanceAppend(o, "{");
    CapnpAnnotations.BalanceAppend(o + "{", mid);
    CapnpAnnotations.BalanceAppend(o + "{" + mid, "}");
    assert d[..|d| - 1] == o + "{" + mid;
    assert '}' !in d[..|d| - 1] by {
      assert forall x | x in o + "{" + mid :: x in o || x == '{' || x in mid;
    }
  }

  lemma OpeningsPlain()
    ensures CerealOpening[|CerealOpening| - 1] == '{' && BraceFree(CerealOpening[..|CerealOpening| - 1])
    ensures CanOpening[|CanOpening| - 1] == '{' && BraceFree(CanOpening[..|CanOpening| - 1])
  {
  }

  /** With plain entries the cereal dictionary is closed, so a second
      update with the same file changes nothing. */
  lemma CerealUpdateStable(content: string, entries: Entries)
    requires Plain(entries) && UpdateCereal(content, entries).Some?
    ensures UpdateCereal(UpdateCereal(content, entries).value, entries) == UpdateCereal(content, entries)
  {
    var pairs := CerealPairs(entries);
    forall i | 0 <= i < |pairs| ensures NameToWrite(entries, pairs[i].0) == Some(pairs[i].1) {
      CerealPairsExact(entries, pairs[i].0, pairs[i].1);
    }
    PairsBraceFree(entries, pairs);
    EntryLinesBraceFree("            ", pairs);
    OpeningsPlain();
    DictTextClosed(CerealOpening, EntryLines("            ", pairs), "        ");
    SpliceStable(content, CerealOpening, CerealDict(entries));
  }

  lemma {:induction false} GroupsTextBraceFree(groups: seq<(string, seq<(string, string)>)>)
    requires forall i | 0 <= i < |groups| :: BraceFree(groups[i].0)
    requires forall i, p | 0 <= i < |groups| && p in groups[i].1 :: BraceFree(p.0) && BraceFree(p.1)
    decreases |groups|
    ensures BraceFree(GroupsText(groups))
  {
    if |groups| > 0 {
      GroupsTextBraceFree(groups[1..]);
      var g := groups[0];
      assert forall k | 0 <= k < |g.1| :: g.1[k] in g.1;
      EntryLinesBraceFree("        ", g.1);
      BraceFreeAppend("        # ", g.0);
      BraceFreeAppend("        # " + g.0, "\n");
      BraceFreeAppend("        # " + g.0 + "\n", EntryLines("        ", g.1));
      BraceFreeAppend("        # " + g.0 + "\n" + EntryLines("        ", g.1), "\n");
      BraceFreeAppend(GroupText(g), GroupsText(groups[1..]));
    }
  }

  /** The category of a written key is brace-free when the entries are. */
  lemma CategoryBraceFree(entries: Entries, k: string)
    requires Plain(entries) && k in Keys(entries)
    ensures BraceFree(CategoryOf(entries, k))
  {
  }

  /** With plain entries the CAN dictionary is closed, so a second update
      with the same file changes nothing. */
  lemma CanUpdateStable(content: string, entries: Entries)
    requires Plain(entries) && UpdateCan(content, entries).Some?
    ensures UpdateCan(UpdateCan(content, entries).value, entries) == UpdateCan(content, entries)
  {
    CanGroupsBraceFree(entries);
    OpeningsPlain();
    DictTextClosed(CanOpening, GroupsText(CanGroups(entries)), "    ");
    SpliceStable(content, CanOpening, CanDict(entries));
  }

  /** With plain entries the grouped body of the CAN dictionary holds no
      brace. */
  lemma CanGroupsBraceFree(entries: Entries)
    requires Plain(entries)
    ensures BraceFree(GroupsText(CanGroups(entries)))
  {
    var pairs := CerealPairs(entries);
    var cat := CategoriesOf(entries);
    forall i | 0 <= i < |pairs| ensures NameToWrite(entries, pairs[i].0) == Some(pairs[i].1) {
      CerealPairsExact(entries, pairs[i].0, pairs[i].1);
    }
    PairsBraceFree(entries, pairs);
    var groups := CanGroups(entries);
    forall i | 0 <= i < |groups| ensures BraceFree(groups[i].0) {
      assert groups[i].0 == KeysOf(groups)[i];
      assert groups[i].0 in Categories(pairs, cat);
      var j :| 0 <= j < |pairs| && cat(pairs[j].0) == groups[i].0;
      CategoryBraceFree(entries, pairs[j].0);
    }
    forall i, p | 0 <= i < |groups| && p in groups[i].1 ensures BraceFree(p.0) && BraceFree(p.1) {
      assert p in pairs;
    }
    GroupsTextBraceFree(groups);
  }
}

=== FILE: event_routing.dfy ===
/** The event loop of src/core/segment_importer.py `import_segment`: how one
    event becomes rows of the segment's child tables. A message of a type
    listed in the signal definitions gives one sample per numeric field; a
    `can` event gives one raw row per frame and one sample per numeric
    decoded signal; `logMessage` / `errorLogMessage` give a log line; an
    `...EncodeIdx` event gives a frame time of its camera. The CAN decoder
    (cantools behind `decode_message`) is a parameter. */
module EventRouting {
  import opened Wrappers
  import opened Events
  import opened Strings
  import opened LogRecords
  import opened Store
  import opened CanNames
  import FieldWalker

  /** A decoded signal value as cantools hands it back: an integer (a
      boolean included), a float, a `NamedSignalValue` with its raw value,
      or anything else. */
  datatype Decoded = IntVal(i: int) | FloatVal(x: real) | NamedVal(value: real) | OtherVal

  /** `decode_message(can_id, can_data)`: the decoded signals in dictionary
      order, or `None` for an unknown id or a failed decode. */
  type Decoder = (nat, seq<int>) -> Option<seq<(string, Decoded)>>

  /** The rows one event (or one whole segment) produces. */
  datatype Batch = Batch(samples: seq<Sample>, cans: seq<CanRow>, logs: seq<LogRow>, videos: seq<VideoRow>)

  const EmptyBatch: Batch := Batch([], [], [], [])

  function Concat(a: Batch, b: Batch): Batch {
    Batch(a.samples + b.samples, a.cans + b.cans, a.logs + b.logs, a.videos + b.videos)
  }

  // ---------------------------------------------------------------------------
  // Cereal messages
  // ---------------------------------------------------------------------------

  /** `extract_all_fields(obj, msg_type)` stored at the event's time. */
  function CerealRows(segId: nat, t: int, which: string, v: Value): (r: seq<Sample>)
    ensures |r| == |FieldWalker.Walk(v)|
    ensures forall k | 0 <= k < |r| :: r[k].segmentId == segId && r[k].timeNs == t
    ensures forall k | 0 <= k < |r| :: StartsWith(r[k].name, which + ".")
    ensures forall k | 0 <= k < |r| :: (r[k].name, r[k].value) == FieldWalker.ExtractAllFields(v, which)[k]
  {
    var fields := FieldWalker.ExtractAllFields(v, which);
    forall k | 0 <= k < |fields| ensures StartsWith(fields[k].0, which + ".") {
      FieldWalker.ExtractedNamesArePrefixed(v, which, k);
    }
    seq(|fields|, k requires 0 <= k < |fields| => Sample(segId, t, fields[k].0, fields[k].1))
  }

  // ---------------------------------------------------------------------------
  // CAN frames
  // ---------------------------------------------------------------------------

  /** Integers, floats and `NamedSignalValue.value` are stored; any other
      decoded value is not. */
  function DecodedNumber(d: Decoded): (r: Option<real>)
    ensures r.None? <==> d.OtherVal?
    ensures d.IntVal? ==> r == Some(d.i as real)
    ensures d.FloatVal? ==> r == Some(d.x)
    ensures d.NamedVal? ==> r == Some(d.value)
  {
    match d
    case IntVal(i) => Some(i as real)
    case FloatVal(x) => Some(x)
    case NamedVal(value) => Some(value)
    case OtherVal => None
  }

  /** The samples of the decoded signals of one frame. */
  function SignalRows(segId: nat, t: int, address: nat, sigs: seq<(string, Decoded)>): (r: seq<Sample>)
    ensures |r| <= |sigs|
  {
    if |sigs| == 0 then []
    else
      var rest := SignalRows(segId, t, address, sigs[1..]);
      match DecodedNumber(sigs[0].1)
      case None => rest
      case Some(x) => [Sample(segId, t, CanSignalName(address, sigs[0].0), x)] + rest
  }

  /** What the decoder makes of a frame: nothing without a DBC or when it
      fails. */
  function FrameSignals(f: CanFrame, decoder: Option<Decoder>): seq<(string, Decoded)> {
    if decoder.None? then []
    else
      match decoder.value(f.address, f.dat)
      case None => []
      case Some(sigs) => sigs
  }

  /** A frame yields the sample `Sample(segId, t, n, x)`: one of its decoded
      signals is numeric with value `x` and is named `n`. */
  predicate FrameEmits(f: CanFrame, decoder: Option<Decoder>, n: string, x: real) {
    var sigs := FrameSignals(f, decoder);
    exists j | 0 <= j < |sigs| :: DecodedNumber(sigs[j].1) == Some(x) && n == CanSignalName(f.address, sigs[j].0)
  }

  /** Every frame stored raw, then its numeric decoded signals. */
  function FrameRows(segId: nat, t: int, frames: seq<CanFrame>, decoder: Option<Decoder>): (r: Batch)
    ensures |r.cans| == |frames|
    ensures forall k | 0 <= k < |frames| ::
              r.cans[k] == CanRow(segId, t, frames[k].address, frames[k].dat, frames[k].src)
    ensures r.logs == [] && r.videos == []
  {
    if |frames| == 0 then EmptyBatch
    else
      var f := frames[0];
      var rest := FrameRows(segId, t, frames[1..], decoder);
      Batch(SignalRows(segId, t, f.address, FrameSignals(f, decoder)) + rest.samples,
            [CanRow(segId, t, f.address, f.dat, f.src)] + rest.cans, [], [])
  }

  lemma {:induction false} SignalRowsExact(segId: nat, t: int, address: nat, sigs: seq<(string, Decoded)>,
                                           s: Sample)
    ensures s in SignalRows(segId, t, address, sigs) <==>
              s.segmentId == segId && s.timeNs == t
              && exists j | 0 <= j < |sigs| ::
                   DecodedNumber(sigs[j].1) == Some(s.value) && s.name == CanSignalName(address, sigs[j].0)
  {
    if |sigs| > 0 {
      SignalRowsExact(segId, t, address, sigs[1..], s);
      var tail := sigs[1..];
      if exists j | 0 <= j < |sigs| :: DecodedNumber(sigs[j].1) == Some(s.value) && s.name == CanSignalName(address, sigs[j].0) {
        var j :| 0 <= j < |sigs| && DecodedNumber(sigs[j].1) == Some(s.value) && s.name == CanSignalName(address, sigs[j].0);
        if j > 0 {
          assert tail[j - 1] == sigs[j];
        }
      }
      if exists j | 0 <= j < |tail| :: DecodedNumber(tail[j].1) == Some(s.value) && s.name == CanSignalName(address, tail[j].0) {
        var j :| 0 <= j < |tail| && DecodedNumber(tail[j].1) == Some(s.value) && s.name == CanSignalName(address, tail[j].0);
        assert sigs[j + 1] == tail[j];
      }
    }
  }

  /** The samples of a `can` event are exactly the numeric decoded signals of
      its frames, each at the event's time under its `CAN_0x...` name. */
  lemma {:induction false} FrameRowsExact(segId: nat, t: int, frames: seq<CanFrame>, decoder: Option<Decoder>,
                                          s: Sample)
    ensures s in FrameRows(segId, t, frames, decoder).samples <==>
              s.segmentId == segId && s.timeNs == t
              && exists k | 0 <= k < |frames| :: FrameEmits(frames[k], decoder, s.name, s.value)
  {
    if |frames| > 0 {
      var f := frames[0];
      var tail := frames[1..];
      FrameRowsExact(segId, t, tail, decoder, s);
      SignalRowsExact(segId, t, f.address, FrameSignals(f, decoder), s);
      if exists k | 0 <= k < |frames| :: FrameEmits(frames[k], decoder, s.name, s.value) {
        var k :| 0 <= k < |frames| && FrameEmits(frames[k], decoder, s.name, s.value);
        if k > 0 {
          assert tail[k - 1] == frames[k];
        }
      }
      if exists k | 0 <= k < |tail| :: FrameEmits(tail[k], decoder, s.name, s.value) {
        var k :| 0 <= k < |tail| && FrameEmits(tail[k], decoder, s.name, s.value);
        assert frames[k + 1] == tail[k];
      }
    }
  }

  // ---------------------------------------------------------------------------
  // Frame indices
  // ---------------------------------------------------------------------------

  /** The camera whose frame times an `...EncodeIdx` event carries. */
  function Camera(which: string): (r: Option<string>)
    ensures which == "roadEncodeIdx" ==> r == Some("fcamera")
    ensures which == "qRoadEncodeIdx" ==> r == Some("qcamera")
    ensures which == "wideRoadEncodeIdx" ==> r == Some("ecamera")
    ensures which == "driverEncodeIdx" ==> r == Some("dcamera")
    ensures r.Some? <==> which in {"roadEncodeIdx", "qRoadEncodeIdx", "wideRoadEncodeIdx", "driverEncodeIdx"}
  {
    if which == "roadEncodeIdx" then Some("fcamera")
    else if which == "qRoadEncodeIdx" then Some("qcamera")
    else if which == "wideRoadEncodeIdx" then Some("ecamera")
    else if which == "driverEncodeIdx" then Some("dcamera")
    else None
  }

  /** No two index streams feed the same camera. */
  lemma CameraInjective(a: string, b: string)
    requires Camera(a).Some? && Camera(a) == Camera(b)
    ensures a == b
  {
  }

  /** A frame time needs both `frameId` and `timestampSof`. */
  function VideoRows(segId: nat, e: Event): (r: seq<VideoRow>)
    ensures |r| <= 1
    ensures |r| == 1 <==> Camera(e.which).Some? && e.body.Message?
                          && IntField(e.body.v, "frameId").Some? && IntField(e.body.v, "timestampSof").Some?
    ensures |r| == 1 ==> r[0] == VideoRow(segId, Camera(e.which).value, IntField(e.body.v, "frameId").value,
                                          IntField(e.body.v, "timestampSof").value)
  {
    match Camera(e.which)
    case None => []
    case Some(camera) =>
      if !e.body.Message? then []
      else
        match (IntField(e.body.v, "frameId"), IntField(e.body.v, "timestampSof"))
        case (Some(frameId), Some(sof)) => [VideoRow(segId, camera, frameId, sof)]
        case _ => []
  }

  // ---------------------------------------------------------------------------
  // One event
  // ---------------------------------------------------------------------------

  /** The log line of a `logMessage` (`"log"`) or `errorLogMessage`
      (`"error"`) event; a line whose text fails to decode is dropped. */
  function LogRows(segId: nat, t: int, logType: string, body: Body, decodeLog: string -> Decoding): (r: seq<LogRow>)
    ensures |r| <= 1
    ensures |r| == 1 <==> body.LogText? && !decodeLog(body.text).Broken?
    ensures |r| == 1 ==> r[0].segmentId == segId && r[0].timeNs == t && r[0].entry.logType == logType
  {
    if !body.LogText? then []
    else
      match ParseLogMessage(logType, body.text, decodeLog(body.text))
      case None => []
      case Some(entry) => [LogRow(segId, t, entry)]
  }

  /** The `if / elif` chain of the event loop. A type listed in the signal
      definitions is taken as a cereal message before any other test. */
  function EventRows(e: Event, segId: nat, cerealTypes: set<string>, decoder: Option<Decoder>,
                     decodeLog: string -> Decoding): (r: Batch)
    ensures e.which in cerealTypes ==> r.cans == [] && r.logs == [] && r.videos == []
    ensures e.which in cerealTypes && e.body.Message? ==>
              r.samples == CerealRows(segId, e.logMonoTime, e.which, e.body.v)
    ensures e.which !in cerealTypes && e.which == "can" && e.body.CanFrames? ==>
              r == FrameRows(segId, e.logMonoTime, e.body.frames, decoder)
    ensures e.which !in cerealTypes && e.which == "logMessage" ==>
              r == Batch([], [], LogRows(segId, e.logMonoTime, "log", e.body, decodeLog), [])
    ensures e.which !in cerealTypes && e.which == "errorLogMessage" ==>
              r == Batch([], [], LogRows(segId, e.logMonoTime, "error", e.body, decodeLog), [])
    ensures e.which !in cerealTypes && Camera(e.which).Some? ==> r == Batch([], [], [], VideoRows(segId, e))
    ensures e.which !in cerealTypes && e.which != "can" ==> r.cans == []
    ensures e.which !in cerealTypes && e.which != "can" ==> r.samples == []
  {
    var t := e.logMonoTime;
    if e.which in cerealTypes then
      if e.body.Message? then Batch(CerealRows(segId, t, e.which, e.body.v), [], [], []) else EmptyBatch
    else if e.which == "can" then
      if e.body.CanFrames? then FrameRows(segId, t, e.body.frames, decoder) else EmptyBatch
    else if e.which == "logMessage" then Batch([], [], LogRows(segId, t, "log", e.body, decodeLog), [])
    else if e.which == "errorLogMessage" then Batch([], [], LogRows(segId, t, "error", e.body, decodeLog), [])
    else Batch([], [], [], VideoRows(segId, e))
  }

  /** Every row an event produces belongs to the segment being imported and
      carries the event's time (a frame time carries `timestampSof`). */
  lemma EventRowsBelong(e: Event, segId: nat, cerealTypes: set<string>, decoder: Option<Decoder>,
                        decodeLog: string -> Decoding)
    ensures var r := EventRows(e, segId, cerealTypes, decoder, decodeLog);
            && (forall k | 0 <= k < |r.samples| :: r.samples[k].segmentId == segId && r.samples[k].timeNs == e.logMonoTime)
            && (forall k | 0 <= k < |r.cans| :: r.cans[k].segmentId == segId && r.cans[k].timeNs == e.logMonoTime)
            && (forall k | 0 <= k < |r.logs| :: r.logs[k].segmentId == segId && r.logs[k].timeNs == e.logMonoTime)
            && (forall k | 0 <= k < |r.videos| :: r.videos[k].segmentId == segId)
  {
    var r := EventRows(e, segId, cerealTypes, decoder, decodeLog);
    if e.which !in cerealTypes && e.which == "can" && e.body.CanFrames? {
      forall k | 0 <= k < |r.samples| ensures r.samples[k].segmentId == segId && r.samples[k].timeNs == e.logMonoTime {
        FrameRowsExact(segId, e.logMonoTime, e.body.frames, decoder, r.samples[k]);
      }
    }
  }

  /** All rows of a segment's events, in event order. */
  function SegmentRows(events: seq<Event>, segId: nat, cerealTypes: set<string>, decoder: Option<Decoder>,
                       decodeLog: string -> Decoding): (r: Batch)
  {
    if |events| == 0 then EmptyBatch
    else Concat(EventRows(events[0], segId, cerealTypes, decoder, decodeLog),
                SegmentRows(events[1..], segId, cerealTypes, decoder, decodeLog))
  }

  /** Every row of the batch points at segment `segId`. */
  predicate Belongs(b: Batch, segId: nat) {
    && (forall k | 0 <= k < |b.samples| :: b.samples[k].segmentId == segId)
    && (forall k | 0 <= k < |b.cans| :: b.cans[k].segmentId == segId)
    && (forall k | 0 <= k < |b.logs| :: b.logs[k].segmentId == segId)
    && (forall k | 0 <= k < |b.videos| :: b.videos[k].segmentId == segId)
  }

  lemma ConcatBelongs(a: Batch, b: Batch, segId: nat)
    requires Belongs(a, segId) && Belongs(b, segId)
    ensures Belongs(Concat(a, b), segId)
  {
    var c := Concat(a, b);
    forall k | |a.samples| <= k < |c.samples| ensures c.samples[k].segmentId == segId {
      assert c.samples[k] == b.samples[k - |a.samples|];
    }
    forall k | |a.cans| <= k < |c.cans| ensures c.cans[k].segmentId == segId {
      assert c.cans[k] == b.cans[k - |a.cans|];
    }
    forall k | |a.logs| <= k < |c.logs| ensures c.logs[k].segmentId == segId {
      assert c.logs[k] == b.logs[k - |a.logs|];
    }
    forall k | |a.videos| <= k < |c.videos| ensures c.videos[k].segmentId == segId {
      assert c.videos[k] == b.videos[k - |a.videos|];
    }
  }

  /** Every row of a segment's events belongs to that segment. */
  lemma {:induction false} SegmentRowsBelong(events: seq<Event>, segId: nat, cerealTypes: set<string>,
                                             decoder: Option<Decoder>, decodeLog: string -> Decoding)
    ensures Belongs(SegmentRows(events, segId, cerealTypes, decoder, decodeLog), segId)
  {
    if |events| > 0 {
      EventRowsBelong(events[0], segId, cerealTypes, decoder, decodeLog);
      SegmentRowsBelong(events[1..], segId, cerealTypes, decoder, decodeLog);
      ConcatBelongs(EventRows(events[0], segId, cerealTypes, decoder, decodeLog),
                    SegmentRows(events[1..], segId, cerealTypes, decoder, decodeLog), segId);
    }
  }
}

=== FILE: events.dfy ===
/** The decoded contents of an rlog: a list of events, each with its
    `logMonoTime`, the name of the union member it carries (`which()`) and a
    payload. Cap'n Proto values are modelled as a tree: scalars, booleans,
    enumerants (by their raw code), text and data, structs (fields in schema
    order, each marked if it belongs to the struct's union) and lists. */
module Events {
  import opened Wrappers

  datatype Value =
    | Int(i: int)
    | Float(x: real)
    | Bool(b: bool)
    | Enum(raw: int)
    | Text(s: string)
    | Data(bytes: seq<int>)
    | Void
    | Struct(fields: seq<Field>)
    | List(items: seq<Value>)

  datatype Field = Field(name: string, inUnion: bool, value: Value)

  /** One CAN frame of a `can` event: arbitration id, payload bytes, bus. */
  datatype CanFrame = CanFrame(address: nat, dat: seq<int>, src: int)

  /** What an event carries: a struct-valued message, the frame list of a
      `can` event, or the JSON text of `logMessage` / `errorLogMessage`. */
  datatype Body =
    | Message(v: Value)
    | CanFrames(frames: seq<CanFrame>)
    | LogText(text: string)

  datatype Event = Event(logMonoTime: int, which: string, body: Body)

  /** `getattr(obj, name)`: the first field with that name, `None` when the
      object is not a struct or has no such field (where Python raises). */
  function Lookup(v: Value, name: string): (r: Option<Value>)
    ensures r.Some? ==> v.Struct? && exists k | 0 <= k < |v.fields| :: v.fields[k].name == name && v.fields[k].value == r.value
    ensures r.None? ==> !v.Struct? || forall k | 0 <= k < |v.fields| :: v.fields[k].name != name
  {
    if v.Struct? then LookupIn(v.fields, name) else None
  }

  function LookupIn(fields: seq<Field>, name: string): (r: Option<Value>)
    ensures r.Some? ==> exists k | 0 <= k < |fields| :: fields[k].name == name && fields[k].value == r.value
    ensures r.None? ==> forall k | 0 <= k < |fields| :: fields[k].name != name
  {
    if |fields| == 0 then None
    else if fields[0].name == name then Some(fields[0].value)
    else
      var r := LookupIn(fields[1..], name);
      assert r.Some? ==> exists k | 1 <= k < |fields| :: fields[k].name == name && fields[k].value == r.value by {
        if r.Some? {
          var k :| 0 <= k < |fields[1..]| && fields[1..][k].name == name && fields[1..][k].value == r.value;
          assert fields[k + 1] == fields[1..][k];
        }
      }
      r
  }

  /** An integer-valued field of a message, as read for `wallTimeNanos`,
      `unixTimestampMillis`, `frameId` and `timestampSof`. */
  function IntField(v: Value, name: string): (r: Option<int>)
    ensures r.Some? ==> Lookup(v, name) == Some(Int(r.value))
  {
    match Lookup(v, name)
    case Some(Int(i)) => Some(i)
    case _ => None
  }

  /** The message payload of an event of the given type, if it is one. */
  function MessageOf(e: Event, which: string): (r: Option<Value>)
    ensures r.Some? ==> e.which == which && e.body == Message(r.value)
  {
    if e.which == which && e.body.Message? then Some(e.body.v) else None
  }

  /** src/core/segment_importer.py `extract_numeric_value`: integers and
      floats as themselves, booleans as 1/0, enumerants by their raw code;
      anything else has no numeric value. */
  function Numeric(v: Value): (r: Option<real>)
    ensures r.Some? <==> (v.Int? || v.Float? || v.Bool? || v.Enum?)
    ensures v.Int? ==> r == Some(v.i as real)
    ensures v.Float? ==> r == Some(v.x)
    ensures v.Bool? ==> r == Some(if v.b then 1.0 else 0.0)
    ensures v.Enum? ==> r == Some(v.raw as real)
  {
    match v
    case Int(i) => Some(i as real)
    case Float(x) => Some(x)
    case Bool(b) => Some(if b then 1.0 else 0.0)
    case Enum(raw) => Some(raw as real)
    case _ => None
  }

  /** release/v1.0/tools/import_segment.py `extract_numeric_value`: only
      integers, floats and booleans (a `bool` is an `int`); enumerants give
      nothing. */
  function NumericPlain(v: Value): (r: Option<real>)
    ensures r.Some? <==> (v.Int? || v.Float? || v.Bool?)
    ensures !v.Enum? ==> r == Numeric(v)
  {
    match v
    case Int(i) => Some(i as real)
    case Float(x) => Some(x)
    case Bool(b) => Some(if b then 1.0 else 0.0)
    case _ => None
  }

  /** A field read by both command-line importers
      (release/v1.0/tools/import_segment.py `extract_numeric_value`,
      tools/import_segment_sqlite.py): its value as a number when it is an
      integer, a float or a boolean; `None` for any other value and for a
      field the message does not have. */
  function PlainField(msg: Value, field: string): (r: Option<real>)
    ensures r.Some? ==> msg.Struct? && exists k | 0 <= k < |msg.fields| ::
      msg.fields[k].name == field && (msg.fields[k].value.Int? || msg.fields[k].value.Float? || msg.fields[k].value.Bool?)
    ensures (!msg.Struct? || forall k | 0 <= k < |msg.fields| :: msg.fields[k].name != field) ==> r.None?
  {
    match Lookup(msg, field)
    case Some(v) => NumericPlain(v)
    case None => None
  }
}

=== FILE: field_walker.dfy ===
/** src/core/segment_importer.py `extract_all_fields`: the recursive walk
    that turns one message into `(signal_name, value)` rows. Only non-union
    fields of a struct are visited; a numeric field gives one row, a struct
    field is walked, and a list field contributes its first ten items (a
    struct item is walked, a numeric item gives one row). Names are built as
    `prefix.field` and `prefix.field[i]`; here a row first carries the
    structured path of steps, and `RenderPath` spells it out. */
module FieldWalker {
  import opened Events
  import Strings

  /** `max_array_depth`: how many items of a list are expanded. */
  const MaxArray: nat := 10

  datatype Step = Fld(name: string) | Idx(i: nat)

  datatype Row = Row(path: seq<Step>, value: real)

  /** Puts one more step in front of every row's path. */
  function Under(s: Step, rows: seq<Row>): (r: seq<Row>)
    ensures |r| == |rows|
    ensures forall k | 0 <= k < |r| :: r[k] == Row([s] + rows[k].path, rows[k].value)
  {
    seq(|rows|, k requires 0 <= k < |rows| => Row([s] + rows[k].path, rows[k].value))
  }

  lemma UnderMember(s: Step, rows: seq<Row>, p: seq<Step>, x: real)
    ensures Row(p, x) in Under(s, rows) <==> |p| > 0 && p[0] == s && Row(p[1..], x) in rows
  {
    var r := Under(s, rows);
    if Row(p, x) in r {
      var k :| 0 <= k < |r| && r[k] == Row(p, x);
      assert p[1..] == rows[k].path;
    }
    if |p| > 0 && p[0] == s && Row(p[1..], x) in rows {
      var k :| 0 <= k < |rows| && rows[k] == Row(p[1..], x);
      assert r[k] == Row(p, x);
    }
  }

  // ---------------------------------------------------------------------------
  // The walk
  // ---------------------------------------------------------------------------

  /** Top level: an object without a schema (not a struct) yields nothing. */
  function Walk(v: Value): seq<Row>
    decreases v, 3
  {
    if v.Struct? then WalkFields(v, 0) else []
  }

  /** The rows of the non-union fields `k..` of a struct. */
  function WalkFields(v: Value, k: nat): seq<Row>
    requires v.Struct? && k <= |v.fields|
    decreases v, 1, |v.fields| - k
  {
    if k == |v.fields| then []
    else
      var f := v.fields[k];
      (if f.inUnion then [] else Under(Fld(f.name), WalkField(f.value))) + WalkFields(v, k + 1)
  }

  /** A field's value: numeric first, then struct, then list. */
  function WalkField(v: Value): seq<Row>
    decreases v, 2
  {
    if Numeric(v).Some? then [Row([], Numeric(v).value)]
    else if v.Struct? then WalkFields(v, 0)
    else if v.List? then WalkItems(v, 0)
    else []
  }

  /** Items `i..` of a list, up to the cap. */
  function WalkItems(v: Value, i: nat): seq<Row>
    requires v.List?
    decreases v, 1, |v.items| - i
  {
    if i >= |v.items| || i >= MaxArray then []
    else Under(Idx(i), WalkItem(v.items[i])) + WalkItems(v, i + 1)
  }

  /** A list item: struct first, then numeric; lists of lists, text and data
      give nothing. */
  function WalkItem(v: Value): seq<Row>
    decreases v, 2
  {
    if v.Struct? then WalkFields(v, 0)
    else if Numeric(v).Some? then [Row([], Numeric(v).value)]
    else []
  }

  // ---------------------------------------------------------------------------
  // Reference definition: which (path, value) pairs a message holds
  // ---------------------------------------------------------------------------

  /** `x` is the numeric reading at `path` below a field's value, following
      only non-union fields and list indices below the cap. */
  predicate FieldReaches(v: Value, path: seq<Step>, x: real)
    decreases v, 2
  {
    if Numeric(v).Some? then path == [] && x == Numeric(v).value
    else if v.Struct? then StructReaches(v, path, x)
    else if v.List? then
      |path| > 0 && path[0].Idx? && path[0].i < |v.items| && path[0].i < MaxArray
      && ItemReaches(v.items[path[0].i], path[1..], x)
    else false
  }

  predicate StructReaches(v: Value, path: seq<Step>, x: real)
    requires v.Struct?
    decreases v, 1
  {
    |path| > 0 && path[0].Fld?
    && exists k | 0 <= k < |v.fields| ::
         !v.fields[k].inUnion && v.fields[k].name == path[0].name
         && FieldReaches(v.fields[k].value, path[1..], x)
  }

  predicate ItemReaches(v: Value, path: seq<Step>, x: real)
    decreases v, 2
  {
    if v.Struct? then StructReaches(v, path, x)
    else Numeric(v).Some? && path == [] && x == Numeric(v).value
  }

  /** What the message `v` holds at `path`. */
  predicate Reaches(v: Value, path: seq<Step>, x: real) {
    v.Struct? && StructReaches(v, path, x)
  }

  // ---------------------------------------------------------------------------
  // The walk emits exactly the reachable readings
  // ---------------------------------------------------------------------------

  lemma {:induction false} WalkFieldsExact(v: Value, k: nat, p: seq<Step>, x: real)
    requires v.Struct? && k <= |v.fields|
    decreases v, 1, |v.fields| - k
    ensures Row(p, x) in WalkFields(v, k) <==>
              |p| > 0 && p[0].Fld?
              && exists j | k <= j < |v.fields| ::
                   !v.fields[j].inUnion && v.fields[j].name == p[0].name
                   && FieldReaches(v.fields[j].value, p[1..], x)
  {
    if k < |v.fields| {
      var f := v.fields[k];
      var head := if f.inUnion then [] else Under(Fld(f.name), WalkField(f.value));
      assert WalkFields(v, k) == head + WalkFields(v, k + 1);
      WalkFieldsExact(v, k + 1, p, x);
      if !f.inUnion {
        UnderMember(Fld(f.name), WalkField(f.value), p, x);
        if |p| > 0 {
          WalkFieldExact(f.value, p[1..], x);
        }
      }
    }
  }

  lemma {:induction false} WalkFieldExact(v: Value, p: seq<Step>, x: real)
    decreases v, 2
    ensures Row(p, x) in WalkField(v) <==> FieldReaches(v, p, x)
  {
    if Numeric(v).Some? {
    } else if v.Struct? {
      WalkFieldsExact(v, 0, p, x);
    } else if v.List? {
      WalkItemsExact(v, 0, p, x);
    }
  }

  lemma {:induction false} WalkItemsExact(v: Value, i: nat, p: seq<Step>, x: real)
    requires v.List?
    decreases v, 1, |v.items| - i
    ensures Row(p, x) in WalkItems(v, i) <==>
              |p| > 0 && p[0].Idx? && i <= p[0].i < |v.items| && p[0].i < MaxArray
              && ItemReaches(v.items[p[0].i], p[1..], x)
  {
    if i < |v.items| && i < MaxArray {
      var item := v.items[i];
      assert WalkItems(v, i) == Under(Idx(i), WalkItem(item)) + WalkItems(v, i + 1);
      WalkItemsExact(v, i + 1, p, x);
      UnderMember(Idx(i), WalkItem(item), p, x);
      if |p| > 0 {
        WalkItemExact(item, p[1..], x);
      }
    }
  }

  lemma {:induction false} WalkItemExact(v: Value, p: seq<Step>, x: real)
    decreases v, 2
    ensures Row(p, x) in WalkItem(v) <==> ItemReaches(v, p, x)
  {
    if v.Struct? {
      WalkFieldsExact(v, 0, p, x);
    }
  }

  /** Soundness and completeness of `extract_all_fields`: a row is emitted
      exactly when the message holds that numeric reading at that path. */
  lemma WalkExact(v: Value, p: seq<Step>, x: real)
    ensures Row(p, x) in Walk(v) <==> Reaches(v, p, x)
  {
    if v.Struct? {
      WalkFieldsExact(v, 0, p, x);
    }
  }

  // ---------------------------------------------------------------------------
  // Bounds
  // ---------------------------------------------------------------------------

  /** Every list index on a path is below the cap. */
  predicate IndicesCapped(p: seq<Step>) {
    forall k | 0 <= k < |p| :: p[k].Idx? ==> p[k].i < MaxArray
  }

  lemma {:induction false} ReachesCapped(v: Value, p: seq<Step>, x: real, item: bool)
    requires if item then ItemReaches(v, p, x) else FieldReaches(v, p, x)
    decreases v, p
    ensures IndicesCapped(p)
  {
    if v.Struct? {
      var k :| 0 <= k < |v.fields| && !v.fields[k].inUnion && v.fields[k].name == p[0].name
               && FieldReaches(v.fields[k].value, p[1..], x);
      ReachesCapped(v.fields[k].value, p[1..], x, false);
      assert p == [p[0]] + p[1..];
    } else if !item && Numeric(v).None? && v.List? {
      ReachesCapped(v.items[p[0].i], p[1..], x, true);
      assert p == [p[0]] + p[1..];
    }
  }

  /** No emitted name carries an index of 10 or more. */
  lemma WalkCapped(v: Value, p: seq<Step>, x: real)
    requires Row(p, x) in Walk(v)
    ensures IndicesCapped(p)
  {
    WalkExact(v, p, x);
    ReachesCapped(v, p, x, true);
  }

  /** The number of nodes of a value tree. */
  function Size(v: Value): nat
    decreases v, 1
  {
    match v
    case Struct(fs) => 1 + FieldsSize(v, 0)
    case List(items) => 1 + ItemsSize(v, 0)
    case _ => 1
  }

  function FieldsSize(v: Value, k: nat): nat
    requires v.Struct? && k <= |v.fields|
    decreases v, 0, |v.fields| - k
  {
    if k == |v.fields| then 0 else Size(v.fields[k].value) + FieldsSize(v, k + 1)
  }

  function ItemsSize(v: Value, i: nat): nat
    requires v.List? && i <= |v.items|
    decreases v, 0, |v.items| - i
  {
    if i == |v.items| then 0 else Size(v.items[i]) + ItemsSize(v, i + 1)
  }

  lemma {:induction false} WalkFieldsBound(v: Value, k: nat)
    requires v.Struct? && k <= |v.fields|
    decreases v, 1, |v.fields| - k
    ensures |WalkFields(v, k)| <= FieldsSize(v, k)
  {
    if k < |v.fields| {
      WalkFieldBound(v.fields[k].value);
      WalkFieldsBound(v, k + 1);
    }
  }

  lemma {:induction false} WalkFieldBound(v: Value)
    decreases v, 2
    ensures |WalkField(v)| <= Size(v)
  {
    if Numeric(v).None? {
      if v.Struct? {
        WalkFieldsBound(v, 0);
      } else if v.List? {
        WalkItemsBound(v, 0);
      }
    }
  }

  lemma {:induction false} WalkItemsBound(v: Value, i: nat)
    requires v.List? && i <= |v.items|
    decreases v, 1, |v.items| - i
    ensures |WalkItems(v, i)| <= ItemsSize(v, i)
  {
    if i < |v.items| {
      if i < MaxArray {
        WalkItemBound(v.items[i]);
        WalkItemsBound(v, i + 1);
      }
    }
  }

  lemma {:induction false} WalkItemBound(v: Value)
    decreases v, 2
    ensures |WalkItem(v)| <= Size(v)
  {
    if v.Struct? {
      WalkFieldsBound(v, 0);
    }
  }

  /** A message never yields more rows than it has nodes. */
  lemma WalkBound(v: Value)
    ensures |Walk(v)| <= Size(v)
  {
    if v.Struct? {
      WalkFieldsBound(v, 0);
    }
  }

  // ---------------------------------------------------------------------------
  // Signal names
  // ---------------------------------------------------------------------------

  /** The name suffix of a path: `.field` and `[i]` pieces in order. */
  function RenderPath(p: seq<Step>): string {
    if |p| == 0 then ""
    else
      (match p[0]
       case Fld(n) => "." + n
       case Idx(i) => "[" + Strings.NatToDecimal(i) + "]")
      + RenderPath(p[1..])
  }

  /** `extract_all_fields(obj, prefix)`: the named rows of one message. */
  function ExtractAllFields(v: Value, prefix: string): (r: seq<(string, real)>)
    ensures |r| == |Walk(v)|
    ensures forall k | 0 <= k < |r| ::
              r[k] == (prefix + RenderPath(Walk(v)[k].path), Walk(v)[k].value)
  {
    var rows := Walk(v);
    seq(|rows|, k requires 0 <= k < |rows| => (prefix + RenderPath(rows[k].path), rows[k].value))
  }

  /** Every emitted name is the prefix followed by a dot and a field name. */
  lemma ExtractedNamesArePrefixed(v: Value, prefix: string, k: nat)
    requires k < |ExtractAllFields(v, prefix)|
    ensures Strings.StartsWith(ExtractAllFields(v, prefix)[k].0, prefix + ".")
  {
    var row := Walk(v)[k];
    assert row in Walk(v);
    WalkExact(v, row.path, row.value);
    var p := row.path;
    assert RenderPath(p) == "." + p[0].name + RenderPath(p[1..]);
    assert prefix + RenderPath(p) == (prefix + ".") + (p[0].name + RenderPath(p[1..]));
  }
}

=== FILE: formula_names.dfy ===
/** The regular expressions that pick signal names out of a custom-signal
    formula. src/core/signal_calculator.py:82 uses
      \b(ident\.ident(?:\.ident)*|CAN_0x[0-9A-Fa-f]+_ident)\b
    and release/v1.0/src/ui/dialogs/custom_signal_dialog.py:342 the same
    without the repeated `(?:\.ident)*`, where ident is
    [a-zA-Z_][a-zA-Z0-9_]*. `re.findall` is written out as a left-to-right
    scan: at each position the first alternative is tried, then the second;
    a match resumes the scan after itself. Word characters are the ASCII
    ones. */
module FormulaNames {
  import opened Wrappers
  import opened Strings

  /** The end of the run of word characters starting at `i`. */
  function WordEnd(s: string, i: nat): (e: nat)
    requires i <= |s|
    decreases |s| - i
    ensures i <= e <= |s|
    ensures forall k | i <= k < e :: IsWordChar(s[k])
    ensures e == |s| || !IsWordChar(s[e])
  {
    if i < |s| && IsWordChar(s[i]) then WordEnd(s, i + 1) else i
  }

  /** The end of the run of hexadecimal digits starting at `i`. */
  function HexEnd(s: string, i: nat): (e: nat)
    requires i <= |s|
    decreases |s| - i
    ensures i <= e <= |s|
    ensures forall k | i <= k < e :: IsHexDigit(s[k])
    ensures e == |s| || !IsHexDigit(s[e])
  {
    if i < |s| && IsHexDigit(s[i]) then HexEnd(s, i + 1) else i
  }

  /** A `\b` just before index `i`, where a word character follows. */
  predicate StartsWord(s: string, i: nat)
    requires i <= |s|
  {
    i == 0 || !IsWordChar(s[i - 1])
  }

  /** `s[i..e]` is a name the patterns can return: a whole word (nothing
      but word characters and dots, a word boundary at each end, starting
      with a letter or underscore and ending with a word character) holding
      a dot or starting with `CAN_0x`. */
  predicate Token(s: string, i: nat, e: nat) {
    i < e <= |s|
    && StartsWord(s, i)
    && (e == |s| || !IsWordChar(s[e]))
    && IsIdentStart(s[i]) && IsWordChar(s[e - 1])
    && (forall k | i <= k < e :: IsWordChar(s[k]) || s[k] == '.')
    && ('.' in s[i..e] || StartsWith(s[i..e], "CAN_0x"))
  }

  /** `(?:\.ident)*` after a word ending at `e`: as many `.ident` as follow. */
  function ChainEnd(s: string, e: nat): (r: nat)
    requires 0 < e <= |s| && IsWordChar(s[e - 1]) && (e == |s| || !IsWordChar(s[e]))
    decreases |s| - e
    ensures e <= r <= |s| && IsWordChar(s[r - 1]) && (r == |s| || !IsWordChar(s[r]))
    ensures forall k | e <= k < r :: IsWordChar(s[k]) || s[k] == '.'
  {
    if e + 1 < |s| && s[e] == '.' && IsIdentStart(s[e + 1]) then ChainEnd(s, WordEnd(s, e + 1))
    else e
  }

  /** The first alternative at `i`: a word, a dot, a word, and with
      `chained` any further `.ident` parts. */
  function DottedMatch(s: string, i: nat, chained: bool): (r: Option<nat>)
    requires i < |s| && StartsWord(s, i) && IsIdentStart(s[i])
    ensures r.Some? ==> Token(s, i, r.value)
  {
    var e1 := WordEnd(s, i);
    if e1 + 1 < |s| && s[e1] == '.' && IsIdentStart(s[e1 + 1]) then
      var e2 := WordEnd(s, e1 + 1);
      var e := if chained then ChainEnd(s, e2) else e2;
      assert s[i..e][e1 - i] == '.';
      Some(e)
    else None
  }

  /** The second alternative at `i`: `CAN_0x`, hexadecimal digits, `_` and
      an identifier. */
  function CanMatch(s: string, i: nat): (r: Option<nat>)
    requires i < |s| && StartsWord(s, i)
    ensures r.Some? ==> Token(s, i, r.value)
  {
    if StartsWith(s[i..], "CAN_0x") then
      var h := HexEnd(s, i + 6);
      if h > i + 6 && h + 1 < |s| && s[h] == '_' && IsIdentStart(s[h + 1]) then
        var e := WordEnd(s, h + 1);
        assert s[i..e][..6] == s[i..][..6];
        assert forall k | i <= k < i + 6 :: s[k] == "CAN_0x"[k - i];
        Some(e)
      else None
    else None
  }

  /** The end of the match starting at `i`, if any. `chained` selects the
      calculator's pattern (any number of dotted parts) over the dialog's
      (exactly two). */
  function MatchAt(s: string, i: nat, chained: bool): (r: Option<nat>)
    requires i < |s|
    ensures r.Some? ==> Token(s, i, r.value)
  {
    if !StartsWord(s, i) || !IsIdentStart(s[i]) then None
    else
      var d := DottedMatch(s, i, chained);
      if d.Some? then d else CanMatch(s, i)
  }

  /** Every match found at a position below `n` ends after it, by `n`. */
  ghost predicate Advances(n: nat, m: nat -> Option<nat>) {
    forall j: nat | j < n :: m(j).Some? ==> j < m(j).value <= n
  }

  /** A left-to-right scan of the positions `i` up to `n`: where `m` finds a
      match, its span is reported and the scan resumes at its end;
      elsewhere the scan moves on by one. */
  function Scan(n: nat, i: nat, m: nat -> Option<nat>): (r: seq<(nat, nat)>)
    requires i <= n && Advances(n, m)
    decreases n - i
    ensures forall k | 0 <= k < |r| :: i <= r[k].0 < n && m(r[k].0) == Some(r[k].1)
    ensures forall k, l | 0 <= k < l < |r| :: r[k].1 <= r[l].0
  {
    if i == n then []
    else match m(i)
      case Some(e) => [(i, e)] + Scan(n, e, m)
      case None => Scan(n, i + 1, m)
  }

  /** The scan misses no match: a position where a match starts is either
      the start of a reported span, with the match's end, or strictly
      inside a span reported before it. */
  lemma {:induction false} ScanComplete(n: nat, i: nat, m: nat -> Option<nat>, j: nat)
    requires i <= j < n && Advances(n, m) && m(j).Some?
    decreases n - i
    ensures var r := Scan(n, i, m);
      || (j, m(j).value) in r
      || exists k | 0 <= k < |r| :: r[k].0 < j < r[k].1
  {
    var r := Scan(n, i, m);
    match m(i)
    case Some(e) =>
      assert r == [(i, e)] + Scan(n, e, m);
      if j == i {
        assert r[0] == (j, m(j).value);
      } else if j < e {
        assert r[0].0 < j < r[0].1;
      } else {
        ScanComplete(n, e, m, j);
        CoveredCons((i, e), Scan(n, e, m), j, m(j).value);
      }
    case None =>
      ScanComplete(n, i + 1, m, j);
  }

  /** A span reported later is still reported, and a position inside it
      still covered, after one more span in front. */
  lemma CoveredCons(head: (nat, nat), rest: seq<(nat, nat)>, j: nat, m: nat)
    requires (j, m) in rest || exists k | 0 <= k < |rest| :: rest[k].0 < j < rest[k].1
    ensures var r := [head] + rest;
      (j, m) in r || exists k | 0 <= k < |r| :: r[k].0 < j < r[k].1
  {
    var r := [head] + rest;
    if (j, m) !in rest {
      var k :| 0 <= k < |rest| && rest[k].0 < j < rest[k].1;
      assert r[k + 1] == rest[k];
    }
  }

  /** The pattern's match at each position of `s`. */
  function Matcher(s: string, chained: bool): nat -> Option<nat> {
    (j: nat) => if j < |s| then MatchAt(s, j, chained) else None
  }

  lemma MatcherAdvances(s: string, chained: bool)
    ensures Advances(|s|, Matcher(s, chained))
  {
    forall j: nat | j < |s| && Matcher(s, chained)(j).Some?
      ensures j < Matcher(s, chained)(j).value <= |s|
    {
      assert Token(s, j, MatchAt(s, j, chained).value);
    }
  }

  /** `re.finditer` from index `i`: the spans of the matches, in order and
      without overlap, each one a `Token`. */
  function Spans(s: string, i: nat, chained: bool): (r: seq<(nat, nat)>)
    requires i <= |s|
    ensures forall k | 0 <= k < |r| :: i <= r[k].0 && Token(s, r[k].0, r[k].1)
    ensures forall k, l | 0 <= k < l < |r| :: r[k].1 <= r[l].0
    ensures forall k | 0 <= k < |r| :: r[k].0 < |s| && MatchAt(s, r[k].0, chained) == Some(r[k].1)
  {
    MatcherAdvances(s, chained);
    var r := Scan(|s|, i, Matcher(s, chained));
    assert forall k | 0 <= k < |r| :: r[k].0 < |s| && Matcher(s, chained)(r[k].0) == MatchAt(s, r[k].0, chained);
    r
  }

  /** `re.findall(pattern, formula)`: the matched names in order. */
  function FindAll(s: string, chained: bool): (r: seq<string>)
    ensures forall k | 0 <= k < |r| :: exists i: nat, e: nat :: Token(s, i, e) && r[k] == s[i..e]
  {
    var spans := Spans(s, 0, chained);
    assert forall k | 0 <= k < |spans| :: Token(s, spans[k].0, spans[k].1);
    seq(|spans|, k requires 0 <= k < |spans| => s[spans[k].0..spans[k].1])
  }

  /** `findall` returns the text of every match the scan reaches: each
      position where a match starts gives that match's text, unless an
      earlier match covers it. */
  lemma FindAllComplete(s: string, chained: bool, j: nat)
    requires j < |s| && MatchAt(s, j, chained).Some?
    ensures var spans := Spans(s, 0, chained);
      || s[j..MatchAt(s, j, chained).value] in FindAll(s, chained)
      || exists k | 0 <= k < |spans| :: spans[k].0 < j < spans[k].1
  {
    var spans := Spans(s, 0, chained);
    MatcherAdvances(s, chained);
    ScanComplete(|s|, 0, Matcher(s, chained), j);
    var e := MatchAt(s, j, chained).value;
    if (j, e) in spans {
      var k :| 0 <= k < |spans| && spans[k] == (j, e);
      assert FindAll(s, chained)[k] == s[j..e];
    }
  }
}

=== FILE: import_flow.dfy ===
/** `SegmentImporter.import_segment` of src/core/segment_importer.py: parse
    the rlog path, read the events, resolve the segment's recording time,
    write the route and segment rows, load the cereal message types from the
    signal definitions (failing when there are none), store the rows of every
    event, auto-register the new signal names, and narrow the segment's time
    range to its samples. The file system, the Cap'n Proto reader and the DBC
    decoder are the `Environment` the importer sees. */
module ImportFlow {
  import opened Wrappers
  import opened Seqs
  import opened Events
  import opened Store
  import opened TimeResolution
  import opened SegmentPath
  import opened EventRouting
  import opened LogRecords
  import StoreQueries
  import AutoRegister

  /** What the importer finds outside the database. */
  datatype Environment = Environment(
    schemaLoaded: bool,          // the Cap'n Proto schema was loaded
    rlog: RlogFile,              // the file at the rlog path
    routeDirExists: bool,        // the directory holding the segment directories
    siblings: seq<DirEntry>,     // its entries, for the route scan
    files: SegmentFiles,         // the absolute paths stored with the segment
    decoder: Option<Decoder>,    // the importer's DBC parser, if it has one
    decodeLog: string -> Decoding)

  /** The database afterwards, and the value `import_segment` returns. */
  datatype Outcome = Outcome(db: Db, ok: bool)

  /** `get_route(route_id).get('start_timestamp')`. */
  function StoredStart(db: Db, routeId: string): (r: Option<int>)
    ensures routeId !in db.routes ==> r.None?
    ensures routeId in db.routes ==> r == db.routes[routeId].startTimestamp
  {
    if routeId in db.routes then db.routes[routeId].startTimestamp else None
  }

  /** What the importer reads off the log and the route directory before
      choosing the recording time: the segment's first GPS fix, its wall-time
      offset, and the route start the scan of the sibling directories gives
      (computed only when it is needed; as a value it is the same). */
  datatype Clues = Clues(gps: Option<int>, wallOffsetNs: int, scanned: int)

  function CluesOf(events: seq<Event>, env: Environment, routeId: string): Clues {
    Clues(FirstFixSeconds(events), WallTimeOffset(events),
          ScanRouteStart(env.routeDirExists, env.siblings, routeId))
  }

  /** The tier chain fed with the clues and the stored route start. */
  function Resolved(db: Db, ref: SegmentRef, c: Clues): Resolution {
    Resolve(c.gps, StoredStart(db, ref.routeId), c.scanned, c.wallOffsetNs, ref.timestamp, ref.segmentNum)
  }

  /** The first and last `logMonoTime`, both 0 for an empty log. */
  function TimeSpan(events: seq<Event>): (r: (int, int))
    ensures |events| == 0 ==> r == (0, 0)
    ensures |events| > 0 ==> r.0 == events[0].logMonoTime && r.1 == events[|events| - 1].logMonoTime
  {
    if |events| == 0 then (0, 0) else (events[0].logMonoTime, events[|events| - 1].logMonoTime)
  }

  /** The attributes written with the segment row. */
  function InfoOf(events: seq<Event>, c: Clues, env: Environment): SegmentInfo {
    SegmentInfo(TimeSpan(events).0, TimeSpan(events).1, c.wallOffsetNs, |events|, c.gps, env.files)
  }

  /** The `dbc_file` column: the file name of the DBC path, `None` without
      one. */
  function DbcFileName(dbcPath: seq<string>): (r: Option<string>)
    ensures r.None? <==> |dbcPath| == 0
    ensures r.Some? ==> r.value == dbcPath[|dbcPath| - 1]
  {
    if |dbcPath| == 0 then None else Some(BaseName(dbcPath))
  }

  /** The route row and the segment row, written before the definitions are
      read (and kept when the import fails afterwards): the route takes the
      resolved time and, when there is one to persist, the route start. */
  function Stage(db: Db, ref: SegmentRef, res: Resolution, info: SegmentInfo, dbcPath: seq<string>): (r: (Db, nat))
    requires Valid(db)
    ensures Valid(r.0)
    ensures ref.routeId in r.0.routes
    ensures r.0.routes[ref.routeId].timestamp == Some(res.timestamp)
    ensures r.0.routes[ref.routeId].startTimestamp == Coalesce(res.startToSave, StoredStart(db, ref.routeId))
    ensures SegmentRow(r.1, ref.routeId, Some(ref.segmentNum), info) in r.0.segments
    ensures ChildrenFrom(r.0, db) && r.0.nextId >= db.nextId && r.0.cerealDefs == db.cerealDefs
  {
    var db1 := InsertRoute(db, ref.routeId, Some(res.timestamp), res.startToSave, DbcFileName(dbcPath));
    InsertSegment(db1, ref.routeId, Some(ref.segmentNum), None, info)
  }

  /** `SELECT DISTINCT message_type FROM cereal_signal_definitions`. */
  function CerealTypes(defs: map<string, CerealDef>): (r: set<string>)
    ensures forall n | n in defs :: defs[n].messageType in r
    ensures forall t | t in r :: exists n | n in defs :: defs[n].messageType == t
    ensures r == {} <==> |defs| == 0
  {
    var r := set n | n in defs :: defs[n].messageType;
    assert |defs| > 0 ==> exists n :: n in defs;
    r
  }

  /** The batch inserts of the event loop and the final flush, taken
      together (see `Batching.Buffer`: every buffered row is written once,
      in order). */
  function AppendRows(db: Db, rows: Batch): (r: Db)
    ensures r == db.(samples := db.samples + rows.samples, cans := db.cans + rows.cans,
                     logs := db.logs + rows.logs, videos := db.videos + rows.videos)
  {
    db.(samples := db.samples + rows.samples, cans := db.cans + rows.cans,
        logs := db.logs + rows.logs, videos := db.videos + rows.videos)
  }

  // ---------------------------------------------------------------------------
  // The time range update
  // ---------------------------------------------------------------------------

  /** `SELECT MIN(time_ns), MAX(time_ns) FROM timeseries_data WHERE
      segment_id = ?`: `None` when the segment has no samples. */
  function SampleRange(samples: seq<Sample>, segId: nat): Option<(int, int)> {
    if |samples| == 0 then None
    else
      var rest := SampleRange(samples[1..], segId);
      var t := samples[0].timeNs;
      if samples[0].segmentId != segId then rest
      else if rest.None? then Some((t, t))
      else Some((if t < rest.value.0 then t else rest.value.0, if t > rest.value.1 then t else rest.value.1))
  }

  /** The range is the least and the greatest sample time of the segment. */
  lemma {:induction false} SampleRangeExact(samples: seq<Sample>, segId: nat)
    ensures SampleRange(samples, segId).None? <==> forall k | 0 <= k < |samples| :: samples[k].segmentId != segId
    ensures SampleRange(samples, segId).Some? ==>
              forall k | 0 <= k < |samples| && samples[k].segmentId == segId ::
                SampleRange(samples, segId).value.0 <= samples[k].timeNs <= SampleRange(samples, segId).value.1
    ensures SampleRange(samples, segId).Some? ==>
              (exists k | 0 <= k < |samples| :: samples[k].segmentId == segId
                                              && samples[k].timeNs == SampleRange(samples, segId).value.0)
              && (exists k | 0 <= k < |samples| :: samples[k].segmentId == segId
                                                 && samples[k].timeNs == SampleRange(samples, segId).value.1)
  {
    if |samples| > 0 {
      var tail := samples[1..];
      SampleRangeExact(tail, segId);
      assert forall k | 1 <= k < |samples| :: samples[k] == tail[k - 1];
      var rest := SampleRange(tail, segId);
      if samples[0].segmentId == segId && rest.Some? {
        var lo :| 0 <= lo < |tail| && tail[lo].segmentId == segId && tail[lo].timeNs == rest.value.0;
        var hi :| 0 <= hi < |tail| && tail[hi].segmentId == segId && tail[hi].timeNs == rest.value.1;
        assert samples[lo + 1] == tail[lo] && samples[hi + 1] == tail[hi];
      } else if samples[0].segmentId != segId && rest.Some? {
        var lo :| 0 <= lo < |tail| && tail[lo].segmentId == segId && tail[lo].timeNs == rest.value.0;
        var hi :| 0 <= hi < |tail| && tail[hi].segmentId == segId && tail[hi].timeNs == rest.value.1;
        assert samples[lo + 1] == tail[lo] && samples[hi + 1] == tail[hi];
      }
    }
  }

  /** Segment rows that agree in everything but the start and end times. */
  predicate SameButRange(a: SegmentRow, b: SegmentRow) {
    a == b.(info := b.info.(startNs := a.info.startNs, endNs := a.info.endNs))
  }

  /** The segment rows with `segId`'s start and end times set. */
  function SetRange(segs: seq<SegmentRow>, segId: nat, lo: int, hi: int): (r: seq<SegmentRow>)
    ensures |r| == |segs|
    ensures forall k | 0 <= k < |segs| :: SameButRange(r[k], segs[k])
    ensures forall k | 0 <= k < |segs| && segs[k].id != segId :: r[k] == segs[k]
    ensures forall k | 0 <= k < |segs| && segs[k].id == segId :: r[k].info.startNs == lo && r[k].info.endNs == hi
  {
    seq(|segs|, k requires 0 <= k < |segs| =>
      if segs[k].id == segId then segs[k].(info := segs[k].info.(startNs := lo, endNs := hi)) else segs[k])
  }

  /** The closing `UPDATE segments SET start_time_ns, end_time_ns`: applied
      only when the segment has samples and neither extreme is 0. */
  function UpdateTimeRange(db: Db, segId: nat): (r: Db)
    requires Valid(db)
    ensures Valid(r)
    ensures r == db.(segments := r.segments)
    ensures |r.segments| == |db.segments|
    ensures forall k | 0 <= k < |db.segments| :: SameButRange(r.segments[k], db.segments[k])
    ensures forall k | 0 <= k < |db.segments| && db.segments[k].id != segId :: r.segments[k] == db.segments[k]
    ensures (match SampleRange(db.samples, segId)
             case Some((lo, hi)) =>
               lo != 0 && hi != 0 ==>
                 forall k | 0 <= k < |db.segments| && db.segments[k].id == segId ::
                   r.segments[k].info.startNs == lo && r.segments[k].info.endNs == hi
             case None => r == db)
    ensures (match SampleRange(db.samples, segId)
             case Some((lo, hi)) => lo == 0 || hi == 0 ==> r == db
             case None => true)
  {
    match SampleRange(db.samples, segId)
    case Some((lo, hi)) =>
      if lo != 0 && hi != 0 then
        var segs := SetRange(db.segments, segId, lo, hi);
        assert forall i, j | 0 <= i < j < |segs| :: Compatible(segs[i], segs[j]) by {
          forall i, j | 0 <= i < j < |segs| ensures Compatible(segs[i], segs[j]) {
            assert Compatible(db.segments[i], db.segments[j]);
          }
        }
        db.(segments := segs)
      else db
    case None => db
  }

  // ---------------------------------------------------------------------------
  // The import
  // ---------------------------------------------------------------------------

  /** Everything after the definitions are found: the event rows, the
      auto-registered definitions and the time range. */
  function Load(db: Db, segId: nat, events: seq<Event>, types: set<string>, env: Environment): (r: Db)
    requires Valid(db)
    ensures Valid(r)
    ensures r.routes == db.routes && r.nextId == db.nextId
    ensures |r.segments| == |db.segments|
    ensures forall k | 0 <= k < |db.segments| :: SameButRange(r.segments[k], db.segments[k])
    ensures var rows := SegmentRows(events, segId, types, env.decoder, env.decodeLog);
            && r.samples == db.samples + rows.samples && r.cans == db.cans + rows.cans
            && r.logs == db.logs + rows.logs && r.videos == db.videos + rows.videos
    ensures r.cerealDefs.Keys >= db.cerealDefs.Keys
  {
    var rows := SegmentRows(events, segId, types, env.decoder, env.decodeLog);
    var db3 := AppendRows(db, rows);
    var db4 := AutoRegister.AutoCreate(db3, Some(segId)).0;
    AutoRegister.AutoCreateDefs(db3, Some(segId));
    UpdateTimeRange(db4, segId)
  }

  /** The route row as an import leaves it: the resolved time, and the
      route start to persist over a missing one. */
  predicate RouteWritten(db: Db, ref: SegmentRef, c: Clues, r: Db) {
    var res := Resolved(db, ref, c);
    && ref.routeId in r.routes
    && r.routes[ref.routeId].timestamp == Some(res.timestamp)
    && r.routes[ref.routeId].startTimestamp == Coalesce(res.startToSave, StoredStart(db, ref.routeId))
  }

  /** The import from the point the rlog's events and the clues are in
      hand: the route row carries the resolved time and, when there is one to
      persist, the route start; an empty definitions table fails the import
      after the route and segment rows are written. */
  function ImportEvents(db: Db, ref: SegmentRef, events: seq<Event>, c: Clues, dbcPath: seq<string>,
                        env: Environment): (r: Outcome)
    requires Valid(db)
    ensures Valid(r.db)
    ensures r.ok <==> |db.cerealDefs| > 0
    ensures RouteWritten(db, ref, c, r.db)
    ensures r.db.cerealDefs.Keys >= db.cerealDefs.Keys && r.db.nextId >= db.nextId
  {
    var (db2, segId) := Stage(db, ref, Resolved(db, ref, c), InfoOf(events, c, env), dbcPath);
    var types := CerealTypes(db2.cerealDefs);
    if types == {} then Outcome(db2, false)
    else Outcome(Load(db2, segId, events, types, env), true)
  }

  /** `import_segment(rlog_path, dbc_path)`: without the schema, with a path
      that does not parse or with an rlog that cannot be read, it returns
      `False` before touching the database. */
  function Import(db: Db, rlogPath: seq<string>, dbcPath: seq<string>, env: Environment): (r: Outcome)
    requires Valid(db)
    ensures Valid(r.db)
    ensures !env.schemaLoaded || ParseRlogPath(rlogPath).Failure? || !env.rlog.Readable? ==> r == Outcome(db, false)
    ensures r.ok <==> env.schemaLoaded && ParseRlogPath(rlogPath).Success? && env.rlog.Readable? && |db.cerealDefs| > 0
  {
    if !env.schemaLoaded then Outcome(db, false)
    else
      match ParseRlogPath(rlogPath)
      case Failure(_) => Outcome(db, false)
      case Success(ref) =>
        if env.rlog.Readable? then
          ImportEvents(db, ref, env.rlog.events, CluesOf(env.rlog.events, env, ref.routeId), dbcPath, env)
        else Outcome(db, false)
  }

  // ---------------------------------------------------------------------------
  // What an import leaves behind
  // ---------------------------------------------------------------------------

  /** Under the uniqueness of (route, number), a row with the key of a
      stored row is that row. */
  lemma KeyedRowUnique(segs: seq<SegmentRow>, k: nat, row: SegmentRow)
    requires forall i, j | 0 <= i < j < |segs| :: Compatible(segs[i], segs[j])
    requires row in segs && row.number.Some?
    requires k < |segs| && segs[k].routeId == row.routeId && segs[k].number == row.number
    ensures segs[k] == row
  {
    var j :| 0 <= j < |segs| && segs[j] == row;
    assert j == k;
  }

  /** The segment row an import writes carries the log's own fix; the
      time-range update leaves it alone. */
  lemma ImportedRow(db: Db, ref: SegmentRef, events: seq<Event>, c: Clues, dbcPath: seq<string>,
                    env: Environment, k: nat)
    requires Valid(db)
    requires var r := ImportEvents(db, ref, events, c, dbcPath, env).db;
             k < |r.segments| && r.segments[k].routeId == ref.routeId && r.segments[k].number == Some(ref.segmentNum)
    ensures ImportEvents(db, ref, events, c, dbcPath, env).db.segments[k].info.gps == c.gps
  {
    var (db2, segId) := Stage(db, ref, Resolved(db, ref, c), InfoOf(events, c, env), dbcPath);
    var row := SegmentRow(segId, ref.routeId, Some(ref.segmentNum), InfoOf(events, c, env));
    var r := ImportEvents(db, ref, events, c, dbcPath, env).db;
    var types := CerealTypes(db2.cerealDefs);
    if types != {} {
      assert r == Load(db2, segId, events, types, env);
      assert SameButRange(r.segments[k], db2.segments[k]);
    }
    KeyedRowUnique(db2.segments, k, row);
  }

  /** The segment list's reconstruction agrees with the importer's tier
      chain: a row carrying the segment's fix and number, shown against the
      route start the chain leaves stored, is shown at the resolved time
      whenever that time came from a fix. */
  lemma DisplayMatchesResolve(seg: SegmentRow, stored: Option<int>, scanned: int, wall: int, stamp: int, n: int)
    requires seg.number == Some(n)
    requires Truthy(seg.info.gps) || Truthy(stored) || scanned > 0
    ensures var res := Resolve(seg.info.gps, stored, scanned, wall, stamp, n);
            StoreQueries.DisplayStartOf(seg, Coalesce(res.startToSave, stored)) == Some(StoreQueries.Seconds(res.timestamp))
  {
  }

  /** Whenever the recording time came from a GPS fix (this segment's, the
      stored route start or the scanned one), the segment list shows the
      imported segment at exactly the resolved time. */
  lemma ImportDisplaysResolvedTime(db: Db, ref: SegmentRef, events: seq<Event>, c: Clues, dbcPath: seq<string>,
                                   env: Environment, k: nat)
    requires Valid(db)
    requires var r := ImportEvents(db, ref, events, c, dbcPath, env).db;
             k < |r.segments| && r.segments[k].routeId == ref.routeId && r.segments[k].number == Some(ref.segmentNum)
    requires Truthy(c.gps) || Truthy(StoredStart(db, ref.routeId)) || c.scanned > 0
    ensures var r := ImportEvents(db, ref, events, c, dbcPath, env).db;
            StoreQueries.DisplayStartOf(r.segments[k], r.routes[ref.routeId].startTimestamp)
            == Some(StoreQueries.Seconds(Resolved(db, ref, c).timestamp))
  {
    ImportedRow(db, ref, events, c, dbcPath, env, k);
    var r := ImportEvents(db, ref, events, c, dbcPath, env).db;
    DisplayMatchesResolve(r.segments[k], StoredStart(db, ref.routeId), c.scanned, c.wallOffsetNs,
                          ref.timestamp, ref.segmentNum);
  }

  /** The first import of a route whose segment has a fix persists the fix
      back-dated to segment 0 as the route start. */
  lemma FirstFixPersistsStart(db: Db, ref: SegmentRef, c: Clues, r: Db)
    requires ref.routeId !in db.routes && Truthy(c.gps) && RouteWritten(db, ref, c, r)
    ensures StoredStart(r, ref.routeId) == Some(c.gps.value - ref.segmentNum * SegmentSeconds)
  {
  }

  /** A segment without a fix, imported once the route has a start: its
      time is the start plus one minute per segment, and the start stays. */
  lemma NoFixUsesStoredStart(db: Db, ref: SegmentRef, c: Clues, r: Db)
    requires c.gps.None? && Truthy(StoredStart(db, ref.routeId)) && RouteWritten(db, ref, c, r)
    ensures r.routes[ref.routeId].timestamp == Some(StoredStart(db, ref.routeId).value + ref.segmentNum * SegmentSeconds)
    ensures r.routes[ref.routeId].startTimestamp == StoredStart(db, ref.routeId)
  {
  }

  /** A segment without a fix, imported first: its time and the persisted
      start come from the scan. */
  lemma NoFixUsesScan(db: Db, ref: SegmentRef, c: Clues, r: Db)
    requires c.gps.None? && ref.routeId !in db.routes && c.scanned > 0 && RouteWritten(db, ref, c, r)
    ensures r.routes[ref.routeId].timestamp == Some(c.scanned + ref.segmentNum * SegmentSeconds)
    ensures r.routes[ref.routeId].startTimestamp == Some(c.scanned)
  {
  }

  /** Importing a segment without a fix gives the same recording time and
      route start whether or not a segment of the same route with a fix was
      imported before it: after it, from the stored start; alone, from the
      scan, which finds the same start (see
      `TimeResolution.ScanFindsConsistentStart`). `first`, `after` and
      `alone` are the databases the three imports leave, each related to its
      input as `ImportEvents` guarantees. */
  lemma OrderIndependence(db: Db, ref0: SegmentRef, c0: Clues, first: Db,
                          ref1: SegmentRef, c1: Clues, after: Db, alone: Db)
    requires ref1.routeId == ref0.routeId && ref0.routeId !in db.routes
    requires Truthy(c0.gps) && c1.gps.None?
    requires c0.gps.value - ref0.segmentNum * SegmentSeconds > 0
    requires c1.scanned == c0.gps.value - ref0.segmentNum * SegmentSeconds
    requires RouteWritten(db, ref0, c0, first)
    requires RouteWritten(first, ref1, c1, after)
    requires RouteWritten(db, ref1, c1, alone)
    ensures after.routes[ref1.routeId].timestamp == Some(c1.scanned + ref1.segmentNum * SegmentSeconds)
    ensures alone.routes[ref1.routeId].timestamp == Some(c1.scanned + ref1.segmentNum * SegmentSeconds)
    ensures after.routes[ref1.routeId].startTimestamp == Some(c1.scanned)
    ensures alone.routes[ref1.routeId].startTimestamp == Some(c1.scanned)
  {
    FirstFixPersistsStart(db, ref0, c0, first);
    NoFixUsesStoredStart(first, ref1, c1, after);
    NoFixUsesScan(db, ref1, c1, alone);
  }

  // ---------------------------------------------------------------------------
  // The rows of a segment after its import
  // ---------------------------------------------------------------------------

  /** Every child row points at a segment id already handed out (the
      foreign keys of the child tables). */
  predicate Linked(db: Db) {
    && (forall k | 0 <= k < |db.samples| :: db.samples[k].segmentId < db.nextId)
    && (forall k | 0 <= k < |db.cans| :: db.cans[k].segmentId < db.nextId)
    && (forall k | 0 <= k < |db.logs| :: db.logs[k].segmentId < db.nextId)
    && (forall k | 0 <= k < |db.videos| :: db.videos[k].segmentId < db.nextId)
  }

  /** No child row of segment `segId`. */
  predicate NoRowsOf(db: Db, segId: nat) {
    && (forall k | 0 <= k < |db.samples| :: db.samples[k].segmentId != segId)
    && (forall k | 0 <= k < |db.cans| :: db.cans[k].segmentId != segId)
    && (forall k | 0 <= k < |db.logs| :: db.logs[k].segmentId != segId)
    && (forall k | 0 <= k < |db.videos| :: db.videos[k].segmentId != segId)
  }

  /** The tests `WHERE segment_id = ?` of the four child tables. */
  function SampleOf(segId: nat): Sample -> bool {
    (x: Sample) => x.segmentId == segId
  }

  function CanOf(segId: nat): CanRow -> bool {
    (x: CanRow) => x.segmentId == segId
  }

  function LogOf(segId: nat): LogRow -> bool {
    (x: LogRow) => x.segmentId == segId
  }

  function VideoOf(segId: nat): VideoRow -> bool {
    (x: VideoRow) => x.segmentId == segId
  }

  /** Once the route and segment rows are written, the segment has no child
      rows: a re-import cleared them and a first import's id is fresh. */
  lemma StageLeavesSegmentEmpty(db: Db, ref: SegmentRef, res: Resolution, info: SegmentInfo, dbcPath: seq<string>)
    requires Valid(db) && Linked(db)
    ensures var (d, segId) := Stage(db, ref, res, info, dbcPath);
            Linked(d) && segId < d.nextId && NoRowsOf(d, segId)
  {
    var db1 := InsertRoute(db, ref.routeId, Some(res.timestamp), res.startToSave, DbcFileName(dbcPath));
    var (d, segId) := Stage(db, ref, res, info, dbcPath);
    assert ChildrenFrom(d, db);
    match FindSegment(db1.segments, ref.routeId, Some(ref.segmentNum))
    case Some(_) =>
      InsertSegmentReuses(db1, ref.routeId, Some(ref.segmentNum), None, info);
    case None =>
      InsertSegmentAppends(db1, ref.routeId, Some(ref.segmentNum), None, info);
  }

  /** Appending rows that all belong to a segment that had none: afterwards
      the rows of the segment are exactly the appended ones, in order, in
      each of the four child tables. */
  lemma AppendedRowsExact(d: Db, segId: nat, rows: Batch)
    requires NoRowsOf(d, segId) && Belongs(rows, segId)
    ensures var r := AppendRows(d, rows);
            && Filter(r.samples, SampleOf(segId)) == rows.samples
            && Filter(r.cans, CanOf(segId)) == rows.cans
            && Filter(r.logs, LogOf(segId)) == rows.logs
            && Filter(r.videos, VideoOf(segId)) == rows.videos
  {
    FilterPicksAppended(d.samples, rows.samples, SampleOf(segId));
    FilterPicksAppended(d.cans, rows.cans, CanOf(segId));
    FilterPicksAppended(d.logs, rows.logs, LogOf(segId));
    FilterPicksAppended(d.videos, rows.videos, VideoOf(segId));
  }

  /** Rows of a segment whose id was handed out keep the foreign keys. */
  lemma AppendKeepsLinked(d: Db, segId: nat, rows: Batch)
    requires Linked(d) && segId < d.nextId && Belongs(rows, segId)
    ensures Linked(AppendRows(d, rows))
  {
    var r := AppendRows(d, rows);
    forall k | |d.samples| <= k < |r.samples| ensures r.samples[k].segmentId < r.nextId {
      assert r.samples[k] == rows.samples[k - |d.samples|];
    }
    forall k | |d.cans| <= k < |r.cans| ensures r.cans[k].segmentId < r.nextId {
      assert r.cans[k] == rows.cans[k - |d.cans|];
    }
    forall k | |d.logs| <= k < |r.logs| ensures r.logs[k].segmentId < r.nextId {
      assert r.logs[k] == rows.logs[k - |d.logs|];
    }
    forall k | |d.videos| <= k < |r.videos| ensures r.videos[k].segmentId < r.nextId {
      assert r.videos[k] == rows.videos[k - |d.videos|];
    }
  }

  /** After loading, the rows of the segment are the rows of its events. */
  lemma LoadRowsExact(d: Db, segId: nat, events: seq<Event>, types: set<string>, env: Environment)
    requires Valid(d) && Linked(d) && segId < d.nextId && NoRowsOf(d, segId)
    ensures var r := Load(d, segId, events, types, env);
            var rows := SegmentRows(events, segId, types, env.decoder, env.decodeLog);
            && Filter(r.samples, SampleOf(segId)) == rows.samples
            && Filter(r.cans, CanOf(segId)) == rows.cans
            && Filter(r.logs, LogOf(segId)) == rows.logs
            && Filter(r.videos, VideoOf(segId)) == rows.videos
  {
    var rows := SegmentRows(events, segId, types, env.decoder, env.decodeLog);
    SegmentRowsBelong(events, segId, types, env.decoder, env.decodeLog);
    AppendedRowsExact(d, segId, rows);
  }

  /** A successful import of a segment, first or repeated, leaves exactly
      the rows of its events under the segment's id, in each child table:
      staging cleared it, and loading appended them. */
  lemma ImportEventsRowsExact(db: Db, ref: SegmentRef, events: seq<Event>, c: Clues, dbcPath: seq<string>,
                              env: Environment)
    requires Valid(db) && Linked(db) && |db.cerealDefs| > 0
    ensures var segId := Stage(db, ref, Resolved(db, ref, c), InfoOf(events, c, env), dbcPath).1;
            var r := ImportEvents(db, ref, events, c, dbcPath, env);
            var rows := SegmentRows(events, segId, CerealTypes(db.cerealDefs), env.decoder, env.decodeLog);
            && r.ok
            && Filter(r.db.samples, SampleOf(segId)) == rows.samples
            && Filter(r.db.cans, CanOf(segId)) == rows.cans
            && Filter(r.db.logs, LogOf(segId)) == rows.logs
            && Filter(r.db.videos, VideoOf(segId)) == rows.videos
  {
    var res := Resolved(db, ref, c);
    var info := InfoOf(events, c, env);
    var (d2, segId) := Stage(db, ref, res, info, dbcPath);
    StageLeavesSegmentEmpty(db, ref, res, info, dbcPath);
    assert d2.cerealDefs == db.cerealDefs;
    LoadRowsExact(d2, segId, events, CerealTypes(db.cerealDefs), env);
  }
}

=== FILE: log_records.dfy ===
/** Rows of the `log_messages` table and how src/core/segment_importer.py
    `_parse_log_message` builds one from the text of a `logMessage` or
    `errorLogMessage` event. Decoding the JSON itself is outside the model:
    its outcome is an input. */
module LogRecords {
  import opened Wrappers

  /** One stored log line. `logType` is `"log"` or `"error"`. */
  datatype LogEntry = LogEntry(
    logType: string,
    daemon: Option<string>,
    levelnum: Option<int>,
    filename: Option<string>,
    funcname: Option<string>,
    lineno: Option<int>,
    message: string,
    dongleId: Option<string>,
    version: Option<string>,
    branch: Option<string>,
    commit: Option<string>)

  /** What the fields of a decoded JSON log object give: `ctx.daemon`,
      `levelnum`, ..., and `msg` already rendered as text. */
  datatype LogFields = LogFields(
    daemon: Option<string>,
    levelnum: Option<int>,
    filename: Option<string>,
    funcname: Option<string>,
    lineno: Option<int>,
    message: string,
    dongleId: Option<string>,
    version: Option<string>,
    branch: Option<string>,
    commit: Option<string>)

  /** The outcome of `json.loads` on the log text: not JSON at all, a decoded
      object, or some other failure while reading it. */
  datatype Decoding = NotJson | Decoded(fields: LogFields) | Broken

  /** `_parse_log_message`: text that is not JSON is kept whole as the
      message with every other field empty; any other failure drops the
      line. */
  function ParseLogMessage(logType: string, text: string, decoding: Decoding): (r: Option<LogEntry>)
    ensures r.None? <==> decoding.Broken?
    ensures r.Some? ==> r.value.logType == logType
    ensures decoding.NotJson? ==> r.Some? && r.value.message == text && r.value.daemon.None? && r.value.funcname.None?
    ensures decoding.Decoded? ==> r.Some? && r.value.message == decoding.fields.message && r.value.daemon == decoding.fields.daemon
  {
    match decoding
    case NotJson => Some(LogEntry(logType, None, None, None, None, None, text, None, None, None, None))
    case Decoded(f) =>
      Some(LogEntry(logType, f.daemon, f.levelnum, f.filename, f.funcname, f.lineno, f.message,
                    f.dongleId, f.version, f.branch, f.commit))
    case Broken => None
  }
}

=== FILE: log_table.dfy ===
/** The system-log table of release/v1.0/src/ui/data_table.py: the rows of
    one segment's `log_messages`, narrowed by a type filter, a daemon filter
    and a keyword, with a daemon drop-down built from the loaded rows.

    The handler that reads the two drop-downs compares their texts with the
    English labels `All`, `Log` and `Error`, while the drop-downs show the
    translated labels; `FiltersAsWritten` keeps that comparison and
    `FiltersOf` reads the drop-downs by position, as the labels mean. */
module LogTable {
  import opened Wrappers
  import opened Strings
  import opened Seqs
  import Ordering
  import TimeResolution
  import ReleaseImport

  /** One row of `log_messages` as the table keeps it; nullable columns are
      options. */
  datatype LogMessage = LogMessage(
    timeNs: int,
    logType: string,
    daemon: Option<string>,
    funcname: Option<string>,
    lineno: Option<int>,
    message: Option<string>)

  /** The criteria: an unset type or daemon filter is `None`, an unset
      keyword is empty. */
  datatype Filters = Filters(logType: Option<string>, daemon: Option<string>, keyword: string)

  /** A nullable text column with NULL read as `''`. */
  function Text(o: Option<string>): string {
    if o.Some? then o.value else ""
  }

  // ---------------------------------------------------------------------------
  // Filtering

  /** The keyword test: the lowercased keyword occurs in the lowercased
      message, daemon or function name. */
  predicate Mentions(log: LogMessage, keyword: string) {
    var k := Lower(keyword);
    Contains(Lower(Text(log.message)), k) || Contains(Lower(Text(log.daemon)), k) || Contains(Lower(Text(log.funcname)), k)
  }

  /** A log passes every criterion that is set. */
  predicate Keep(log: LogMessage, f: Filters) {
    && (ReleaseImport.Truthy(f.logType) ==> log.logType == f.logType.value)
    && (ReleaseImport.Truthy(f.daemon) ==> log.daemon == f.daemon)
    && (f.keyword != "" ==> Mentions(log, f.keyword))
  }

  function Keeps(f: Filters): LogMessage -> bool {
    (log: LogMessage) => Keep(log, f)
  }

  /** `apply_filters`: one pass over the loaded logs, appending each one that
      passes. The result is the order-preserving selection of the logs that
      pass. */
  method ApplyFilters(all: seq<LogMessage>, f: Filters) returns (shown: seq<LogMessage>)
    ensures shown == Filter(all, Keeps(f))
    ensures forall log :: log in shown <==> log in all && Keep(log, f)
  {
    shown := [];
    var i := 0;
    while i < |all|
      invariant 0 <= i <= |all|
      invariant shown == Filter(all[..i], Keeps(f))
    {
      FilterAppend(all[..i], [all[i]], Keeps(f));
      assert all[..i + 1] == all[..i] + [all[i]];
      if Keep(all[i], f) {
        shown := shown + [all[i]];
      }
      i := i + 1;
    }
    assert all[..i] == all;
    ShownExactly(all, f);
  }

  /** Membership in the filtered list is exactly "loaded and passes". */
  lemma ShownExactly(all: seq<LogMessage>, f: Filters)
    ensures forall log :: log in Filter(all, Keeps(f)) <==> log in all && Keep(log, f)
  {
    FilterMembers(all, Keeps(f));
    forall log | log in Filter(all, Keeps(f)) ensures log in all && Keep(log, f) {
      var i :| 0 <= i < |Filter(all, Keeps(f))| && Filter(all, Keeps(f))[i] == log;
    }
    forall log | log in all && Keep(log, f) ensures log in Filter(all, Keeps(f)) {
      var i :| 0 <= i < |all| && all[i] == log;
      assert Keeps(f)(all[i]);
    }
  }

  /** The filter works log by log and keeps the order: filtering two blocks
      is filtering each, and a single log is kept iff it passes. */
  lemma FilterKeepsOrder(a: seq<LogMessage>, b: seq<LogMessage>, log: LogMessage, f: Filters)
    ensures Filter(a + b, Keeps(f)) == Filter(a, Keeps(f)) + Filter(b, Keeps(f))
    ensures Filter([log], Keeps(f)) == (if Keep(log, f) then [log] else [])
  {
    FilterAppend(a, b, Keeps(f));
  }

  /** The criteria `reset_filters` sets. */
  function Reset(): Filters {
    Filters(None, None, "")
  }

  /** After a reset every loaded log is shown, in order. */
  lemma ResetShowsAll(all: seq<LogMessage>)
    ensures Filter(all, Keeps(Reset())) == all
  {
    FilterAll(all, Keeps(Reset()));
  }

  /** The keyword ignores case: a keyword and its lowercase form show the
      same logs. */
  lemma KeywordIgnoresCase(all: seq<LogMessage>, f: Filters)
    requires f.keyword != ""
    ensures Filter(all, Keeps(f.(keyword := Lower(f.keyword)))) == Filter(all, Keeps(f))
  {
    var g := f.(keyword := Lower(f.keyword));
    assert Lower(Lower(f.keyword)) == Lower(f.keyword);
    assert forall log :: Keep(log, g) == Keep(log, f);
    FilterSameTest(all, Keeps(g), Keeps(f));
  }

  lemma {:induction false} FilterSameTest(xs: seq<LogMessage>, p: LogMessage -> bool, q: LogMessage -> bool)
    requires forall x :: p(x) == q(x)
    decreases |xs|
    ensures Filter(xs, p) == Filter(xs, q)
  {
    if |xs| > 0 {
      FilterSameTest(xs[1..], p, q);
    }
  }

  // ---------------------------------------------------------------------------
  // The daemon drop-down

  /** The label of the first daemon entry, written untranslated. */
  const AllLabel: string := "All"

  /** The truthy daemon names of the loaded logs, in log order. */
  function Daemons(logs: seq<LogMessage>): (r: seq<string>)
    decreases |logs|
    ensures forall d :: d in r <==> d != "" && exists i | 0 <= i < |logs| :: logs[i].daemon == Some(d)
  {
    if |logs| == 0 then []
    else
      var rest := Daemons(logs[1..]);
      assert forall i | 0 < i < |logs| :: logs[i] == logs[1..][i - 1];
      if ReleaseImport.Truthy(logs[0].daemon) then [logs[0].daemon.value] + rest else rest
  }

  /** A drop-down: its entries and the position shown. */
  datatype Combo = Combo(items: seq<string>, index: nat)

  function Equals(text: string): string -> bool {
    (item: string) => item == text
  }

  /** `update_daemon_filter_options`: `All` followed by the distinct daemon
      names in ascending order; the entry shown before is shown again when
      it is still there, else the first entry (the one a cleared drop-down
      selects when it gets its first entry). */
  function DaemonOptions(logs: seq<LogMessage>, current: string): (r: Combo)
    ensures |r.items| > 0 && r.items[0] == AllLabel && r.index < |r.items|
    ensures Ordering.StrictlySorted(r.items[1..])
    ensures forall d :: d in r.items[1..] <==> d != "" && exists i | 0 <= i < |logs| :: logs[i].daemon == Some(d)
    ensures r.items[r.index] == if current in r.items then current else AllLabel
  {
    var items := [AllLabel] + Ordering.SortDistinct(Daemons(logs));
    assert items[1..] == Ordering.SortDistinct(Daemons(logs));
    match FirstIndex(items, Equals(current))
    case Some(k) => Combo(items, k)
    case None =>
      assert current !in items by {
        assert forall j | 0 <= j < |items| :: !Equals(current)(items[j]);
      }
      Combo(items, 0)
  }

  /** `update_ui_text` on the daemon drop-down: a first entry reading `All`
      or its Chinese form takes the translated label, and is shown again if
      it was shown. */
  function RetranslateDaemons(c: Combo, allText: string): (r: Combo)
    requires c.index < |c.items|
    ensures |r.items| == |c.items| && r.index < |r.items|
    ensures forall k | 0 < k < |r.items| :: r.items[k] == c.items[k]
    ensures r.items[r.index] == (if c.items[c.index] in AllLabels && c.items[0] in AllLabels then allText else c.items[c.index])
  {
    if c.items[0] in AllLabels then
      var index := if c.items[c.index] in AllLabels then 0 else c.index;
      Combo(c.items[0 := allText], index)
    else c
  }

  /** The two spellings of the first daemon entry the relabelling
      recognises: `All` and `全部`. */
  const AllLabels: seq<string> := [AllLabel, "\U{5168}\U{90E8}"]

  // ---------------------------------------------------------------------------
  // Reading the drop-downs

  /** The type drop-down's entries, untranslated. */
  const TypeLabels: seq<string> := [AllLabel, "Log", "Error"]

  /** The type filter each type entry stands for. */
  function TypeFilterAt(index: nat): (r: Option<string>)
    requires index < 3
    ensures r.None? <==> index == 0
  {
    if index == 0 then None else if index == 1 then Some("log") else Some("error")
  }

  /** `on_filter_changed` as written: the texts are compared with the English
      labels; a type text that is none of them leaves the type filter as it
      was, and any daemon text but `All` becomes the daemon filter. */
  function FiltersAsWritten(prev: Filters, typeText: string, daemonText: string, keywordText: string): (r: Filters)
    ensures typeText !in TypeLabels ==> r.logType == prev.logType
    ensures r.daemon.None? <==> daemonText == AllLabel
    ensures r.daemon.Some? ==> r.daemon.value == daemonText
    ensures r.keyword == Strip(keywordText)
  {
    var logType :=
      if typeText == AllLabel then None
      else if typeText == "Log" then Some("log")
      else if typeText == "Error" then Some("error")
      else prev.logType;
    var daemon := if daemonText == AllLabel then None else Some(daemonText);
    Filters(logType, daemon, Strip(keywordText))
  }

  /** `on_filter_changed` reading the drop-downs by position: the first entry
      of either means no filter, whatever its label says. */
  function FiltersOf(typeIndex: nat, daemons: Combo, keywordText: string): (r: Filters)
    requires typeIndex < 3 && daemons.index < |daemons.items|
    ensures r.logType.None? <==> typeIndex == 0
    ensures r.daemon.None? <==> daemons.index == 0
    ensures r.daemon.Some? ==> r.daemon.value == daemons.items[daemons.index]
    ensures r.keyword == Strip(keywordText)
  {
    Filters(TypeFilterAt(typeIndex), if daemons.index == 0 then None else Some(daemons.items[daemons.index]), Strip(keywordText))
  }

  /** With the English labels shown, and no daemon itself named `All`, the
      handler as written and the positional reading agree. */
  lemma EnglishLabelsAgree(prev: Filters, typeIndex: nat, daemons: Combo, keywordText: string)
    requires typeIndex < 3 && daemons.index < |daemons.items|
    requires daemons.items[0] == AllLabel
    requires forall k | 0 < k < |daemons.items| :: daemons.items[k] != AllLabel
    ensures FiltersAsWritten(prev, TypeLabels[typeIndex], daemons.items[daemons.index], keywordText)
         == FiltersOf(typeIndex, daemons, keywordText)
  {
  }

  /** As written, a translated type entry changes nothing: choosing the
      translated `Error` keeps showing every type. */
  lemma TranslatedTypeIgnored(prev: Filters, text: string, daemonText: string, keywordText: string)
    requires text !in TypeLabels
    ensures FiltersAsWritten(prev, text, daemonText, keywordText).logType == prev.logType
  {
  }

  /** As written, after the relabelling the first daemon entry reads `全部`
      and becomes a daemon filter of that name: a log from `controlsd` is
      hidden although no daemon filter is chosen. Read by position, it is
      shown. */
  lemma TranslatedAllHidesLogs()
    ensures var log := LogMessage(0, "log", Some("controlsd"), None, None, Some("started"));
      var shown := DaemonOptions([log], AllLabel);
      var relabelled := RetranslateDaemons(shown, AllLabels[1]);
      && relabelled.index == 0
      && Filter([log], Keeps(FiltersAsWritten(Reset(), TypeLabels[0], relabelled.items[relabelled.index], ""))) == []
      && Filter([log], Keeps(FiltersOf(0, relabelled, ""))) == [log]
  {
    var log := LogMessage(0, "log", Some("controlsd"), None, None, Some("started"));
    var shown := DaemonOptions([log], AllLabel);
    assert shown.items[0] == AllLabel;
    var relabelled := RetranslateDaemons(shown, AllLabels[1]);
    assert relabelled.items[0] == AllLabels[1];
    assert AllLabels[1] != AllLabel by {
      assert AllLabels[1][0] != AllLabel[0];
    }
    var asWritten := FiltersAsWritten(Reset(), TypeLabels[0], relabelled.items[relabelled.index], "");
    assert asWritten.daemon == Some(AllLabels[1]);
    assert Some("controlsd") != Some(AllLabels[1]);
    assert !Keep(log, asWritten);
    assert Keep(log, FiltersOf(0, relabelled, ""));
  }

  // ---------------------------------------------------------------------------
  // Table cells

  /** The function column: `name:line` when both are truthy, the name alone
      without a line, nothing without a name. */
  function FunctionColumn(funcname: Option<string>, lineno: Option<int>): (r: string)
    ensures r == "" <==> !ReleaseImport.Truthy(funcname)
    ensures ReleaseImport.Truthy(funcname) ==> StartsWith(r, funcname.value)
    ensures ReleaseImport.Truthy(funcname) && TimeResolution.Truthy(lineno) ==>
      |r| > |funcname.value| && r[|funcname.value|] == ':' && ParseInt(r[|funcname.value| + 1..]) == lineno
    ensures ReleaseImport.Truthy(funcname) && !TimeResolution.Truthy(lineno) ==> r == funcname.value
  {
    if ReleaseImport.Truthy(funcname) then
      if TimeResolution.Truthy(lineno) then
        var r := funcname.value + ":" + IntToDecimal(lineno.value);
        LineReadsBack(funcname.value, lineno.value, r);
        r
      else funcname.value
    else ""
  }

  /** The number after the colon reads back as the line. */
  lemma LineReadsBack(name: string, line: int, r: string)
    requires r == name + ":" + IntToDecimal(line)
    ensures r != "" && StartsWith(r, name)
    ensures |r| > |name| && r[|name|] == ':' && ParseInt(r[|name| + 1..]) == Some(line)
  {
    assert r[..|name|] == name;
    assert r[|name| + 1..] == IntToDecimal(line);
    IntRoundTrip(line);
  }
}

=== FILE: ordering.dfy ===
/** Python's `sorted(set(...))` on strings and on integers: the ascending,
    duplicate-free arrangement of a collection's elements. Strings compare
    lexicographically by code point, as Python's `<` on `str` does. */
module Ordering {

  /** Python `a < b` on strings. */
  predicate Lt(a: string, b: string)
    decreases |a|
  {
    if |a| == 0 then |b| > 0
    else |b| > 0 && (a[0] < b[0] || (a[0] == b[0] && Lt(a[1..], b[1..])))
  }

  lemma {:induction false} LtIrreflexive(a: string)
    decreases |a|
    ensures !Lt(a, a)
  {
    if |a| > 0 {
      LtIrreflexive(a[1..]);
    }
  }

  lemma {:induction false} LtTrichotomy(a: string, b: string)
    decreases |a|
    ensures Lt(a, b) || a == b || Lt(b, a)
  {
    if |a| > 0 && |b| > 0 && a[0] == b[0] {
      LtTrichotomy(a[1..], b[1..]);
      if a[1..] == b[1..] {
        assert a == [a[0]] + a[1..] && b == [b[0]] + b[1..];
      }
    }
  }

  lemma {:induction false} LtTransitive(a: string, b: string, c: string)
    requires Lt(a, b) && Lt(b, c)
    decreases |a|
    ensures Lt(a, c)
  {
    if |a| > 0 && a[0] == b[0] && b[0] == c[0] {
      LtTransitive(a[1..], b[1..], c[1..]);
    }
  }

  predicate StrictlySorted(xs: seq<string>) {
    forall i, j | 0 <= i < j < |xs| :: Lt(xs[i], xs[j])
  }

  lemma SortedDistinct(xs: seq<string>, i: int, j: int)
    requires StrictlySorted(xs) && 0 <= i < j < |xs|
    ensures xs[i] != xs[j]
  {
    LtIrreflexive(xs[i]);
  }

  /** Adds `x` to a strictly sorted list unless it is already there. */
  function Insert(x: string, xs: seq<string>): (r: seq<string>)
    requires StrictlySorted(xs)
    ensures StrictlySorted(r)
    ensures forall y :: y in r <==> y == x || y in xs
  {
    if |xs| == 0 then [x]
    else if x == xs[0] then xs
    else if Lt(x, xs[0]) then
      assert forall j | 0 < j < |xs| :: Lt(x, xs[j]) by {
        forall j | 0 < j < |xs| ensures Lt(x, xs[j]) {
          LtTransitive(x, xs[0], xs[j]);
        }
      }
      [x] + xs
    else
      LtTrichotomy(x, xs[0]);
      var tail := Insert(x, xs[1..]);
      assert forall y | y in tail :: Lt(xs[0], y);
      [xs[0]] + tail
  }

  /** `sorted(set(xs))` on strings. */
  function SortDistinct(xs: seq<string>): (r: seq<string>)
    ensures StrictlySorted(r)
    ensures forall y :: y in r <==> y in xs
  {
    if |xs| == 0 then []
    else
      assert xs == xs[..|xs| - 1] + [xs[|xs| - 1]];
      Insert(xs[|xs| - 1], SortDistinct(xs[..|xs| - 1]))
  }

  // ---------------------------------------------------------------------------
  // Integers
  // ---------------------------------------------------------------------------

  predicate Ascending(xs: seq<int>) {
    forall i, j | 0 <= i < j < |xs| :: xs[i] < xs[j]
  }

  /** A head below every element keeps an ascending list ascending. */
  lemma ConsAscending(h: int, t: seq<int>)
    requires Ascending(t) && forall y | y in t :: h < y
    ensures Ascending([h] + t)
  {
    forall i, j | 0 <= i < j < |t| + 1 ensures ([h] + t)[i] < ([h] + t)[j] {
      assert ([h] + t)[j] == t[j - 1];
      assert t[j - 1] in t;
      if i > 0 {
        assert ([h] + t)[i] == t[i - 1];
        assert t[i - 1] < t[j - 1];
      }
    }
  }

  function InsertInt(x: int, xs: seq<int>): (r: seq<int>)
    requires Ascending(xs)
    ensures Ascending(r)
    ensures forall y :: y in r <==> y == x || y in xs
  {
    if |xs| == 0 then [x]
    else if x == xs[0] then xs
    else if x < xs[0] then [x] + xs
    else
      assert Ascending(xs[1..]) by {
        forall i, j | 0 <= i < j < |xs[1..]| ensures xs[1..][i] < xs[1..][j] {
          assert xs[1..][i] == xs[i + 1] && xs[1..][j] == xs[j + 1];
        }
      }
      var tail := InsertInt(x, xs[1..]);
      assert forall y | y in xs[1..] :: xs[0] < y;
      ConsAscending(xs[0], tail);
      [xs[0]] + tail
  }

  /** `sorted(set(xs))` on integers. */
  function SortDistinctInts(xs: seq<int>): (r: seq<int>)
    ensures Ascending(r)
    ensures forall y :: y in r <==> y in xs
  {
    if |xs| == 0 then []
    else
      assert xs == xs[..|xs| - 1] + [xs[|xs| - 1]];
      InsertInt(xs[|xs| - 1], SortDistinctInts(xs[..|xs| - 1]))
  }

  /** Two ascending lists with the same elements are the same list: the
      result of `sorted(set(...))` depends only on the set. */
  lemma {:induction false} AscendingUnique(xs: seq<int>, ys: seq<int>)
    requires Ascending(xs) && Ascending(ys)
    requires forall y :: y in xs <==> y in ys
    decreases |xs|
    ensures xs == ys
  {
    if |xs| > 0 {
      assert xs[0] in xs;
    }
    if |ys| > 0 {
      assert ys[0] in ys;
    }
    if |xs| > 0 && |ys| > 0 {
      assert xs[0] == ys[0] by {
        assert xs[0] in xs && ys[0] in ys;
        var k :| 0 <= k < |ys| && ys[k] == xs[0];
        var m :| 0 <= m < |xs| && xs[m] == ys[0];
        assert ys[0] <= ys[k] && xs[0] <= xs[m];
      }
      forall y ensures y in xs[1..] <==> y in ys[1..] {
        if y in xs[1..] {
          assert y in ys && y != ys[0];
        }
        if y in ys[1..] {
          assert y in xs && y != xs[0];
        }
      }
      AscendingUnique(xs[1..], ys[1..]);
      assert xs == [xs[0]] + xs[1..] && ys == [ys[0]] + ys[1..];
    }
  }
}

=== FILE: release_definition_import.dfy ===
/** The signal-definition importer of release/v1.0/tools/import_signal_definitions.py:
    the same two catalogues as the SQLite script, built from the event
    union's member types and a DBC database, but with upserts keyed by the
    full signal name, a smaller skip list, `Bool` not numeric, table-driven
    units and a generated Chinese description. The schema is given as two
    lookups from class name to fields (the `log` and `car` modules); a
    field whose type cannot be read has no tag. */
module ReleaseDefinitionImport {
  import opened Wrappers
  import opened Strings
  import DefinitionImport
  import DbcParser
  import CanNames
  import Upsert

  // ---------------------------------------------------------------------------
  // Cereal rows
  // ---------------------------------------------------------------------------

  /** The event types never imported; `errorLogMessage` is imported here. */
  const SkippedTypes: set<string> := {"initData", "can", "sendcan", "logMessage", "androidLog"}

  /** The release script skips exactly what the SQLite script skips, except
      `errorLogMessage`. */
  lemma SkippedTypesRelease()
    ensures SkippedTypes == DefinitionImport.SkippedTypes - {"errorLogMessage"}
    ensures "errorLogMessage" in DefinitionImport.SkippedTypes
  {
  }

  /** The display name of a field's slot type; an unreadable type stays
      `Unknown`. */
  function DataType(tag: Option<string>): string {
    if tag.Some? then DefinitionImport.TypeName(tag.value) else "Unknown"
  }

  /** `is_numeric`: set only by the integer and floating-point branches. */
  function IsNumeric(tag: Option<string>): bool {
    tag.Some? && tag.value in {"int8", "int16", "int32", "int64", "uint8", "uint16", "uint32", "uint64", "float32", "float64"}
  }

  /** A numeric field is one the SQLite script would store, other than a
      boolean: the release script does not count `Bool` as numeric. */
  lemma NumericIsStoredNotBool(tag: Option<string>)
    ensures IsNumeric(tag) <==> DefinitionImport.Stored(DataType(tag)) && DataType(tag) != "Bool"
  {
  }

  /** The lookup tables the script carries: Chinese field names, units per
      field, Chinese unit names, and categories per event type. */
  datatype Tables = Tables(
    names: map<string, string>, units: map<string, string>,
    unitNames: map<string, string>, categories: map<string, string>)

  /** `d.get(k, default)`. */
  function Get(d: map<string, string>, k: string, default: string): string {
    if k in d then d[k] else default
  }

  /** A row of `cereal_signal_definitions`. */
  datatype CerealDef = CerealDef(
    messageType: string, fieldName: string, dataType: string, nameCn: string,
    descriptionCn: string, unit: string, unitCn: string, category: string, isNumeric: bool)

  /** The description used when a field has no Chinese name. */
  function GeneratedDescription(msgType: string, field: string): (r: string)
    ensures StartsWith(r, msgType) && EndsWith(r, field + " 欄位") && r != ""
  {
    var r := msgType + " 的 " + field + " 欄位";
    assert r[..|msgType|] == msgType;
    assert r[|r| - |field + " 欄位"|..] == field + " 欄位";
    r
  }

  /** The row built for one field. */
  function CerealRow(msgType: string, field: string, tag: Option<string>, tables: Tables): (d: CerealDef)
    ensures d.messageType == msgType && d.fieldName == field
    ensures d.nameCn == Get(tables.names, field, "")
    ensures d.descriptionCn != ""
    ensures d.nameCn != "" ==> d.descriptionCn == d.nameCn
    ensures d.nameCn == "" ==> d.descriptionCn == GeneratedDescription(msgType, field)
    ensures d.unit == Get(tables.units, field, "")
    ensures d.unit == "" ==> d.unitCn == ""
    ensures d.unit != "" ==> d.unitCn == Get(tables.unitNames, d.unit, "")
    ensures d.category == Get(tables.categories, msgType, "sensor")
    ensures d.isNumeric ==> d.dataType != "Bool" && d.dataType != "Unknown"
  {
    var nameCn := Get(tables.names, field, "");
    var unit := Get(tables.units, field, "");
    CerealDef(msgType, field, DataType(tag), nameCn,
              if nameCn != "" then nameCn else GeneratedDescription(msgType, field),
              unit, if unit != "" then Get(tables.unitNames, unit, "") else "",
              Get(tables.categories, msgType, "sensor"), IsNumeric(tag))
  }

  // ---------------------------------------------------------------------------
  // Cereal import
  // ---------------------------------------------------------------------------

  /** A non-union field of a message schema; `tag` is `None` when its slot
      type could not be read. */
  datatype FieldSpec = FieldSpec(name: string, tag: Option<string>)

  type Schema = string -> Option<seq<FieldSpec>>

  /** The fields of an event type: its class looked up in `log` first and
      in `car` otherwise; `None` skips the type. */
  function ClassFields(msgType: string, log: Schema, car: Schema): (r: Option<seq<FieldSpec>>)
    ensures msgType == "" ==> r.None?
    ensures msgType != "" && log(DefinitionImport.ClassName(msgType)).Some? ==>
      r == log(DefinitionImport.ClassName(msgType))
    ensures msgType != "" && log(DefinitionImport.ClassName(msgType)).None? ==>
      r == car(DefinitionImport.ClassName(msgType))
  {
    if msgType == "" then None
    else
      var name := DefinitionImport.ClassName(msgType);
      if log(name).Some? then log(name) else car(name)
  }

  /** The (event type, field) pairs the import visits, in order. */
  function Specs(types: seq<string>, log: Schema, car: Schema): (r: seq<(string, FieldSpec)>)
    decreases |types|
    ensures forall i | 0 <= i < |r| ::
      r[i].0 in types && r[i].0 !in SkippedTypes && ClassFields(r[i].0, log, car).Some?
      && r[i].1 in ClassFields(r[i].0, log, car).value
  {
    if |types| == 0 then []
    else
      var t := types[0];
      var head :=
        if t in SkippedTypes then []
        else match ClassFields(t, log, car)
          case None => []
          case Some(fs) => seq(|fs|, i requires 0 <= i < |fs| => (t, fs[i]));
      var rest := Specs(types[1..], log, car);
      assert forall i | 0 <= i < |rest| :: rest[i].0 in types[1..];
      head + rest
  }

  /** Every field of every imported type is visited. */
  lemma {:induction false} SpecsComplete(types: seq<string>, log: Schema, car: Schema, t: string, f: FieldSpec)
    decreases |types|
    requires t in types && t !in SkippedTypes
    requires ClassFields(t, log, car).Some? && f in ClassFields(t, log, car).value
    ensures (t, f) in Specs(types, log, car)
  {
    var t0 := types[0];
    var head :=
      if t0 in SkippedTypes then []
      else match ClassFields(t0, log, car)
        case None => []
        case Some(fs) => seq(|fs|, i requires 0 <= i < |fs| => (t0, fs[i]));
    assert Specs(types, log, car) == head + Specs(types[1..], log, car);
    if t == t0 {
      var fs := ClassFields(t, log, car).value;
      var j :| 0 <= j < |fs| && fs[j] == f;
      assert head[j] == (t, f);
    } else {
      SpecsComplete(types[1..], log, car, t, f);
    }
  }

  /** `full_signal_name`. */
  function FullName(msgType: string, field: string): string {
    msgType + "." + field
  }

  type CerealTable = map<string, CerealDef>

  /** The row builder of a run with the given tables. */
  function RowOf(tables: Tables): (string, FieldSpec) -> CerealDef {
    (ty: string, f: FieldSpec) => CerealRow(ty, f.name, f.tag, tables)
  }

  /** One upsert per visited field, with the row built by `row`. */
  function CerealEntries(specs: seq<(string, FieldSpec)>, row: (string, FieldSpec) -> CerealDef): (r: seq<(string, CerealDef)>)
    ensures |r| == |specs|
    ensures forall i | 0 <= i < |r| :: r[i] == (FullName(specs[i].0, specs[i].1.name), row(specs[i].0, specs[i].1))
  {
    seq(|specs|, i requires 0 <= i < |specs| => (FullName(specs[i].0, specs[i].1.name), row(specs[i].0, specs[i].1)))
  }

  /** `import_cereal_signals`: the old catalogue is deleted first; when the
      schema files cannot be loaded nothing more happens and the count is 0.
      Otherwise each visited field is upserted under its full name (a
      conflict overwrites every imported column, so it acts as a replace),
      and the count is the number of fields visited. */
  function ImportCereal(schemaLoaded: bool, types: seq<string>, log: Schema, car: Schema, tables: Tables): (r: (CerealTable, nat))
    ensures !schemaLoaded ==> r == (map[], 0)
  {
    if !schemaLoaded then (map[], 0)
    else ImportSpecs(map[], Specs(types, log, car), tables)
  }

  /** The upserts of the visited fields, in order, and their number. */
  function ImportSpecs(t: CerealTable, specs: seq<(string, FieldSpec)>, tables: Tables): (r: (CerealTable, nat))
  {
    var entries := CerealEntries(specs, RowOf(tables));
    (Upsert.UpsertAll(t, entries, Upsert.Replace()), |entries|)
  }

  /** After an import with the schema loaded, every field of every imported
      type has its row, every row is the row of a visited field with that
      full name, and the count is the number of fields visited. */
  lemma ImportCerealCovers(types: seq<string>, log: Schema, car: Schema, tables: Tables)
    ensures var (r, count) := ImportCereal(true, types, log, car, tables);
      var specs := Specs(types, log, car);
      && count == |specs|
      && (forall ty, f | ty in types && ty !in SkippedTypes && ClassFields(ty, log, car).Some?
            && f in ClassFields(ty, log, car).value :: FullName(ty, f.name) in r)
      && (forall k | k in r :: exists i | 0 <= i < |specs| ::
            k == FullName(specs[i].0, specs[i].1.name) && r[k] == CerealRow(specs[i].0, specs[i].1.name, specs[i].1.tag, tables))
  {
    var specs := Specs(types, log, car);
    var entries := CerealEntries(specs, RowOf(tables));
    var r := Upsert.UpsertAll(map[], entries, Upsert.Replace());
    Upsert.UpsertKeys(map[], entries, Upsert.Replace());
    ImportSpecsRows(map[], specs, tables);
    forall ty, f | ty in types && ty !in SkippedTypes && ClassFields(ty, log, car).Some?
      && f in ClassFields(ty, log, car).value
      ensures FullName(ty, f.name) in r
    {
      FieldKeyed(types, log, car, tables, ty, f);
    }
  }

  /** Each field the walk visits has an upsert under its full name. */
  lemma FieldKeyed(types: seq<string>, log: Schema, car: Schema, tables: Tables, ty: string, f: FieldSpec)
    requires ty in types && ty !in SkippedTypes && ClassFields(ty, log, car).Some?
    requires f in ClassFields(ty, log, car).value
    ensures Upsert.HasKey(CerealEntries(Specs(types, log, car), RowOf(tables)), FullName(ty, f.name))
  {
    var specs := Specs(types, log, car);
    var entries := CerealEntries(specs, RowOf(tables));
    SpecsComplete(types, log, car, ty, f);
    var i :| 0 <= i < |specs| && specs[i] == (ty, f);
    assert entries[i].0 == FullName(ty, f.name);
  }

  /** The upserts of the visited fields write, under each name, the row of
      the last field with that name; every other row is as it was. */
  lemma ImportSpecsRows(t: CerealTable, specs: seq<(string, FieldSpec)>, tables: Tables)
    ensures var r := ImportSpecs(t, specs, tables).0;
      forall k | k in r ::
        (k in t && r[k] == t[k])
        || exists i | 0 <= i < |specs| ::
             k == FullName(specs[i].0, specs[i].1.name) && r[k] == CerealRow(specs[i].0, specs[i].1.name, specs[i].1.tag, tables)
  {
    var entries := CerealEntries(specs, RowOf(tables));
    var r := Upsert.UpsertAll(t, entries, Upsert.Replace());
    Upsert.ReplaceRows(t, entries);
    forall k | k in r && !(k in t && r[k] == t[k])
      ensures exists i | 0 <= i < |specs| ::
        k == FullName(specs[i].0, specs[i].1.name) && r[k] == CerealRow(specs[i].0, specs[i].1.name, specs[i].1.tag, tables)
    {
      var i := Upsert.LastIndex(entries, k).value;
      assert entries[i] == (k, r[k]);
      assert entries[i] == (FullName(specs[i].0, specs[i].1.name), RowOf(tables)(specs[i].0, specs[i].1));
    }
  }

  /** `_get_message_fields`: the hand-written field table of a type, empty
      for a type it does not list. */
  function MessageFields<F>(table: map<string, map<string, F>>, msgType: string): (r: map<string, F>)
    ensures msgType !in table ==> r == map[]
    ensures msgType in table ==> r == table[msgType]
  {
    if msgType in table then table[msgType] else map[]
  }

  // ---------------------------------------------------------------------------
  // CAN import
  // ---------------------------------------------------------------------------

  /** A row of `can_signal_definitions` (bit layout columns left out). */
  datatype CanDef = CanDef(
    canId: nat, canIdHex: string, signalName: string, messageName: string,
    messageNameCn: string, signalNameCn: string, descriptionCn: string,
    unit: string, unitCn: string, comment: string, category: string)

  type CanTable = map<string, CanDef>

  /** The row built for one signal of one message. */
  function CanRow(m: DbcParser.MessageDef, s: DbcParser.SignalDef): (d: CanDef)
    ensures d.canId == m.frameId && d.canIdHex == CanNames.HexId(m.frameId)
    ensures d.signalNameCn == DbcParser.Cn(s.name)
    ensures d.descriptionCn == (if s.comment != "" then DbcParser.Cn(s.comment) else DbcParser.Cn(s.name))
    ensures d.unitCn == "" <==> s.unit == ""
    ensures d.category == "can_powertrain"
  {
    CanDef(m.frameId, CanNames.HexId(m.frameId), s.name, m.name, DbcParser.Cn(m.name),
           DbcParser.Cn(s.name),
           if s.comment != "" then DbcParser.Cn(s.comment) else DbcParser.Cn(s.name),
           s.unit, if s.unit != "" then DbcParser.Cn(s.unit) else "", s.comment, "can_powertrain")
  }

  /** `ON CONFLICT (full_signal_name) DO UPDATE`: only the four Chinese
      columns are refreshed; everything else keeps the stored value. */
  function MergeCn(stored: CanDef, incoming: CanDef): (r: CanDef)
    ensures r.messageNameCn == incoming.messageNameCn && r.signalNameCn == incoming.signalNameCn
    ensures r.descriptionCn == incoming.descriptionCn && r.unitCn == incoming.unitCn
    ensures r.(messageNameCn := stored.messageNameCn, signalNameCn := stored.signalNameCn,
               descriptionCn := stored.descriptionCn, unitCn := stored.unitCn) == stored
  {
    stored.(messageNameCn := incoming.messageNameCn, signalNameCn := incoming.signalNameCn,
            descriptionCn := incoming.descriptionCn, unitCn := incoming.unitCn)
  }

  /** Merging the same row again changes nothing. */
  lemma MergeCnIdempotent(stored: CanDef, incoming: CanDef)
    ensures MergeCn(MergeCn(stored, incoming), incoming) == MergeCn(stored, incoming)
    ensures MergeCn(incoming, incoming) == incoming
  {
  }

  /** One upsert per (message, signal) pair, keyed by `CAN_0x%03X_<signal>`,
      with the row built by `row`. */
  function KeyedRows(pairs: seq<(DbcParser.MessageDef, DbcParser.SignalDef)>,
                     row: (DbcParser.MessageDef, DbcParser.SignalDef) -> CanDef): (r: seq<(string, CanDef)>)
    ensures |r| == |pairs|
    ensures forall i | 0 <= i < |r| ::
      r[i].0 == CanNames.CanSignalName(pairs[i].0.frameId, pairs[i].1.name) && r[i].1 == row(pairs[i].0, pairs[i].1)
  {
    seq(|pairs|, i requires 0 <= i < |pairs| =>
      (CanNames.CanSignalName(pairs[i].0.frameId, pairs[i].1.name), row(pairs[i].0, pairs[i].1)))
  }

  /** One upsert per signal of the database. */
  function CanEntries(db: DbcParser.Database): (r: seq<(string, CanDef)>)
    ensures |r| == DefinitionImport.SignalCount(db.messages)
  {
    DefinitionImport.SignalCountIsPairs(db.messages);
    KeyedRows(DefinitionImport.Pairs(db.messages), CanRow)
  }

  /** `import_can_signals`: a DBC file that cannot be loaded imports nothing;
      otherwise every signal is upserted and counted. */
  function ImportCan(t: CanTable, db: Option<DbcParser.Database>): (r: (CanTable, nat))
    ensures db.None? ==> r == (t, 0)
    ensures db.Some? ==> r.1 == DefinitionImport.SignalCount(db.value.messages)
  {
    match db
    case None => (t, 0)
    case Some(d) =>
      var entries := CanEntries(d);
      (Upsert.UpsertAll(t, entries, MergeCn), |entries|)
  }

  /** Every signal's name is in the table afterwards, and a name no signal
      has keeps its row. */
  lemma ImportCanKeys(t: CanTable, db: DbcParser.Database)
    ensures var r := ImportCan(t, Some(db)).0;
      && (forall m, s | m in db.messages && s in m.signals :: CanNames.CanSignalName(m.frameId, s.name) in r)
      && (forall k | k in t && !Upsert.HasKey(CanEntries(db), k) :: k in r && r[k] == t[k])
  {
    var entries := CanEntries(db);
    var r := Upsert.UpsertAll(t, entries, MergeCn);
    Upsert.UpsertKeys(t, entries, MergeCn);
    forall m, s | m in db.messages && s in m.signals
      ensures CanNames.CanSignalName(m.frameId, s.name) in r
    {
      SignalKeyed(db, m, s);
    }
  }

  /** Each signal of the database has an upsert under its full name. */
  lemma SignalKeyed(db: DbcParser.Database, m: DbcParser.MessageDef, s: DbcParser.SignalDef)
    requires m in db.messages && s in m.signals
    ensures Upsert.HasKey(CanEntries(db), CanNames.CanSignalName(m.frameId, s.name))
  {
    var pairs := DefinitionImport.Pairs(db.messages);
    var entries := CanEntries(db);
    assert entries == KeyedRows(pairs, CanRow);
    DefinitionImport.PairsComplete(db.messages, m, s);
    var i :| 0 <= i < |pairs| && pairs[i] == (m, s);
    assert entries[i].0 == CanNames.CanSignalName(m.frameId, s.name);
  }

  /** A signal whose full name no other signal of the database shares: a
      new name gets the freshly built row; a name already stored keeps its
      id, names, unit, comment and category and takes the new Chinese
      columns. */
  lemma ImportCanUnique(t: CanTable, db: DbcParser.Database, i: nat)
    requires i < |CanEntries(db)|
    requires forall j | 0 <= j < |CanEntries(db)| && j != i :: CanEntries(db)[j].0 != CanEntries(db)[i].0
    ensures var (k, row) := CanEntries(db)[i];
      var r := ImportCan(t, Some(db)).0;
      k in r && r[k] == if k in t then MergeCn(t[k], row) else row
  {
    Upsert.UpsertOnce(t, CanEntries(db), MergeCn, i);
  }
}

=== FILE: release_import.dfy ===
/** The release command-line importer, release/v1.0/tools/import_segment.py
    `import_segment`: after the segment directory is parsed
    (`SegmentPath.ParseSegmentDir`) and the wall-time offset found
    (`TimeResolution.WallTimeOffset`), the segment's time span is taken from
    the first and last event, an existing segment is overwritten only on a
    typed `yes`, and every event is turned into rows: a fixed list of
    `carState` and `controlsState` fields sampled when numeric, one raw row
    per frame of a `can` event. An event that cannot be read is skipped. The
    names that produced samples then get a catalog description from the
    Cap'n Proto comment extractor. */
module ReleaseImport {
  import opened Wrappers
  import opened Strings
  import opened Events
  import Seqs
  import Batching
  import CapnpAnnotations
  import ImportFlow

  // ---------------------------------------------------------------------------
  // Segment row

  /** The recorded span of the events, `(0, 0)` without events
      (`ImportFlow.TimeSpan`), brackets every event of a log written in
      time order. */
  lemma TimeSpanBrackets(events: seq<Event>)
    requires forall i, j | 0 <= i <= j < |events| :: events[i].logMonoTime <= events[j].logMonoTime
    ensures var (start, end) := ImportFlow.TimeSpan(events);
      (|events| == 0 ==> start == 0 && end == 0)
      && forall k | 0 <= k < |events| :: start <= events[k].logMonoTime <= end
  {
  }

  /** The overwrite prompt: a segment that is not stored yet is always
      imported; a stored one only when the answer, lower-cased, is `yes`. */
  function Proceeds(existing: bool, response: string): (r: bool)
    ensures !existing ==> r
    ensures existing ==>
      (r <==> (|response| == 3 && response[0] in {'y', 'Y'} && response[1] in {'e', 'E'} && response[2] in {'s', 'S'}))
  {
    !existing || Lower(response) == "yes"
  }

  // ---------------------------------------------------------------------------
  // Rows of one event

  /** `CAR_STATE_FIELDS`. */
  const CarStateFields: seq<string> := [
    "vEgo", "aEgo", "steeringAngleDeg", "steeringTorque",
    "gas", "gasPressed", "brake", "brakePressed",
    "leftBlinker", "rightBlinker", "gearShifter"
  ]

  /** `CONTROLS_STATE_FIELDS`. */
  const ControlsStateFields: seq<string> := ["enabled", "active", "longControlState", "vCruise"]

  /** The fields sampled from a message of the given type. */
  function SampledFields(which: string): seq<string> {
    if which == "carState" then CarStateFields
    else if which == "controlsState" then ControlsStateFields
    else []
  }

  function SignalName(which: string, field: string): string {
    which + "." + field
  }

  /** Every name the importer can produce. */
  predicate Known(name: string) {
    (exists f | f in CarStateFields :: name == SignalName("carState", f))
    || (exists f | f in ControlsStateFields :: name == SignalName("controlsState", f))
  }

  datatype SampleRow = SampleRow(timeNs: int, name: string, value: real)
  datatype CanRow = CanRow(timeNs: int, address: nat, dat: seq<int>, src: int)

  /** What one event adds to the two buffers. */
  datatype Rows = Rows(samples: seq<SampleRow>, cans: seq<CanRow>)

  /** The sample rows of one message, given how a field's numeric value
      is read: one per listed field with a value, in list order. */
  function MessageRows(t: int, which: string, value: string -> Option<real>, fields: seq<string>): (r: seq<SampleRow>)
    decreases |fields|
    ensures |r| <= |fields|
  {
    if |fields| == 0 then []
    else
      var rest := MessageRows(t, which, value, fields[1..]);
      match value(fields[0])
      case Some(x) => [SampleRow(t, SignalName(which, fields[0]), x)] + rest
      case None => rest
  }

  /** `row` is the row of some listed field: stamped with the message
      time and carrying that field's value. */
  predicate RowOfField(row: SampleRow, t: int, which: string, value: string -> Option<real>, fields: seq<string>) {
    row.timeNs == t && exists f | f in fields :: row.name == SignalName(which, f) && value(f) == Some(row.value)
  }

  /** Every row is a listed field's. */
  lemma {:induction false} MessageRowsSound(t: int, which: string, value: string -> Option<real>, fields: seq<string>)
    decreases |fields|
    ensures forall row | row in MessageRows(t, which, value, fields) :: RowOfField(row, t, which, value, fields)
  {
    if |fields| > 0 {
      var r := MessageRows(t, which, value, fields);
      var rest := MessageRows(t, which, value, fields[1..]);
      MessageRowsSound(t, which, value, fields[1..]);
      forall row | row in r ensures RowOfField(row, t, which, value, fields) {
        if row in rest {
          assert RowOfField(row, t, which, value, fields[1..]);
          var f :| f in fields[1..] && row.name == SignalName(which, f) && value(f) == Some(row.value);
          assert f in fields;
        } else {
          assert row.name == SignalName(which, fields[0]);
        }
      }
    }
  }

  /** Every listed field with a value has its row. */
  lemma {:induction false} MessageRowsComplete(t: int, which: string, value: string -> Option<real>, fields: seq<string>, f: string)
    decreases |fields|
    requires f in fields && value(f).Some?
    ensures exists k | 0 <= k < |MessageRows(t, which, value, fields)| ::
      MessageRows(t, which, value, fields)[k] == SampleRow(t, SignalName(which, f), value(f).value)
  {
    var r := MessageRows(t, which, value, fields);
    var rest := MessageRows(t, which, value, fields[1..]);
    var row := SampleRow(t, SignalName(which, f), value(f).value);
    if fields[0] == f {
      assert r[0] == row;
    } else {
      MessageRowsComplete(t, which, value, fields[1..], f);
      var k :| 0 <= k < |rest| && rest[k] == row;
      if value(fields[0]).Some? {
        assert r[k + 1] == rest[k];
      } else {
        assert r[k] == rest[k];
      }
    }
  }

  /** How the loop reads a field of a message. */
  function ValueOf(msg: Value): string -> Option<real> {
    (f: string) => PlainField(msg, f)
  }

  /** One raw row per frame, in frame order. */
  function FrameRows(t: int, frames: seq<CanFrame>): (r: seq<CanRow>)
    ensures |r| == |frames|
    ensures forall k | 0 <= k < |r| :: r[k] == CanRow(t, frames[k].address, frames[k].dat, frames[k].src)
  {
    seq(|frames|, k requires 0 <= k < |frames| => CanRow(t, frames[k].address, frames[k].dat, frames[k].src))
  }

  /** An event whose payload cannot be read as its type says: the access
      raises and the event is skipped. */
  predicate Unreadable(e: Event) {
    ((e.which == "carState" || e.which == "controlsState") && !e.body.Message?)
    || (e.which == "can" && !e.body.CanFrames?)
  }

  /** The loop body for one event: `None` when it raises. */
  function ProcessEvent(e: Event): (r: Option<Rows>)
    ensures r.None? <==> Unreadable(e)
    ensures r.Some? && |r.value.cans| > 0 ==> e.which == "can"
    ensures r.Some? && |r.value.samples| > 0 ==> e.which == "carState" || e.which == "controlsState"
  {
    if e.which == "carState" || e.which == "controlsState" then
      if e.body.Message? then Some(Rows(MessageRows(e.logMonoTime, e.which, ValueOf(e.body.v), SampledFields(e.which)), []))
      else None
    else if e.which == "can" then
      if e.body.CanFrames? then Some(Rows([], FrameRows(e.logMonoTime, e.body.frames)))
      else None
    else Some(Rows([], []))
  }

  /** Every sample the importer produces carries a known name. */
  lemma ProcessEventKnown(e: Event)
    ensures ProcessEvent(e).Some? ==> forall k | 0 <= k < |ProcessEvent(e).value.samples| ::
      Known(ProcessEvent(e).value.samples[k].name)
  {
    if ProcessEvent(e).Some? && (e.which == "carState" || e.which == "controlsState") {
      var rows := ProcessEvent(e).value.samples;
      assert rows == MessageRows(e.logMonoTime, e.which, ValueOf(e.body.v), SampledFields(e.which));
      MessageRowsSound(e.logMonoTime, e.which, ValueOf(e.body.v), SampledFields(e.which));
      forall k | 0 <= k < |rows| ensures Known(rows[k].name) {
        assert rows[k] in rows && RowOfField(rows[k], e.logMonoTime, e.which, ValueOf(e.body.v), SampledFields(e.which));
        var f :| f in SampledFields(e.which) && rows[k].name == SignalName(e.which, f);
      }
    }
  }

  /** A sampled message yields exactly the listed fields with a numeric
      value: a row named `which.f` exists iff `f` is listed for the type
      and numeric in the message. */
  lemma ProcessEventExact(e: Event, f: string)
    requires e.which == "carState" || e.which == "controlsState"
    requires e.body.Message?
    requires '.' !in e.which
    ensures var rows := ProcessEvent(e).value.samples;
      (exists k | 0 <= k < |rows| :: rows[k].name == SignalName(e.which, f))
      <==> f in SampledFields(e.which) && PlainField(e.body.v, f).Some?
  {
    var rows := ProcessEvent(e).value.samples;
    var fields := SampledFields(e.which);
    var value := ValueOf(e.body.v);
    assert rows == MessageRows(e.logMonoTime, e.which, value, fields);
    if f in fields && value(f).Some? {
      MessageRowsComplete(e.logMonoTime, e.which, value, fields, f);
    }
    if k :| 0 <= k < |rows| && rows[k].name == SignalName(e.which, f) {
      MessageRowsSound(e.logMonoTime, e.which, value, fields);
      assert rows[k] in rows && RowOfField(rows[k], e.logMonoTime, e.which, value, fields);
      var g :| g in fields && rows[k].name == SignalName(e.which, g) && value(g) == Some(rows[k].value);
      SignalNameInjective(e.which, f, g);
    }
  }

  /** The field part of a name is determined by the name. */
  lemma SignalNameInjective(which: string, f: string, g: string)
    requires SignalName(which, f) == SignalName(which, g)
    ensures f == g
  {
    assert f == SignalName(which, f)[|which| + 1..];
    assert g == SignalName(which, g)[|which| + 1..];
  }

  // ---------------------------------------------------------------------------
  // The event loop

  /** The state of the loop after a prefix of the events: the rows each
      event appended (an empty group for a skipped one), the number of
      events processed and skipped, and `signal_types`. */
  datatype Progress = Progress(
    samples: seq<seq<SampleRow>>,
    cans: seq<seq<CanRow>>,
    processed: nat,
    skipped: nat,
    types: set<string>)

  function NamesOf(rows: seq<SampleRow>): set<string> {
    set k | 0 <= k < |rows| :: rows[k].name
  }

  /** The loop over `events` with `process` as its body. */
  function Run(events: seq<Event>, process: Event -> Option<Rows>): (p: Progress)
    decreases |events|
    ensures |p.samples| == |events| && |p.cans| == |events|
    ensures p.processed + p.skipped == |events|
  {
    if |events| == 0 then Progress([], [], 0, 0, {})
    else
      var prev := Run(events[..|events| - 1], process);
      match process(events[|events| - 1])
      case None => prev.(samples := prev.samples + [[]], cans := prev.cans + [[]], skipped := prev.skipped + 1)
      case Some(rows) =>
        var types := prev.types + set k | 0 <= k < |rows.samples| :: rows.samples[k].name;
        Progress(prev.samples + [rows.samples], prev.cans + [rows.cans], prev.processed + 1, prev.skipped, types)
  }

  lemma NamesOfAppend(a: seq<SampleRow>, b: seq<SampleRow>)
    ensures NamesOf(a + b) == NamesOf(a) + NamesOf(b)
  {
    forall n | n in NamesOf(a + b) ensures n in NamesOf(a) + NamesOf(b) {
      var k :| 0 <= k < |a + b| && (a + b)[k].name == n;
      if k >= |a| { assert b[k - |a|] == (a + b)[k]; }
    }
    forall n | n in NamesOf(a) + NamesOf(b) ensures n in NamesOf(a + b) {
      if n in NamesOf(a) {
        var k :| 0 <= k < |a| && a[k].name == n;
        assert (a + b)[k] == a[k];
      } else {
        var k :| 0 <= k < |b| && b[k].name == n;
        assert (a + b)[|a| + k] == b[k];
      }
    }
  }

  /** `signal_types` holds exactly the names of the sample rows written. */
  lemma {:induction false} TypesExact(events: seq<Event>, process: Event -> Option<Rows>)
    decreases |events|
    ensures Run(events, process).types == NamesOf(Batching.Flatten(Run(events, process).samples))
  {
    if |events| > 0 {
      var prev := Run(events[..|events| - 1], process);
      TypesExact(events[..|events| - 1], process);
      var p := Run(events, process);
      match process(events[|events| - 1])
      case None =>
        Batching.FlattenSnoc(prev.samples, []);
        assert Batching.Flatten(prev.samples) + [] == Batching.Flatten(prev.samples);
      case Some(rows) =>
        Batching.FlattenSnoc(prev.samples, rows.samples);
        NamesOfAppend(Batching.Flatten(prev.samples), rows.samples);
    }
  }

  /** A skipped event adds no row and no name. */
  lemma SkippedEventAddsNothing(events: seq<Event>, e: Event, process: Event -> Option<Rows>)
    requires process(e).None?
    ensures var (p, q) := (Run(events, process), Run(events + [e], process));
      Batching.Flatten(q.samples) == Batching.Flatten(p.samples)
      && Batching.Flatten(q.cans) == Batching.Flatten(p.cans)
      && q.types == p.types && q.processed == p.processed && q.skipped == p.skipped + 1
  {
    var p := Run(events, process);
    assert (events + [e])[..|events|] == events;
    Batching.FlattenSnoc(p.samples, []);
    Batching.FlattenSnoc(p.cans, []);
    assert Batching.Flatten(p.samples) + [] == Batching.Flatten(p.samples);
    assert Batching.Flatten(p.cans) + [] == Batching.Flatten(p.cans);
  }

  /** Names that every event's rows satisfy are the only names collected. */
  lemma {:induction false} TypesSatisfy(events: seq<Event>, process: Event -> Option<Rows>, ok: string -> bool)
    decreases |events|
    requires forall e | e in events && process(e).Some? ::
      forall k | 0 <= k < |process(e).value.samples| :: ok(process(e).value.samples[k].name)
    ensures forall n | n in Run(events, process).types :: ok(n)
  {
    if |events| > 0 {
      assert forall e | e in events[..|events| - 1] :: e in events;
      TypesSatisfy(events[..|events| - 1], process, ok);
    }
  }

  /** The importer's loop: `signal_types` is exactly the set of names
      written, all of them known names, and every event is processed or
      skipped. */
  lemma ImportLoopTypes(events: seq<Event>)
    ensures var p := Run(events, ProcessEvent);
      p.types == NamesOf(Batching.Flatten(p.samples))
      && (forall n | n in p.types :: Known(n))
      && p.processed + p.skipped == |events|
  {
    TypesExact(events, ProcessEvent);
    forall e | e in events { ProcessEventKnown(e); }
    TypesSatisfy(events, ProcessEvent, Known);
  }

  /** The batch inserts of both buffers, with the loop's counters. Every
      row reaches exactly one insert, in order; no insert is empty; every
      insert but the last holds at least 5000 rows; each insert is the rows
      of whole consecutive events, written once it reaches 5000. */
  method ImportRows(events: seq<Event>) returns (sampleInserts: seq<seq<SampleRow>>, canInserts: seq<seq<CanRow>>, processed: nat, types: set<string>)
    ensures var p := Run(events, ProcessEvent);
      Batching.Flatten(sampleInserts) == Batching.Flatten(p.samples) && Batching.Flatten(canInserts) == Batching.Flatten(p.cans)
    ensures forall k | 0 <= k < |sampleInserts| - 1 :: |sampleInserts[k]| >= Batching.ToolThreshold
    ensures forall k | 0 <= k < |canInserts| - 1 :: |canInserts[k]| >= Batching.ToolThreshold
    ensures var p := Run(events, ProcessEvent);
      Batching.Greedy(p.samples, Batching.ToolThreshold, sampleInserts) && Batching.Greedy(p.cans, Batching.ToolThreshold, canInserts)
    ensures types == NamesOf(Batching.Flatten(sampleInserts))
    ensures processed + Seqs.Count(events, Unreadable) == |events|
  {
    var p := Run(events, ProcessEvent);
    sampleInserts := Batching.Buffer(p.samples, Batching.ToolThreshold);
    canInserts := Batching.Buffer(p.cans, Batching.ToolThreshold);
    processed := p.processed;
    types := p.types;
    ImportLoopCounts(events);
  }

  /** The loop's counters: `signal_types` is the set of names written and
      the events not processed are exactly the unreadable ones. */
  lemma ImportLoopCounts(events: seq<Event>)
    ensures var p := Run(events, ProcessEvent);
      p.types == NamesOf(Batching.Flatten(p.samples)) && p.processed + Seqs.Count(events, Unreadable) == |events|
  {
    TypesExact(events, ProcessEvent);
    SkippedCount(events, ProcessEvent);
    CountSame(events, Rejected(ProcessEvent), Unreadable);
  }

  /** Two tests that agree everywhere count alike. */
  lemma {:induction false} CountSame<T>(xs: seq<T>, p: T -> bool, q: T -> bool)
    decreases |xs|
    requires forall x :: p(x) == q(x)
    ensures Seqs.Count(xs, p) == Seqs.Count(xs, q)
  {
    if |xs| > 0 { CountSame(xs[1..], p, q); }
  }

  /** The events `process` rejects. */
  function Rejected(process: Event -> Option<Rows>): Event -> bool {
    (e: Event) => process(e).None?
  }

  /** The skipped events are exactly those the body rejects. */
  lemma {:induction false} SkippedCount(events: seq<Event>, process: Event -> Option<Rows>)
    decreases |events|
    ensures Run(events, process).skipped == Seqs.Count(events, Rejected(process))
  {
    if |events| > 0 {
      var init := events[..|events| - 1];
      var last := events[|events| - 1];
      SkippedCount(init, process);
      assert events == init + [last];
      Seqs.FilterAppend(init, [last], Rejected(process));
    }
  }

  // ---------------------------------------------------------------------------
  // Catalog update

  /** Python truthiness of an optional string. */
  predicate Truthy(d: Option<string>) {
    d.Some? && d.value != ""
  }

  /** The catalog updates after the loop: for each collected name that
      splits into exactly two parts on `.`, its type and its description,
      when the description is truthy. `updated_count` is the number of
      keys. */
  function CatalogUpdates(types: set<string>, describe: (string, string) -> Option<string>): (r: map<string, (string, string)>)
    ensures r.Keys <= types
  {
    map n | n in types && |Split(n, ".")| == 2 && Truthy(describe(Split(n, ".")[0], Split(n, ".")[1]))
      :: (Split(n, ".")[0], describe(Split(n, ".")[0], Split(n, ".")[1]).value)
  }

  /** A name `which.f` made of two dot-free parts is updated iff its
      description is truthy, with the type `which` and that description. */
  lemma CatalogUpdateExact(types: set<string>, describe: (string, string) -> Option<string>, which: string, f: string)
    requires '.' !in which && '.' !in f
    requires SignalName(which, f) in types
    ensures var r := CatalogUpdates(types, describe);
      (SignalName(which, f) in r <==> Truthy(describe(which, f)))
      && (SignalName(which, f) in r ==> r[SignalName(which, f)] == (which, describe(which, f).value))
  {
    SplitTwo(which, f, ".");
    assert Split(SignalName(which, f), ".") == [which, f];
  }

  /** No listed field contains a dot. */
  lemma FieldsDotFree()
    ensures forall f | f in CarStateFields :: '.' !in f
    ensures forall f | f in ControlsStateFields :: '.' !in f
  {
  }

  /** The release importer's description lookup: `get_signal_description`
      with translation on. */
  function Describer(a: CapnpAnnotations.Annotations, table: seq<(string, string)>): (string, string) -> Option<string> {
    (t: string, f: string) => CapnpAnnotations.GetSignalDescription(a, table, t, f, true)
  }

  /** A collected name `which.f` is updated only when the struct behind
      `which` is loaded and holds a non-empty comment for `f`; with a table
      of non-empty phrases, always then. */
  lemma CatalogDescribed(a: CapnpAnnotations.Annotations, table: seq<(string, string)>, types: set<string>, which: string, f: string)
    requires which == "carState" || which == "controlsState"
    requires f in SampledFields(which) && SignalName(which, f) in types
    ensures var loaded := CapnpAnnotations.Loaded(a);
      var st := CapnpAnnotations.StructOf(which).value;
      var r := CatalogUpdates(types, Describer(a, table));
      (SignalName(which, f) in r ==> st in loaded && f in loaded[st] && loaded[st][f] != "")
      && (((forall i | 0 <= i < |table| :: table[i].1 != "") && st in loaded && f in loaded[st]
            && loaded[st][f] != "") ==> SignalName(which, f) in r)
  {
    FieldsDotFree();
    assert '.' !in which;
    CatalogUpdateExact(types, Describer(a, table), which, f);
    var loaded := CapnpAnnotations.Loaded(a);
    var st := CapnpAnnotations.StructOf(which).value;
    if st in loaded && f in loaded[st] && loaded[st][f] != "" {
      var d := CapnpAnnotations.GetSignalDescription(a, table, which, f, true);
      assert d.Some?;
      assert d.value == CapnpAnnotations.TranslateWith(table, loaded[st][f]);
    }
  }
}

=== FILE: release_segment_scan.dfy ===
/** The segment browser of release/v1.0/src/ui/dialogs/segment_selector_dialog.py.
    Unlike the later version it has no cache, asks the database only for the
    route's timestamp, and keeps the ROUTE start as its `gps_time`: a GPS fix
    found in the rlog is moved back by one minute per segment, and the GPS
    column adds that minute per segment again. The database branch stores
    the segment's start instead, so its segments show the offset twice; the
    model keeps that branch as written (`TimesAsWritten`) and uses the
    route start (`SegmentTimes`). */
module ReleaseSegmentScan {
  import opened Wrappers
  import opened Strings
  import opened Events
  import Seqs
  import TimeResolution
  import SegmentScan

  // ---------------------------------------------------------------------------
  // Dating a segment

  /** The database branch as written: the route's timestamp, when truthy,
      plus one minute per segment. */
  function RouteTimeAsWritten(routeTimestamp: Option<int>, n: int): (r: Option<int>)
    ensures r.Some? <==> TimeResolution.Truthy(routeTimestamp)
    ensures r.Some? ==> r.value - n * TimeResolution.SegmentSeconds == routeTimestamp.value
  {
    if TimeResolution.Truthy(routeTimestamp) then Some(routeTimestamp.value + n * TimeResolution.SegmentSeconds)
    else None
  }

  /** The database branch as the rest of the dialog reads it: the route's
      timestamp itself, when truthy. */
  function RouteTime(routeTimestamp: Option<int>): (r: Option<int>)
    ensures r.Some? <==> TimeResolution.Truthy(routeTimestamp)
    ensures r.Some? ==> r == routeTimestamp
  {
    if TimeResolution.Truthy(routeTimestamp) then routeTimestamp else None
  }

  /** The rlog's first GPS fix moved back to the route start: one minute per
      segment earlier. */
  function BackDatedFix(events: seq<Event>, n: int): (r: Option<int>)
    ensures r.None? <==> TimeResolution.FirstFixSeconds(events).None?
    ensures r.Some? ==> r.value + n * TimeResolution.SegmentSeconds == TimeResolution.FirstFixSeconds(events).value
  {
    match TimeResolution.FirstFixSeconds(events)
    case Some(s) => Some(s - n * TimeResolution.SegmentSeconds)
    case None => None
  }

  /** `parse_segment`'s times from a given database time: the same sequence
      of clues as the later version, with the fix moved back to the route
      start. */
  function TimesFrom(db: Option<int>, n: int, rlog: Option<seq<Event>>, routeHex: string): SegmentScan.Times {
    SegmentScan.Decide(db, rlog.Some?,
      if rlog.Some? then BackDatedFix(rlog.value, n) else None,
      if rlog.Some? then SegmentScan.RlogWallTime(rlog.value) else None,
      ParseHex(routeHex))
  }

  /** The times as the source computes them. */
  function TimesAsWritten(routeTimestamp: Option<int>, n: int, rlog: Option<seq<Event>>, routeHex: string): SegmentScan.Times {
    TimesFrom(RouteTimeAsWritten(routeTimestamp, n), n, rlog, routeHex)
  }

  /** The times with the database branch keeping the route start, like the
      rlog branch. */
  function SegmentTimes(routeTimestamp: Option<int>, n: int, rlog: Option<seq<Event>>, routeHex: string): SegmentScan.Times {
    TimesFrom(RouteTime(routeTimestamp), n, rlog, routeHex)
  }

  // ---------------------------------------------------------------------------
  // The two time columns

  /** Column 3: a truthy `gps_time` plus one minute per segment. */
  function GpsColumn(t: SegmentScan.Times, n: int): (r: Option<int>)
    ensures r.Some? <==> TimeResolution.Truthy(t.gps)
  {
    if TimeResolution.Truthy(t.gps) then Some(t.gps.value + n * TimeResolution.SegmentSeconds) else None
  }

  /** Column 4: a truthy `wall_time`, shown only without a GPS time. */
  function WallColumn(t: SegmentScan.Times): (r: Option<int>)
    ensures r.Some? ==> !TimeResolution.Truthy(t.gps) && r.value != 0
  {
    if TimeResolution.Truthy(t.wall) && !TimeResolution.Truthy(t.gps) then t.wall else None
  }

  /** As written, a segment dated by the database shows its route's
      timestamp plus TWO minutes per segment. */
  lemma DatabaseOffsetTwice(routeTimestamp: int, n: int, rlog: Option<seq<Event>>, routeHex: string)
    requires routeTimestamp != 0 && routeTimestamp + n * TimeResolution.SegmentSeconds != 0
    ensures GpsColumn(TimesAsWritten(Some(routeTimestamp), n, rlog, routeHex), n)
         == Some(routeTimestamp + 2 * n * TimeResolution.SegmentSeconds)
  {
  }

  /** The smallest case: segment 1 of a route stamped 1000 shows 1120, not
      its start 1060. */
  lemma DatabaseOffsetTwiceExample()
    ensures GpsColumn(TimesAsWritten(Some(1000), 1, None, ""), 1) == Some(1120)
    ensures GpsColumn(SegmentTimes(Some(1000), 1, None, ""), 1) == Some(1060)
  {
    DatabaseOffsetTwice(1000, 1, None, "");
    DatabaseStartShown(1000, 1, None, "");
  }

  /** With the route start kept, a segment dated by the database shows its
      own start: the route's timestamp plus one minute per segment. */
  lemma DatabaseStartShown(routeTimestamp: int, n: int, rlog: Option<seq<Event>>, routeHex: string)
    requires routeTimestamp != 0
    ensures GpsColumn(SegmentTimes(Some(routeTimestamp), n, rlog, routeHex), n)
         == Some(routeTimestamp + n * TimeResolution.SegmentSeconds)
    ensures WallColumn(SegmentTimes(Some(routeTimestamp), n, rlog, routeHex)).None?
  {
  }

  /** A segment dated by its rlog shows its first GPS fix: the back-dating
      and the column's offset cancel. */
  lemma FixShown(routeTimestamp: Option<int>, n: int, events: seq<Event>, routeHex: string)
    requires !TimeResolution.Truthy(routeTimestamp)
    requires TimeResolution.FirstFixSeconds(events).Some?
    requires TimeResolution.FirstFixSeconds(events).value != n * TimeResolution.SegmentSeconds
    ensures GpsColumn(SegmentTimes(routeTimestamp, n, Some(events), routeHex), n) == TimeResolution.FirstFixSeconds(events)
    ensures GpsColumn(TimesAsWritten(routeTimestamp, n, Some(events), routeHex), n) == TimeResolution.FirstFixSeconds(events)
  {
    var back := BackDatedFix(events, n);
    assert RouteTimeAsWritten(routeTimestamp, n).None?;
    assert SegmentTimes(routeTimestamp, n, Some(events), routeHex).gps == back;
    assert TimesAsWritten(routeTimestamp, n, Some(events), routeHex).gps == back;
  }

  /** What the two columns show together: the GPS column shows the route
      start of the first truthy clue (the database, the back-dated fix)
      moved to the segment's start, else the wall column shows the first
      truthy wall clock or hex stamp, else neither shows a time. */
  lemma {:induction false} ColumnsChain(routeTimestamp: Option<int>, n: int, rlog: Option<seq<Event>>, routeHex: string)
    ensures var t := SegmentTimes(routeTimestamp, n, rlog, routeHex);
      var fix := if rlog.Some? then BackDatedFix(rlog.value, n) else None;
      var wall := if rlog.Some? then SegmentScan.RlogWallTime(rlog.value) else None;
      var first := SegmentScan.FirstTruthy([RouteTime(routeTimestamp), fix, wall, ParseHex(routeHex)]);
      && (first.None? <==> GpsColumn(t, n).None? && WallColumn(t).None?)
      && (GpsColumn(t, n).Some? ==> GpsColumn(t, n).value == first.value + n * TimeResolution.SegmentSeconds)
      && (WallColumn(t).Some? ==> WallColumn(t) == first)
  {
    var db := RouteTime(routeTimestamp);
    var fix := if rlog.Some? then BackDatedFix(rlog.value, n) else None;
    var wall := if rlog.Some? then SegmentScan.RlogWallTime(rlog.value) else None;
    var hex := ParseHex(routeHex);
    SegmentScan.FirstTruthyCons(db, [fix, wall, hex]);
    SegmentScan.DecideChain(db, rlog.Some?, fix, wall, hex);
  }

  /** The two versions agree on what a route known to the database shows:
      the later version stores the segment's start and shows it as is, this
      one (with the route start kept) adds the offset at display time. */
  lemma AgreesWithLaterVersion(routeTimestamp: int, n: int, rlog: Option<seq<Event>>, routeHex: string)
    requires routeTimestamp != 0 && routeTimestamp + n * TimeResolution.SegmentSeconds != 0
    ensures GpsColumn(SegmentTimes(Some(routeTimestamp), n, rlog, routeHex), n)
         == SegmentScan.Shown(SegmentScan.SegmentTimes(Some(SegmentScan.StoredTimes(None, Some(routeTimestamp))), n, rlog, routeHex))
  {
    var db := SegmentScan.DbTime(Some(SegmentScan.StoredTimes(None, Some(routeTimestamp))), n);
    assert db == Some(routeTimestamp + n * TimeResolution.SegmentSeconds);
    SegmentScan.DatabaseDecides(db, rlog.Some?,
      if rlog.Some? then TimeResolution.FirstFixSeconds(rlog.value) else None,
      if rlog.Some? then SegmentScan.RlogWallTime(rlog.value) else None,
      ParseHex(routeHex));
    DatabaseStartShown(routeTimestamp, n, rlog, routeHex);
  }

  // ---------------------------------------------------------------------------
  // The scan

  /** What the scanner knows about an `rlog` path: its directory's name,
      its size, its events when readable, and the routes table. */
  datatype Site = Site(dirName: string, fileSize: int, rlog: Option<seq<Event>>, routeTimestamps: map<string, Option<int>>)

  function ParseSegment(path: string, site: Site): (r: Option<SegmentScan.Entry>)
    ensures r.None? <==> SegmentScan.ParseDirName(site.dirName).None?
    ensures r.Some? ==> (r.value.path == path && r.value.dirName == site.dirName
      && r.value.segmentNum == SegmentScan.ParseDirName(site.dirName).value.segmentNum)
  {
    match SegmentScan.ParseDirName(site.dirName)
    case None => None
    case Some(d) =>
      var routeId := SegmentScan.RouteId(d);
      var stamp := if routeId in site.routeTimestamps then site.routeTimestamps[routeId] else None;
      var t := SegmentTimes(stamp, d.segmentNum, site.rlog, d.routeHex);
      Some(SegmentScan.Entry(path, site.dirName, d.segmentNum, d.routeHex, t.gps, t.wall, site.fileSize))
  }

  /** `run`: every `rlog` found is parsed; the entries that parse are shown,
      in order. */
  function Scan(found: seq<string>, parse: string -> Option<SegmentScan.Entry>): (r: seq<SegmentScan.Entry>)
    decreases |found|
    ensures |r| <= |found|
  {
    if |found| == 0 then []
    else
      match parse(found[0])
      case Some(e) => [e] + Scan(found[1..], parse)
      case None => Scan(found[1..], parse)
  }

  /** Without a cache the later version's scan parses every path, exactly
      as this one does. */
  lemma {:induction false} ScanIsUncachedScan(found: seq<string>, parse: string -> Option<SegmentScan.Entry>)
    decreases |found|
    ensures var later := SegmentScan.Scan([], found, parse);
      |later| == |Scan(found, parse)|
      && forall k | 0 <= k < |later| :: later[k].Fresh? && later[k].entry == Scan(found, parse)[k]
  {
    if |found| > 0 {
      ScanIsUncachedScan(found[1..], parse);
      assert Seqs.FirstIndex([], SegmentScan.IsPath(found[0])).None?;
    }
  }

  /** The count reported is the number of paths found that parse. */
  lemma {:induction false} ScanCount(found: seq<string>, parse: string -> Option<SegmentScan.Entry>)
    decreases |found|
    ensures |Scan(found, parse)| == Seqs.Count(found, Parses(parse))
  {
    if |found| > 0 {
      ScanCount(found[1..], parse);
    }
  }

  function Parses(parse: string -> Option<SegmentScan.Entry>): string -> bool {
    (p: string) => parse(p).Some?
  }
}

=== FILE: route_manager.dfy ===
/** The route manager of release/v1.0/src/ui/dialogs/route_manager_dialog.py:
    importing the segments chosen in the segment browser (grouping them by
    route, choosing a DBC file for routes the database does not know yet,
    importing each one, choosing the route to show afterwards), resolving a
    DBC name to its file, and the buttons the segment table enables. The
    dialogs, the database and the importer are inputs: a path is its list of
    components, `routeOf` is the importer's path parser, `stored` the routes
    table, `importOne` the import of one segment with a DBC path. */
module RouteManager {
  import opened Wrappers
  import opened Strings
  import opened Seqs
  import SegmentPath

  type Path = seq<string>

  /** The importer's `parse_segment_path`, keeping only the route id. */
  function RouteIdOf(p: Path): (r: Option<string>)
    ensures r.Some? <==> SegmentPath.ParseRlogPath(p).Success?
    ensures r.Some? ==> r.value == SegmentPath.ParseRlogPath(p).value.routeId
  {
    match SegmentPath.ParseRlogPath(p)
    case Success(ref) => Some(ref.routeId)
    case Failure(_) => None
  }

  function Parser(): Path -> Option<string> {
    (p: Path) => RouteIdOf(p)
  }

  // ---------------------------------------------------------------------------
  // Grouping by route

  /** The route ids of the paths that parse, in selection order, with
      repeats. */
  function ParsedIds(selected: seq<Path>, routeOf: Path -> Option<string>): (r: seq<string>)
    decreases |selected|
    ensures |r| <= |selected|
  {
    if |selected| == 0 then []
    else
      var rest := ParsedIds(selected[1..], routeOf);
      match routeOf(selected[0])
      case Some(id) => [id] + rest
      case None => rest
  }

  lemma {:induction false} ParsedIdsExact(selected: seq<Path>, routeOf: Path -> Option<string>, id: string)
    decreases |selected|
    ensures id in ParsedIds(selected, routeOf) <==> exists k | 0 <= k < |selected| :: routeOf(selected[k]) == Some(id)
  {
    if |selected| > 0 {
      ParsedIdsExact(selected[1..], routeOf, id);
      if exists k | 0 <= k < |selected| :: routeOf(selected[k]) == Some(id) {
        var k :| 0 <= k < |selected| && routeOf(selected[k]) == Some(id);
        if k > 0 {
          assert routeOf(selected[1..][k - 1]) == Some(id);
        }
      }
      if exists k | 0 <= k < |selected[1..]| :: routeOf(selected[1..][k]) == Some(id) {
        var k :| 0 <= k < |selected[1..]| && routeOf(selected[1..][k]) == Some(id);
        assert routeOf(selected[k + 1]) == Some(id);
      }
    }
  }

  /** The keys of `route_groups`: each route of a path that parses, once,
      in the order its first path was selected. */
  function RouteGroups(selected: seq<Path>, routeOf: Path -> Option<string>): (r: seq<string>)
    ensures NoDuplicates(r)
  {
    Distinct(ParsedIds(selected, routeOf))
  }

  /** A route is grouped iff some selected path parses to it. */
  lemma RouteGroupsExact(selected: seq<Path>, routeOf: Path -> Option<string>, id: string)
    ensures id in RouteGroups(selected, routeOf) <==> exists k | 0 <= k < |selected| :: routeOf(selected[k]) == Some(id)
  {
    ParsedIdsExact(selected, routeOf, id);
    var ids := ParsedIds(selected, routeOf);
    if id in ids {
      var k :| 0 <= k < |ids| && ids[k] == id;
    }
  }

  // ---------------------------------------------------------------------------
  // Choosing DBC files

  /** The `dbc_file` field of a stored route: absent, NULL, or a name. */
  datatype DbcField = Absent | Null | Named(name: string)

  const DefaultDbc: string := "vw_mqb.dbc"

  /** `route_info.get('dbc_file', 'vw_mqb.dbc')`: the default applies only
      when the key is absent; a NULL stays `None`. */
  function StoredDbc(f: DbcField): (r: Option<string>)
    ensures r.None? <==> f.Null?
    ensures f.Named? ==> r == Some(f.name)
  {
    match f
    case Absent => Some(DefaultDbc)
    case Null => None
    case Named(name) => Some(name)
  }

  /** The grouped routes the database does not know, in group order. */
  function NewRoutes(groups: seq<string>, stored: map<string, DbcField>): (r: seq<string>)
    ensures forall id | id in r :: id in groups && id !in stored
    ensures forall id | id in groups && id !in stored :: id in r
  {
    FilterMembers(groups, Unknown(stored));
    Filter(groups, Unknown(stored))
  }

  function Unknown(stored: map<string, DbcField>): string -> bool {
    (id: string) => id !in stored
  }

  /** The user's answers in the DBC dialogs: whether to go on without CAN
      decoding when no DBC was imported, and the item picked from the list
      (`None` when the list was cancelled). */
  datatype Answers = Answers(continueWithoutDbc: bool, picked: Option<string>)

  /** The DBC for new routes: `None` aborts the import; `Some(None)` imports
      without a DBC. The question is asked only when there are new routes. */
  function NewRouteDbc(newRoutes: seq<string>, available: seq<string>, answers: Answers): (r: Option<Option<string>>)
    ensures |newRoutes| == 0 ==> r == Some(None)
    ensures r.None? <==> (|newRoutes| > 0 &&
      (if |available| == 0 then !answers.continueWithoutDbc
       else answers.picked.None? || answers.picked.value == ""))
    ensures r.Some? && r.value.Some? ==> |newRoutes| > 0 && |available| > 0 && answers.picked == r.value && r.value.value != ""
  {
    if |newRoutes| == 0 then Some(None)
    else if |available| == 0 then
      if answers.continueWithoutDbc then Some(None) else None
    else if answers.picked.None? || answers.picked.value == "" then None
    else Some(answers.picked)
  }

  const DbcDir: string := "data/dbc"

  /** `Path('data/dbc') / name`: an absolute name replaces the directory. */
  function DbcFilePath(name: string): (r: string)
    ensures |name| > 0 && name[0] != '/' ==> r == DbcDir + "/" + name
    ensures |name| > 0 && name[0] == '/' ==> r == name
  {
    if |name| > 0 && name[0] == '/' then name else DbcDir + "/" + name
  }

  /** `resolve_dbc_path`: `None` for an empty name, else the file under
      `data/dbc` when it exists, else `None`. */
  function ResolveDbcPath(name: string, fileExists: string -> bool): (r: Option<string>)
    ensures r.Some? <==> name != "" && fileExists(DbcFilePath(name))
    ensures r.Some? ==> r.value == DbcFilePath(name) && EndsWith(r.value, name)
  {
    if name == "" then None
    else
      var p := DbcFilePath(name);
      if fileExists(p) then Some(p) else None
  }

  /** The DBC name a segment of route `id` is imported with: the stored one
      for a known route, the chosen one for a new route. */
  function DbcNameFor(id: string, stored: map<string, DbcField>, newDbc: Option<string>): (r: Option<string>)
    ensures id in stored ==> r == StoredDbc(stored[id])
    ensures id !in stored ==> r == newDbc
  {
    if id in stored then StoredDbc(stored[id]) else newDbc
  }

  /** The DBC path handed to the importer: resolved only for a truthy name. */
  function DbcPathFor(id: string, stored: map<string, DbcField>, newDbc: Option<string>, fileExists: string -> bool): (r: Option<string>)
    ensures r.Some? ==> (DbcNameFor(id, stored, newDbc).Some?
      && r == ResolveDbcPath(DbcNameFor(id, stored, newDbc).value, fileExists))
  {
    match DbcNameFor(id, stored, newDbc)
    case None => None
    case Some(name) => if name == "" then None else ResolveDbcPath(name, fileExists)
  }

  // ---------------------------------------------------------------------------
  // Importing

  /** What the import loop leaves: the successes counted and the routes of
      the paths that parsed, imported or not (a set in the source; kept
      here without repeats in the order first met). */
  datatype Outcome = Outcome(successCount: nat, importedRoutes: seq<string>)

  /** The import loop over the selected paths, last-first for induction: a
      path that does not parse is skipped; one that parses adds its route
      and counts when the importer reports success (an exception counts as
      failure). */
  function ImportLoop(selected: seq<Path>, routeOf: Path -> Option<string>, dbcPath: string -> Option<string>,
                      importOne: (Path, Option<string>) -> bool): (r: Outcome)
    decreases |selected|
    ensures r.successCount <= |selected|
    ensures NoDuplicates(r.importedRoutes)
  {
    if |selected| == 0 then Outcome(0, [])
    else
      var last := selected[|selected| - 1];
      var before := ImportLoop(selected[..|selected| - 1], routeOf, dbcPath, importOne);
      match routeOf(last)
      case None => before
      case Some(id) =>
        var routes := if id in before.importedRoutes then before.importedRoutes else before.importedRoutes + [id];
        Outcome(before.successCount + (if importOne(last, dbcPath(id)) then 1 else 0), routes)
  }

  /** The imported routes are exactly the grouped routes. */
  lemma {:induction false} ImportLoopRoutes(selected: seq<Path>, routeOf: Path -> Option<string>, dbcPath: string -> Option<string>,
                                            importOne: (Path, Option<string>) -> bool, id: string)
    decreases |selected|
    ensures id in ImportLoop(selected, routeOf, dbcPath, importOne).importedRoutes
        <==> exists k | 0 <= k < |selected| :: routeOf(selected[k]) == Some(id)
  {
    if |selected| > 0 {
      var init := selected[..|selected| - 1];
      ImportLoopRoutes(init, routeOf, dbcPath, importOne, id);
      if exists k | 0 <= k < |selected| :: routeOf(selected[k]) == Some(id) {
        var k :| 0 <= k < |selected| && routeOf(selected[k]) == Some(id);
        if k < |init| {
          assert routeOf(init[k]) == Some(id);
        }
      }
      if exists k | 0 <= k < |init| :: routeOf(init[k]) == Some(id) {
        var k :| 0 <= k < |init| && routeOf(init[k]) == Some(id);
        assert routeOf(selected[k]) == Some(id);
      }
    }
  }

  /** The success count is the number of paths that parse and import. */
  lemma {:induction false} ImportLoopCount(selected: seq<Path>, routeOf: Path -> Option<string>, dbcPath: string -> Option<string>,
                                           importOne: (Path, Option<string>) -> bool)
    decreases |selected|
    ensures ImportLoop(selected, routeOf, dbcPath, importOne).successCount
         == Count(selected, Succeeds(routeOf, dbcPath, importOne))
  {
    if |selected| > 0 {
      var init := selected[..|selected| - 1];
      var last := selected[|selected| - 1];
      ImportLoopCount(init, routeOf, dbcPath, importOne);
      assert selected == init + [last];
      FilterAppend(init, [last], Succeeds(routeOf, dbcPath, importOne));
    }
  }

  function Succeeds(routeOf: Path -> Option<string>, dbcPath: string -> Option<string>,
                    importOne: (Path, Option<string>) -> bool): Path -> bool {
    (p: Path) => routeOf(p).Some? && importOne(p, dbcPath(routeOf(p).value))
  }

  /** The route whose segments are shown afterwards: the only imported
      route, else the route selected before when it was imported. */
  function RouteToRefresh(imported: seq<string>, selectedRoute: Option<string>): (r: Option<string>)
    ensures r.Some? ==> r.value in imported
    ensures |imported| == 1 ==> r == Some(imported[0])
    ensures |imported| != 1 ==> (r.Some? <==> selectedRoute.Some? && selectedRoute.value != "" && selectedRoute.value in imported)
    ensures |imported| != 1 && r.Some? ==> r == selectedRoute
  {
    if |imported| == 1 then Some(imported[0])
    else if selectedRoute.Some? && selectedRoute.value != "" && selectedRoute.value in imported then selectedRoute
    else None
  }

  /** The environment of one import: the routes table, the DBC names in the
      signal table, the files present and the importer. */
  datatype Env = Env(
    stored: map<string, DbcField>,
    available: seq<string>,
    fileExists: string -> bool,
    importOne: (Path, Option<string>) -> bool)

  function DbcPathOf(env: Env, newDbc: Option<string>): string -> Option<string> {
    (id: string) => DbcPathFor(id, env.stored, newDbc, env.fileExists)
  }

  /** `import_segments` after the browser closed with `selected`: `None`
      when nothing was selected or the DBC choice was abandoned; otherwise
      the loop's outcome and the route to refresh. */
  function ImportSegments(selected: seq<Path>, routeOf: Path -> Option<string>, env: Env, answers: Answers,
                          selectedRoute: Option<string>): (r: Option<(Outcome, Option<string>)>)
    ensures |selected| == 0 ==> r.None?
    ensures r.Some? ==> r.value.0.successCount <= |selected|
    ensures r.Some? && r.value.1.Some? ==> r.value.1.value in r.value.0.importedRoutes
  {
    if |selected| == 0 then None
    else
      var groups := RouteGroups(selected, routeOf);
      var newRoutes := NewRoutes(groups, env.stored);
      match NewRouteDbc(newRoutes, env.available, answers)
      case None => None
      case Some(newDbc) =>
        var outcome := ImportLoop(selected, routeOf, DbcPathOf(env, newDbc), env.importOne);
        Some((outcome, RouteToRefresh(outcome.importedRoutes, selectedRoute)))
  }

  /** The import goes ahead iff something was selected and, when some
      selected route is new, a DBC was picked or the user agreed to go on
      without one. */
  lemma ImportProceeds(selected: seq<Path>, routeOf: Path -> Option<string>, env: Env, answers: Answers,
                       selectedRoute: Option<string>)
    ensures ImportSegments(selected, routeOf, env, answers, selectedRoute).Some?
        <==> |selected| > 0 &&
             ((forall k | 0 <= k < |selected| :: routeOf(selected[k]).None? || routeOf(selected[k]).value in env.stored)
              || (if |env.available| == 0 then answers.continueWithoutDbc
                  else answers.picked.Some? && answers.picked.value != ""))
  {
    if |selected| > 0 {
      var groups := RouteGroups(selected, routeOf);
      var newRoutes := NewRoutes(groups, env.stored);
      if |newRoutes| > 0 {
        var id := newRoutes[0];
        RouteGroupsExact(selected, routeOf, id);
        var k :| 0 <= k < |selected| && routeOf(selected[k]) == Some(id);
      } else {
        forall k | 0 <= k < |selected| && routeOf(selected[k]).Some?
          ensures routeOf(selected[k]).value in env.stored
        {
          RouteGroupsExact(selected, routeOf, routeOf(selected[k]).value);
        }
      }
    }
  }

  /** In a completed import, the route refreshed is one of the selected
      paths' routes, and the success count is the number of paths that
      parse and import with their route's DBC: the stored one for a known
      route, the chosen one for a new route. */
  lemma ImportCompleted(selected: seq<Path>, routeOf: Path -> Option<string>, env: Env, answers: Answers,
                        selectedRoute: Option<string>)
    requires ImportSegments(selected, routeOf, env, answers, selectedRoute).Some?
    ensures var (outcome, refresh) := ImportSegments(selected, routeOf, env, answers, selectedRoute).value;
      var newDbc := NewRouteDbc(NewRoutes(RouteGroups(selected, routeOf), env.stored), env.available, answers).value;
      && outcome.successCount == Count(selected, Succeeds(routeOf, DbcPathOf(env, newDbc), env.importOne))
      && (refresh.Some? ==> exists k | 0 <= k < |selected| :: routeOf(selected[k]) == refresh)
  {
    var newDbc := NewRouteDbc(NewRoutes(RouteGroups(selected, routeOf), env.stored), env.available, answers).value;
    ImportLoopCount(selected, routeOf, DbcPathOf(env, newDbc), env.importOne);
    var (outcome, refresh) := ImportSegments(selected, routeOf, env, answers, selectedRoute).value;
    if refresh.Some? {
      ImportLoopRoutes(selected, routeOf, DbcPathOf(env, newDbc), env.importOne, refresh.value);
    }
  }

  // ---------------------------------------------------------------------------
  // Segment table buttons

  /** `on_segment_selected`: delete is enabled iff a cell is selected; load
      iff the selected cells lie in exactly one row. */
  datatype Buttons = Buttons(deleteEnabled: bool, loadEnabled: bool)

  function SegmentButtons(selectedCellRows: seq<nat>): (r: Buttons)
    ensures r.deleteEnabled <==> |selectedCellRows| > 0
    ensures r.loadEnabled <==> |selectedCellRows| > 0 && forall k | 0 <= k < |selectedCellRows| :: selectedCellRows[k] == selectedCellRows[0]
  {
    if |selectedCellRows| == 0 then Buttons(false, false)
    else
      var rows := Distinct(selectedCellRows);
      assert selectedCellRows[0] in rows;
      assert |rows| == 1 <==> forall k | 0 <= k < |selectedCellRows| :: selectedCellRows[k] == selectedCellRows[0] by {
        if |rows| == 1 {
          forall k | 0 <= k < |selectedCellRows| ensures selectedCellRows[k] == selectedCellRows[0] {
            assert selectedCellRows[k] in rows;
          }
        } else {
          var i :| 0 <= i < |rows| && rows[i] != selectedCellRows[0] by {
            if rows[0] == selectedCellRows[0] { assert rows[1] != rows[0]; } else { }
          }
          var k :| 0 <= k < |selectedCellRows| && selectedCellRows[k] == rows[i];
        }
      }
      Buttons(true, |rows| == 1)
  }
}

=== FILE: segment_path.dfy ===
/** Segment directory names of the form `<dongle>--<hex>--<n>` and the paths
    that end in them (src/core/segment_importer.py, release/v1.0/tools/import_segment.py,
    tools/import_segment_sqlite.py). A path is modelled by its components, as
    `Path(p).parts` gives them. */
module SegmentPath {
  import opened Wrappers
  import opened Strings

  const Sep: string := "--"

  /** What `parse_segment_path` returns: route id, dongle id, the directory's hex
      time stamp and the segment number. */
  datatype SegmentRef = SegmentRef(routeId: string, dongleId: string, timestamp: int, segmentNum: int)

  /** Why a name is refused; all three surface as `ValueError` in the source. */
  datatype PathError = WrongPartCount | BadSegmentNumber | BadHexTimestamp

  /** The directory name shape `<dongle>--<hex>--<n>` split into its parts. */
  predicate ThreeParts(name: string) {
    |Split(name, Sep)| == 3
  }

  /** `parse_segment_path` on the segment directory's own name. */
  function ParseSegmentName(name: string): (r: Result<SegmentRef, PathError>)
    ensures !ThreeParts(name) ==> r == Failure(WrongPartCount)
    ensures r.Success? ==>
              && ThreeParts(name)
              && r.value.routeId == Split(name, Sep)[0] + Sep + Split(name, Sep)[1]
              && r.value.dongleId == Split(name, Sep)[0]
              && ParseHex(Split(name, Sep)[1]) == Some(r.value.timestamp)
              && ParseInt(Split(name, Sep)[2]) == Some(r.value.segmentNum)
  {
    var parts := Split(name, Sep);
    if |parts| != 3 then Failure(WrongPartCount)
    else
      match ParseInt(parts[2])
      case None => Failure(BadSegmentNumber)
      case Some(n) =>
        match ParseHex(parts[1])
        case None => Failure(BadHexTimestamp)
        case Some(ts) => Success(SegmentRef(parts[0] + Sep + parts[1], parts[0], ts, n))
  }

  /** `os.path.basename`: the last component, `""` for an empty path. */
  function BaseName(path: seq<string>): string {
    if |path| == 0 then "" else path[|path| - 1]
  }

  /** `os.path.basename(os.path.dirname(p))`: the name of the directory holding
      the file, `""` when the path has no parent. */
  function ParentName(path: seq<string>): string {
    if |path| < 2 then "" else path[|path| - 2]
  }

  /** src/core/segment_importer.py: the rlog's parent directory is parsed. */
  function ParseRlogPath(rlogPath: seq<string>): (r: Result<SegmentRef, PathError>)
    ensures |rlogPath| < 2 ==> r == Failure(WrongPartCount)
  {
    ParseSegmentName(ParentName(rlogPath))
  }

  /** release/v1.0/tools/import_segment.py: the segment directory itself is parsed. */
  function ParseSegmentDir(segmentPath: seq<string>): (r: Result<SegmentRef, PathError>)
    ensures |segmentPath| >= 1 ==> r == ParseSegmentName(segmentPath[|segmentPath| - 1])
  {
    ParseSegmentName(BaseName(segmentPath))
  }

  /** The canonical directory name of segment `n` of a route. */
  function FormatSegmentName(dongle: string, hex: string, n: nat): string {
    dongle + Sep + hex + Sep + NatToDecimal(n)
  }

  /** A directory name built from a dash-free dongle id, a dash-free hexadecimal
      stamp and a segment number parses back to exactly those pieces. */
  lemma ParseFormatRoundTrip(dongle: string, hex: string, n: nat)
    requires '-' !in dongle && '-' !in hex
    requires |hex| > 0 && AllHexDigits(hex)
    ensures ParseSegmentName(FormatSegmentName(dongle, hex, n))
         == Success(SegmentRef(dongle + Sep + hex, dongle, HexValue(hex), n))
  {
    var digits := NatToDecimal(n);
    assert '-' !in digits by {
      assert forall k | 0 <= k < |digits| :: IsDigit(digits[k]);
    }
    SplitThree(dongle, hex, digits, Sep);
    ParseHexDigits(hex);
    NatRoundTrip(n);
    PartsParse(FormatSegmentName(dongle, hex, n), dongle, hex, digits, HexValue(hex), n);
  }

  /** A name whose three parts are known parses to them once the stamp and
      the number are known to parse. */
  lemma PartsParse(name: string, dongle: string, hex: string, digits: string, ts: int, n: int)
    requires Split(name, Sep) == [dongle, hex, digits]
    requires ParseInt(digits) == Some(n) && ParseHex(hex) == Some(ts)
    ensures ParseSegmentName(name) == Success(SegmentRef(dongle + Sep + hex, dongle, ts, n))
  {
  }

  /** The route id of a parsed name splits back into its dongle id and hex stamp
      whenever those contain no dash. */
  lemma RouteIdSplits(dongle: string, hex: string)
    requires '-' !in dongle && '-' !in hex
    ensures Split(dongle + Sep + hex, Sep) == [dongle, hex]
  {
    SplitTwo(dongle, hex, Sep);
  }

  /** tools/import_segment_sqlite.py: how the rlog's parent directory is parsed
      there. The hex part is not decoded; a segment number that is not an integer
      raises, while any other bad shape makes the import return False. */
  datatype SqliteParse = Parsed(routeId: string, segmentNumber: int) | Rejected | Raised

  function ParseSqliteTool(rlogPath: seq<string>): (r: SqliteParse)
    ensures r.Parsed? ==> |rlogPath| >= 2 && ThreeParts(rlogPath[|rlogPath| - 2])
    ensures |rlogPath| >= 2 && !ThreeParts(rlogPath[|rlogPath| - 2]) ==> r == Rejected
  {
    if |rlogPath| < 2 then Rejected
    else
      var name := rlogPath[|rlogPath| - 2];
      if !Contains(name, Sep) then
        assert Split(name, Sep) == [name];
        Rejected
      else
        var parts := Split(name, Sep);
        if |parts| != 3 then Rejected
        else
          match ParseInt(parts[2])
          case None => Raised
          case Some(n) => Parsed(Join(parts[..2], Sep), n)
  }

  /** Whenever the segment importer accepts a path, the SQLite import tool reads
      the same route id and segment number from it. */
  lemma SqliteToolAgreesWithImporter(rlogPath: seq<string>)
    requires ParseRlogPath(rlogPath).Success?
    ensures ParseSqliteTool(rlogPath)
         == Parsed(ParseRlogPath(rlogPath).value.routeId, ParseRlogPath(rlogPath).value.segmentNum)
  {
    var name := ParentName(rlogPath);
    var parts := Split(name, Sep);
    SplitSeveralContains(name, Sep);
    assert parts[..2] == [parts[0], parts[1]];
    JoinTwo(parts[0], parts[1], Sep);
  }

  /** The SQLite tool accepts names the importer refuses: its hex part is never
      decoded, so a stamp that is not hexadecimal still yields a route id. */
  lemma SqliteToolSkipsHexCheck(dongle: string, hex: string, n: nat, file: string)
    requires '-' !in dongle && '-' !in hex && ParseHex(hex).None?
    ensures ParseSegmentName(FormatSegmentName(dongle, hex, n)) == Failure(BadHexTimestamp)
    ensures ParseSqliteTool([FormatSegmentName(dongle, hex, n), file]) == Parsed(dongle + Sep + hex, n)
  {
    var digits := NatToDecimal(n);
    var name := FormatSegmentName(dongle, hex, n);
    assert '-' !in digits by {
      assert forall k | 0 <= k < |digits| :: IsDigit(digits[k]);
    }
    SplitThree(dongle, hex, digits, Sep);
    NatRoundTrip(n);
    PartsRejectHex(name, dongle, hex, digits, n);
    SqliteToolParts(name, file, dongle, hex, digits, n);
  }

  lemma PartsRejectHex(name: string, dongle: string, hex: string, digits: string, n: int)
    requires Split(name, Sep) == [dongle, hex, digits]
    requires ParseInt(digits) == Some(n) && ParseHex(hex).None?
    ensures ParseSegmentName(name) == Failure(BadHexTimestamp)
  {
  }

  lemma SqliteToolParts(name: string, file: string, dongle: string, hex: string, digits: string, n: int)
    requires Split(name, Sep) == [dongle, hex, digits] && ParseInt(digits) == Some(n)
    ensures ParseSqliteTool([name, file]) == Parsed(dongle + Sep + hex, n)
  {
    SplitSeveralContains(name, Sep);
    assert [dongle, hex, digits][..2] == [dongle, hex];
    JoinTwo(dongle, hex, Sep);
  }
}

=== FILE: segment_scan.dfy ===
/** The segment browser of src/ui/dialogs/segment_selector_dialog.py: the
    scanner thread parses each `rlog`'s directory name, dates the segment
    (stored GPS time, stored route start plus one minute per segment, the
    rlog's first GPS fix, its wall clock, the directory's hex stamp), reuses
    the entries of its JSON cache for paths it has seen, and rewrites the
    cache when the scan found a different number of segments; the dialog
    returns the paths of the selected rows. The file system, the database
    row and the cache file are inputs. */
module SegmentScan {
  import opened Wrappers
  import opened Strings
  import opened Events
  import opened Seqs
  import SegmentPath
  import TimeResolution

  // ---------------------------------------------------------------------------
  // Directory name

  /** The parts of a directory `<dongle>--<hex>--<n>`. */
  datatype DirName = DirName(dongleId: string, routeHex: string, segmentNum: int)

  /** The route id, formatted as the importer does. */
  function RouteId(d: DirName): string {
    d.dongleId + SegmentPath.Sep + d.routeHex
  }

  /** `parse_segment`'s basic part: exactly three `--` parts and an integer
      segment number, else `None`. The hex part is not checked here. */
  function ParseDirName(name: string): (r: Option<DirName>)
    ensures r.None? <==> !SegmentPath.ThreeParts(name) || ParseInt(Split(name, SegmentPath.Sep)[2]).None?
    ensures SegmentPath.ParseSegmentName(name).Success? ==>
              && r.Some?
              && RouteId(r.value) == SegmentPath.ParseSegmentName(name).value.routeId
              && r.value.segmentNum == SegmentPath.ParseSegmentName(name).value.segmentNum
  {
    var parts := Split(name, SegmentPath.Sep);
    if |parts| != 3 then None
    else
      match ParseInt(parts[2])
      case None => None
      case Some(n) => Some(DirName(parts[0], parts[1], n))
  }

  /** A name built from dash-free parts parses back to them, whatever the
      hex part holds. */
  lemma ParseDirNameRoundTrip(dongle: string, hex: string, n: nat)
    requires '-' !in dongle && '-' !in hex
    ensures ParseDirName(SegmentPath.FormatSegmentName(dongle, hex, n)) == Some(DirName(dongle, hex, n))
  {
    var digits := NatToDecimal(n);
    assert '-' !in digits by {
      assert forall k | 0 <= k < |digits| :: IsDigit(digits[k]);
    }
    SplitThree(dongle, hex, digits, SegmentPath.Sep);
    IntRoundTrip(n);
  }

  // ---------------------------------------------------------------------------
  // Dating a segment

  /** The database row of an imported segment: its own GPS time and its
      route's timestamp. */
  datatype StoredTimes = StoredTimes(gpsTimestamp: Option<int>, routeTimestamp: Option<int>)

  /** The time the database gives: the segment's GPS time when truthy, else
      the route timestamp plus one minute per segment when that is truthy. */
  function DbTime(stored: Option<StoredTimes>, n: int): (r: Option<int>)
    ensures stored.None? ==> r.None?
    ensures r.Some? ==> r.value != 0 || (stored.value.routeTimestamp.Some? && r.value == stored.value.routeTimestamp.value + n * TimeResolution.SegmentSeconds)
  {
    match stored
    case None => None
    case Some(row) =>
      if TimeResolution.Truthy(row.gpsTimestamp) then row.gpsTimestamp
      else if TimeResolution.Truthy(row.routeTimestamp) then Some(row.routeTimestamp.value + n * TimeResolution.SegmentSeconds)
      else None
  }

  /** An `initData` event with a positive `wallTimeNanos`. */
  predicate HasPositiveWall(e: Event) {
    TimeResolution.HasWallTime(e) && TimeResolution.WallTimeNanos(e) > 0
  }

  /** The wall clock at the first event, from the first `initData` with a
      positive wall time among the first 100 events. The offset to the first
      event's `logMonoTime` cancels: the result is that `initData`'s own wall
      time in seconds. */
  function RlogWallTime(events: seq<Event>): (r: Option<int>)
    ensures r.None? <==> forall k | 0 <= k < |events| && k < TimeResolution.InitDataWindow :: !HasPositiveWall(events[k])
    ensures r.Some? ==> exists k | 0 <= k < |events| && k < TimeResolution.InitDataWindow ::
      && HasPositiveWall(events[k])
      && (forall j | 0 <= j < k :: !HasPositiveWall(events[j]))
      && r.value == TimeResolution.WallTimeNanos(events[k]) / TimeResolution.NanosPerSecond
  {
    if |events| == 0 then None
    else
      var head := Take(events, TimeResolution.InitDataWindow);
      match FirstIndex(head, HasPositiveWall)
      case None => None
      case Some(k) =>
        var logTime := events[0].logMonoTime;
        var offset := TimeResolution.WallTimeNanos(head[k]) - logTime;
        Some((logTime + offset) / TimeResolution.NanosPerSecond)
  }

  /** The two times an entry carries. */
  datatype Times = Times(gps: Option<int>, wall: Option<int>)

  /** How `parse_segment` combines its clues: the database time; when that
      is falsy and the rlog could be read, its first GPS fix, and when there
      is still no truthy GPS time, its wall clock; when neither time is
      truthy, the directory's hex stamp if it parses. */
  function Decide(db: Option<int>, read: bool, fix: Option<int>, wall: Option<int>, hex: Option<int>): (r: Times)
    ensures TimeResolution.Truthy(r.gps) ==> r.wall.None?
  {
    var clue :=
      if TimeResolution.Truthy(db) || !read then Times(db, None)
      else
        var gps := if fix.Some? then fix else db;
        Times(gps, if TimeResolution.Truthy(gps) then None else wall);
    if !TimeResolution.Truthy(clue.gps) && !TimeResolution.Truthy(clue.wall) && hex.Some? then
      clue.(wall := hex)
    else clue
  }

  /** A truthy database time is what the entry shows, whatever the rlog
      and the directory's name say. */
  lemma DatabaseDecides(db: Option<int>, read: bool, fix: Option<int>, wall: Option<int>, hex: Option<int>)
    requires TimeResolution.Truthy(db)
    ensures Shown(Decide(db, read, fix, wall, hex)) == db
  {
  }

  /** `parse_segment`'s times for segment `n`, given its database row, its
      events when the rlog could be read, and its directory's hex part. */
  function SegmentTimes(stored: Option<StoredTimes>, n: int, rlog: Option<seq<Event>>, routeHex: string): Times {
    Decide(DbTime(stored, n), rlog.Some?,
      if rlog.Some? then TimeResolution.FirstFixSeconds(rlog.value) else None,
      if rlog.Some? then RlogWallTime(rlog.value) else None,
      ParseHex(routeHex))
  }

  /** The time an entry shows: its GPS time when truthy, else its wall
      time when truthy. */
  function Shown(t: Times): Option<int> {
    if TimeResolution.Truthy(t.gps) then t.gps
    else if TimeResolution.Truthy(t.wall) then t.wall
    else None
  }

  /** Keeps the first truthy candidate. */
  function FirstTruthy(candidates: seq<Option<int>>): (r: Option<int>)
    ensures r.Some? ==> r.value != 0 && r in candidates
    ensures r.None? <==> forall k | 0 <= k < |candidates| :: !TimeResolution.Truthy(candidates[k])
  {
    if |candidates| == 0 then None
    else if TimeResolution.Truthy(candidates[0]) then candidates[0]
    else FirstTruthy(candidates[1..])
  }

  /** The priority chain: the shown time is the first truthy one of the
      stored GPS time, the stored route start plus one minute per segment,
      the rlog's first fix, its wall clock and the directory's hex stamp. */
  lemma PriorityChain(stored: Option<StoredTimes>, n: int, rlog: Option<seq<Event>>, routeHex: string)
    ensures Shown(SegmentTimes(stored, n, rlog, routeHex)) == FirstTruthy([
      if stored.Some? then stored.value.gpsTimestamp else None,
      if stored.Some? && TimeResolution.Truthy(stored.value.routeTimestamp)
        then Some(stored.value.routeTimestamp.value + n * TimeResolution.SegmentSeconds) else None,
      if rlog.Some? then TimeResolution.FirstFixSeconds(rlog.value) else None,
      if rlog.Some? then RlogWallTime(rlog.value) else None,
      ParseHex(routeHex)])
  {
    var gps := if stored.Some? then stored.value.gpsTimestamp else None;
    var route := if stored.Some? && TimeResolution.Truthy(stored.value.routeTimestamp)
      then Some(stored.value.routeTimestamp.value + n * TimeResolution.SegmentSeconds) else None;
    var fix := if rlog.Some? then TimeResolution.FirstFixSeconds(rlog.value) else None;
    var wall := if rlog.Some? then RlogWallTime(rlog.value) else None;
    var hex := ParseHex(routeHex);
    FirstTruthyCons(gps, [route, fix, wall, hex]);
    FirstTruthyCons(route, [fix, wall, hex]);
    DecideChain(DbTime(stored, n), rlog.Some?, fix, wall, hex);
  }

  /** The combination keeps the first truthy clue. */
  lemma DecideChain(db: Option<int>, read: bool, fix: Option<int>, wall: Option<int>, hex: Option<int>)
    requires !read ==> fix.None? && wall.None?
    ensures Shown(Decide(db, read, fix, wall, hex))
         == if TimeResolution.Truthy(db) then db else FirstTruthy([fix, wall, hex])
  {
    FirstTruthyCons(fix, [wall, hex]);
    FirstTruthyCons(wall, [hex]);
    FirstTruthyCons(hex, []);
  }

  lemma FirstTruthyCons(x: Option<int>, rest: seq<Option<int>>)
    ensures FirstTruthy([x] + rest) == if TimeResolution.Truthy(x) then x else FirstTruthy(rest)
  {
    assert ([x] + rest)[1..] == rest;
  }

  // ---------------------------------------------------------------------------
  // Entries and the cache

  /** What `parse_segment` returns, without the thumbnail. */
  datatype Entry = Entry(
    path: string,
    dirName: string,
    segmentNum: int,
    routeHex: string,
    gpsTime: Option<int>,
    wallTime: Option<int>,
    fileSize: int)

  /** What the scanner knows about an `rlog` path: its directory's name, the
      file size (0 when it cannot be read), the events (`None` when the file
      cannot be read or is empty) and the database row, if any. */
  datatype Site = Site(dirName: string, fileSize: int, rlog: Option<seq<Event>>, stored: map<(string, int), StoredTimes>)

  function ParseSegment(path: string, site: Site): (r: Option<Entry>)
    ensures r.None? <==> ParseDirName(site.dirName).None?
    ensures r.Some? ==> (r.value.path == path && r.value.dirName == site.dirName
      && r.value.segmentNum == ParseDirName(site.dirName).value.segmentNum)
  {
    match ParseDirName(site.dirName)
    case None => None
    case Some(d) =>
      var key := (RouteId(d), d.segmentNum);
      var stored := if key in site.stored then Some(site.stored[key]) else None;
      var t := SegmentTimes(stored, d.segmentNum, site.rlog, d.routeHex);
      Some(Entry(path, site.dirName, d.segmentNum, d.routeHex, t.gps, t.wall, site.fileSize))
  }

  /** One cache record: exactly these six fields. */
  datatype CacheItem = CacheItem(
    dirName: string,
    segmentNum: int,
    gpsTime: Option<int>,
    wallTime: Option<int>,
    fileSize: int,
    path: string)

  /** An entry of the scan: a cache record taken as is, or the entry parsed
      from a path found. */
  datatype Scanned = FromCache(item: CacheItem) | Fresh(found: string, entry: Entry)

  /** The path the scan took the entry for. */
  function PathOf(s: Scanned): string {
    if s.FromCache? then s.item.path else s.found
  }

  /** The cache record written for a scanned entry. */
  function Record(s: Scanned): CacheItem {
    match s
    case FromCache(item) => item
    case Fresh(_, e) => CacheItem(e.dirName, e.segmentNum, e.gpsTime, e.wallTime, e.fileSize, e.path)
  }

  function IsPath(p: string): CacheItem -> bool {
    (c: CacheItem) => c.path == p
  }

  /** The cache's paths. */
  function Paths(cached: seq<CacheItem>): (r: seq<string>)
    ensures |r| == |cached| && forall k | 0 <= k < |r| :: r[k] == cached[k].path
  {
    seq(|cached|, k requires 0 <= k < |cached| => cached[k].path)
  }

  /** No two cache records share a path. */
  predicate DistinctPaths(cached: seq<CacheItem>) {
    forall i, j | 0 <= i < j < |cached| :: cached[i].path != cached[j].path
  }

  /** The scan over the `rlog` paths found, in order: a path in the cache
      takes the first cache record with that path; a new path is parsed and
      kept when it parses. */
  function Scan(cached: seq<CacheItem>, found: seq<string>, parse: string -> Option<Entry>): (r: seq<Scanned>)
    decreases |found|
    ensures |r| <= |found|
  {
    if |found| == 0 then []
    else
      var rest := Scan(cached, found[1..], parse);
      match FirstIndex(cached, IsPath(found[0]))
      case Some(k) => [FromCache(cached[k])] + rest
      case None =>
        match parse(found[0])
        case Some(e) => [Fresh(found[0], e)] + rest
        case None => rest
  }

  /** The cache lookup finds a record exactly for the cache's paths. */
  lemma LookupFinds(cached: seq<CacheItem>, p: string)
    ensures FirstIndex(cached, IsPath(p)).Some? <==> p in Paths(cached)
  {
    if p in Paths(cached) {
      var k :| 0 <= k < |Paths(cached)| && Paths(cached)[k] == p;
      assert IsPath(p)(cached[k]);
    }
  }

  /** Every scanned entry is for a path found: a record of the cache for a
      cached path, else that path's parse. */
  lemma {:induction false} ScanSound(cached: seq<CacheItem>, found: seq<string>, parse: string -> Option<Entry>)
    decreases |found|
    ensures forall s | s in Scan(cached, found, parse) ::
      && PathOf(s) in found
      && (s.FromCache? ==> s.item in cached)
      && (s.Fresh? ==> s.found !in Paths(cached) && parse(s.found) == Some(s.entry))
  {
    if |found| > 0 {
      ScanSound(cached, found[1..], parse);
      assert forall p | p in found[1..] :: p in found;
      LookupFinds(cached, found[0]);
    }
  }

  /** Every path found that is cached or parses has its entry. */
  lemma {:induction false} ScanComplete(cached: seq<CacheItem>, found: seq<string>, parse: string -> Option<Entry>, p: string)
    decreases |found|
    requires p in found && (p in Paths(cached) || parse(p).Some?)
    ensures exists s | s in Scan(cached, found, parse) :: PathOf(s) == p
  {
    var r := Scan(cached, found, parse);
    if found[0] == p {
      LookupFinds(cached, p);
      assert PathOf(r[0]) == p;
    } else {
      ScanComplete(cached, found[1..], parse, p);
      var s :| s in Scan(cached, found[1..], parse) && PathOf(s) == p;
      assert s in r;
    }
  }

  /** Paths in the cache are never parsed: two parsers that agree on the
      paths the cache lacks give the same scan. */
  lemma {:induction false} ScanReusesCache(cached: seq<CacheItem>, found: seq<string>, parse1: string -> Option<Entry>, parse2: string -> Option<Entry>)
    decreases |found|
    requires forall p | p in found && p !in Paths(cached) :: parse1(p) == parse2(p)
    ensures Scan(cached, found, parse1) == Scan(cached, found, parse2)
  {
    if |found| > 0 {
      assert forall p | p in found[1..] :: p in found;
      ScanReusesCache(cached, found[1..], parse1, parse2);
      LookupFinds(cached, found[0]);
    }
  }

  /** Finding exactly the cached paths again, each cache path once, gives
      back the cache, record for record. */
  lemma RescanOfCache(cached: seq<CacheItem>, parse: string -> Option<Entry>)
    requires DistinctPaths(cached)
    ensures var r := Scan(cached, Paths(cached), parse);
      |r| == |cached| && forall k | 0 <= k < |r| :: r[k] == FromCache(cached[k])
  {
    // The scan looks paths up in the whole cache, so the induction runs
    // over suffixes of the found list with the cache fixed.
    RescanSuffix(cached, Paths(cached), 0, parse);
  }

  lemma {:induction false} RescanSuffix(cached: seq<CacheItem>, found: seq<string>, i: nat, parse: string -> Option<Entry>)
    decreases |found|
    requires DistinctPaths(cached)
    requires i + |found| == |cached| && forall k | 0 <= k < |found| :: found[k] == cached[i + k].path
    ensures var r := Scan(cached, found, parse);
      |r| == |found| && forall k | 0 <= k < |r| :: r[k] == FromCache(cached[i + k])
  {
    if |found| > 0 {
      var rest := found[1..];
      assert forall k | 0 <= k < |rest| :: rest[k] == cached[i + 1 + k].path;
      RescanSuffix(cached, rest, i + 1, parse);
      FirstOfDistinct(cached, i);
      ScanCachedHead(cached, found, parse, i);
    }
  }

  /** Among records with distinct paths, the lookup of a record's path
      finds that record. */
  lemma FirstOfDistinct(cached: seq<CacheItem>, i: nat)
    requires i < |cached| && DistinctPaths(cached)
    ensures FirstIndex(cached, IsPath(cached[i].path)) == Some(i)
  {
    var p := IsPath(cached[i].path);
    var first := FirstIndex(cached, p);
    assert p(cached[i]);
    var j := first.value;
    assert j <= i;
  }

  lemma ScanCachedHead(cached: seq<CacheItem>, found: seq<string>, parse: string -> Option<Entry>, i: nat)
    requires |found| > 0 && i < |cached|
    requires FirstIndex(cached, IsPath(found[0])) == Some(i)
    ensures Scan(cached, found, parse) == [FromCache(cached[i])] + Scan(cached, found[1..], parse)
  {
  }

  /** The cache is rewritten only after a non-empty scan that found a
      different number of segments than the cache held, or when there was
      no cache. */
  predicate ShouldSave(scanned: seq<Scanned>, cached: seq<CacheItem>) {
    |scanned| > 0 && (|cached| == 0 || |scanned| != |cached|)
  }

  /** The records written. */
  function CacheOf(scanned: seq<Scanned>): (r: seq<CacheItem>)
    ensures |r| == |scanned|
    ensures forall k | 0 <= k < |r| :: r[k] == Record(scanned[k])
  {
    seq(|scanned|, k requires 0 <= k < |scanned| => Record(scanned[k]))
  }

  /** Rescanning an unchanged directory neither parses nor rewrites: the
      scan is the cache itself, written back it would be the same records,
      and it is not saved. */
  lemma UnchangedNotSaved(cached: seq<CacheItem>, parse: string -> Option<Entry>)
    requires DistinctPaths(cached)
    ensures !ShouldSave(Scan(cached, Paths(cached), parse), cached)
    ensures CacheOf(Scan(cached, Paths(cached), parse)) == cached
  {
    RescanOfCache(cached, parse);
    var r := Scan(cached, Paths(cached), parse);
    assert forall k | 0 <= k < |cached| :: CacheOf(r)[k] == Record(r[k]) == cached[k];
  }

  // ---------------------------------------------------------------------------
  // Accepting the selection

  /** `accept_selection`: `None` (the dialog stays open) without a selected
      row; otherwise the path of each distinct selected row that has one. */
  function AcceptSelection(selectedRows: seq<nat>, pathCells: seq<Option<string>>): (r: Option<seq<string>>)
    ensures r.None? <==> |selectedRows| == 0
  {
    if |selectedRows| == 0 then None
    else Some(PathsOfRows(Distinct(selectedRows), pathCells))
  }

  function PathsOfRows(rows: seq<nat>, pathCells: seq<Option<string>>): (r: seq<string>)
    decreases |rows|
    ensures |r| <= |rows|
  {
    if |rows| == 0 then []
    else
      var rest := PathsOfRows(rows[1..], pathCells);
      if rows[0] < |pathCells| && pathCells[rows[0]].Some? then [pathCells[rows[0]].value] + rest else rest
  }

  lemma {:induction false} PathsOfRowsExact(rows: seq<nat>, pathCells: seq<Option<string>>, p: string)
    decreases |rows|
    ensures p in PathsOfRows(rows, pathCells) <==> exists row | row in rows :: row < |pathCells| && pathCells[row] == Some(p)
  {
    if |rows| > 0 {
      PathsOfRowsExact(rows[1..], pathCells, p);
      assert forall row | row in rows :: row == rows[0] || row in rows[1..];
      assert forall row | row in rows[1..] :: row in rows;
    }
  }

  /** The selection holds exactly the paths of the selected rows, at most
      one per distinct row. */
  lemma AcceptedPaths(selectedRows: seq<nat>, pathCells: seq<Option<string>>, p: string)
    requires |selectedRows| > 0
    ensures var r := AcceptSelection(selectedRows, pathCells).value;
      |r| <= |Distinct(selectedRows)|
      && (p in r <==> exists row | row in selectedRows :: row < |pathCells| && pathCells[row] == Some(p))
  {
    var rows := Distinct(selectedRows);
    PathsOfRowsExact(rows, pathCells, p);
    assert forall row | row in rows :: row in selectedRows;
    assert forall row | row in selectedRows :: row in rows;
  }
}

=== FILE: seqs.dfy ===
/** Sequence helpers shared by the model: filtering, de-duplication in
    first-seen order, and a stable insertion sort on an integer key (the order
    Python's `list.sort(key=...)` and SQL `ORDER BY` give, with ties kept in
    their original order). */
module Seqs {
  import opened Wrappers


  /** The elements of `xs` that satisfy `p`, in their original order. */
  function Filter<T>(xs: seq<T>, p: T -> bool): (r: seq<T>)
    ensures |r| <= |xs|
  {
    if |xs| == 0 then []
    else
      var rest := Filter(xs[1..], p);
      if p(xs[0]) then [xs[0]] + rest else rest
  }

  /** The filtered list holds exactly the elements that pass the test. */
  lemma {:induction false} FilterMembers<T>(xs: seq<T>, p: T -> bool)
    ensures forall i | 0 <= i < |Filter(xs, p)| :: Filter(xs, p)[i] in xs && p(Filter(xs, p)[i])
    ensures forall i | 0 <= i < |xs| :: p(xs[i]) ==> xs[i] in Filter(xs, p)
  {
    if |xs| > 0 {
      FilterMembers(xs[1..], p);
      var r := Filter(xs, p);
      var rest := Filter(xs[1..], p);
      forall i | 0 <= i < |r| ensures r[i] in xs && p(r[i]) {
        if p(xs[0]) && i == 0 {
        } else {
          var k := if p(xs[0]) then i - 1 else i;
          assert r[i] == rest[k];
          assert rest[k] in xs[1..];
        }
      }
      forall i | 0 <= i < |xs| && p(xs[i]) ensures xs[i] in r {
        if i > 0 {
          assert xs[i] == xs[1..][i - 1];
        }
      }
    }
  }

  lemma FilterCons<T>(y: T, ys: seq<T>, p: T -> bool)
    ensures Filter([y] + ys, p) == (if p(y) then [y] else []) + Filter(ys, p)
  {
    assert ([y] + ys)[1..] == ys;
  }

  /** Equal filtered tails, up to a suffix, stay equal under a common
      head. */
  lemma FilterConsBoth<T>(y: T, ys: seq<T>, zs: seq<T>, p: T -> bool, tail: seq<T>)
    requires Filter(zs, p) == Filter(ys, p) + tail
    ensures Filter([y] + zs, p) == Filter([y] + ys, p) + tail
  {
    var head := if p(y) then [y] else [];
    FilterCons(y, ys, p);
    FilterCons(y, zs, p);
    AppendAssoc(head, Filter(ys, p), tail);
  }

  lemma AppendAssoc<T>(a: seq<T>, b: seq<T>, c: seq<T>)
    ensures a + (b + c) == (a + b) + c
  {
  }

  lemma {:induction false} FilterAppend<T>(xs: seq<T>, ys: seq<T>, p: T -> bool)
    ensures Filter(xs + ys, p) == Filter(xs, p) + Filter(ys, p)
  {
    if |xs| > 0 {
      assert (xs + ys)[1..] == xs[1..] + ys;
      FilterAppend(xs[1..], ys, p);
    } else {
      assert xs + ys == ys;
    }
  }

  /** Filtering twice by the same test changes nothing the second time. */
  lemma {:induction false} FilterAll<T>(xs: seq<T>, p: T -> bool)
    requires forall i | 0 <= i < |xs| :: p(xs[i])
    ensures Filter(xs, p) == xs
  {
    if |xs| > 0 {
      FilterAll(xs[1..], p);
      assert xs == [xs[0]] + xs[1..];
    }
  }

  /** Nothing passes a test no element meets. */
  lemma {:induction false} FilterNone<T>(xs: seq<T>, p: T -> bool)
    requires forall i | 0 <= i < |xs| :: !p(xs[i])
    ensures Filter(xs, p) == []
  {
    if |xs| > 0 {
      FilterNone(xs[1..], p);
    }
  }

  /** Appending rows that all pass a test to rows that all fail it: the
      test picks out exactly the appended rows. */
  lemma FilterPicksAppended<T>(xs: seq<T>, ys: seq<T>, p: T -> bool)
    requires forall i | 0 <= i < |xs| :: !p(xs[i])
    requires forall i | 0 <= i < |ys| :: p(ys[i])
    ensures Filter(xs + ys, p) == ys
  {
    FilterAppend(xs, ys, p);
    FilterNone(xs, p);
    FilterAll(ys, p);
  }

  /** A property of every ordered pair of elements survives filtering. */
  lemma {:induction false} FilterPairwise<T>(xs: seq<T>, p: T -> bool, pair: (T, T) -> bool)
    requires forall i, j | 0 <= i < j < |xs| :: pair(xs[i], xs[j])
    ensures forall i, j | 0 <= i < j < |Filter(xs, p)| :: pair(Filter(xs, p)[i], Filter(xs, p)[j])
  {
    if |xs| > 0 {
      FilterPairwise(xs[1..], p, pair);
      FilterMembers(xs[1..], p);
      var rest := Filter(xs[1..], p);
      if p(xs[0]) {
        var r := Filter(xs, p);
        assert r == [xs[0]] + rest;
        forall j | 0 < j < |r| ensures pair(xs[0], r[j]) {
          assert r[j] in xs[1..];
          var b :| 0 <= b < |xs[1..]| && xs[1..][b] == r[j];
          assert xs[b + 1] == r[j];
        }
      }
    }
  }

  /** Splitting a list by a test and by its negation keeps every element
      exactly once. */
  lemma {:induction false} FilterSplitLength<T>(xs: seq<T>, p: T -> bool, q: T -> bool)
    requires forall i | 0 <= i < |xs| :: q(xs[i]) == !p(xs[i])
    ensures |Filter(xs, p)| + |Filter(xs, q)| == |xs|
  {
    if |xs| > 0 {
      FilterSplitLength(xs[1..], p, q);
    }
  }

  /** `idx` picks, in increasing positions, exactly the elements of `xs`
      that `keep` accepts, and `r` is their images under `f`. */
  ghost predicate SelectedAt<T, U>(xs: seq<T>, keep: T -> bool, f: T -> U, r: seq<U>, idx: seq<nat>) {
    && |idx| == |r|
    && (forall k | 0 <= k < |idx| :: idx[k] < |xs| && keep(xs[idx[k]]) && r[k] == f(xs[idx[k]]))
    && (forall k, l | 0 <= k < l < |idx| :: idx[k] < idx[l])
    && (forall i | 0 <= i < |xs| && keep(xs[i]) :: exists k | 0 <= k < |idx| :: idx[k] == i)
  }

  /** `r` lists the images of the kept elements of `xs`, in their order in
      `xs`, each once. */
  ghost predicate Selects<T, U>(xs: seq<T>, keep: T -> bool, f: T -> U, r: seq<U>) {
    exists idx: seq<nat> :: SelectedAt(xs, keep, f, r, idx)
  }

  /** Selecting from a list is deciding its head and selecting from its
      tail. */
  lemma SelectsCons<T, U>(xs: seq<T>, keep: T -> bool, f: T -> U, rest: seq<U>)
    requires |xs| > 0 && Selects(xs[1..], keep, f, rest)
    ensures Selects(xs, keep, f, if keep(xs[0]) then [f(xs[0])] + rest else rest)
  {
    var idx :| SelectedAt(xs[1..], keep, f, rest, idx);
    var shifted := seq(|idx|, k requires 0 <= k < |idx| => idx[k] + 1);
    SelectedShift(xs, keep, f, rest, idx, shifted);
    if keep(xs[0]) {
      SelectedHead(xs, keep, f, rest, shifted);
    } else {
      assert SelectedAt(xs, keep, f, rest, shifted);
    }
  }

  /** The tail's positions, moved on by one, select from the whole list
      everything but its head. */
  lemma SelectedShift<T, U>(xs: seq<T>, keep: T -> bool, f: T -> U, rest: seq<U>, idx: seq<nat>, shifted: seq<nat>)
    requires |xs| > 0 && SelectedAt(xs[1..], keep, f, rest, idx)
    requires |shifted| == |idx| && forall k | 0 <= k < |idx| :: shifted[k] == idx[k] + 1
    ensures forall k | 0 <= k < |shifted| :: 0 < shifted[k] < |xs| && keep(xs[shifted[k]]) && rest[k] == f(xs[shifted[k]])
    ensures forall k, l | 0 <= k < l < |shifted| :: shifted[k] < shifted[l]
    ensures forall i | 1 <= i < |xs| && keep(xs[i]) :: exists k | 0 <= k < |shifted| :: shifted[k] == i
  {
    forall k | 0 <= k < |shifted|
      ensures 0 < shifted[k] < |xs| && keep(xs[shifted[k]]) && rest[k] == f(xs[shifted[k]])
    {
      assert xs[shifted[k]] == xs[1..][idx[k]];
    }
    forall i | 1 <= i < |xs| && keep(xs[i])
      ensures exists k | 0 <= k < |shifted| :: shifted[k] == i
    {
      assert xs[i] == xs[1..][i - 1];
      var k :| 0 <= k < |idx| && idx[k] == i - 1;
      assert shifted[k] == i;
    }
  }

  /** A kept head goes in front of the tail's selection. */
  lemma SelectedHead<T, U>(xs: seq<T>, keep: T -> bool, f: T -> U, rest: seq<U>, shifted: seq<nat>)
    requires |xs| > 0 && keep(xs[0]) && |shifted| == |rest|
    requires forall k | 0 <= k < |shifted| :: 0 < shifted[k] < |xs| && keep(xs[shifted[k]]) && rest[k] == f(xs[shifted[k]])
    requires forall k, l | 0 <= k < l < |shifted| :: shifted[k] < shifted[l]
    requires forall i | 1 <= i < |xs| && keep(xs[i]) :: exists k | 0 <= k < |shifted| :: shifted[k] == i
    ensures Selects(xs, keep, f, [f(xs[0])] + rest)
  {
    var all := [0] + shifted;
    var r := [f(xs[0])] + rest;
    assert forall k | 0 < k < |all| :: all[k] == shifted[k - 1] && r[k] == rest[k - 1];
    forall i | 0 <= i < |xs| && keep(xs[i])
      ensures exists k | 0 <= k < |all| :: all[k] == i
    {
      if i == 0 {
        assert all[0] == 0;
      } else {
        var k :| 0 <= k < |shifted| && shifted[k] == i;
        assert all[k + 1] == i;
      }
    }
    assert SelectedAt(xs, keep, f, r, all);
  }

  function Id<T>(x: T): T {
    x
  }

  /** `Filter` keeps the passing elements in their original order. */
  lemma {:induction false} FilterSelects<T>(xs: seq<T>, p: T -> bool)
    ensures Selects(xs, p, Id, Filter(xs, p))
  {
    if |xs| == 0 {
      assert SelectedAt(xs, p, Id, Filter(xs, p), []);
    } else {
      FilterSelects(xs[1..], p);
      SelectsCons(xs, p, Id, Filter(xs[1..], p));
    }
  }

  /** The number of elements satisfying `p`. */
  function Count<T>(xs: seq<T>, p: T -> bool): nat {
    |Filter(xs, p)|
  }

  predicate NoDuplicates<T(==)>(xs: seq<T>) {
    forall i, j | 0 <= i < j < |xs| :: xs[i] != xs[j]
  }

  /** `xs` without repeats, each element kept at its first occurrence
      (the order `dict.fromkeys` and `SELECT DISTINCT` produce). */
  function Distinct<T(==)>(xs: seq<T>): (r: seq<T>)
    ensures NoDuplicates(r)
    ensures forall i | 0 <= i < |r| :: r[i] in xs
    ensures forall i | 0 <= i < |xs| :: xs[i] in r
    decreases |xs|
  {
    if |xs| == 0 then []
    else
      var init := Distinct(xs[..|xs| - 1]);
      var last := xs[|xs| - 1];
      assert xs == xs[..|xs| - 1] + [last];
      if last in init then init else init + [last]
  }

  // ---------------------------------------------------------------------------
  // Stable sort by an integer key
  // ---------------------------------------------------------------------------

  predicate SortedBy<T>(xs: seq<T>, key: T -> int) {
    forall i, j | 0 <= i < j < |xs| :: key(xs[i]) <= key(xs[j])
  }

  /** Places `x` after every element whose key is not larger than its own. */
  function InsertBy<T>(x: T, xs: seq<T>, key: T -> int): (r: seq<T>)
    requires SortedBy(xs, key)
    ensures SortedBy(r, key)
    ensures forall k | 0 <= k < |r| :: r[k] == x || r[k] in xs
    ensures multiset(r) == multiset(xs) + multiset{x}
    ensures |r| == |xs| + 1
  {
    if |xs| == 0 then [x]
    else if key(x) < key(xs[0]) then [x] + xs
    else
      var tail := InsertBy(x, xs[1..], key);
      assert xs == [xs[0]] + xs[1..];
      SortedCons(xs[0], x, xs[1..], tail, key);
      [xs[0]] + tail
  }

  /** A head no larger than `x` and than every element of `rest` stays in
      front of any sorted arrangement of `x` and `rest`. */
  lemma SortedCons<T>(h: T, x: T, rest: seq<T>, tail: seq<T>, key: T -> int)
    requires SortedBy([h] + rest, key) && key(h) <= key(x) && SortedBy(tail, key)
    requires forall k | 0 <= k < |tail| :: tail[k] == x || tail[k] in rest
    ensures SortedBy([h] + tail, key)
  {
    forall k | 0 <= k < |tail|
      ensures key(h) <= key(tail[k])
    {
      if tail[k] != x {
        var j :| 0 <= j < |rest| && rest[j] == tail[k];
        assert ([h] + rest)[0] == h && ([h] + rest)[j + 1] == rest[j];
      }
    }
  }

  /** Stable insertion sort: ascending by `key`, a permutation of the input. */
  function SortBy<T>(xs: seq<T>, key: T -> int): (r: seq<T>)
    ensures SortedBy(r, key)
    ensures multiset(r) == multiset(xs)
    ensures |r| == |xs|
  {
    if |xs| == 0 then []
    else
      assert xs == xs[..|xs| - 1] + [xs[|xs| - 1]];
      InsertBy(xs[|xs| - 1], SortBy(xs[..|xs| - 1], key), key)
  }

  lemma SortByMembers<T>(xs: seq<T>, key: T -> int)
    ensures forall k | 0 <= k < |SortBy(xs, key)| :: SortBy(xs, key)[k] in xs
    ensures forall k | 0 <= k < |xs| :: xs[k] in SortBy(xs, key)
  {
    var r := SortBy(xs, key);
    forall k | 0 <= k < |r| ensures r[k] in xs {
      assert r[k] in multiset(r);
    }
    forall k | 0 <= k < |xs| ensures xs[k] in r {
      assert xs[k] in multiset(xs);
    }
  }

  // ---------------------------------------------------------------------------
  // First match
  // ---------------------------------------------------------------------------

  /** The index of the first element satisfying `p`: the element a Python
      `for ... : if ...: break` loop stops at. */
  function FirstIndex<T>(xs: seq<T>, p: T -> bool): (r: Option<nat>)
    ensures r.Some? ==> r.value < |xs| && p(xs[r.value])
    ensures r.Some? ==> forall j | 0 <= j < r.value :: !p(xs[j])
    ensures r.None? <==> forall j | 0 <= j < |xs| :: !p(xs[j])
  {
    if |xs| == 0 then None
    else if p(xs[0]) then Some(0)
    else
      match FirstIndex(xs[1..], p)
      case None => None
      case Some(k) => Some(k + 1)
  }

  /** `xs[:n]`. */
  function Take<T>(xs: seq<T>, n: nat): (r: seq<T>)
    ensures |r| == if |xs| < n then |xs| else n
    ensures forall k | 0 <= k < |r| :: r[k] == xs[k]
  {
    if |xs| <= n then xs else xs[..n]
  }
}

=== FILE: signal_calculator.dfy ===
/** The custom-signal engine (src/core/signal_calculator.py): the formulas
    loaded from `custom_signals`, the signals a formula depends on, and the
    time alignment `calculate_signal` performs before evaluating the
    formula at each instant. Reading the stored samples of a dependency and
    evaluating a formula are parameters: the first stands for
    `get_timeseries_data` over the requested window (rows in time order),
    the second for the `eval` of `_evaluate_formula`, which may fail. */
module SignalCalculator {
  import opened Wrappers
  import FormulaNames
  import Seqs

  /** `custom_signals`: signal name to formula. */
  datatype Calculator = Calculator(formulas: map<string, string>)

  /** `load_custom_signals`: the rows of `custom_signals` read in order
      into the dictionary, a later row for the same name replacing an
      earlier one. */
  function Load(rows: seq<(string, string)>): (c: Calculator)
    decreases |rows|
    ensures forall n :: n in c.formulas <==> exists k | 0 <= k < |rows| :: rows[k].0 == n
    ensures |rows| > 0 ==> c.formulas[rows[|rows| - 1].0] == rows[|rows| - 1].1
  {
    if |rows| == 0 then Calculator(map[])
    else
      var init := Load(rows[..|rows| - 1]);
      assert forall k | 0 <= k < |rows| - 1 :: rows[..|rows| - 1][k] == rows[k];
      Calculator(init.formulas[rows[|rows| - 1].0 := rows[|rows| - 1].1])
  }

  /** The formula a name ends up with is that of the last row naming it. */
  lemma {:induction false} LoadLastWins(rows: seq<(string, string)>, k: nat)
    requires k < |rows|
    requires forall l | k < l < |rows| :: rows[l].0 != rows[k].0
    ensures Load(rows).formulas[rows[k].0] == rows[k].1
    decreases |rows|
  {
    if k < |rows| - 1 {
      LoadLastWins(rows[..|rows| - 1], k);
    }
  }

  /** `is_custom_signal`. */
  predicate IsCustom(c: Calculator, name: string) {
    name in c.formulas
  }

  /** `get_formula`: `None` for a name that is not a custom signal. */
  function FormulaOf(c: Calculator, name: string): (r: Option<string>)
    ensures r.Some? <==> IsCustom(c, name)
    ensures r.Some? ==> r.value == c.formulas[name]
  {
    if name in c.formulas then Some(c.formulas[name]) else None
  }

  /** `extract_dependencies`: the names the calculator's pattern finds in
      the formula, each once. */
  function Dependencies(formula: string): (r: seq<string>)
    ensures Seqs.NoDuplicates(r)
    ensures forall k | 0 <= k < |r| :: r[k] in FormulaNames.FindAll(formula, true)
    ensures forall k | 0 <= k < |FormulaNames.FindAll(formula, true)| :: FormulaNames.FindAll(formula, true)[k] in r
  {
    Seqs.Distinct(FormulaNames.FindAll(formula, true))
  }

  type Rows = seq<(int, real)>

  /** Row `k` holds `x` at time `t` and no later row is at time `t`. */
  ghost predicate LastAt(rows: Rows, t: int, x: real, k: int) {
    0 <= k < |rows| && rows[k] == (t, x) && forall l | k < l < |rows| :: rows[l].0 != t
  }

  /** A row at another time, appended, keeps the last row at `t` and the
      absence of one. */
  lemma LookupStep(rows: Rows, init: Rows, t: int, r: Option<real>)
    requires |rows| > 0 && init == rows[..|rows| - 1] && rows[|rows| - 1].0 != t
    requires r.Some? <==> exists k | 0 <= k < |init| :: init[k].0 == t
    requires r.Some? ==> exists k :: LastAt(init, t, r.value, k)
    ensures r.Some? <==> exists k | 0 <= k < |rows| :: rows[k].0 == t
    ensures r.Some? ==> exists k :: LastAt(rows, t, r.value, k)
  {
    assert forall k | 0 <= k < |init| :: init[k] == rows[k];
    if r.Some? {
      var k :| LastAt(init, t, r.value, k);
      assert LastAt(rows, t, r.value, k);
    }
  }

  /** `{row[0]: row[1] for row in data}[t]`: the value of the last row at
      time `t`. */
  function Lookup(rows: Rows, t: int): (r: Option<real>)
    decreases |rows|
    ensures r.Some? <==> exists k | 0 <= k < |rows| :: rows[k].0 == t
    ensures r.Some? ==> exists k :: LastAt(rows, t, r.value, k)
  {
    if |rows| == 0 then None
    else if rows[|rows| - 1].0 == t then
      assert LastAt(rows, t, rows[|rows| - 1].1, |rows| - 1);
      Some(rows[|rows| - 1].1)
    else
      var init := rows[..|rows| - 1];
      var r := Lookup(init, t);
      LookupStep(rows, init, t, r);
      r
  }

  predicate Increasing(ts: seq<int>) {
    forall i, j | 0 <= i < j < |ts| :: ts[i] < ts[j]
  }

  /** Adding one instant to a set of instants kept as an increasing list. */
  function Insert(ts: seq<int>, t: int): (r: seq<int>)
    requires Increasing(ts)
    ensures Increasing(r)
    ensures forall x :: x in r <==> x in ts || x == t
  {
    if |ts| == 0 then [t]
    else if t < ts[0] then [t] + ts
    else if t == ts[0] then ts
    else
      var rest := Insert(ts[1..], t);
      assert forall x | x in ts[1..] :: ts[0] < x;
      assert forall k | 0 <= k < |rest| :: ts[0] < rest[k] by {
        forall k | 0 <= k < |rest| ensures ts[0] < rest[k] {
          assert rest[k] in rest;
        }
      }
      [ts[0]] + rest
  }

  /** The instants of some rows added to `ts`. */
  function InsertRows(ts: seq<int>, rows: Rows): (r: seq<int>)
    requires Increasing(ts)
    decreases |rows|
    ensures Increasing(r)
    ensures forall x :: x in r <==> x in ts || Lookup(rows, x).Some?
  {
    if |rows| == 0 then ts
    else
      var r := InsertRows(Insert(ts, rows[0].0), rows[1..]);
      assert forall x :: Lookup(rows, x).Some? <==> x == rows[0].0 || Lookup(rows[1..], x).Some? by {
        forall x ensures Lookup(rows, x).Some? <==> x == rows[0].0 || Lookup(rows[1..], x).Some? {
          if Lookup(rows[1..], x).Some? {
            var k :| 0 <= k < |rows[1..]| && rows[1..][k].0 == x;
            assert rows[k + 1].0 == x;
          }
          if Lookup(rows, x).Some? && x != rows[0].0 {
            var k :| 0 <= k < |rows| && rows[k].0 == x;
            assert rows[1..][k - 1].0 == x;
          }
        }
      }
      r
  }

  /** `sorted(all_timestamps)`: the union of the instants of every
      dependency, in increasing order. */
  function AllTimes(deps: seq<string>, fetch: string -> Rows): (r: seq<int>)
    decreases |deps|
    ensures Increasing(r)
    ensures forall x :: x in r <==> exists d | d in deps :: Lookup(fetch(d), x).Some?
  {
    if |deps| == 0 then []
    else
      var init := AllTimes(deps[..|deps| - 1], fetch);
      var r := InsertRows(init, fetch(deps[|deps| - 1]));
      assert forall d :: d in deps <==> d in deps[..|deps| - 1] || d == deps[|deps| - 1] by {
        assert deps == deps[..|deps| - 1] + [deps[|deps| - 1]];
      }
      r
  }

  /** Every dependency has a row at `t`. */
  predicate AllHave(deps: seq<string>, fetch: string -> Rows, t: int) {
    forall d | d in deps :: Lookup(fetch(d), t).Some?
  }

  /** The `values` dictionary for instant `t`. */
  function ValuesAt(deps: seq<string>, fetch: string -> Rows, t: int): map<string, real> {
    map d | d in deps && Lookup(fetch(d), t).Some? :: Lookup(fetch(d), t).value
  }

  /** The loop over the instants: an instant is kept when every dependency
      has a value there and the formula evaluates. */
  function Points(ts: seq<int>, formula: string, deps: seq<string>, fetch: string -> Rows,
                  eval: (string, map<string, real>) -> Option<real>): (r: seq<(int, real)>)
    decreases |ts|
    ensures |r| <= |ts|
    ensures forall k | 0 <= k < |r| :: r[k].0 in ts
    ensures forall k | 0 <= k < |r| ::
      AllHave(deps, fetch, r[k].0) && eval(formula, ValuesAt(deps, fetch, r[k].0)) == Some(r[k].1)
    ensures Increasing(ts) ==> forall i, j | 0 <= i < j < |r| :: r[i].0 < r[j].0
  {
    if |ts| == 0 then []
    else
      var t := ts[0];
      var rest := Points(ts[1..], formula, deps, fetch, eval);
      var v := eval(formula, ValuesAt(deps, fetch, t));
      if AllHave(deps, fetch, t) && v.Some? then
        var r := [(t, v.value)] + rest;
        assert forall k | 0 <= k < |rest| :: rest[k].0 in ts[1..];
        assert forall k | 1 <= k < |r| :: r[k] == rest[k - 1];
        r
      else rest
  }

  /** No instant where every dependency has a value and the formula
      evaluates is missed. */
  lemma {:induction false} PointsComplete(ts: seq<int>, formula: string, deps: seq<string>, fetch: string -> Rows,
                                          eval: (string, map<string, real>) -> Option<real>, t: int)
    requires t in ts && AllHave(deps, fetch, t) && eval(formula, ValuesAt(deps, fetch, t)).Some?
    ensures exists k | 0 <= k < |Points(ts, formula, deps, fetch, eval)| :: Points(ts, formula, deps, fetch, eval)[k].0 == t
    decreases |ts|
  {
    var r := Points(ts, formula, deps, fetch, eval);
    var rest := Points(ts[1..], formula, deps, fetch, eval);
    PointsStep(ts, formula, deps, fetch, eval);
    if ts[0] != t {
      assert t in ts[1..];
      PointsComplete(ts[1..], formula, deps, fetch, eval, t);
      var k :| 0 <= k < |rest| && rest[k].0 == t;
      if r == rest {
        assert r[k].0 == t;
      } else {
        assert r[k + 1].0 == t;
      }
    }
  }

  /** One instant of the loop: it is either skipped or put in front. */
  lemma PointsStep(ts: seq<int>, formula: string, deps: seq<string>, fetch: string -> Rows,
                   eval: (string, map<string, real>) -> Option<real>)
    requires |ts| > 0
    ensures var r := Points(ts, formula, deps, fetch, eval);
      var rest := Points(ts[1..], formula, deps, fetch, eval);
      && (r == rest || (|r| == |rest| + 1 && r[0].0 == ts[0] && r[1..] == rest))
      && (AllHave(deps, fetch, ts[0]) && eval(formula, ValuesAt(deps, fetch, ts[0])).Some? ==> |r| > 0 && r[0].0 == ts[0])
  {
  }

  /** The computation once the formula is known and not empty, over its
      dependencies `deps`. */
  function Aligned(formula: string, deps: seq<string>, fetch: string -> Rows,
                   eval: (string, map<string, real>) -> Option<real>): (r: seq<(int, real)>)
  {
    if |deps| == 0 then []
    else if exists k | 0 <= k < |deps| :: fetch(deps[k]) == [] then []
    else Points(AllTimes(deps, fetch), formula, deps, fetch, eval)
  }

  /** `calculate_signal` over the rows `fetch` returns for each dependency. */
  function Calculate(c: Calculator, name: string, fetch: string -> Rows,
                     eval: (string, map<string, real>) -> Option<real>): (r: seq<(int, real)>)
  {
    match FormulaOf(c, name)
    case None => []
    case Some(formula) =>
      if formula == "" then [] else Aligned(formula, Dependencies(formula), fetch, eval)
  }

  /** Nothing is aligned without dependencies, or when one of them has no
      samples in the window. */
  lemma AlignedEmpty(f: string, deps: seq<string>, fetch: string -> Rows,
                     eval: (string, map<string, real>) -> Option<real>)
    requires deps == [] || exists d | d in deps :: fetch(d) == []
    ensures Aligned(f, deps, fetch, eval) == []
  {
    if deps != [] {
      var d :| d in deps && fetch(d) == [];
      var k :| 0 <= k < |deps| && deps[k] == d;
      assert fetch(deps[k]) == [];
    }
  }

  /** Nothing is computed for a name that is not a custom signal or has an
      empty formula, for a formula naming no signal, or when a signal it
      names has no samples in the window. */
  lemma CalculateEmpty(c: Calculator, name: string, fetch: string -> Rows,
                       eval: (string, map<string, real>) -> Option<real>)
    requires !IsCustom(c, name) || c.formulas[name] == ""
          || Dependencies(c.formulas[name]) == []
          || exists d | d in Dependencies(c.formulas[name]) :: fetch(d) == []
    ensures Calculate(c, name, fetch, eval) == []
  {
    if IsCustom(c, name) && c.formulas[name] != "" {
      AlignedEmpty(c.formulas[name], Dependencies(c.formulas[name]), fetch, eval);
    }
  }

  /** Over dependencies that all have samples, the points are at exactly
      the instants where every dependency has a sample and the formula
      evaluates (a failure drops that instant only), in strictly increasing
      time, each computed from the dependency values at its own instant. */
  lemma AlignedExact(f: string, deps: seq<string>, fetch: string -> Rows,
                     eval: (string, map<string, real>) -> Option<real>)
    requires deps != []
    requires forall d | d in deps :: fetch(d) != []
    ensures var r := Aligned(f, deps, fetch, eval);
      (forall i, j | 0 <= i < j < |r| :: r[i].0 < r[j].0)
      && (forall k | 0 <= k < |r| ::
            AllHave(deps, fetch, r[k].0) && eval(f, ValuesAt(deps, fetch, r[k].0)) == Some(r[k].1))
      && (forall t | AllHave(deps, fetch, t) && eval(f, ValuesAt(deps, fetch, t)).Some? ::
            exists k | 0 <= k < |r| :: r[k].0 == t)
  {
    assert !exists k | 0 <= k < |deps| :: fetch(deps[k]) == [] by {
      forall k | 0 <= k < |deps| ensures fetch(deps[k]) != [] {
        assert deps[k] in deps;
      }
    }
    var ts := AllTimes(deps, fetch);
    var r := Points(ts, f, deps, fetch, eval);
    assert Aligned(f, deps, fetch, eval) == r;
    forall t | AllHave(deps, fetch, t) && eval(f, ValuesAt(deps, fetch, t)).Some?
      ensures exists k | 0 <= k < |r| :: r[k].0 == t
    {
      assert deps[0] in deps;
      assert t in ts;
      PointsComplete(ts, f, deps, fetch, eval, t);
    }
  }

  /** The same for a custom signal whose formula is not empty. */
  lemma CalculateAligned(c: Calculator, name: string, fetch: string -> Rows,
                         eval: (string, map<string, real>) -> Option<real>)
    requires IsCustom(c, name) && c.formulas[name] != ""
    ensures Calculate(c, name, fetch, eval) == Aligned(c.formulas[name], Dependencies(c.formulas[name]), fetch, eval)
  {
  }
}

=== FILE: signal_manager.dfy ===
/** The signal and database manager of
    src/ui/dialogs/signal_and_database_manager_dialog.py: the line-based
    splitting of the schema script into statements and their execution
    count, the row filter of the two signal tables, the normalisation of
    edited units and translations on save, the DEPRECATED filter of the
    cereal table and the CAN id column. The database and the table widgets
    are inputs and outputs of plain functions here. */
module SignalManager {
  import opened Wrappers
  import opened Strings
  import opened Seqs
  import Batching
  import CanNames

  // ---------------------------------------------------------------------------
  // Splitting the schema script

  /** Every line stripped, as the loop reads it. */
  function StripAll(lines: seq<string>): (r: seq<string>)
    ensures |r| == |lines|
    ensures forall k | 0 <= k < |r| :: r[k] == Strip(lines[k]) && (r[k] == "" || !IsSpace(r[k][0]))
  {
    seq(|lines|, k requires 0 <= k < |lines| => Strip(lines[k]))
  }

  /** A stripped line that takes part in a statement: not blank and not a
      `--` comment. */
  predicate Kept(t: string) {
    t != "" && !StartsWith(t, "--")
  }

  /** The kept lines, in order. */
  function KeptLines(ts: seq<string>): (r: seq<string>)
    ensures forall k | 0 <= k < |r| :: Kept(r[k])
  {
    if |ts| == 0 then []
    else
      var last := ts[|ts| - 1];
      KeptLines(ts[..|ts| - 1]) + (if Kept(last) then [last] else [])
  }

  predicate ClosesStatement(line: string) {
    EndsWith(line, ";")
  }

  /** Non-blank stripped lines. */
  predicate Solid(ls: seq<string>) {
    forall j | 0 <= j < |ls| :: ls[j] != "" && !IsSpace(ls[j][0])
  }

  /** The lines of one statement: at least one, none blank, and none but
      the last ending in `;`. */
  predicate StatementLines(g: seq<string>) {
    |g| > 0 && Solid(g) && forall j | 0 <= j < |g| - 1 :: !ClosesStatement(g[j])
  }

  /** A statement's last line ends in `;`. */
  predicate Closed(g: seq<string>) {
    |g| > 0 && ClosesStatement(g[|g| - 1])
  }

  lemma AppendStatement(groups: seq<seq<string>>, g: seq<string>)
    requires forall k | 0 <= k < |groups| :: StatementLines(groups[k]) && Closed(groups[k])
    requires StatementLines(g) && Closed(g)
    ensures forall k | 0 <= k < |groups + [g]| :: StatementLines((groups + [g])[k]) && Closed((groups + [g])[k])
  {
  }

  /** The statements' texts: their lines joined by newlines. */
  function Joined(groups: seq<seq<string>>): (r: seq<string>)
    ensures |r| == |groups| && forall k | 0 <= k < |r| :: r[k] == Join(groups[k], "\n")
  {
    seq(|groups|, k requires 0 <= k < |groups| => Join(groups[k], "\n"))
  }

  /** A statement built from non-blank stripped lines is not blank. */
  lemma JoinNotBlank(group: seq<string>)
    requires |group| > 0 && group[0] != "" && !IsSpace(group[0][0])
    ensures Strip(Join(group, "\n")) != ""
  {
    var s := Join(group, "\n");
    assert |s| > 0 && s[0] == group[0][0] by {
      if |group| > 1 {
        assert s == group[0] + ("\n" + Join(group[1..], "\n"));
      }
    }
    StripKeepsHead(s);
  }

  lemma KeptLinesStep(ts: seq<string>, i: nat)
    requires i < |ts|
    ensures KeptLines(ts[..i + 1]) == KeptLines(ts[..i]) + (if Kept(ts[i]) then [ts[i]] else [])
  {
    assert ts[..i + 1][..i] == ts[..i];
  }

  /** What the loop keeps between lines: finished statements, each closed
      by its last line, and the open statement's lines, none closing it. */
  predicate Splitting(groups: seq<seq<string>>, current: seq<string>) {
    && (forall k | 0 <= k < |groups| :: StatementLines(groups[k]) && Closed(groups[k]))
    && Solid(current)
    && (forall j | 0 <= j < |current| :: !ClosesStatement(current[j]))
  }

  /** One line of the loop: a skipped line changes nothing; a kept line is
      stripped and added to the open statement, which it closes when it
      ends in `;`. */
  function Feed(groups: seq<seq<string>>, current: seq<string>, t: string): (seq<seq<string>>, seq<string>) {
    if !Kept(t) then (groups, current)
    else if ClosesStatement(t) then (groups + [current + [t]], [])
    else (groups, current + [t])
  }

  lemma FeedKeeps(groups: seq<seq<string>>, current: seq<string>, t: string)
    requires Splitting(groups, current)
    requires t == "" || !IsSpace(t[0])
    ensures var (g, c) := Feed(groups, current, t);
      && Splitting(g, c)
      && Batching.Flatten(g) + c == Batching.Flatten(groups) + current + (if Kept(t) then [t] else [])
  {
    if Kept(t) {
      var next := current + [t];
      assert forall j | 0 <= j < |current| :: next[j] == current[j];
      assert Solid(next);
      if ClosesStatement(t) {
        FeedCloses(groups, next);
      } else {
        assert forall j | 0 <= j < |next| :: !ClosesStatement(next[j]);
      }
      Seqs.AppendAssoc(Batching.Flatten(groups), current, [t]);
    }
  }

  /** A closing line turns the open statement into a finished one. */
  lemma FeedCloses(groups: seq<seq<string>>, next: seq<string>)
    requires forall k | 0 <= k < |groups| :: StatementLines(groups[k]) && Closed(groups[k])
    requires StatementLines(next) && Closed(next)
    ensures Splitting(groups + [next], [])
    ensures Batching.Flatten(groups + [next]) + [] == Batching.Flatten(groups) + next
  {
    Batching.FlattenSnoc(groups, next);
    AppendStatement(groups, next);
  }

  /** `create_or_update_schema`'s splitting: every kept line lands in exactly
      one statement, in order; a statement ends at the first line ending in
      `;`; the lines left after the last one form a final statement; and a
      statement is its lines joined by newlines. */
  method SplitStatements(lines: seq<string>) returns (statements: seq<string>, groups: seq<seq<string>>)
    ensures Batching.Flatten(groups) == KeptLines(StripAll(lines))
    ensures forall k | 0 <= k < |groups| :: StatementLines(groups[k])
    ensures forall k | 0 <= k < |groups| - 1 :: Closed(groups[k])
    ensures statements == Joined(groups)
    ensures forall k | 0 <= k < |statements| :: Strip(statements[k]) != ""
  {
    var stripped := StripAll(lines);
    groups := [];
    var current: seq<string> := [];
    for i := 0 to |stripped|
      invariant Splitting(groups, current)
      invariant Batching.Flatten(groups) + current == KeptLines(stripped[..i])
    {
      KeptLinesStep(stripped, i);
      var line := stripped[i];
      FeedKeeps(groups, current, line);
      groups, current := Feed(groups, current, line).0, Feed(groups, current, line).1;
    }
    assert stripped[..|stripped|] == stripped;
    FinishKeeps(groups, current);
    groups := Finish(groups, current);
    JoinedNotBlank(groups);
    statements := Joined(groups);
  }

  /** The lines left after the last `;` form a final statement. */
  function Finish(groups: seq<seq<string>>, current: seq<string>): seq<seq<string>> {
    if |current| > 0 then groups + [current] else groups
  }

  lemma FinishKeeps(groups: seq<seq<string>>, current: seq<string>)
    requires Splitting(groups, current)
    ensures var g := Finish(groups, current);
      && Batching.Flatten(g) == Batching.Flatten(groups) + current
      && (forall k | 0 <= k < |g| :: StatementLines(g[k]))
      && (forall k | 0 <= k < |g| - 1 :: Closed(g[k]))
  {
    if |current| > 0 {
      Batching.FlattenSnoc(groups, current);
    } else {
      assert Batching.Flatten(groups) + current == Batching.Flatten(groups);
    }
  }

  lemma JoinedNotBlank(groups: seq<seq<string>>)
    requires forall k | 0 <= k < |groups| :: StatementLines(groups[k])
    ensures forall k | 0 <= k < |groups| :: Strip(Joined(groups)[k]) != ""
  {
    forall k | 0 <= k < |groups| ensures Strip(Joined(groups)[k]) != "" {
      JoinNotBlank(groups[k]);
    }
  }

  /** Executing the statements: blank ones are skipped, the others count as
      a success or an error as the database reports. */
  function Execute(statements: seq<string>, succeeds: string -> bool): (r: (nat, nat))
    ensures r.0 + r.1 <= |statements|
  {
    if |statements| == 0 then (0, 0)
    else
      var (ok, failed) := Execute(statements[1..], succeeds);
      if Strip(statements[0]) == "" then (ok, failed)
      else if succeeds(statements[0]) then (ok + 1, failed)
      else (ok, failed + 1)
  }

  /** Without blank statements every statement is counted once: the
      successes and errors add up to the number of statements, and the
      successes are those the database accepts. */
  lemma {:induction false} ExecuteCounts(statements: seq<string>, succeeds: string -> bool)
    requires forall k | 0 <= k < |statements| :: Strip(statements[k]) != ""
    ensures Execute(statements, succeeds).0 + Execute(statements, succeeds).1 == |statements|
    ensures Execute(statements, succeeds).0 == Count(statements, succeeds)
  {
    if |statements| > 0 {
      ExecuteCounts(statements[1..], succeeds);
    }
  }

  /** The schema update: the script's lines split into statements, each
      executed once; the counts reported add up to the statements found. */
  method UpdateSchema(script: string, succeeds: string -> bool) returns (statements: seq<string>, successCount: nat, errorCount: nat)
    ensures successCount + errorCount == |statements|
    ensures successCount == Count(statements, succeeds)
    ensures forall k | 0 <= k < |statements| :: Strip(statements[k]) != ""
  {
    var groups;
    statements, groups := SplitStatements(Split(script, "\n"));
    ExecuteCounts(statements, succeeds);
    successCount, errorCount := Execute(statements, succeeds).0, Execute(statements, succeeds).1;
  }

  // ---------------------------------------------------------------------------
  // Filtering the tables

  function CellMatches(query: string): Option<string> -> bool {
    (cell: Option<string>) => cell.Some? && Contains(Lower(cell.value), Lower(query))
  }

  /** `filter_cereal_table` / `filter_can_table` for one row: shown iff the
      lowercased query occurs in the lowercased text of some present cell. */
  function RowShown(query: string, cells: seq<Option<string>>): (r: bool)
    ensures r <==> exists k | 0 <= k < |cells| :: cells[k].Some? && Contains(Lower(cells[k].value), Lower(query))
  {
    var first := FirstIndex(cells, CellMatches(query));
    if first.Some? then true
    else
      assert forall k | 0 <= k < |cells| :: !CellMatches(query)(cells[k]);
      false
  }

  /** The rows hidden by a query. */
  function HiddenRows(query: string, table: seq<seq<Option<string>>>): (r: seq<bool>)
    ensures |r| == |table|
    ensures forall i | 0 <= i < |r| :: r[i] <==> !RowShown(query, table[i])
  {
    seq(|table|, i requires 0 <= i < |table| => !RowShown(query, table[i]))
  }

  lemma LowerTwice(s: string)
    ensures Lower(Lower(s)) == Lower(s)
  {
  }

  /** The filter ignores the case of the query, and an empty query shows
      every row that has a cell. */
  lemma FilterProperties(query: string, cells: seq<Option<string>>)
    ensures RowShown(Lower(query), cells) == RowShown(query, cells)
    ensures RowShown("", cells) <==> exists k | 0 <= k < |cells| :: cells[k].Some?
  {
    LowerTwice(query);
    assert Lower("") == "";
    forall k | 0 <= k < |cells| && cells[k].Some? ensures Contains(Lower(cells[k].value), "") {
      ContainsEmpty(Lower(cells[k].value));
    }
  }

  // ---------------------------------------------------------------------------
  // Saving translations

  /** How an edited unit or translation is stored: stripped, and NULL when
      nothing is left. */
  function Nullable(cell: string): (r: Option<string>)
    ensures r.None? <==> forall k | 0 <= k < |cell| :: IsSpace(cell[k])
    ensures r.Some? ==> r.value == Strip(cell) && r.value != ""
  {
    StripEmpty(cell);
    var t := Strip(cell);
    if t == "" then None else Some(t)
  }

  /** How a stored value is shown for editing: `value or ''`. */
  function Shown(v: Option<string>): string {
    if v.Some? then v.value else ""
  }

  /** A stored value saving would reproduce: NULL, or stripped and
      non-empty. */
  predicate Normal(v: Option<string>) {
    v.None? || (v.value != "" && Strip(v.value) == v.value)
  }

  /** Saving what was shown keeps a normal value and normalises any other;
      saving twice changes nothing more. */
  lemma ShownSaved(v: Option<string>)
    ensures Normal(v) ==> Nullable(Shown(v)) == v
    ensures Normal(Nullable(Shown(v)))
    ensures Nullable(Shown(Nullable(Shown(v)))) == Nullable(Shown(v))
  {
    NullableNormal(Shown(v));
    if Normal(v) && v.Some? {
      assert Strip(v.value) != "";
    }
    NormalKept(Nullable(Shown(v)));
  }

  lemma NullableNormal(cell: string)
    ensures Normal(Nullable(cell))
  {
    StripIdempotent(cell);
  }

  lemma NormalKept(v: Option<string>)
    requires Normal(v)
    ensures Nullable(Shown(v)) == v
  {
  }

  /** The editable part of a signal row: its id and its three editable
      cells as stored. */
  datatype Translation = Translation(signalId: int, unit: Option<string>, unitCn: Option<string>, nameCn: Option<string>)

  /** The cells of a row as edited. */
  datatype EditedRow = EditedRow(signalId: int, unit: string, unitCn: string, nameCn: string)

  function Loaded(t: Translation): EditedRow {
    EditedRow(t.signalId, Shown(t.unit), Shown(t.unitCn), Shown(t.nameCn))
  }

  /** `save_cereal_translations` / `save_can_translations`: one update per
      row, each cell normalised; the count reported is the number of rows. */
  function SaveTranslations(rows: seq<EditedRow>): (r: seq<Translation>)
    ensures |r| == |rows|
    ensures forall i | 0 <= i < |r| ::
      (r[i].signalId == rows[i].signalId && Normal(r[i].unit) && Normal(r[i].unitCn) && Normal(r[i].nameCn))
  {
    seq(|rows|, i requires 0 <= i < |rows| =>
      NullableNormal(rows[i].unit);
      NullableNormal(rows[i].unitCn);
      NullableNormal(rows[i].nameCn);
      Translation(rows[i].signalId, Nullable(rows[i].unit), Nullable(rows[i].unitCn), Nullable(rows[i].nameCn)))
  }

  /** Saving a table nobody edited writes back what was loaded, when the
      stored values were normal. */
  lemma UneditedSaveKeeps(stored: seq<Translation>)
    requires forall i | 0 <= i < |stored| :: Normal(stored[i].unit) && Normal(stored[i].unitCn) && Normal(stored[i].nameCn)
    ensures SaveTranslations(seq(|stored|, i requires 0 <= i < |stored| => Loaded(stored[i]))) == stored
  {
    var rows := seq(|stored|, i requires 0 <= i < |stored| => Loaded(stored[i]));
    forall i | 0 <= i < |stored| ensures SaveTranslations(rows)[i] == stored[i] {
      ShownSaved(stored[i].unit);
      ShownSaved(stored[i].unitCn);
      ShownSaved(stored[i].nameCn);
    }
  }

  // ---------------------------------------------------------------------------
  // The cereal table and the CAN id column

  /** A cereal signal definition: only its full name matters here. */
  datatype CerealDefinition = CerealDefinition(signalId: int, messageType: Option<string>, fullName: Option<string>)

  /** `full_name NOT LIKE '%DEPRECATED%'`: SQLite's LIKE ignores ASCII
      case, and a NULL name does not pass. */
  predicate NotDeprecated(d: CerealDefinition) {
    d.fullName.Some? && !Contains(Lower(d.fullName.value), "deprecated")
  }

  function NotDeprecatedTest(): CerealDefinition -> bool {
    (d: CerealDefinition) => NotDeprecated(d)
  }

  /** `load_cereal_signals`: every definition with the option set, else the
      ones not deprecated, in the order the database gives. */
  function CerealRows(defs: seq<CerealDefinition>, showDeprecated: bool): (r: seq<CerealDefinition>)
    ensures forall d | d in r :: d in defs && (showDeprecated || NotDeprecated(d))
    ensures forall d | d in defs && (showDeprecated || NotDeprecated(d)) :: d in r
    // in database order, each row once
    ensures showDeprecated ==> r == defs
    ensures !showDeprecated ==> Selects(defs, NotDeprecatedTest(), Id, r)
  {
    if showDeprecated then defs
    else
      FilterMembers(defs, NotDeprecatedTest());
      FilterSelects(defs, NotDeprecatedTest());
      Filter(defs, NotDeprecatedTest())
  }

  /** The CAN id column: `0x%03X`, or empty for a NULL id. */
  function CanIdCell(canId: Option<nat>): (r: string)
    ensures r == "" <==> canId.None?
    ensures canId.Some? ==> StartsWith(r, "0x") && ParseHex(r[2..]) == canId
  {
    if canId.Some? then CanNames.HexId(canId.value) else ""
  }
}

=== FILE: signal_selector.dfy ===
/** The signal tree of the selector panel (src/ui/signal_selector.py): how a
    signal name is cut into tree levels, how names are grouped under their
    message type or CAN address, the round-robin chart colours, the
    tri-state check box of a category, checking a whole category, and the
    search filter. Qt items are modelled as a plain tree of `Node`s. */
module SignalSelector {
  import opened Wrappers
  import opened Strings
  import Seqs

  // ---------------------------------------------------------------------------
  // Path tokenizer (`_parse_signal_path`)
  // ---------------------------------------------------------------------------

  /** The character loop of the tokenizer: `parts` holds the finished parts
      and `cur` the part being built. A `.` closes a non-empty part; a `[`
      closes a non-empty part and opens one starting with `[` (and is
      dropped when nothing is pending); a `]` closes the pending part with
      the bracket appended. */
  function Scan(s: string, parts: seq<string>, cur: string): seq<string>
    decreases |s|
  {
    if |s| == 0 then
      if cur != "" then parts + [cur] else parts
    else if s[0] == '.' then
      if cur != "" then Scan(s[1..], parts + [cur], "") else Scan(s[1..], parts, cur)
    else if s[0] == '[' then
      if cur != "" then Scan(s[1..], parts + [cur], "[") else Scan(s[1..], parts, cur)
    else if s[0] == ']' then
      Scan(s[1..], parts + [cur + "]"], "")
    else
      Scan(s[1..], parts, cur + [s[0]])
  }

  /** A well-formed list of path parts: none is empty and none holds a dot. */
  predicate CleanParts(parts: seq<string>) {
    forall k | 0 <= k < |parts| :: parts[k] != "" && '.' !in parts[k]
  }

  lemma {:induction false} ScanClean(s: string, parts: seq<string>, cur: string)
    requires CleanParts(parts) && '.' !in cur
    decreases |s|
    ensures CleanParts(Scan(s, parts, cur))
  {
    if |s| > 0 {
      if s[0] == '.' {
        if cur != "" { ScanClean(s[1..], parts + [cur], ""); } else { ScanClean(s[1..], parts, cur); }
      } else if s[0] == '[' {
        if cur != "" { ScanClean(s[1..], parts + [cur], "["); } else { ScanClean(s[1..], parts, cur); }
      } else if s[0] == ']' {
        ScanClean(s[1..], parts + [cur + "]"], "");
      } else {
        ScanClean(s[1..], parts, cur + [s[0]]);
      }
    }
  }

  /** `_parse_signal_path`: the tree levels of a signal name. No level is
      empty and no level contains a dot. */
  function ParsePath(name: string): (parts: seq<string>)
    ensures CleanParts(parts)
  {
    ScanClean(name, [], "");
    Scan(name, [], "")
  }

  /** A piece of a name without separator characters. */
  predicate Word(w: string) {
    '.' !in w && '[' !in w && ']' !in w
  }

  /** A run of ordinary characters is appended to the pending part. */
  lemma {:induction false} ScanWord(w: string, rest: string, parts: seq<string>, cur: string)
    requires Word(w)
    decreases |w|
    ensures Scan(w + rest, parts, cur) == Scan(rest, parts, cur + w)
  {
    if |w| > 0 {
      assert (w + rest)[1..] == w[1..] + rest;
      ScanWord(w[1..], rest, parts, cur + [w[0]]);
      assert cur + [w[0]] + w[1..] == cur + w;
    } else {
      assert w + rest == rest;
      assert cur + w == cur;
    }
  }

  /** A word read with nothing pending becomes the pending part. */
  lemma ScanFreshWord(w: string, rest: string, parts: seq<string>)
    requires Word(w)
    ensures Scan(w + rest, parts, "") == Scan(rest, parts, w)
  {
    ScanWord(w, rest, parts, "");
    assert "" + w == w;
  }

  /** One separator character read in front of `rest`. */
  lemma ScanMark(c: char, rest: string, parts: seq<string>, cur: string)
    requires c == '.' || c == '[' || c == ']'
    ensures Scan([c] + rest, parts, cur)
         == if c == ']' then Scan(rest, parts + [cur + "]"], "")
            else if cur == "" then Scan(rest, parts, cur)
            else if c == '.' then Scan(rest, parts + [cur], "")
            else Scan(rest, parts + [cur], "[")
  {
    assert ([c] + rest)[1..] == rest;
  }

  // Each example is read word by word and mark by mark; the `...Spelling`
  // lemmas hold the literal facts each reading needs.

  lemma FlatSpelling()
    ensures "carState.vEgo" == "carState" + (['.'] + "vEgo")
    ensures Word("carState") && Word("vEgo")
    ensures [] + ["carState"] == ["carState"] && ["carState"] + ["vEgo"] == ["carState", "vEgo"]
  {
  }

  /** The first example the tokenizer documents. */
  lemma ParsePathExampleFlat()
    ensures ParsePath("carState.vEgo") == ["carState", "vEgo"]
  {
    FlatSpelling();
    ScanFreshWord("carState", ['.'] + "vEgo", []);
    ScanMark('.', "vEgo", [], "carState");
    ScanFreshWord("vEgo", "", ["carState"]);
    assert "vEgo" + "" == "vEgo";
  }

  lemma NestedSpelling()
    ensures "carState.cruiseState.enabled"
         == "carState" + (['.'] + ("cruiseState" + (['.'] + "enabled")))
  {
    assert "cruiseState.enabled" == "cruiseState" + (['.'] + "enabled");
  }

  lemma NestedWords()
    ensures Word("carState") && Word("cruiseState") && Word("enabled")
    ensures [] + ["carState"] == ["carState"]
    ensures ["carState"] + ["cruiseState"] == ["carState", "cruiseState"]
    ensures ["carState", "cruiseState"] + ["enabled"] == ["carState", "cruiseState", "enabled"]
  {
  }

  /** The second example the tokenizer documents. */
  lemma ParsePathExampleNested()
    ensures ParsePath("carState.cruiseState.enabled") == ["carState", "cruiseState", "enabled"]
  {
    NestedSpelling();
    NestedWords();
    ScanFreshWord("carState", ['.'] + ("cruiseState" + (['.'] + "enabled")), []);
    ScanMark('.', "cruiseState" + (['.'] + "enabled"), [], "carState");
    ScanFreshWord("cruiseState", ['.'] + "enabled", ["carState"]);
    ScanMark('.', "enabled", ["carState"], "cruiseState");
    ScanFreshWord("enabled", "", ["carState", "cruiseState"]);
    assert "enabled" + "" == "enabled";
  }

  lemma IndexedSpelling()
    ensures "carState.events[0].name"
         == "carState" + (['.'] + ("events" + (['['] + ("0" + ([']'] + (['.'] + "name"))))))
  {
    assert "events[0].name" == "events" + (['['] + ("0" + ([']'] + (['.'] + "name"))));
  }

  lemma IndexedWords()
    ensures Word("carState") && Word("events") && Word("0") && Word("name")
    ensures "[" + "0" == "[0" && "[0" + "]" == "[0]"
    ensures [] + ["carState"] == ["carState"]
    ensures ["carState"] + ["events"] == ["carState", "events"]
    ensures ["carState", "events"] + ["[0]"] == ["carState", "events", "[0]"]
    ensures ["carState", "events", "[0]"] + ["name"] == ["carState", "events", "[0]", "name"]
  {
  }

  /** The third example the tokenizer documents: an index becomes its own
      level, brackets kept. */
  lemma ParsePathExampleIndexed()
    ensures ParsePath("carState.events[0].name") == ["carState", "events", "[0]", "name"]
  {
    IndexedSpelling();
    IndexedWords();
    ScanFreshWord("carState", ['.'] + ("events" + (['['] + ("0" + ([']'] + (['.'] + "name"))))), []);
    ScanMark('.', "events" + (['['] + ("0" + ([']'] + (['.'] + "name")))), [], "carState");
    ScanFreshWord("events", ['['] + ("0" + ([']'] + (['.'] + "name"))), ["carState"]);
    ScanMark('[', "0" + ([']'] + (['.'] + "name")), ["carState"], "events");
    ScanWord("0", [']'] + (['.'] + "name"), ["carState", "events"], "[");
    ScanMark(']', ['.'] + "name", ["carState", "events"], "[0");
    ScanMark('.', "name", ["carState", "events", "[0]"], "");
    ScanFreshWord("name", "", ["carState", "events", "[0]"]);
    assert "name" + "" == "name";
  }

  lemma DroppedBracketSpelling()
    ensures "a[0][1]" == "a" + (['['] + ("0" + ([']'] + (['['] + ("1" + [']'])))))
    ensures Word("a") && Word("0") && Word("1")
    ensures "[" + "0" == "[0" && "[0" + "]" == "[0]" && "1" + "]" == "1]" && [']'] == [']'] + ""
    ensures [] + ["a"] == ["a"] && ["a"] + ["[0]"] == ["a", "[0]"]
    ensures ["a", "[0]"] + ["1]"] == ["a", "[0]", "1]"]
  {
  }

  /** A `[` right after a `]` has nothing pending and is dropped. */
  lemma ParsePathExampleDroppedBracket()
    ensures ParsePath("a[0][1]") == ["a", "[0]", "1]"]
  {
    DroppedBracketSpelling();
    ScanFreshWord("a", ['['] + ("0" + ([']'] + (['['] + ("1" + [']'])))), []);
    ScanMark('[', "0" + ([']'] + (['['] + ("1" + [']']))), [], "a");
    ScanWord("0", [']'] + (['['] + ("1" + [']'])), ["a"], "[");
    ScanMark(']', ['['] + ("1" + [']']), ["a"], "[0");
    ScanMark('[', "1" + [']'], ["a", "[0]"], "");
    ScanFreshWord("1", [']'], ["a", "[0]"]);
    ScanMark(']', "", ["a", "[0]"], "1");
  }

  function NonEmpty(p: string): bool {
    p != ""
  }

  /** The first dot of `cur + "." + rest` is the one after `cur`. */
  lemma SplitAtFirstDot(cur: string, rest: string)
    requires '.' !in cur
    ensures Split(cur + "." + rest, ".") == [cur] + Split(rest, ".")
  {
    FindAfterPiece(cur, ".", rest);
    var whole := cur + "." + rest;
    assert whole[..|cur|] == cur;
    assert whole[|cur| + 1..] == rest;
  }

  /** Dropping empty pieces from a list that starts with `cur`. */
  lemma FilterCons(cur: string, rest: seq<string>)
    ensures Seqs.Filter([cur] + rest, NonEmpty)
         == (if cur != "" then [cur] else []) + Seqs.Filter(rest, NonEmpty)
  {
    assert ([cur] + rest)[1..] == rest;
  }

  /** The pieces of a dot split, empty ones dropped, when the text starts
      with `cur` and a dot. */
  lemma PiecesAfterDot(s: string, cur: string)
    requires |s| > 0 && s[0] == '.' && '.' !in cur
    ensures Seqs.Filter(Split(cur + s, "."), NonEmpty)
         == (if cur != "" then [cur] else []) + Seqs.Filter(Split(s[1..], "."), NonEmpty)
  {
    assert cur + s == cur + "." + s[1..];
    SplitAtFirstDot(cur, s[1..]);
    FilterCons(cur, Split(s[1..], "."));
  }

  /** The dot step of `ScanIsSplit`: a dot closes a pending part, so the
      parts found after it follow that part. */
  lemma ScanDotStep(s: string, parts: seq<string>, cur: string, whole: seq<string>, tail: seq<string>)
    requires |s| > 0 && s[0] == '.'
    requires whole == (if cur != "" then [cur] else []) + tail
    requires Scan(s[1..], if cur != "" then parts + [cur] else parts, "")
          == (if cur != "" then parts + [cur] else parts) + tail
    ensures Scan(s, parts, cur) == parts + whole
  {
    assert s == ['.'] + s[1..];
    ScanMark('.', s[1..], parts, cur);
    if cur == "" {
      assert parts + whole == parts + tail;
    } else {
      assert parts + whole == (parts + [cur]) + tail;
    }
  }

  /** Without brackets the tokenizer continues a dot split that drops empty
      pieces. */
  lemma {:induction false} ScanIsSplit(s: string, parts: seq<string>, cur: string)
    requires '[' !in s && ']' !in s && '.' !in cur
    decreases |s|
    ensures Scan(s, parts, cur) == parts + Seqs.Filter(Split(cur + s, "."), NonEmpty)
  {
    if |s| == 0 {
      assert cur + s == cur;
      NoFirstCharNoOccurrence(cur, ".");
      assert Split(cur, ".") == [cur];
    } else if s[0] == '.' {
      var next := if cur != "" then parts + [cur] else parts;
      ScanIsSplit(s[1..], next, "");
      assert "" + s[1..] == s[1..];
      PiecesAfterDot(s, cur);
      ScanDotStep(s, parts, cur, Seqs.Filter(Split(cur + s, "."), NonEmpty),
        Seqs.Filter(Split(s[1..], "."), NonEmpty));
    } else {
      assert cur + s == (cur + [s[0]]) + s[1..];
      ScanIsSplit(s[1..], parts, cur + [s[0]]);
    }
  }

  /** `_parse_signal_path` on a name without brackets is
      `[p for p in name.split('.') if p]`. */
  lemma ParsePathIsDotSplit(name: string)
    requires '[' !in name && ']' !in name
    ensures ParsePath(name) == Seqs.Filter(Split(name, "."), NonEmpty)
  {
    ScanIsSplit(name, [], "");
    assert "" + name == name;
  }

  // ---------------------------------------------------------------------------
  // Grouping by message type and CAN address (`load_segment`)
  // ---------------------------------------------------------------------------

  /** The CAN group of a name: the second `_` field of a `CAN_` name when it
      starts with `0x`; other `CAN_` names belong to no group. */
  function CanAddress(name: string): Option<string> {
    if StartsWith(name, "CAN_") then
      var fields := Split(name, "_");
      if |fields| >= 2 && StartsWith(fields[1], "0x") then Some(fields[1]) else None
    else None
  }

  /** The cereal group of a name: the text before its first dot, for names
      that are not `CAN_` names and contain a dot. */
  function MessageType(name: string): Option<string> {
    if !StartsWith(name, "CAN_") && '.' in name then Some(Split(name, ".")[0]) else None
  }

  /** `d.setdefault(key, []).append(name)` when the name has a key. */
  function AddToGroup(m: map<string, seq<string>>, key: Option<string>, name: string): map<string, seq<string>> {
    match key
    case None => m
    case Some(k) => m[k := (if k in m then m[k] else []) + [name]]
  }

  /** The groups built by one pass over `names` in order. */
  function GroupBy(names: seq<string>, key: string -> Option<string>): map<string, seq<string>>
    decreases |names|
  {
    if |names| == 0 then map[]
    else AddToGroup(GroupBy(names[..|names| - 1], key), key(names[|names| - 1]), names[|names| - 1])
  }

  function HasKey(key: string -> Option<string>, k: string): string -> bool {
    n => key(n) == Some(k)
  }

  /** A group exists for exactly the keys some name has, and holds exactly
      the names with that key, in their original order. */
  lemma {:induction false} GroupByExact(names: seq<string>, key: string -> Option<string>)
    decreases |names|
    ensures forall k :: k in GroupBy(names, key) <==> exists i | 0 <= i < |names| :: key(names[i]) == Some(k)
    ensures forall k | k in GroupBy(names, key) :: GroupBy(names, key)[k] == Seqs.Filter(names, HasKey(key, k))
  {
    if |names| > 0 {
      var init, last := names[..|names| - 1], names[|names| - 1];
      assert names == init + [last];
      GroupByExact(init, key);
      var g := GroupBy(init, key);
      forall k
        ensures k in GroupBy(names, key) <==> exists i | 0 <= i < |names| :: key(names[i]) == Some(k)
      {
        if k in GroupBy(names, key) && key(last) != Some(k) {
          var i :| 0 <= i < |init| && key(init[i]) == Some(k);
          assert names[i] == init[i];
        }
        if exists i | 0 <= i < |names| :: key(names[i]) == Some(k) {
          var i :| 0 <= i < |names| && key(names[i]) == Some(k);
          if i < |init| {
            assert init[i] == names[i];
          }
        }
      }
      forall k | k in GroupBy(names, key)
        ensures GroupBy(names, key)[k] == Seqs.Filter(names, HasKey(key, k))
      {
        Seqs.FilterAppend(init, [last], HasKey(key, k));
        assert Seqs.Filter([last], HasKey(key, k)) == if key(last) == Some(k) then [last] else [];
        if k !in g {
          Seqs.FilterNone(init, HasKey(key, k));
        }
      }
    }
  }

  /** The two groupings `load_segment` builds from the names with data. */
  datatype Groups = Groups(cereal: map<string, seq<string>>, can: map<string, seq<string>>)

  function Categorize(names: seq<string>): Groups {
    Groups(GroupBy(names, MessageType), GroupBy(names, CanAddress))
  }

  /** Every CAN group is named by an address starting with `0x` and holds
      exactly the names of that address, in order; every cereal group holds
      exactly the dotted non-CAN names of that message type; a name with
      neither key is in no group. */
  lemma CategorizeExact(names: seq<string>)
    ensures forall a | a in Categorize(names).can ::
      StartsWith(a, "0x") && Categorize(names).can[a] == Seqs.Filter(names, HasKey(CanAddress, a))
    ensures forall m | m in Categorize(names).cereal ::
      Categorize(names).cereal[m] == Seqs.Filter(names, HasKey(MessageType, m))
    ensures forall i | 0 <= i < |names| && CanAddress(names[i]).Some? :: CanAddress(names[i]).value in Categorize(names).can
    ensures forall i | 0 <= i < |names| && MessageType(names[i]).Some? :: MessageType(names[i]).value in Categorize(names).cereal
  {
    GroupByExact(names, CanAddress);
    GroupByExact(names, MessageType);
    forall a | a in Categorize(names).can ensures StartsWith(a, "0x") {
      var i :| 0 <= i < |names| && CanAddress(names[i]) == Some(a);
    }
  }

  /** A name that is neither a `0x` CAN name nor a dotted name is shown in
      no group. */
  lemma CategorizeDrops(names: seq<string>, n: string)
    requires CanAddress(n).None? && MessageType(n).None?
    ensures forall a | a in Categorize(names).can :: n !in Categorize(names).can[a]
    ensures forall m | m in Categorize(names).cereal :: n !in Categorize(names).cereal[m]
  {
    CategorizeExact(names);
    forall a | a in Categorize(names).can ensures n !in Categorize(names).can[a] {
      Seqs.FilterMembers(names, HasKey(CanAddress, a));
    }
    forall m | m in Categorize(names).cereal ensures n !in Categorize(names).cereal[m] {
      Seqs.FilterMembers(names, HasKey(MessageType, m));
    }
  }

  // ---------------------------------------------------------------------------
  // Chart colours (`_get_signal_color`)
  // ---------------------------------------------------------------------------

  /** `signal_colors` and `color_index`. */
  datatype Colors = Colors(byName: map<string, string>, next: nat)

  /** `_get_signal_color` over a colour list, `SIGNAL_COLORS` in the widget:
      the colour of a signal, assigning the next colour round-robin the
      first time a signal is asked for. */
  function ColorOf(palette: seq<string>, st: Colors, name: string): (r: (Colors, string))
    requires |palette| > 0
    ensures r.1 in palette || (name in st.byName && r.1 == st.byName[name])
    ensures r.0.byName == st.byName[name := r.1]
    ensures name in st.byName ==> r.0 == st
    ensures name !in st.byName ==> r.1 == palette[st.next % |palette|] && r.0.next == st.next + 1
  {
    if name in st.byName then (st, st.byName[name])
    else
      var c := palette[st.next % |palette|];
      (Colors(st.byName[name := c], st.next + 1), c)
  }

  /** Asking again for the same signal gives the same colour and changes
      nothing. */
  lemma ColorStable(palette: seq<string>, st: Colors, name: string)
    requires |palette| > 0
    ensures var (st1, c) := ColorOf(palette, st, name);
      ColorOf(palette, st1, name) == (st1, c)
  {
  }

  /** Every colour handed out is a palette colour, as long as the stored ones
      are. */
  predicate PaletteOnly(palette: seq<string>, st: Colors) {
    forall n | n in st.byName :: st.byName[n] in palette
  }

  lemma ColorKeepsPalette(palette: seq<string>, st: Colors, name: string)
    requires |palette| > 0 && PaletteOnly(palette, st)
    ensures PaletteOnly(palette, ColorOf(palette, st, name).0) && ColorOf(palette, st, name).1 in palette
  {
  }

  /** Asking for the colours of several signals in turn. */
  function ColorAll(palette: seq<string>, st: Colors, names: seq<string>): Colors
    requires |palette| > 0
    decreases |names|
  {
    if |names| == 0 then st else ColorAll(palette, ColorOf(palette, st, names[0]).0, names[1..])
  }

  /** A colour once assigned is kept. */
  lemma {:induction false} ColorAllKeeps(palette: seq<string>, st: Colors, names: seq<string>, n: string)
    requires |palette| > 0 && n in st.byName
    decreases |names|
    ensures n in ColorAll(palette, st, names).byName
    ensures ColorAll(palette, st, names).byName[n] == st.byName[n]
  {
    if |names| > 0 {
      ColorAllKeeps(palette, ColorOf(palette, st, names[0]).0, names[1..], n);
    }
  }

  /** Distinct new signals get consecutive palette colours, starting at the
      current index. */
  lemma {:induction false} ColorAllFresh(palette: seq<string>, st: Colors, names: seq<string>)
    requires |palette| > 0
    requires Seqs.NoDuplicates(names)
    requires forall i | 0 <= i < |names| :: names[i] !in st.byName
    decreases |names|
    ensures ColorAll(palette, st, names).next == st.next + |names|
    ensures forall i | 0 <= i < |names| ::
      names[i] in ColorAll(palette, st, names).byName
      && ColorAll(palette, st, names).byName[names[i]] == palette[(st.next + i) % |palette|]
  {
    if |names| > 0 {
      var st1 := ColorOf(palette, st, names[0]).0;
      assert forall i | 0 <= i < |names[1..]| :: names[1..][i] == names[i + 1];
      ColorAllFresh(palette, st1, names[1..]);
      ColorAllKeeps(palette, st1, names[1..], names[0]);
    }
  }

  /** Two of ten consecutive indices fall on different slots of ten. */
  lemma SlotsDiffer(n: nat, i: nat, j: nat)
    requires i < j < 10
    ensures (n + i) % 10 != (n + j) % 10
  {
    var q, r := (n + i) / 10, (n + i) % 10;
    assert n + i == 10 * q + r;
    if r + (j - i) < 10 {
      assert n + j == 10 * q + (r + (j - i));
    } else {
      assert n + j == 10 * (q + 1) + (r + (j - i) - 10);
    }
  }

  /** With ten different colours, up to ten signals selected one after
      another all get different colours. */
  lemma DistinctColors(palette: seq<string>, st: Colors, names: seq<string>)
    requires |palette| == 10 && Seqs.NoDuplicates(palette)
    requires Seqs.NoDuplicates(names) && |names| <= 10
    requires forall i | 0 <= i < |names| :: names[i] !in st.byName
    ensures forall i | 0 <= i < |names| :: names[i] in ColorAll(palette, st, names).byName
    ensures forall i, j | 0 <= i < j < |names| ::
      ColorAll(palette, st, names).byName[names[i]] != ColorAll(palette, st, names).byName[names[j]]
  {
    ColorAllFresh(palette, st, names);
    var r := ColorAll(palette, st, names);
    forall i, j | 0 <= i < j < |names|
      ensures r.byName[names[i]] != r.byName[names[j]]
    {
      SlotsDiffer(st.next, i, j);
    }
  }

  /** `SIGNAL_COLORS`: the ten chart colours, in order. */
  const Palette: seq<string> := ["#FF6B6B", "#45B7D1", "#52B788", "#F8B739", "#BB8FCE",
                                 "#F7DC6F", "#4ECDC4", "#FFA07A", "#85C1E2", "#98D8C8"]

  /** The ten chart colours are all different, so the first ten signals
      shown get ten different colours. */
  lemma TenSignalsTenColors(st: Colors, names: seq<string>)
    requires Seqs.NoDuplicates(names) && |names| <= 10
    requires forall i | 0 <= i < |names| :: names[i] !in st.byName
    ensures forall i | 0 <= i < |names| :: names[i] in ColorAll(Palette, st, names).byName
    ensures forall i, j | 0 <= i < j < |names| ::
      ColorAll(Palette, st, names).byName[names[i]] != ColorAll(Palette, st, names).byName[names[j]]
  {
    assert |Palette| == 10 && Seqs.NoDuplicates(Palette);
    DistinctColors(Palette, st, names);
  }

  // ---------------------------------------------------------------------------
  // The tree: tri-state categories, checking a category, search
  // ---------------------------------------------------------------------------

  datatype CheckState = Unchecked | PartiallyChecked | Checked

  /** A tree item. `data` is the full signal name a signal item stores; a
      category item (message type, address, tree level) stores nothing,
      written "" here, and Python treats both alike as false. */
  datatype Node = Node(data: string, state: CheckState, hidden: bool, expanded: bool, children: seq<Node>)

  predicate IsSignal(n: Node) {
    n.data != ""
  }

  /** A signal item whose signal has samples in the loaded segment. */
  predicate HasData(n: Node, withData: set<string>) {
    IsSignal(n) && n.data in withData
  }

  /** The children with data that are checked / not checked. */
  predicate SomeChecked(cs: seq<Node>, withData: set<string>) {
    exists i | 0 <= i < |cs| :: HasData(cs[i], withData) && cs[i].state == Checked
  }

  predicate SomeUnchecked(cs: seq<Node>, withData: set<string>) {
    exists i | 0 <= i < |cs| :: HasData(cs[i], withData) && cs[i].state != Checked
  }

  /** The counting loop of `_update_parent_check_state`: checked and
      unchecked children with data. */
  function Tally(cs: seq<Node>, withData: set<string>): (nat, nat)
    decreases |cs|
  {
    if |cs| == 0 then (0, 0)
    else
      var t := Tally(cs[1..], withData);
      if !HasData(cs[0], withData) then t
      else if cs[0].state == Checked then (t.0 + 1, t.1)
      else (t.0, t.1 + 1)
  }

  lemma {:induction false} TallyCounts(cs: seq<Node>, withData: set<string>)
    decreases |cs|
    ensures Tally(cs, withData).0 == 0 <==> !SomeChecked(cs, withData)
    ensures Tally(cs, withData).1 == 0 <==> !SomeUnchecked(cs, withData)
  {
    if |cs| > 0 {
      TallyCounts(cs[1..], withData);
      assert forall i | 1 <= i < |cs| :: cs[i] == cs[1..][i - 1];
      assert SomeChecked(cs[1..], withData) ==> SomeChecked(cs, withData);
      assert SomeUnchecked(cs[1..], withData) ==> SomeUnchecked(cs, withData);
    }
  }

  /** `_update_parent_check_state`: a category is checked when all its
      children with data are checked, partly checked when some are and some
      are not, and unchecked otherwise (also when no child has data). */
  function ParentState(cs: seq<Node>, withData: set<string>): (r: CheckState)
    ensures r == Checked <==> SomeChecked(cs, withData) && !SomeUnchecked(cs, withData)
    ensures r == PartiallyChecked <==> SomeChecked(cs, withData) && SomeUnchecked(cs, withData)
    ensures r == Unchecked <==> !SomeChecked(cs, withData)
  {
    TallyCounts(cs, withData);
    var t := Tally(cs, withData);
    var total := t.0 + t.1;
    if total == 0 then Unchecked
    else if t.0 == total then Checked
    else if t.1 == total then Unchecked
    else PartiallyChecked
  }

  /** The tree `populate_tree` builds has signals only at its leaves. */
  predicate SignalsAreLeaves(cs: seq<Node>)
    decreases cs
  {
    forall i | 0 <= i < |cs| :: (IsSignal(cs[i]) ==> cs[i].children == []) && SignalsAreLeaves(cs[i].children)
  }

  /** What a tree item shows, without its children. */
  datatype Item = Item(data: string, state: CheckState, hidden: bool, expanded: bool)

  function ItemOf(n: Node): Item {
    Item(n.data, n.state, n.hidden, n.expanded)
  }

  /** All items of a forest in tree order (the order
      `QTreeWidgetItemIterator` visits). */
  function Items(cs: seq<Node>): seq<Item>
    decreases cs
  {
    if |cs| == 0 then [] else [ItemOf(cs[0])] + Items(cs[0].children) + Items(cs[1..])
  }

  /** The signals with data anywhere in a forest. */
  function DataNames(cs: seq<Node>, withData: set<string>): set<string>
    decreases cs
  {
    if |cs| == 0 then {}
    else
      (if HasData(cs[0], withData) then {cs[0].data} else {})
      + DataNames(cs[0].children, withData) + DataNames(cs[1..], withData)
  }

  function Target(on: bool): CheckState {
    if on then Checked else Unchecked
  }

  /** The item after `_check_all_children`: only signals with data take the
      new state. */
  function Marked(it: Item, on: bool, withData: set<string>): Item {
    if it.data != "" && it.data in withData then it.(state := Target(on)) else it
  }

  function MarkAll(its: seq<Item>, on: bool, withData: set<string>): (r: seq<Item>)
    decreases |its|
    ensures |r| == |its|
  {
    if |its| == 0 then [] else [Marked(its[0], on, withData)] + MarkAll(its[1..], on, withData)
  }

  /** Marking is item by item. */
  lemma {:induction false} MarkAllPointwise(its: seq<Item>, on: bool, withData: set<string>)
    decreases |its|
    ensures forall k | 0 <= k < |its| :: MarkAll(its, on, withData)[k] == Marked(its[k], on, withData)
  {
    if |its| > 0 {
      MarkAllPointwise(its[1..], on, withData);
    }
  }

  lemma {:induction false} MarkAllAppend(a: seq<Item>, b: seq<Item>, on: bool, withData: set<string>)
    decreases |a|
    ensures MarkAll(a + b, on, withData) == MarkAll(a, on, withData) + MarkAll(b, on, withData)
  {
    if |a| > 0 {
      assert (a + b)[1..] == a[1..] + b;
      MarkAllAppend(a[1..], b, on, withData);
    } else {
      assert a + b == b;
    }
  }

  /** `_check_all_children` on the children of a category: every signal with
      data below it is checked or unchecked, and added to or removed from the
      selection; a newly checked signal without a colour is given one by
      `_get_signal_color`; sub-categories are descended into. */
  function CheckAll(cs: seq<Node>, on: bool, withData: set<string>, sel: set<string>, colors: Colors)
    : (r: (seq<Node>, set<string>, Colors))
    decreases cs
    ensures |r.0| == |cs|
    ensures forall i | 0 <= i < |cs| ::
      r.0[i].data == cs[i].data
      && r.0[i].state == (if HasData(cs[i], withData) then Target(on) else cs[i].state)
    ensures !on ==> r.2 == colors
    ensures forall n | n in colors.byName :: n in r.2.byName && r.2.byName[n] == colors.byName[n]
  {
    if |cs| == 0 then ([], sel, colors)
    else
      var c := cs[0];
      var first: (Node, set<string>, Colors) :=
        if IsSignal(c) then
          (if c.data in withData then c.(state := Target(on)) else c,
           Toggled(c, on, withData, sel), Colored(c, on, withData, colors))
        else
          var below := CheckAll(c.children, on, withData, sel, colors);
          (c.(children := below.0), below.1, below.2);
      var rest := CheckAll(cs[1..], on, withData, first.1, first.2);
      ([first.0] + rest.0, rest.1, rest.2)
  }

  /** `Items` of a forest with a given first tree. */
  lemma ItemsCons(n: Node, rest: seq<Node>)
    ensures Items([n] + rest) == [ItemOf(n)] + Items(n.children) + Items(rest)
  {
    assert ([n] + rest)[1..] == rest;
  }

  lemma DataNamesCons(n: Node, rest: seq<Node>, withData: set<string>)
    ensures DataNames([n] + rest, withData)
         == (if HasData(n, withData) then {n.data} else {}) + DataNames(n.children, withData) + DataNames(rest, withData)
  {
    assert ([n] + rest)[1..] == rest;
  }

  /** The selection after checking the first signal of a forest. */
  function Toggled(c: Node, on: bool, withData: set<string>, sel: set<string>): set<string> {
    if c.data in withData then (if on then sel + {c.data} else sel - {c.data}) else sel
  }

  /** The colours after checking the first signal of a forest. */
  function Colored(c: Node, on: bool, withData: set<string>, colors: Colors): Colors {
    if on && c.data in withData then ColorOf(Palette, colors, c.data).0 else colors
  }

  /** Marking a forest tree by tree. */
  lemma MarkStep(head: Node, c: Node, restOut: seq<Node>, restIn: seq<Node>, on: bool, withData: set<string>)
    requires ItemOf(head) == Marked(ItemOf(c), on, withData)
    requires Items(head.children) == MarkAll(Items(c.children), on, withData)
    requires Items(restOut) == MarkAll(Items(restIn), on, withData)
    ensures Items([head] + restOut) == MarkAll(Items([c] + restIn), on, withData)
  {
    var mid := Items(c.children);
    ItemsCons(head, restOut);
    ItemsCons(c, restIn);
    MarkAllAppend([ItemOf(c)] + mid, Items(restIn), on, withData);
    MarkAllAppend([ItemOf(c)], mid, on, withData);
    assert MarkAll([ItemOf(c)], on, withData) == [ItemOf(head)];
  }

  /** Checking a category changes the state of its signals with data and of
      nothing else. */
  lemma {:induction false} CheckAllItems(cs: seq<Node>, on: bool, withData: set<string>, sel: set<string>, colors: Colors)
    requires SignalsAreLeaves(cs)
    decreases cs
    ensures Items(CheckAll(cs, on, withData, sel, colors).0) == MarkAll(Items(cs), on, withData)
  {
    if |cs| > 0 {
      var c := cs[0];
      assert cs == [c] + cs[1..];
      assert SignalsAreLeaves(cs[1..]) by {
        assert forall i | 0 <= i < |cs[1..]| :: cs[1..][i] == cs[i + 1];
      }
      if IsSignal(c) {
        var head := if c.data in withData then c.(state := Target(on)) else c;
        var rest := CheckAll(cs[1..], on, withData, Toggled(c, on, withData, sel), Colored(c, on, withData, colors));
        assert CheckAll(cs, on, withData, sel, colors).0 == [head] + rest.0;
        CheckAllItems(cs[1..], on, withData, Toggled(c, on, withData, sel), Colored(c, on, withData, colors));
        assert Items(c.children) == [];
        MarkStep(head, c, rest.0, cs[1..], on, withData);
      } else {
        var below := CheckAll(c.children, on, withData, sel, colors);
        var head := c.(children := below.0);
        var rest := CheckAll(cs[1..], on, withData, below.1, below.2);
        assert CheckAll(cs, on, withData, sel, colors).0 == [head] + rest.0;
        CheckAllItems(c.children, on, withData, sel, colors);
        CheckAllItems(cs[1..], on, withData, below.1, below.2);
        MarkStep(head, c, rest.0, cs[1..], on, withData);
      }
    }
  }

  /** Checking a category moves exactly its signals with data into (or out
      of) the selection. */
  lemma {:induction false} CheckAllSelection(cs: seq<Node>, on: bool, withData: set<string>, sel: set<string>, colors: Colors)
    requires SignalsAreLeaves(cs)
    decreases cs
    ensures CheckAll(cs, on, withData, sel, colors).1
         == if on then sel + DataNames(cs, withData) else sel - DataNames(cs, withData)
  {
    if |cs| > 0 {
      var c := cs[0];
      assert cs == [c] + cs[1..];
      assert SignalsAreLeaves(cs[1..]) by {
        assert forall i | 0 <= i < |cs[1..]| :: cs[1..][i] == cs[i + 1];
      }
      DataNamesCons(c, cs[1..], withData);
      if IsSignal(c) {
        CheckAllSelection(cs[1..], on, withData, Toggled(c, on, withData, sel), Colored(c, on, withData, colors));
        assert DataNames(c.children, withData) == {};
      } else {
        var below := CheckAll(c.children, on, withData, sel, colors);
        CheckAllSelection(c.children, on, withData, sel, colors);
        CheckAllSelection(cs[1..], on, withData, below.1, below.2);
      }
    }
  }

  /** The signals with data of a forest in tree order. */
  function DataOrder(cs: seq<Node>, withData: set<string>): (r: seq<string>)
    decreases cs
  {
    if |cs| == 0 then []
    else
      (if HasData(cs[0], withData) then [cs[0].data] else [])
      + DataOrder(cs[0].children, withData) + DataOrder(cs[1..], withData)
  }

  lemma {:induction false} DataOrderNames(cs: seq<Node>, withData: set<string>)
    decreases cs
    ensures forall n :: n in DataOrder(cs, withData) <==> n in DataNames(cs, withData)
  {
    if |cs| > 0 {
      DataOrderNames(cs[0].children, withData);
      DataOrderNames(cs[1..], withData);
    }
  }

  lemma {:induction false} ColorAllAppend(palette: seq<string>, st: Colors, a: seq<string>, b: seq<string>)
    requires |palette| > 0
    decreases |a|
    ensures ColorAll(palette, st, a + b) == ColorAll(palette, ColorAll(palette, st, a), b)
  {
    if |a| == 0 {
      assert a + b == b;
    } else {
      assert (a + b)[1..] == a[1..] + b;
      ColorAllAppend(palette, ColorOf(palette, st, a[0]).0, a[1..], b);
    }
  }

  /** Every signal asked for ends up with a colour. */
  lemma {:induction false} ColorAllCovers(palette: seq<string>, st: Colors, names: seq<string>)
    requires |palette| > 0
    decreases |names|
    ensures forall n | n in names :: n in ColorAll(palette, st, names).byName
  {
    if |names| > 0 {
      var st1 := ColorOf(palette, st, names[0]).0;
      ColorAllCovers(palette, st1, names[1..]);
      ColorAllKeeps(palette, st1, names[1..], names[0]);
      assert forall n | n in names :: n == names[0] || n in names[1..];
    }
  }

  /** Checking a category asks `_get_signal_color` for each of its signals
      with data in tree order, so a signal without a colour takes the next
      palette colour; unchecking leaves the colours alone. Every signal
      with data ends up with a colour once checked. */
  lemma {:induction false} CheckAllColors(cs: seq<Node>, on: bool, withData: set<string>, sel: set<string>, colors: Colors)
    requires SignalsAreLeaves(cs)
    decreases cs
    ensures CheckAll(cs, on, withData, sel, colors).2
         == if on then ColorAll(Palette, colors, DataOrder(cs, withData)) else colors
    ensures on ==> forall n | n in DataNames(cs, withData) :: n in CheckAll(cs, on, withData, sel, colors).2.byName
  {
    if on && |cs| > 0 {
      var c := cs[0];
      assert SignalsAreLeaves(cs[1..]) by {
        assert forall i | 0 <= i < |cs[1..]| :: cs[1..][i] == cs[i + 1];
      }
      var tail := DataOrder(cs[1..], withData);
      if IsSignal(c) {
        assert c.children == [];
        var head := if HasData(c, withData) then [c.data] else [];
        assert DataOrder(cs, withData) == head + tail;
        assert ColorAll(Palette, colors, head) == Colored(c, on, withData, colors) by {
          if HasData(c, withData) {
            assert head[1..] == [];
          }
        }
        CheckAllColors(cs[1..], on, withData, Toggled(c, on, withData, sel), Colored(c, on, withData, colors));
        ColorAllAppend(Palette, colors, head, tail);
      } else {
        var below := CheckAll(c.children, on, withData, sel, colors);
        assert DataOrder(cs, withData) == DataOrder(c.children, withData) + tail;
        CheckAllColors(c.children, on, withData, sel, colors);
        CheckAllColors(cs[1..], on, withData, below.1, below.2);
        ColorAllAppend(Palette, colors, DataOrder(c.children, withData), tail);
      }
    }
    if on {
      DataOrderNames(cs, withData);
      ColorAllCovers(Palette, colors, DataOrder(cs, withData));
    }
  }

  /** After checking (unchecking) a category through its check box, the
      category itself reads checked (unchecked), unless it has no direct
      signal with data, when it reads unchecked. */
  lemma CheckAllThenParent(cs: seq<Node>, on: bool, withData: set<string>, sel: set<string>, colors: Colors)
    ensures ParentState(CheckAll(cs, on, withData, sel, colors).0, withData)
         == if on && exists i | 0 <= i < |cs| :: HasData(cs[i], withData) then Checked else Unchecked
  {
    MarkedParent(cs, CheckAll(cs, on, withData, sel, colors).0, on, withData);
  }

  /** The parent state of a forest whose signals with data all took the
      target state. */
  lemma MarkedParent(cs: seq<Node>, r: seq<Node>, on: bool, withData: set<string>)
    requires |r| == |cs|
    requires forall i | 0 <= i < |cs| ::
      r[i].data == cs[i].data
      && r[i].state == (if HasData(cs[i], withData) then Target(on) else cs[i].state)
    ensures ParentState(r, withData)
         == if on && exists i | 0 <= i < |cs| :: HasData(cs[i], withData) then Checked else Unchecked
  {
    assert forall i | 0 <= i < |cs| :: HasData(r[i], withData) <==> HasData(cs[i], withData);
    if on && exists i | 0 <= i < |cs| :: HasData(cs[i], withData) {
      var i :| 0 <= i < |cs| && HasData(cs[i], withData);
      assert HasData(r[i], withData) && r[i].state == Checked;
    }
  }

  // Search (`on_search_changed`)

  /** A signal item whose lower-cased name contains the query. */
  predicate Matches(it: Item, q: string) {
    it.data != "" && Contains(Lower(it.data), q)
  }

  /** Some item of a list matches. */
  predicate SomeMatch(its: seq<Item>, q: string) {
    exists k | 0 <= k < |its| :: Matches(its[k], q)
  }

  /** Some item of the forest matches. */
  predicate AnyMatch(cs: seq<Node>, q: string) {
    SomeMatch(Items(cs), q)
  }

  lemma SomeMatchAppend(a: seq<Item>, b: seq<Item>, q: string)
    ensures SomeMatch(a + b, q) <==> SomeMatch(a, q) || SomeMatch(b, q)
  {
    if SomeMatch(a + b, q) {
      var k :| 0 <= k < |a + b| && Matches((a + b)[k], q);
      if k >= |a| {
        assert (a + b)[k] == b[k - |a|];
      }
    }
    if SomeMatch(a, q) {
      var k :| 0 <= k < |a| && Matches(a[k], q);
      assert (a + b)[k] == a[k];
    }
    if SomeMatch(b, q) {
      var k :| 0 <= k < |b| && Matches(b[k], q);
      assert (a + b)[k + |a|] == b[k];
    }
  }

  lemma AnyMatchCons(n: Node, rest: seq<Node>, q: string)
    ensures AnyMatch([n] + rest, q)
        <==> Matches(ItemOf(n), q) || AnyMatch(n.children, q) || AnyMatch(rest, q)
  {
    ItemsCons(n, rest);
    SomeMatchAppend([ItemOf(n)] + Items(n.children), Items(rest), q);
    SomeMatchAppend([ItemOf(n)], Items(n.children), q);
    assert SomeMatch([ItemOf(n)], q) <==> Matches(ItemOf(n), q) by {
      assert [ItemOf(n)][0] == ItemOf(n);
    }
  }

  /** A forest has a match exactly when one of its trees has one at its root
      or below it. */
  lemma {:induction false} AnyMatchTrees(cs: seq<Node>, q: string)
    decreases |cs|
    ensures AnyMatch(cs, q)
        <==> exists i | 0 <= i < |cs| :: Matches(ItemOf(cs[i]), q) || AnyMatch(cs[i].children, q)
  {
    if |cs| > 0 {
      assert cs == [cs[0]] + cs[1..];
      AnyMatchCons(cs[0], cs[1..], q);
      AnyMatchTrees(cs[1..], q);
      assert forall i | 1 <= i < |cs| :: cs[i] == cs[1..][i - 1];
      if exists i | 0 <= i < |cs[1..]| :: Matches(ItemOf(cs[1..][i]), q) || AnyMatch(cs[1..][i].children, q) {
        var i :| 0 <= i < |cs[1..]| && (Matches(ItemOf(cs[1..][i]), q) || AnyMatch(cs[1..][i].children, q));
        assert cs[i + 1] == cs[1..][i];
      }
    }
  }

  /** The visibility a non-empty query gives one tree: a signal is shown
      when it matches; any item is shown, and expanded, when an item shown
      below it; everything else is hidden. */
  function SearchNode(n: Node, q: string): (r: Node)
    decreases n, 1
  {
    var kids := SearchNodes(n.children, q);
    var below := exists k | 0 <= k < |kids| :: !kids[k].hidden;
    n.(hidden := !(Matches(ItemOf(n), q) || below), expanded := below || n.expanded, children := kids)
  }

  function SearchNodes(cs: seq<Node>, q: string): (r: seq<Node>)
    decreases cs, 0
    ensures |r| == |cs|
  {
    seq(|cs|, i requires 0 <= i < |cs| => SearchNode(cs[i], q))
  }

  /** The search shows an item exactly when it or something below it
      matches, and expands exactly the items with a match below them (others
      keep their state). Nothing but visibility and expansion changes. */
  lemma {:induction false} SearchExact(n: Node, q: string)
    decreases n
    ensures SearchNode(n, q).data == n.data && SearchNode(n, q).state == n.state
    ensures !SearchNode(n, q).hidden <==> Matches(ItemOf(n), q) || AnyMatch(n.children, q)
    ensures SearchNode(n, q).expanded <==> AnyMatch(n.children, q) || n.expanded
  {
    var kids := SearchNodes(n.children, q);
    forall i | 0 <= i < |n.children|
      ensures !kids[i].hidden <==> Matches(ItemOf(n.children[i]), q) || AnyMatch(n.children[i].children, q)
    {
      SearchExact(n.children[i], q);
    }
    AnyMatchTrees(n.children, q);
  }

  /** `on_search_changed`: the query is lower-cased and stripped; an empty
      query shows every item and collapses the categories, any other query
      filters as `SearchNode` describes. */
  function Search(cs: seq<Node>, text: string): seq<Node> {
    var q := Lower(Strip(text));
    if q == "" then ShowAll(cs) else SearchNodes(cs, q)
  }

  function ShowAll(cs: seq<Node>): (r: seq<Node>)
    decreases cs
    ensures |r| == |cs|
  {
    if |cs| == 0 then []
    else
      var n := cs[0];
      [n.(hidden := false, expanded := IsSignal(n) && n.expanded, children := ShowAll(n.children))] + ShowAll(cs[1..])
  }

  /** After clearing the search every item is visible and no category is
      expanded. */
  lemma {:induction false} ShowAllVisible(cs: seq<Node>)
    decreases cs
    ensures forall k | 0 <= k < |Items(ShowAll(cs))| ::
      !Items(ShowAll(cs))[k].hidden && (Items(ShowAll(cs))[k].data == "" ==> !Items(ShowAll(cs))[k].expanded)
  {
    if |cs| > 0 {
      var n := cs[0];
      ShowAllVisible(n.children);
      ShowAllVisible(cs[1..]);
      var head := n.(hidden := false, expanded := IsSignal(n) && n.expanded, children := ShowAll(n.children));
      assert ShowAll(cs) == [head] + ShowAll(cs[1..]);
      ItemsCons(head, ShowAll(cs[1..]));
    }
  }
}

=== FILE: sqlite_import.dfy ===
/** The command-line SQLite importer, tools/import_segment_sqlite.py
    `import_segment`: the route and segment number come from the rlog's
    parent directory (`SegmentPath.ParseSqliteTool`); the first `initData`
    must exist; the segment spans the smallest to the largest
    `logMonoTime`; a stored segment with the same number is deleted first;
    then a fixed list of `carState` and `controlsState` signals, the frames
    of `can` events and the text of log events become rows, buffered in
    batches of 5000, and every (message type, field) pair sampled becomes a
    signal definition. Any event that raises aborts the import. */
module SqliteImport {
  import opened Wrappers
  import opened Strings
  import opened Events
  import Seqs
  import Batching
  import SegmentPath

  // ---------------------------------------------------------------------------
  // Time range

  /** The smallest `logMonoTime`. */
  function MinTime(events: seq<Event>): (m: int)
    requires |events| > 0
    decreases |events|
    ensures forall k | 0 <= k < |events| :: m <= events[k].logMonoTime
    ensures exists k | 0 <= k < |events| :: m == events[k].logMonoTime
  {
    if |events| == 1 then events[0].logMonoTime
    else
      var rest := MinTime(events[1..]);
      assert forall k | 1 <= k < |events| :: events[k] == events[1..][k - 1];
      if events[0].logMonoTime <= rest then events[0].logMonoTime
      else
        var j :| 0 <= j < |events[1..]| && rest == events[1..][j].logMonoTime;
        assert events[j + 1] == events[1..][j];
        rest
  }

  /** The largest `logMonoTime`. */
  function MaxTime(events: seq<Event>): (m: int)
    requires |events| > 0
    decreases |events|
    ensures forall k | 0 <= k < |events| :: events[k].logMonoTime <= m
    ensures exists k | 0 <= k < |events| :: m == events[k].logMonoTime
  {
    if |events| == 1 then events[0].logMonoTime
    else
      var rest := MaxTime(events[1..]);
      assert forall k | 1 <= k < |events| :: events[k] == events[1..][k - 1];
      if events[0].logMonoTime >= rest then events[0].logMonoTime
      else
        var j :| 0 <= j < |events[1..]| && rest == events[1..][j].logMonoTime;
        assert events[j + 1] == events[1..][j];
        rest
  }

  function IsInitData(e: Event): bool {
    e.which == "initData"
  }

  /** `extract_init_data`: the first `initData` event of the whole log, not
      only of its head. */
  function InitDataIndex(events: seq<Event>): (r: Option<nat>)
    ensures r.None? <==> forall k | 0 <= k < |events| :: events[k].which != "initData"
    ensures r.Some? ==>
      (r.value < |events| && events[r.value].which == "initData" && forall k | 0 <= k < r.value :: events[k].which != "initData")
  {
    Seqs.FirstIndex(events, IsInitData)
  }

  // ---------------------------------------------------------------------------
  // Rows of one event

  /** The `carState` signals, in list order. */
  const CarSignals: seq<string> := [
    "vEgo", "aEgo", "steeringAngleDeg", "steeringRateDeg", "gas", "brake",
    "brakePressed", "gasPressed", "leftBlinker", "rightBlinker", "vEgoRaw", "standstill"
  ]

  /** The `controlsState` signals, in list order. */
  const ControlsSignals: seq<string> := [
    "aTarget", "vCruise", "vTargetLead", "enabled", "active", "vPid", "upAccelCmd", "uiAccelCmd"
  ]

  function Listed(which: string): seq<string> {
    if which == "carState" then CarSignals
    else if which == "controlsState" then ControlsSignals
    else []
  }

  function SignalName(which: string, field: string): string {
    which + "." + field
  }

  datatype SampleRow = SampleRow(timeNs: int, name: string, value: real)
  datatype CanRow = CanRow(timeNs: int, address: nat, dat: seq<int>)
  datatype LogRow = LogRow(timeNs: int, level: string, text: string)

  /** What one event adds: rows for the three buffers and the definitions
      it marks. */
  datatype Rows = Rows(samples: seq<SampleRow>, cans: seq<CanRow>, logs: seq<LogRow>, defs: set<(string, string)>)

  /** `(msg_type, signal_name.split('.')[1])`: `None` where Python raises
      because the name has no dot. */
  function SignalDef(which: string, name: string): (r: Option<(string, string)>)
    ensures r.Some? ==> r.value.0 == which
  {
    var parts := Split(name, ".");
    if |parts| >= 2 then Some((which, parts[1])) else None
  }

  /** The definition of a name built from a dot-free type and field is that
      type and field. */
  lemma SignalDefOfName(which: string, field: string)
    requires '.' !in which && '.' !in field
    ensures SignalDef(which, SignalName(which, field)) == Some((which, field))
  {
    SplitTwo(which, field, ".");
  }

  /** The rows of the listed signals of one message, with the definitions
      they mark; `None` as soon as one of them raises. */
  function SignalRows(t: int, which: string, value: string -> Option<real>, fields: seq<string>): (r: Option<(seq<SampleRow>, set<(string, string)>)>)
    decreases |fields|
    ensures r.Some? ==> |r.value.0| == |fields|
  {
    if |fields| == 0 then Some(([], {}))
    else
      var name := SignalName(which, fields[0]);
      match (value(fields[0]), SignalDef(which, name), SignalRows(t, which, value, fields[1..]))
      case (Some(x), Some(d), Some((rows, defs))) => Some(([SampleRow(t, name, x)] + rows, {d} + defs))
      case _ => None
  }

  /** No name in the list contains a dot. */
  predicate DotFree(fields: seq<string>) {
    forall k | 0 <= k < |fields| :: '.' !in fields[k]
  }

  /** With a dot-free type and fields, the signals give rows exactly when
      every one of them has a value. */
  lemma {:induction false} SignalRowsSome(t: int, which: string, value: string -> Option<real>, fields: seq<string>)
    decreases |fields|
    requires '.' !in which && DotFree(fields)
    ensures SignalRows(t, which, value, fields).Some? <==> forall k | 0 <= k < |fields| :: value(fields[k]).Some?
  {
    if |fields| > 0 {
      assert DotFree(fields[1..]) by {
        forall k | 0 <= k < |fields[1..]| ensures '.' !in fields[1..][k] { assert fields[1..][k] == fields[k + 1]; }
      }
      SignalRowsSome(t, which, value, fields[1..]);
      SignalDefOfName(which, fields[0]);
      assert '.' !in fields[0];
      if forall k | 0 <= k < |fields[1..]| :: value(fields[1..][k]).Some? {
        forall k | 0 <= k < |fields| ensures value(fields[k]).Some? || k == 0 {
          if k > 0 { assert fields[1..][k - 1] == fields[k]; }
        }
      }
      if forall k | 0 <= k < |fields| :: value(fields[k]).Some? {
        forall k | 0 <= k < |fields[1..]| ensures value(fields[1..][k]).Some? {
          assert fields[1..][k] == fields[k + 1];
        }
      }
    }
  }

  /** One row per signal, in list order, carrying its value. */
  lemma {:induction false} SignalRowsInOrder(t: int, which: string, value: string -> Option<real>, fields: seq<string>)
    decreases |fields|
    requires SignalRows(t, which, value, fields).Some?
    ensures forall k | 0 <= k < |fields| ::
      (value(fields[k]).Some?
       && SignalRows(t, which, value, fields).value.0[k] == SampleRow(t, SignalName(which, fields[k]), value(fields[k]).value))
  {
    if |fields| > 0 {
      SignalRowsInOrder(t, which, value, fields[1..]);
      var r := SignalRows(t, which, value, fields).value.0;
      var rest := SignalRows(t, which, value, fields[1..]).value.0;
      assert r == [SampleRow(t, SignalName(which, fields[0]), value(fields[0]).value)] + rest;
      forall k | 0 <= k < |fields|
        ensures value(fields[k]).Some? && r[k] == SampleRow(t, SignalName(which, fields[k]), value(fields[k]).value)
      {
        if k > 0 { assert fields[1..][k - 1] == fields[k]; }
      }
    }
  }

  /** With a dot-free type and fields, the definitions marked are exactly
      the (type, field) pairs of the list. */
  lemma {:induction false} SignalRowsDefs(t: int, which: string, value: string -> Option<real>, fields: seq<string>)
    decreases |fields|
    requires '.' !in which && DotFree(fields)
    requires SignalRows(t, which, value, fields).Some?
    ensures SignalRows(t, which, value, fields).value.1 == set f | f in fields :: (which, f)
  {
    if |fields| > 0 {
      assert DotFree(fields[1..]) by {
        forall k | 0 <= k < |fields[1..]| ensures '.' !in fields[1..][k] { assert fields[1..][k] == fields[k + 1]; }
      }
      SignalRowsDefs(t, which, value, fields[1..]);
      assert '.' !in fields[0];
      SignalDefOfName(which, fields[0]);
      assert forall f | f in fields :: f == fields[0] || f in fields[1..];
      assert forall f | f in fields[1..] :: f in fields;
    }
  }

  /** How the loop reads a signal of a message. */
  function NumberOf(msg: Value): string -> Option<real> {
    (f: string) => PlainField(msg, f)
  }

  /** The rows of a sampled message. */
  function SampledRows(t: int, which: string, msg: Value, fields: seq<string>): Option<Rows> {
    match SignalRows(t, which, NumberOf(msg), fields)
    case Some((rows, defs)) => Some(Rows(rows, [], [], defs))
    case None => None
  }

  /** The raw rows of a `can` event: one per frame. */
  function FrameRows(t: int, frames: seq<CanFrame>): (r: Rows)
    ensures |r.cans| == |frames| && r.samples == [] && r.logs == [] && r.defs == {}
    ensures forall k | 0 <= k < |frames| :: r.cans[k] == CanRow(t, frames[k].address, frames[k].dat)
  {
    Rows([], seq(|frames|, k requires 0 <= k < |frames| => CanRow(t, frames[k].address, frames[k].dat)), [], {})
  }

  /** The loop body for one event, given the signal list of each message
      type: `None` when it raises. */
  function Process(listed: string -> seq<string>, e: Event): (r: Option<Rows>)
    ensures r.Some? && |r.value.cans| > 0 ==> e.which == "can"
    ensures r.Some? && |r.value.logs| > 0 ==> e.which == "logMessage" || e.which == "errorLogMessage"
    ensures e.which !in {"carState", "controlsState", "can", "logMessage", "errorLogMessage"} ==> r == Some(Rows([], [], [], {}))
  {
    var t := e.logMonoTime;
    if e.which == "carState" || e.which == "controlsState" then
      if e.body.Message? then SampledRows(t, e.which, e.body.v, listed(e.which)) else None
    else if e.which == "can" then
      if e.body.CanFrames? then Some(FrameRows(t, e.body.frames)) else None
    else if e.which == "logMessage" || e.which == "errorLogMessage" then
      if !e.body.LogText? then None
      else Some(Rows([], [], [LogRow(t, if e.which == "logMessage" then "log" else "error", e.body.text)], {}))
    else Some(Rows([], [], [], {}))
  }

  /** The loop body of the import. */
  function ProcessEvent(listed: string -> seq<string>): Event -> Option<Rows> {
    (e: Event) => Process(listed, e)
  }

  lemma CarSignalsDotFree()
    ensures forall f | f in CarSignals :: '.' !in f
  {
  }

  lemma ControlsSignalsDotFree()
    ensures forall f | f in ControlsSignals :: '.' !in f
  {
  }

  /** No listed signal contains a dot, and only the two sampled types
      have signals. */
  ghost predicate ListShape(listed: string -> seq<string>) {
    (forall w :: DotFree(listed(w)))
    && forall w | w != "carState" && w != "controlsState" :: listed(w) == []
  }

  lemma ListedShape()
    ensures ListShape(Listed)
  {
    CarSignalsDotFree();
    ControlsSignalsDotFree();
    forall w ensures DotFree(Listed(w)) {
      var fields := Listed(w);
      forall k | 0 <= k < |fields| ensures '.' !in fields[k] {
        assert fields[k] in fields;
      }
    }
  }

  /** A sampled message raises only when one of the signals has no value,
      and then marks exactly the (type, field) pairs of the list. */
  lemma SampledRowsDefs(t: int, which: string, msg: Value, fields: seq<string>)
    requires '.' !in which && DotFree(fields)
    ensures SampledRows(t, which, msg, fields).Some? <==> forall k | 0 <= k < |fields| :: PlainField(msg, fields[k]).Some?
    ensures SampledRows(t, which, msg, fields).Some? ==> SampledRows(t, which, msg, fields).value.defs == set f | f in fields :: (which, f)
  {
    var value := NumberOf(msg);
    SignalRowsSome(t, which, value, fields);
    if SampledRows(t, which, msg, fields).Some? {
      SignalRowsDefs(t, which, value, fields);
    }
  }

  lemma ProcessDefs(listed: string -> seq<string>, e: Event)
    requires ListShape(listed)
    requires e.which == "carState" || e.which == "controlsState"
    requires e.body.Message?
    ensures Process(listed, e).Some? <==> forall k | 0 <= k < |listed(e.which)| :: PlainField(e.body.v, listed(e.which)[k]).Some?
    ensures Process(listed, e).Some? ==> Process(listed, e).value.defs == set f | f in listed(e.which) :: (e.which, f)
  {
    assert Process(listed, e) == SampledRows(e.logMonoTime, e.which, e.body.v, listed(e.which));
    assert '.' !in e.which;
    SampledRowsDefs(e.logMonoTime, e.which, e.body.v, listed(e.which));
  }

  /** Every event's marks: those of its type's list when it is sampled,
      none otherwise. */
  ghost predicate MarksListed(process: Event -> Option<Rows>, listed: string -> seq<string>) {
    forall e | process(e).Some? :: process(e).value.defs == set f | f in listed(e.which) :: (e.which, f)
  }

  lemma ProcessMarksListed(listed: string -> seq<string>)
    requires ListShape(listed)
    ensures MarksListed(ProcessEvent(listed), listed)
  {
    forall e | ProcessEvent(listed)(e).Some?
      ensures ProcessEvent(listed)(e).value.defs == set f | f in listed(e.which) :: (e.which, f)
    {
      if e.which == "carState" || e.which == "controlsState" {
        ProcessDefs(listed, e);
      } else {
        assert listed(e.which) == [];
      }
    }
  }

  // ---------------------------------------------------------------------------
  // The event loop

  /** The loop's state after a prefix of the events: the rows each event
      appended, the definitions marked so far and `event_count`. */
  datatype Progress = Progress(
    samples: seq<seq<SampleRow>>,
    cans: seq<seq<CanRow>>,
    logs: seq<seq<LogRow>>,
    defs: set<(string, string)>,
    count: nat)

  /** The loop over `events` with `process` as its body: `None` once an
      event raises. */
  function Run(events: seq<Event>, process: Event -> Option<Rows>): (r: Option<Progress>)
    decreases |events|
    ensures r.Some? ==> r.value.count == |events| && |r.value.samples| == |events|
  {
    if |events| == 0 then Some(Progress([], [], [], {}, 0))
    else
      match (Run(events[..|events| - 1], process), process(events[|events| - 1]))
      case (Some(p), Some(rows)) =>
        Some(Progress(p.samples + [rows.samples], p.cans + [rows.cans], p.logs + [rows.logs], p.defs + rows.defs, p.count + 1))
      case _ => None
  }

  /** The loop completes iff no event raises. */
  lemma {:induction false} RunFails(events: seq<Event>, process: Event -> Option<Rows>)
    decreases |events|
    ensures Run(events, process).Some? <==> forall k | 0 <= k < |events| :: process(events[k]).Some?
  {
    if |events| > 0 {
      var init := events[..|events| - 1];
      RunFails(init, process);
      assert forall k | 0 <= k < |init| :: init[k] == events[k];
    }
  }

  /** After a complete loop the definitions are exactly the listed signals
      of the types that occur: `(w, f)` is marked iff some event has type
      `w` and `f` is in its list. */
  lemma {:induction false} RunDefs(events: seq<Event>, process: Event -> Option<Rows>, listed: string -> seq<string>, w: string, f: string)
    decreases |events|
    requires MarksListed(process, listed)
    requires Run(events, process).Some?
    ensures (w, f) in Run(events, process).value.defs <==> f in listed(w) && exists k | 0 <= k < |events| :: events[k].which == w
  {
    if |events| > 0 {
      var init := events[..|events| - 1];
      var last := events[|events| - 1];
      assert Run(init, process).Some?;
      RunDefs(init, process, listed, w, f);
      assert forall k | 0 <= k < |init| :: init[k] == events[k];
      if (exists k | 0 <= k < |events| :: events[k].which == w) && !(exists k | 0 <= k < |init| :: init[k].which == w) {
        assert last.which == w;
      }
    }
  }

  // ---------------------------------------------------------------------------
  // The import

  /** Why the import stops: the rlog does not exist, its directory is not
      `<dongle>--<stamp>--<n>`, the segment number is not an integer (which
      raises before the import's error handling), no `initData`, or an
      exception inside the import. */
  datatype Stop = Missing | BadName | Crash | NoInitData | Raised

  /** What a complete import writes. */
  datatype Imported = Imported(
    routeId: string,
    segmentNumber: int,
    startNs: int,
    endNs: int,
    wallOffsetNs: int,
    replaced: Option<nat>,
    progress: Progress)

  /** The stored segment ids of the route with their numbers, in storage
      order: the first with the imported number is deleted. */
  function Replaced(stored: seq<(nat, int)>, n: int): (r: Option<nat>)
    ensures r.None? <==> forall k | 0 <= k < |stored| :: stored[k].1 != n
    ensures r.Some? ==>
      exists k | 0 <= k < |stored| :: (stored[k] == (r.value, n) && forall j | 0 <= j < k :: stored[j].1 != n)
  {
    match Seqs.FirstIndex(stored, (s: (nat, int)) => s.1 == n)
    case None => None
    case Some(k) => Some(stored[k].0)
  }

  function Import(rlogPath: seq<string>, rlogExists: bool, events: seq<Event>, stored: seq<(nat, int)>): (r: Result<Imported, Stop>)
    ensures !rlogExists ==> r == Failure(Missing)
    ensures rlogExists && SegmentPath.ParseSqliteTool(rlogPath).Rejected? ==> r == Failure(BadName)
    ensures r.Success? ==> rlogExists && InitDataIndex(events).Some?
    // the route and number come from the path, and the segment replaced is
    // the first stored one with that number
    ensures r.Success? ==>
      var parsed := SegmentPath.ParseSqliteTool(rlogPath);
      && parsed.Parsed?
      && r.value.routeId == parsed.routeId && r.value.segmentNumber == parsed.segmentNumber
      && r.value.replaced == Replaced(stored, parsed.segmentNumber)
    ensures r.Success? ==>
      (r.value.startNs <= r.value.endNs && r.value.wallOffsetNs + r.value.startNs == WallOf(events[InitDataIndex(events).value]))
  {
    if !rlogExists then Failure(Missing)
    else
      match SegmentPath.ParseSqliteTool(rlogPath)
      case Rejected => Failure(BadName)
      case Raised => Failure(Crash)
      case Parsed(routeId, n) =>
        match InitDataIndex(events)
        case None => Failure(NoInitData)
        case Some(i) =>
          if !ReadableInit(events[i]) then Failure(Raised)
          else
            var start := MinTime(events);
            var end := MaxTime(events);
            match Run(events, ProcessEvent(Listed))
            case None => Failure(Raised)
            case Some(p) => Success(Imported(routeId, n, start, end, WallOf(events[i]) - start, Replaced(stored, n), p))
  }

  /** An `initData` event whose `wallTimeNanos` can be read. */
  predicate ReadableInit(e: Event) {
    e.body.Message? && IntField(e.body.v, "wallTimeNanos").Some?
  }

  function WallOf(e: Event): int {
    if ReadableInit(e) then IntField(e.body.v, "wallTimeNanos").value else 0
  }

  /** A complete import has seen every event, spans all of them, and marks
      exactly the listed signals of the message types that occur. */
  lemma ImportComplete(rlogPath: seq<string>, rlogExists: bool, events: seq<Event>, stored: seq<(nat, int)>, w: string, f: string)
    requires Import(rlogPath, rlogExists, events, stored).Success?
    ensures var m := Import(rlogPath, rlogExists, events, stored).value;
      && m.progress.count == |events|
      && (forall k | 0 <= k < |events| :: m.startNs <= events[k].logMonoTime <= m.endNs)
      && ((w, f) in m.progress.defs <==> f in Listed(w) && exists k | 0 <= k < |events| :: events[k].which == w)
  {
    ListedShape();
    ProcessMarksListed(Listed);
    RunDefs(events, ProcessEvent(Listed), Listed, w, f);
  }

  /** An import aborts iff, past the path and `initData` checks, some event
      raises. */
  lemma ImportAborts(rlogPath: seq<string>, events: seq<Event>, stored: seq<(nat, int)>)
    requires SegmentPath.ParseSqliteTool(rlogPath).Parsed?
    requires InitDataIndex(events).Some? && ReadableInit(events[InitDataIndex(events).value])
    ensures Import(rlogPath, true, events, stored) == Failure(Raised)
      <==> exists k | 0 <= k < |events| :: Process(Listed, events[k]).None?
  {
    RunFails(events, ProcessEvent(Listed));
  }

  /** The three buffers of a complete import: every row reaches exactly one
      insert, in order, every insert but the last holds at least 5000
      rows, and each insert is the rows of whole consecutive events,
      written once it reaches 5000. */
  method Flush(p: Progress) returns (samples: seq<seq<SampleRow>>, cans: seq<seq<CanRow>>, logs: seq<seq<LogRow>>)
    ensures Batching.Flatten(samples) == Batching.Flatten(p.samples)
    ensures Batching.Flatten(cans) == Batching.Flatten(p.cans)
    ensures Batching.Flatten(logs) == Batching.Flatten(p.logs)
    ensures forall k | 0 <= k < |samples| - 1 :: |samples[k]| >= Batching.ToolThreshold
    ensures forall k | 0 <= k < |cans| - 1 :: |cans[k]| >= Batching.ToolThreshold
    ensures forall k | 0 <= k < |logs| - 1 :: |logs[k]| >= Batching.ToolThreshold
    ensures Batching.Greedy(p.samples, Batching.ToolThreshold, samples)
    ensures Batching.Greedy(p.cans, Batching.ToolThreshold, cans)
    ensures Batching.Greedy(p.logs, Batching.ToolThreshold, logs)
  {
    samples := Batching.Buffer(p.samples, Batching.ToolThreshold);
    cans := Batching.Buffer(p.cans, Batching.ToolThreshold);
    logs := Batching.Buffer(p.logs, Batching.ToolThreshold);
  }
}

=== FILE: store.dfy ===
/** The SQLite store of src/core/sqlite_manager.py, with its tables as maps
    and row lists: routes by id, segments in insertion (row id) order, the
    child tables of samples, CAN frames, log lines and video frame times that
    point at a segment id, and the cereal signal definitions by full name. */
module Store {
  import opened Wrappers
  import opened Seqs
  import opened LogRecords
  import Strings

  datatype Route = Route(
    timestamp: Option<int>,
    startTimestamp: Option<int>,
    dbcFile: Option<string>,
    totalSegments: Option<int>)

  /** The file paths stored with a segment (`None` for a missing file). */
  datatype SegmentFiles = SegmentFiles(
    rlog: Option<string>,
    ecamera: Option<string>,
    fcamera: Option<string>,
    qcamera: Option<string>,
    thumbnail: Option<string>)

  /** The attributes `insert_segment` writes (and overwrites on re-import). */
  datatype SegmentInfo = SegmentInfo(
    startNs: int,
    endNs: int,
    wallOffsetNs: int,
    totalEvents: int,
    gps: Option<int>,
    files: SegmentFiles)

  datatype SegmentRow = SegmentRow(id: nat, routeId: string, number: Option<int>, info: SegmentInfo)

  datatype Sample = Sample(segmentId: nat, timeNs: int, name: string, value: real)
  datatype CanRow = CanRow(segmentId: nat, timeNs: int, address: int, dat: seq<int>, src: int)
  datatype LogRow = LogRow(segmentId: nat, timeNs: int, entry: LogEntry)
  datatype VideoRow = VideoRow(segmentId: nat, camera: string, frameId: int, timeNs: int)

  datatype CerealDef = CerealDef(
    messageType: string,
    signalName: string,
    dataType: string,
    unit: string,
    unitCn: string,
    nameCn: string)

  datatype Db = Db(
    routes: map<string, Route>,
    segments: seq<SegmentRow>,
    nextId: nat,
    samples: seq<Sample>,
    cans: seq<CanRow>,
    logs: seq<LogRow>,
    videos: seq<VideoRow>,
    cerealDefs: map<string, CerealDef>)

  const EmptyDb: Db := Db(map[], [], 1, [], [], [], [], map[])

  /** Row ids are distinct and below the next id to hand out, and no two
      segments of a route share a segment number. */
  predicate Valid(db: Db) {
    && (forall i | 0 <= i < |db.segments| :: db.segments[i].id < db.nextId)
    && (forall i, j | 0 <= i < j < |db.segments| :: Compatible(db.segments[i], db.segments[j]))
  }

  /** Two segment rows may coexist: different ids, and not the same number
      of the same route. */
  predicate Compatible(a: SegmentRow, b: SegmentRow) {
    a.id != b.id && !(a.routeId == b.routeId && a.number.Some? && a.number == b.number)
  }

  lemma EmptyValid()
    ensures Valid(EmptyDb)
  {
  }

  // ---------------------------------------------------------------------------
  // Routes
  // ---------------------------------------------------------------------------

  /** SQL `COALESCE(new, old)`. */
  function Coalesce<T>(new_: Option<T>, old_: Option<T>): (r: Option<T>)
    ensures new_.Some? ==> r == new_
    ensures new_.None? ==> r == old_
  {
    if new_.Some? then new_ else old_
  }

  /** `insert_route`: insert, or on conflict keep each stored column the new
      value leaves NULL. */
  function InsertRoute(db: Db, routeId: string, timestamp: Option<int>, start: Option<int>, dbc: Option<string>): (r: Db)
    ensures routeId in r.routes
    ensures r.routes.Keys == db.routes.Keys + {routeId}
    ensures routeId !in db.routes ==> r.routes[routeId] == Route(timestamp, start, dbc, None)
    ensures routeId in db.routes ==>
              && r.routes[routeId].timestamp == (if timestamp.Some? then timestamp else db.routes[routeId].timestamp)
              && r.routes[routeId].startTimestamp == (if start.Some? then start else db.routes[routeId].startTimestamp)
              && r.routes[routeId].dbcFile == (if dbc.Some? then dbc else db.routes[routeId].dbcFile)
              && r.routes[routeId].totalSegments == db.routes[routeId].totalSegments
    ensures forall id | id in db.routes && id != routeId :: r.routes[id] == db.routes[id]
    ensures r == db.(routes := r.routes)
  {
    var row := if routeId in db.routes then
                 var o := db.routes[routeId];
                 Route(Coalesce(timestamp, o.timestamp), Coalesce(start, o.startTimestamp),
                       Coalesce(dbc, o.dbcFile), o.totalSegments)
               else Route(timestamp, start, dbc, None);
    db.(routes := db.routes[routeId := row])
  }

  /** The "persist once" ratchet as seen by the store: once a route has a
      start, a later `insert_route` without one leaves it in place. */
  lemma StartKeptWithoutNewValue(db: Db, routeId: string, ts: Option<int>, dbc: Option<string>)
    requires routeId in db.routes
    ensures InsertRoute(db, routeId, ts, None, dbc).routes[routeId].startTimestamp
         == db.routes[routeId].startTimestamp
  {
  }

  // ---------------------------------------------------------------------------
  // Segments
  // ---------------------------------------------------------------------------

  /** `WHERE route_id = ? AND segment_number = ?`: the first matching row. A
      NULL number matches nothing. */
  function FindSegment(segs: seq<SegmentRow>, routeId: string, number: Option<int>): (r: Option<nat>)
    ensures r.Some? ==> r.value < |segs| && number.Some?
                        && segs[r.value].routeId == routeId && segs[r.value].number == number
    ensures r.None? ==> number.None? || forall i | 0 <= i < |segs| :: !(segs[i].routeId == routeId && segs[i].number == number)
  {
    if number.None? then None
    else FirstIndex(segs, (s: SegmentRow) => s.routeId == routeId && s.number == number)
  }

  /** The ids of the segments of a route. */
  function SegmentIdsOf(segs: seq<SegmentRow>, routeId: string): (r: set<nat>)
    ensures forall id :: id in r <==> exists i | 0 <= i < |segs| :: segs[i].routeId == routeId && segs[i].id == id
  {
    set i | 0 <= i < |segs| && segs[i].routeId == routeId :: segs[i].id
  }

  /** The test "belongs to this route", built once so every use of it is
      the same function value. */
  function OfRoute(routeId: string): SegmentRow -> bool {
    (s: SegmentRow) => s.routeId == routeId
  }

  /** The test "belongs to another route". */
  function NotOfRoute(routeId: string): SegmentRow -> bool {
    (s: SegmentRow) => s.routeId != routeId
  }

  /** How many segments a route has. */
  function SegmentCount(segs: seq<SegmentRow>, routeId: string): nat {
    Count(segs, OfRoute(routeId))
  }

  /** Every child row of `a` is a child row of `b`. */
  predicate ChildrenFrom(a: Db, b: Db) {
    && (forall k | 0 <= k < |a.samples| :: a.samples[k] in b.samples)
    && (forall k | 0 <= k < |a.cans| :: a.cans[k] in b.cans)
    && (forall k | 0 <= k < |a.logs| :: a.logs[k] in b.logs)
    && (forall k | 0 <= k < |a.videos| :: a.videos[k] in b.videos)
  }

  /** Removes every child row of the segment ids in `ids`. */
  function ClearChildren(db: Db, ids: set<nat>): (r: Db)
    ensures ChildrenFrom(r, db)
    ensures forall k | 0 <= k < |r.samples| :: r.samples[k].segmentId !in ids
    ensures forall k | 0 <= k < |r.cans| :: r.cans[k].segmentId !in ids
    ensures forall k | 0 <= k < |r.logs| :: r.logs[k].segmentId !in ids
    ensures forall k | 0 <= k < |r.videos| :: r.videos[k].segmentId !in ids
    ensures forall k | 0 <= k < |db.samples| && db.samples[k].segmentId !in ids :: db.samples[k] in r.samples
    ensures forall k | 0 <= k < |db.cans| && db.cans[k].segmentId !in ids :: db.cans[k] in r.cans
    ensures forall k | 0 <= k < |db.logs| && db.logs[k].segmentId !in ids :: db.logs[k] in r.logs
    ensures forall k | 0 <= k < |db.videos| && db.videos[k].segmentId !in ids :: db.videos[k] in r.videos
    ensures r.routes == db.routes && r.segments == db.segments && r.nextId == db.nextId
    ensures r.cerealDefs == db.cerealDefs
  {
    var keepSample := (x: Sample) => x.segmentId !in ids;
    var keepCan := (x: CanRow) => x.segmentId !in ids;
    var keepLog := (x: LogRow) => x.segmentId !in ids;
    var keepVideo := (x: VideoRow) => x.segmentId !in ids;
    FilterMembers(db.samples, keepSample);
    FilterMembers(db.cans, keepCan);
    FilterMembers(db.logs, keepLog);
    FilterMembers(db.videos, keepVideo);
    db.(samples := Filter(db.samples, keepSample), cans := Filter(db.cans, keepCan),
        logs := Filter(db.logs, keepLog), videos := Filter(db.videos, keepVideo))
  }

  /** Sets `routes.total_segments` to the route's segment count (a no-op
      for a route that has no row). */
  function RecountSegments(db: Db, routeId: string): (r: Db)
    ensures routeId in db.routes ==> r.routes == db.routes[routeId := db.routes[routeId].(totalSegments := Some(SegmentCount(db.segments, routeId)))]
    ensures routeId !in db.routes ==> r == db
    ensures r == db.(routes := r.routes)
  {
    if routeId in db.routes then
      db.(routes := db.routes[routeId := db.routes[routeId].(totalSegments := Some(SegmentCount(db.segments, routeId)))])
    else db
  }

  /** `segment_number` falls back to the `segment_num` alias. */
  function SegmentNumberArg(segmentNum: Option<int>, segmentNumber: Option<int>): (r: Option<int>)
    ensures segmentNumber.Some? ==> r == segmentNumber
    ensures segmentNumber.None? ==> r == segmentNum
  {
    if segmentNumber.None? && segmentNum.Some? then segmentNum else segmentNumber
  }

  /** Re-import of the row at index `i`: its child rows are cleared and its
      attributes replaced; the id stays. */
  function ReplaceSegment(db: Db, i: nat, info: SegmentInfo): (r: Db)
    requires Valid(db) && i < |db.segments|
    ensures Valid(r)
    ensures r.segments == db.segments[i := db.segments[i].(info := info)]
    ensures forall k | 0 <= k < |r.samples| :: r.samples[k].segmentId != db.segments[i].id
    ensures forall k | 0 <= k < |r.cans| :: r.cans[k].segmentId != db.segments[i].id
    ensures forall k | 0 <= k < |r.logs| :: r.logs[k].segmentId != db.segments[i].id
    ensures forall k | 0 <= k < |r.videos| :: r.videos[k].segmentId != db.segments[i].id
    ensures forall k | 0 <= k < |db.samples| && db.samples[k].segmentId != db.segments[i].id :: db.samples[k] in r.samples
    ensures forall k | 0 <= k < |db.cans| && db.cans[k].segmentId != db.segments[i].id :: db.cans[k] in r.cans
    ensures forall k | 0 <= k < |db.logs| && db.logs[k].segmentId != db.segments[i].id :: db.logs[k] in r.logs
    ensures forall k | 0 <= k < |db.videos| && db.videos[k].segmentId != db.segments[i].id :: db.videos[k] in r.videos
    ensures ChildrenFrom(r, db)
    ensures r.routes == db.routes && r.nextId == db.nextId && r.cerealDefs == db.cerealDefs
  {
    var id := db.segments[i].id;
    var cleared := ClearChildren(db, {id});
    var segs := db.segments[i := db.segments[i].(info := info)];
    assert forall a, b | 0 <= a < b < |segs| :: Compatible(segs[a], segs[b]) by {
      forall a, b | 0 <= a < b < |segs| ensures Compatible(segs[a], segs[b]) {
        assert Compatible(db.segments[a], db.segments[b]);
      }
    }
    cleared.(segments := segs)
  }

  /** A first import: a new row under a fresh id. */
  function AppendSegment(db: Db, routeId: string, number: Option<int>, info: SegmentInfo): (r: (Db, nat))
    requires Valid(db)
    requires number.None? || forall i | 0 <= i < |db.segments| :: !(db.segments[i].routeId == routeId && db.segments[i].number == number)
    ensures Valid(r.0)
    ensures forall i | 0 <= i < |db.segments| :: db.segments[i].id != r.1
    ensures r.0.segments == db.segments + [SegmentRow(r.1, routeId, number, info)]
    ensures r.1 == db.nextId
    ensures r.0 == db.(segments := r.0.segments, nextId := db.nextId + 1)
  {
    var id := db.nextId;
    var segs := db.segments + [SegmentRow(id, routeId, number, info)];
    (db.(segments := segs, nextId := id + 1), id)
  }

  /** The re-import branch of `insert_segment`, for the row at index `i`. */
  function ReinsertSegment(db: Db, i: nat, info: SegmentInfo): (r: (Db, nat))
    requires Valid(db) && i < |db.segments|
    ensures r.1 == db.segments[i].id
    ensures Valid(r.0)
    ensures SegmentRow(r.1, db.segments[i].routeId, db.segments[i].number, info) in r.0.segments
    ensures r.0.routes.Keys == db.routes.Keys
    ensures db.segments[i].routeId in db.routes ==>
              r.0.routes[db.segments[i].routeId] == db.routes[db.segments[i].routeId].(totalSegments := Some(SegmentCount(r.0.segments, db.segments[i].routeId)))
    ensures forall id | id in db.routes && id != db.segments[i].routeId :: r.0.routes[id] == db.routes[id]
    ensures forall k | 0 <= k < |db.samples| && db.samples[k].segmentId != r.1 :: db.samples[k] in r.0.samples
    ensures r.0.cerealDefs == db.cerealDefs
    ensures ChildrenFrom(r.0, db) && r.0.nextId >= db.nextId
  {
    var replaced := ReplaceSegment(db, i, info);
    assert replaced.segments[i] == SegmentRow(db.segments[i].id, db.segments[i].routeId, db.segments[i].number, info);
    (RecountSegments(replaced, db.segments[i].routeId), db.segments[i].id)
  }

  /** The first-import branch of `insert_segment`. */
  function FirstInsertSegment(db: Db, routeId: string, number: Option<int>, info: SegmentInfo): (r: (Db, nat))
    requires Valid(db)
    requires number.None? || forall i | 0 <= i < |db.segments| :: !(db.segments[i].routeId == routeId && db.segments[i].number == number)
    ensures r.1 == db.nextId
    ensures Valid(r.0)
    ensures SegmentRow(r.1, routeId, number, info) in r.0.segments
    ensures r.0.routes.Keys == db.routes.Keys
    ensures routeId in db.routes ==>
              r.0.routes[routeId] == db.routes[routeId].(totalSegments := Some(SegmentCount(r.0.segments, routeId)))
    ensures forall id | id in db.routes && id != routeId :: r.0.routes[id] == db.routes[id]
    ensures forall k | 0 <= k < |db.samples| && db.samples[k].segmentId != r.1 :: db.samples[k] in r.0.samples
    ensures r.0.cerealDefs == db.cerealDefs
    ensures ChildrenFrom(r.0, db) && r.0.nextId >= db.nextId
  {
    var (appended, id) := AppendSegment(db, routeId, number, info);
    assert appended.segments[|db.segments|] == SegmentRow(id, routeId, number, info);
    (RecountSegments(appended, routeId), id)
  }

  /** `insert_segment`: a segment already stored under the same route and
      number keeps its id, loses its child rows and takes the new attributes;
      otherwise a new row with a fresh id is appended. Either way the route's
      segment count is refreshed. */
  function InsertSegment(db: Db, routeId: string, segmentNum: Option<int>, segmentNumber: Option<int>,
                         info: SegmentInfo): (r: (Db, nat))
    requires Valid(db)
    ensures Valid(r.0)
    ensures SegmentRow(r.1, routeId, SegmentNumberArg(segmentNum, segmentNumber), info) in r.0.segments
    ensures r.0.routes.Keys == db.routes.Keys
    ensures routeId in db.routes ==>
              r.0.routes[routeId] == db.routes[routeId].(totalSegments := Some(SegmentCount(r.0.segments, routeId)))
    ensures forall id | id in db.routes && id != routeId :: r.0.routes[id] == db.routes[id]
    ensures forall k | 0 <= k < |db.samples| && db.samples[k].segmentId != r.1 :: db.samples[k] in r.0.samples
    ensures r.0.cerealDefs == db.cerealDefs
    ensures ChildrenFrom(r.0, db) && r.0.nextId >= db.nextId
  {
    var number := SegmentNumberArg(segmentNum, segmentNumber);
    match FindSegment(db.segments, routeId, number)
    case Some(i) => ReinsertSegment(db, i, info)
    case None => FirstInsertSegment(db, routeId, number, info)
  }

  /** Re-import of a stored (route, number): the same id comes back, no row is
      added, and none of its samples, CAN frames, log lines or frame times
      survive. */
  lemma InsertSegmentReuses(db: Db, routeId: string, segmentNum: Option<int>, segmentNumber: Option<int>,
                            info: SegmentInfo)
    requires Valid(db)
    requires FindSegment(db.segments, routeId, SegmentNumberArg(segmentNum, segmentNumber)).Some?
    ensures var i := FindSegment(db.segments, routeId, SegmentNumberArg(segmentNum, segmentNumber)).value;
            var (r, id) := InsertSegment(db, routeId, segmentNum, segmentNumber, info);
            && id == db.segments[i].id
            && |r.segments| == |db.segments|
            && (forall k | 0 <= k < |r.samples| :: r.samples[k].segmentId != id)
            && (forall k | 0 <= k < |r.cans| :: r.cans[k].segmentId != id)
            && (forall k | 0 <= k < |r.logs| :: r.logs[k].segmentId != id)
            && (forall k | 0 <= k < |r.videos| :: r.videos[k].segmentId != id)
  {
  }

  /** A first import appends exactly one row under an id no stored segment
      has, and leaves the samples alone. */
  lemma InsertSegmentAppends(db: Db, routeId: string, segmentNum: Option<int>, segmentNumber: Option<int>,
                             info: SegmentInfo)
    requires Valid(db)
    requires FindSegment(db.segments, routeId, SegmentNumberArg(segmentNum, segmentNumber)).None?
    ensures var (r, id) := InsertSegment(db, routeId, segmentNum, segmentNumber, info);
            && (forall i | 0 <= i < |db.segments| :: db.segments[i].id != id)
            && id == db.nextId
            && r.segments == db.segments + [SegmentRow(id, routeId, SegmentNumberArg(segmentNum, segmentNumber), info)]
            && r.samples == db.samples && r.cans == db.cans && r.logs == db.logs && r.videos == db.videos
  {
  }

  /** Importing the same segment twice reuses its row: the second insert
      returns the first one's id, leaves the segment list the same length and
      drops every sample stored under that id in between. */
  lemma ReimportReusesSegment(db: Db, routeId: string, n: int, info1: SegmentInfo, info2: SegmentInfo,
                              added: seq<Sample>)
    requires Valid(db)
    ensures var (db1, id1) := InsertSegment(db, routeId, None, Some(n), info1);
            var db1' := db1.(samples := db1.samples + added);
            var (db2, id2) := InsertSegment(db1', routeId, None, Some(n), info2);
            && id2 == id1
            && |db2.segments| == |db1.segments|
            && (forall k | 0 <= k < |db2.samples| :: db2.samples[k].segmentId != id1)
  {
    var (db1, id1) := InsertSegment(db, routeId, None, Some(n), info1);
    var db1' := db1.(samples := db1.samples + added);
    assert SegmentRow(id1, routeId, Some(n), info1) in db1.segments;
    var i :| 0 <= i < |db1.segments| && db1.segments[i] == SegmentRow(id1, routeId, Some(n), info1);
    var found := FindSegment(db1'.segments, routeId, Some(n));
    assert found.Some?;
    var j := found.value;
    SameKeySameRow(db1, i, j);
    InsertSegmentReuses(db1', routeId, None, Some(n), info2);
  }

  /** In a valid store a route and segment number pick out one row. */
  lemma SameKeySameRow(db: Db, i: nat, j: nat)
    requires Valid(db) && i < |db.segments| && j < |db.segments|
    requires db.segments[i].routeId == db.segments[j].routeId
    requires db.segments[i].number.Some? && db.segments[i].number == db.segments[j].number
    ensures i == j
  {
  }

  /** `delete_route`: the child rows of every segment of the route, those
      segments and the route row are removed; with no segments only the route
      row goes. */
  function DeleteRoute(db: Db, routeId: string): (r: Db)
    ensures routeId !in r.routes
    ensures r.routes == db.routes - {routeId}
    ensures forall i | 0 <= i < |r.segments| :: r.segments[i].routeId != routeId
    ensures forall i | 0 <= i < |db.segments| && db.segments[i].routeId != routeId :: db.segments[i] in r.segments
    ensures forall k | 0 <= k < |r.samples| :: r.samples[k].segmentId !in SegmentIdsOf(db.segments, routeId)
    ensures forall k | 0 <= k < |r.cans| :: r.cans[k].segmentId !in SegmentIdsOf(db.segments, routeId)
    ensures forall k | 0 <= k < |r.logs| :: r.logs[k].segmentId !in SegmentIdsOf(db.segments, routeId)
    ensures forall k | 0 <= k < |r.videos| :: r.videos[k].segmentId !in SegmentIdsOf(db.segments, routeId)
    ensures forall k | 0 <= k < |db.samples| && db.samples[k].segmentId !in SegmentIdsOf(db.segments, routeId) ::
              db.samples[k] in r.samples
    ensures forall k | 0 <= k < |db.cans| && db.cans[k].segmentId !in SegmentIdsOf(db.segments, routeId) ::
              db.cans[k] in r.cans
    ensures forall k | 0 <= k < |db.logs| && db.logs[k].segmentId !in SegmentIdsOf(db.segments, routeId) ::
              db.logs[k] in r.logs
    ensures forall k | 0 <= k < |db.videos| && db.videos[k].segmentId !in SegmentIdsOf(db.segments, routeId) ::
              db.videos[k] in r.videos
    ensures ChildrenFrom(r, db)
    ensures r.nextId == db.nextId && r.cerealDefs == db.cerealDefs
    ensures SegmentIdsOf(db.segments, routeId) == {} ==> r == db.(routes := db.routes - {routeId})
  {
    var ids := SegmentIdsOf(db.segments, routeId);
    if ids != {} then
      var cleared := ClearChildren(db, ids);
      FilterMembers(db.segments, NotOfRoute(routeId));
      cleared.(segments := Filter(db.segments, NotOfRoute(routeId)),
               routes := db.routes - {routeId})
    else
      assert forall i | 0 <= i < |db.segments| :: db.segments[i].routeId != routeId by {
        forall i | 0 <= i < |db.segments| ensures db.segments[i].routeId != routeId {
          assert db.segments[i].id !in ids;
        }
      }
      db.(routes := db.routes - {routeId})
  }

  lemma DeleteRouteValid(db: Db, routeId: string)
    requires Valid(db)
    ensures Valid(DeleteRoute(db, routeId))
  {
    if SegmentIdsOf(db.segments, routeId) != {} {
      FilterPairwise(db.segments, NotOfRoute(routeId), Compatible);
      FilterMembers(db.segments, NotOfRoute(routeId));
    }
  }
}

=== FILE: store_queries.dfy ===
/** Read queries of src/core/sqlite_manager.py: the segment list with the
    start time shown for each segment (`get_segments_with_time`) and the
    time-window sample query (`get_timeseries_data`). */
module StoreQueries {
  import opened Wrappers
  import opened Seqs
  import opened Store
  import TimeResolution

  // ---------------------------------------------------------------------------
  // get_segments_with_time
  // ---------------------------------------------------------------------------

  /** The start shown for a segment: Unix seconds from a GPS-derived source,
      or nanoseconds from the monotonic clock plus the wall-time offset. */
  datatype DisplayStart = Seconds(s: int) | Nanos(ns: int)

  datatype SegmentTime = SegmentTime(id: nat, number: Option<int>, start: DisplayStart)

  /** The segment's own fix, else the route start plus one minute per
      segment, else the monotonic start shifted by the wall-time offset.
      `None` where Python would multiply a NULL segment number and raise. */
  function DisplayStartOf(seg: SegmentRow, routeStart: Option<int>): (r: Option<DisplayStart>)
    ensures TimeResolution.Truthy(seg.info.gps) ==> r == Some(Seconds(seg.info.gps.value))
    ensures !TimeResolution.Truthy(seg.info.gps) && TimeResolution.Truthy(routeStart) && seg.number.Some? ==>
              r == Some(Seconds(routeStart.value + seg.number.value * TimeResolution.SegmentSeconds))
    ensures !TimeResolution.Truthy(seg.info.gps) && !TimeResolution.Truthy(routeStart) ==>
              r == Some(Nanos(seg.info.startNs + seg.info.wallOffsetNs))
    ensures r.None? <==> !TimeResolution.Truthy(seg.info.gps) && TimeResolution.Truthy(routeStart) && seg.number.None?
  {
    if TimeResolution.Truthy(seg.info.gps) then Some(Seconds(seg.info.gps.value))
    else if TimeResolution.Truthy(routeStart) then
      if seg.number.None? then None
      else Some(Seconds(routeStart.value + seg.number.value * TimeResolution.SegmentSeconds))
    else Some(Nanos(seg.info.startNs + seg.info.wallOffsetNs))
  }

  function NumberKey(s: SegmentRow): int {
    if s.number.Some? then s.number.value else 0
  }

  function IsNull(s: SegmentRow): bool {
    s.number.None?
  }

  function IsNumbered(s: SegmentRow): bool {
    s.number.Some?
  }

  /** `ORDER BY segment_number` over a route's segments: NULL numbers first,
      then ascending numbers, ties in row order. */
  function RouteSegmentsOrdered(segs: seq<SegmentRow>, routeId: string): (r: seq<SegmentRow>)
    ensures |r| == SegmentCount(segs, routeId)
  {
    var mine := Filter(segs, OfRoute(routeId));
    var nulls := Filter(mine, IsNull);
    var sorted := SortBy(Filter(mine, IsNumbered), NumberKey);
    FilterSplitLength(mine, IsNull, IsNumbered);
    nulls + sorted
  }

  /** The ordered list holds exactly the route's segments, with the NULL
      numbers first and the rest by ascending number. */
  lemma RouteSegmentsOrderedExact(segs: seq<SegmentRow>, routeId: string)
    ensures var r := RouteSegmentsOrdered(segs, routeId);
            forall k | 0 <= k < |r| :: r[k] in segs && r[k].routeId == routeId
    ensures var r := RouteSegmentsOrdered(segs, routeId);
            forall k | 0 <= k < |segs| && segs[k].routeId == routeId :: segs[k] in r
    ensures var r := RouteSegmentsOrdered(segs, routeId);
            forall i, j | 0 <= i < j < |r| && r[i].number.Some? :: r[j].number.Some? && r[i].number.value <= r[j].number.value
  {
    var mine := Filter(segs, OfRoute(routeId));
    var nulls := Filter(mine, IsNull);
    var sorted := SortBy(Filter(mine, IsNumbered), NumberKey);
    assert RouteSegmentsOrdered(segs, routeId) == nulls + sorted;
    NullsThenSortedMembers(segs, routeId, mine, nulls, sorted);
    FilterMembers(mine, IsNull);
    FilterMembers(mine, IsNumbered);
    SortByMembers(Filter(mine, IsNumbered), NumberKey);
    NullsThenSortedAscending(nulls, sorted);
  }

  lemma NullsThenSortedMembers(segs: seq<SegmentRow>, routeId: string, mine: seq<SegmentRow>,
                               nulls: seq<SegmentRow>, sorted: seq<SegmentRow>)
    requires mine == Filter(segs, OfRoute(routeId))
    requires nulls == Filter(mine, IsNull) && sorted == SortBy(Filter(mine, IsNumbered), NumberKey)
    ensures forall k | 0 <= k < |nulls + sorted| :: (nulls + sorted)[k] in segs && (nulls + sorted)[k].routeId == routeId
    ensures forall k | 0 <= k < |segs| && segs[k].routeId == routeId :: segs[k] in nulls + sorted
  {
    NullsThenSortedSound(segs, routeId, mine, nulls, sorted);
    NullsThenSortedComplete(segs, routeId, mine, nulls, sorted);
  }

  lemma NullsThenSortedSound(segs: seq<SegmentRow>, routeId: string, mine: seq<SegmentRow>,
                             nulls: seq<SegmentRow>, sorted: seq<SegmentRow>)
    requires mine == Filter(segs, OfRoute(routeId))
    requires nulls == Filter(mine, IsNull) && sorted == SortBy(Filter(mine, IsNumbered), NumberKey)
    ensures forall k | 0 <= k < |nulls + sorted| :: (nulls + sorted)[k] in segs && (nulls + sorted)[k].routeId == routeId
  {
    var numbered := Filter(mine, IsNumbered);
    FilterMembers(segs, OfRoute(routeId));
    FilterMembers(mine, IsNull);
    FilterMembers(mine, IsNumbered);
    SortByMembers(numbered, NumberKey);
    var r := nulls + sorted;
    forall k | 0 <= k < |r| ensures r[k] in segs && r[k].routeId == routeId {
      var x := r[k];
      if k < |nulls| {
        assert x == nulls[k];
      } else {
        assert x == sorted[k - |nulls|];
        var m :| 0 <= m < |numbered| && numbered[m] == x;
      }
      assert x in mine;
      var m :| 0 <= m < |mine| && mine[m] == x;
      assert OfRoute(routeId)(mine[m]);
    }
  }

  lemma NullsThenSortedComplete(segs: seq<SegmentRow>, routeId: string, mine: seq<SegmentRow>,
                                nulls: seq<SegmentRow>, sorted: seq<SegmentRow>)
    requires mine == Filter(segs, OfRoute(routeId))
    requires nulls == Filter(mine, IsNull) && sorted == SortBy(Filter(mine, IsNumbered), NumberKey)
    ensures forall k | 0 <= k < |segs| && segs[k].routeId == routeId :: segs[k] in nulls + sorted
  {
    var numbered := Filter(mine, IsNumbered);
    FilterMembers(segs, OfRoute(routeId));
    FilterMembers(mine, IsNull);
    FilterMembers(mine, IsNumbered);
    SortByMembers(numbered, NumberKey);
    forall k | 0 <= k < |segs| && segs[k].routeId == routeId ensures segs[k] in nulls + sorted {
      assert OfRoute(routeId)(segs[k]);
      assert segs[k] in mine;
      var m :| 0 <= m < |mine| && mine[m] == segs[k];
      if IsNull(mine[m]) {
        assert mine[m] in nulls;
      } else {
        assert mine[m] in numbered;
        var n :| 0 <= n < |numbered| && numbered[n] == mine[m];
        assert mine[m] in sorted;
      }
    }
  }

  lemma NullsThenSortedAscending(nulls: seq<SegmentRow>, sorted: seq<SegmentRow>)
    requires forall k | 0 <= k < |nulls| :: nulls[k].number.None?
    requires forall k | 0 <= k < |sorted| :: sorted[k].number.Some?
    requires SortedBy(sorted, NumberKey)
    ensures var r := nulls + sorted;
            forall i, j | 0 <= i < j < |r| && r[i].number.Some? :: r[j].number.Some? && r[i].number.value <= r[j].number.value
  {
    var r := nulls + sorted;
    forall i, j | 0 <= i < j < |r| && r[i].number.Some?
      ensures r[j].number.Some? && r[i].number.value <= r[j].number.value
    {
      assert i >= |nulls|;
      assert r[i] == sorted[i - |nulls|] && r[j] == sorted[j - |nulls|];
      assert NumberKey(sorted[i - |nulls|]) <= NumberKey(sorted[j - |nulls|]);
    }
  }

  /** `get_segments_with_time`: one entry per segment of the route, in segment
      number order, each with its display start. */
  function SegmentsWithTime(db: Db, routeId: string): (r: Option<seq<SegmentTime>>)
    ensures r.Some? ==> |r.value| == SegmentCount(db.segments, routeId)
    ensures r.Some? ==>
              var rows := RouteSegmentsOrdered(db.segments, routeId);
              var start := if routeId in db.routes then db.routes[routeId].startTimestamp else None;
              forall k | 0 <= k < |r.value| ::
                r.value[k].id == rows[k].id && r.value[k].number == rows[k].number
                && Some(r.value[k].start) == DisplayStartOf(rows[k], start)
    ensures r.None? <==>
              var start := if routeId in db.routes then db.routes[routeId].startTimestamp else None;
              exists k | 0 <= k < |RouteSegmentsOrdered(db.segments, routeId)| ::
                DisplayStartOf(RouteSegmentsOrdered(db.segments, routeId)[k], start).None?
  {
    var start := if routeId in db.routes then db.routes[routeId].startTimestamp else None;
    DisplayAll(RouteSegmentsOrdered(db.segments, routeId), start)
  }

  function DisplayAll(rows: seq<SegmentRow>, start: Option<int>): (r: Option<seq<SegmentTime>>)
    ensures r.Some? ==> |r.value| == |rows|
    ensures r.Some? ==> forall k | 0 <= k < |rows| ::
              r.value[k].id == rows[k].id && r.value[k].number == rows[k].number
              && Some(r.value[k].start) == DisplayStartOf(rows[k], start)
    ensures r.None? <==> exists k | 0 <= k < |rows| :: DisplayStartOf(rows[k], start).None?
  {
    if |rows| == 0 then Some([])
    else
      match DisplayStartOf(rows[0], start)
      case None => None
      case Some(d) =>
        match DisplayAll(rows[1..], start)
        case None =>
          assert exists k | 0 <= k < |rows| :: DisplayStartOf(rows[k], start).None? by {
            var k :| 0 <= k < |rows[1..]| && DisplayStartOf(rows[1..][k], start).None?;
            assert rows[k + 1] == rows[1..][k];
          }
          None
        case Some(rest) =>
          assert forall k | 0 <= k < |rows| :: DisplayStartOf(rows[k], start).Some? by {
            forall k | 0 <= k < |rows| ensures DisplayStartOf(rows[k], start).Some? {
              if k > 0 {
                assert rows[k] == rows[1..][k - 1];
              }
            }
          }
          Some([SegmentTime(rows[0].id, rows[0].number, d)] + rest)
  }

  // ---------------------------------------------------------------------------
  // get_timeseries_data
  // ---------------------------------------------------------------------------

  datatype Point = Point(timeNs: int, value: real)

  /** How the signal calculator answers for a name: not a custom signal, its
      computed points, or an exception (which leaves the list empty). */
  datatype CustomResult = NotCustom | Computed(points: seq<Point>) | Raised

  /** A single name returns its list; a list of names returns a map. */
  datatype NameArg = One(name: string) | Many(names: seq<string>)
  datatype SeriesResult = Points(points: seq<Point>) | ByName(series: map<string, seq<Point>>)

  /** `WHERE segment_id = ? AND time_ns BETWEEN ? AND ? AND signal_name = ?`. */
  function InWindow(segmentId: nat, startNs: int, endNs: int, name: string): Sample -> bool {
    (x: Sample) => x.segmentId == segmentId && startNs <= x.timeNs <= endNs && x.name == name
  }

  function SampleTime(x: Sample): int {
    x.timeNs
  }

  function ToPoints(xs: seq<Sample>): (r: seq<Point>)
    ensures |r| == |xs|
    ensures forall k | 0 <= k < |r| :: r[k] == Point(xs[k].timeNs, xs[k].value)
  {
    seq(|xs|, k requires 0 <= k < |xs| => Point(xs[k].timeNs, xs[k].value))
  }

  /** The stored samples of one name in the window, ordered by time. */
  function StoredSeries(db: Db, segmentId: nat, startNs: int, endNs: int, name: string): (r: seq<Sample>)
    ensures SortedBy(r, SampleTime)
    ensures multiset(r) == multiset(Filter(db.samples, InWindow(segmentId, startNs, endNs, name)))
  {
    SortBy(Filter(db.samples, InWindow(segmentId, startNs, endNs, name)), SampleTime)
  }

  function SeriesFor(db: Db, segmentId: nat, startNs: int, endNs: int, name: string,
                     calculator: string -> CustomResult): seq<Point>
  {
    match calculator(name)
    case NotCustom => ToPoints(StoredSeries(db, segmentId, startNs, endNs, name))
    case Computed(points) => points
    case Raised => []
  }

  function SeriesMap(db: Db, segmentId: nat, startNs: int, endNs: int, names: seq<string>,
                     calculator: string -> CustomResult): (r: map<string, seq<Point>>)
    ensures r.Keys == set k | 0 <= k < |names| :: names[k]
    ensures forall n | n in r :: r[n] == SeriesFor(db, segmentId, startNs, endNs, n, calculator)
  {
    map n | n in (set k | 0 <= k < |names| :: names[k]) :: SeriesFor(db, segmentId, startNs, endNs, n, calculator)
  }

  /** `get_timeseries_data`: every requested name gets a list; a stored
      signal's list holds exactly its samples of that segment with
      start <= time <= end, in time order; a custom signal's list is what the
      calculator computed, or empty if it raised. */
  function GetTimeseriesData(db: Db, segmentId: nat, startNs: int, endNs: int, names: NameArg,
                             calculator: string -> CustomResult): (r: SeriesResult)
    ensures names.One? ==> r.Points? && r.points == SeriesFor(db, segmentId, startNs, endNs, names.name, calculator)
    ensures names.Many? ==> r.ByName? && r.series.Keys == set k | 0 <= k < |names.names| :: names.names[k]
    ensures names.Many? ==> forall n | n in r.series :: r.series[n] == SeriesFor(db, segmentId, startNs, endNs, n, calculator)
  {
    match names
    case One(n) =>
      var m := SeriesMap(db, segmentId, startNs, endNs, [n], calculator);
      assert [n][0] == n;
      assert n in m;
      Points(m[n])
    case Many(ns) => ByName(SeriesMap(db, segmentId, startNs, endNs, ns, calculator))
  }

  /** A stored signal's series is ordered by time, and holds a sample's point
      exactly when that sample lies in the window. */
  lemma StoredSeriesExact(db: Db, segmentId: nat, startNs: int, endNs: int, name: string,
                          calculator: string -> CustomResult)
    requires calculator(name).NotCustom?
    ensures var pts := SeriesFor(db, segmentId, startNs, endNs, name, calculator);
            forall i, j | 0 <= i < j < |pts| :: pts[i].timeNs <= pts[j].timeNs
    ensures forall k | 0 <= k < |db.samples| && InWindow(segmentId, startNs, endNs, name)(db.samples[k]) ::
              Point(db.samples[k].timeNs, db.samples[k].value) in SeriesFor(db, segmentId, startNs, endNs, name, calculator)
    ensures forall p | p in SeriesFor(db, segmentId, startNs, endNs, name, calculator) ::
              startNs <= p.timeNs <= endNs
  {
    var stored := StoredSeries(db, segmentId, startNs, endNs, name);
    var pts := ToPoints(stored);
    assert forall i, j | 0 <= i < j < |pts| :: pts[i].timeNs <= pts[j].timeNs by {
      forall i, j | 0 <= i < j < |pts| ensures pts[i].timeNs <= pts[j].timeNs {
        assert SampleTime(stored[i]) <= SampleTime(stored[j]);
      }
    }
    StoredSeriesComplete(db, segmentId, startNs, endNs, name);
    StoredSeriesInWindow(db, segmentId, startNs, endNs, name);
  }

  lemma StoredSeriesComplete(db: Db, segmentId: nat, startNs: int, endNs: int, name: string)
    ensures forall k | 0 <= k < |db.samples| && InWindow(segmentId, startNs, endNs, name)(db.samples[k]) ::
              Point(db.samples[k].timeNs, db.samples[k].value) in ToPoints(StoredSeries(db, segmentId, startNs, endNs, name))
  {
    var window := Filter(db.samples, InWindow(segmentId, startNs, endNs, name));
    var stored := StoredSeries(db, segmentId, startNs, endNs, name);
    FilterMembers(db.samples, InWindow(segmentId, startNs, endNs, name));
    SortByMembers(window, SampleTime);
    var pts := ToPoints(stored);
    forall k | 0 <= k < |db.samples| && InWindow(segmentId, startNs, endNs, name)(db.samples[k])
      ensures Point(db.samples[k].timeNs, db.samples[k].value) in pts
    {
      var x := db.samples[k];
      assert x in window;
      var m :| 0 <= m < |window| && window[m] == x;
      assert x in stored;
      var i :| 0 <= i < |stored| && stored[i] == x;
      assert pts[i] == Point(x.timeNs, x.value);
    }
  }

  lemma StoredSeriesInWindow(db: Db, segmentId: nat, startNs: int, endNs: int, name: string)
    ensures forall p | p in ToPoints(StoredSeries(db, segmentId, startNs, endNs, name)) :: startNs <= p.timeNs <= endNs
  {
    var window := Filter(db.samples, InWindow(segmentId, startNs, endNs, name));
    var stored := StoredSeries(db, segmentId, startNs, endNs, name);
    FilterMembers(db.samples, InWindow(segmentId, startNs, endNs, name));
    SortByMembers(window, SampleTime);
    var pts := ToPoints(stored);
    forall p | p in pts ensures startNs <= p.timeNs <= endNs {
      var i :| 0 <= i < |pts| && pts[i] == p;
      assert stored[i] in window;
    }
  }
}

=== FILE: strings.dfy ===
/** The Python string operations the viewer relies on, written out over
    `seq<char>`: substring search, `split`/`join`, `replace`, `lower`, `strip`,
    `int(x)`, `int(x, 16)` and the `%03X` / `%d` formats. */
module Strings {
  import opened Wrappers

  // ---------------------------------------------------------------------------
  // Prefixes, suffixes and substrings
  // ---------------------------------------------------------------------------

  /** Python `s.startswith(p)`. */
  predicate StartsWith(s: string, p: string) {
    |p| <= |s| && s[..|p|] == p
  }

  lemma StartsWithConcat(a: string, b: string)
    ensures StartsWith(a + b, a)
  {
    assert (a + b)[..|a|] == a;
  }

  /** Python `s.endswith(p)`. */
  predicate EndsWith(s: string, p: string) {
    |p| <= |s| && s[|s| - |p|..] == p
  }

  /** `t` occurs in `s` at index `i`. */
  predicate OccursAt(s: string, t: string, i: nat) {
    i + |t| <= |s| && s[i..i + |t|] == t
  }

  /** Python `t in s` on strings. */
  predicate Contains(s: string, t: string) {
    exists i: nat | i <= |s| :: OccursAt(s, t, i)
  }

  lemma OccursAtContains(s: string, t: string, i: nat)
    requires OccursAt(s, t, i)
    ensures Contains(s, t)
  {
  }

  lemma ContainsEmpty(s: string)
    ensures Contains(s, "")
  {
    assert OccursAt(s, "", 0);
  }

  lemma ContainsSelf(s: string)
    ensures Contains(s, s)
  {
    assert OccursAt(s, s, 0);
  }

  /** The leftmost occurrence of `t` in `s` at or after index `k`. */
  function FindFrom(s: string, t: string, k: nat): (r: Option<nat>)
    requires k <= |s|
    decreases |s| - k
    ensures r.Some? ==> k <= r.value <= |s| && OccursAt(s, t, r.value)
    ensures r.Some? ==> forall j: nat :: k <= j < r.value ==> !OccursAt(s, t, j)
    ensures r.None? ==> forall j: nat :: k <= j ==> !OccursAt(s, t, j)
  {
    if OccursAt(s, t, k) then Some(k)
    else if k == |s| then None
    else FindFrom(s, t, k + 1)
  }

  /** Python `s.find(t)`, with `None` for -1. */
  function Find(s: string, t: string): (r: Option<nat>)
    ensures r.None? <==> !Contains(s, t)
    ensures r.Some? ==> OccursAt(s, t, r.value)
    ensures r.Some? ==> forall j: nat :: j < r.value ==> !OccursAt(s, t, j)
  {
    FindFrom(s, t, 0)
  }

  /** A string in which the first character of `t` never appears cannot contain `t`. */
  lemma NoFirstCharNoOccurrence(s: string, t: string)
    requires |t| > 0 && t[0] !in s
    ensures !Contains(s, t)
  {
  }

  /** Nor can one missing any character of `t`. */
  lemma MissingCharNoOccurrence(s: string, t: string, j: nat)
    requires j < |t| && t[j] !in s
    ensures !Contains(s, t)
  {
    forall i: nat | i <= |s| ensures !OccursAt(s, t, i) {
      if i + |t| <= |s| {
        assert s[i..i + |t|][j] == s[i + j];
        assert s[i + j] in s;
      }
    }
  }

  // ---------------------------------------------------------------------------
  // split / join / replace
  // ---------------------------------------------------------------------------

  /** Python `sep.join(parts)`. */
  function Join(parts: seq<string>, sep: string): string
  {
    if |parts| == 0 then ""
    else if |parts| == 1 then parts[0]
    else parts[0] + sep + Join(parts[1..], sep)
  }

  lemma PrefixBeforeFirstOccurrence(s: string, t: string, i: nat)
    requires |t| > 0 && i <= |s|
    requires forall j: nat :: j < i ==> !OccursAt(s, t, j)
    ensures !Contains(s[..i], t)
  {
    if Contains(s[..i], t) {
      var j: nat :| j <= i && OccursAt(s[..i], t, j);
      assert s[..i][j..j + |t|] == s[j..j + |t|];
      assert OccursAt(s, t, j);
    }
  }

  /** Python `s.split(sep)` for a non-empty separator: the pieces between the
      leftmost non-overlapping occurrences of `sep`. */
  function Split(s: string, sep: string): (parts: seq<string>)
    requires |sep| > 0
    decreases |s|
    ensures |parts| >= 1
    ensures forall k | 0 <= k < |parts| :: !Contains(parts[k], sep)
  {
    match Find(s, sep)
    case None => [s]
    case Some(i) =>
      PrefixBeforeFirstOccurrence(s, sep, i);
      [s[..i]] + Split(s[i + |sep|..], sep)
  }

  /** Joining the pieces of a split with the same separator gives the string back. */
  lemma {:induction false} JoinSplit(s: string, sep: string)
    requires |sep| > 0
    decreases |s|
    ensures Join(Split(s, sep), sep) == s
  {
    var f := Find(s, sep);
    if f.Some? {
      var i := f.value;
      var rest := s[i + |sep|..];
      var tail := Split(rest, sep);
      var parts := [s[..i]] + tail;
      assert Split(s, sep) == parts;
      JoinSplit(rest, sep);
      assert parts[1..] == tail;
      assert Join(parts, sep) == s[..i] + sep + rest;
      SliceAround(s, i, |sep|);
    }
  }

  lemma SliceAround(s: string, i: nat, n: nat)
    requires i + n <= |s|
    ensures s == s[..i] + s[i..i + n] + s[i + n..]
  {
  }

  lemma FindAfterPiece(p: string, sep: string, tail: string)
    requires |sep| > 0 && sep[0] !in p
    ensures Find(p + sep + tail, sep) == Some(|p|)
  {
    var s := p + sep + tail;
    assert OccursAt(s, sep, |p|) by {
      assert s[|p|..|p| + |sep|] == sep;
    }
    forall j: nat | j < |p|
      ensures !OccursAt(s, sep, j)
    {
      assert s[j] == p[j];
    }
  }

  lemma SplitAfterPiece(p: string, sep: string, tail: string)
    requires |sep| > 0 && Find(p + sep + tail, sep) == Some(|p|)
    ensures Split(p + sep + tail, sep) == [p] + Split(tail, sep)
  {
    var s := p + sep + tail;
    assert s[..|p|] == p;
    assert s[|p| + |sep|..] == tail;
  }

  /** Splitting pieces joined by `sep` recovers them, provided no piece contains
      the separator's first character. */
  lemma {:induction false} SplitJoin(parts: seq<string>, sep: string)
    requires |sep| > 0 && |parts| >= 1
    requires forall k | 0 <= k < |parts| :: sep[0] !in parts[k]
    decreases |parts|
    ensures Split(Join(parts, sep), sep) == parts
  {
    if |parts| == 1 {
      NoFirstCharNoOccurrence(parts[0], sep);
    } else {
      var tail := Join(parts[1..], sep);
      var s := parts[0] + sep + tail;
      assert Join(parts, sep) == s;
      FindAfterPiece(parts[0], sep, tail);
      SplitAfterPiece(parts[0], sep, tail);
      assert forall k | 0 <= k < |parts[1..]| :: parts[1..][k] == parts[k + 1];
      SplitJoin(parts[1..], sep);
      assert parts == [parts[0]] + parts[1..];
    }
  }

  lemma SplitTwo(a: string, b: string, sep: string)
    requires |sep| > 0 && sep[0] !in a && sep[0] !in b
    ensures Split(a + sep + b, sep) == [a, b]
  {
    var parts := [a, b];
    assert Join(parts, sep) == a + sep + b by {
      assert parts[1..] == [b];
    }
    SplitJoin(parts, sep);
  }

  lemma SplitThree(a: string, b: string, c: string, sep: string)
    requires |sep| > 0 && sep[0] !in a && sep[0] !in b && sep[0] !in c
    ensures Split(a + sep + b + sep + c, sep) == [a, b, c]
  {
    var parts := [a, b, c];
    assert Join(parts, sep) == a + sep + b + sep + c by {
      assert parts[1..] == [b, c];
      JoinTwo(b, c, sep);
    }
    SplitJoin(parts, sep);
  }

  /** A string split into more than one piece contains the separator. */
  lemma SplitSeveralContains(s: string, sep: string)
    requires |sep| > 0 && |Split(s, sep)| > 1
    ensures Contains(s, sep)
  {
  }

  lemma JoinTwo(a: string, b: string, sep: string)
    ensures Join([a, b], sep) == a + sep + b
  {
    assert [a, b][1..] == [b];
  }

  /** Python `s.replace(pat, rep)` for a non-empty `pat`. */
  function ReplaceAll(s: string, pat: string, rep: string): (r: string)
    requires |pat| > 0
    ensures !Contains(s, pat) ==> r == s
  {
    Join(Split(s, pat), rep)
  }

  /** Replacing by a non-empty text never empties a non-empty string. */
  lemma ReplaceAllNonEmpty(s: string, pat: string, rep: string)
    requires |pat| > 0 && s != "" && rep != ""
    ensures ReplaceAll(s, pat, rep) != ""
  {
    var parts := Split(s, pat);
    JoinSplit(s, pat);
    if |parts| == 1 {
      assert Join(parts, rep) == parts[0] == Join(parts, pat);
    } else {
      assert Join(parts, rep) == parts[0] + rep + Join(parts[1..], rep);
    }
  }

  // ---------------------------------------------------------------------------
  // Character classes, lower(), strip()
  // ---------------------------------------------------------------------------

  predicate IsDigit(c: char) {
    '0' <= c <= '9'
  }

  predicate IsAsciiLetter(c: char) {
    'a' <= c <= 'z' || 'A' <= c <= 'Z'
  }

  /** `[a-zA-Z_]`: a character that may start an identifier. */
  predicate IsIdentStart(c: char) {
    IsAsciiLetter(c) || c == '_'
  }

  /** `[a-zA-Z0-9_]`, the ASCII part of the regular-expression class `\w`. */
  predicate IsWordChar(c: char) {
    IsAsciiLetter(c) || IsDigit(c) || c == '_'
  }

  predicate IsHexDigit(c: char) {
    IsDigit(c) || 'a' <= c <= 'f' || 'A' <= c <= 'F'
  }

  function LowerChar(c: char): char {
    if 'A' <= c <= 'Z' then (c as int - 'A' as int + 'a' as int) as char else c
  }

  /** Python `s.lower()` restricted to ASCII letters. */
  function Lower(s: string): (r: string)
    ensures |r| == |s|
    ensures forall k | 0 <= k < |s| :: r[k] == LowerChar(s[k])
  {
    seq(|s|, k requires 0 <= k < |s| => LowerChar(s[k]))
  }

  /** The characters for which Python's `str.isspace()` holds. */
  predicate IsSpace(c: char) {
    var n := c as int;
    9 <= n <= 13 || 28 <= n <= 32 || n == 0x85 || n == 0xA0 || n == 0x1680
    || 0x2000 <= n <= 0x200A || n == 0x2028 || n == 0x2029 || n == 0x202F
    || n == 0x205F || n == 0x3000
  }

  /** Python `s.strip()`: drop leading and trailing whitespace. A string
      with nothing to drop is returned as it is. */
  function Strip(s: string): (r: string)
    decreases |s|
    ensures |r| <= |s|
    ensures |r| > 0 ==> !IsSpace(r[0]) && !IsSpace(r[|r| - 1])
    ensures |s| > 0 && !IsSpace(s[0]) && !IsSpace(s[|s| - 1]) ==> r == s
  {
    if |s| > 0 && IsSpace(s[0]) then Strip(s[1..])
    else if |s| > 0 && IsSpace(s[|s| - 1]) then Strip(s[..|s| - 1])
    else s
  }

  /** `strip()` leaves nothing exactly when the string is all whitespace. */
  lemma {:induction false} StripEmpty(s: string)
    decreases |s|
    ensures (forall k | 0 <= k < |s| :: IsSpace(s[k])) <==> Strip(s) == ""
  {
    if |s| > 0 && IsSpace(s[0]) {
      StripEmpty(s[1..]);
      assert forall k | 1 <= k < |s| :: s[1..][k - 1] == s[k];
    } else if |s| > 0 && IsSpace(s[|s| - 1]) {
      StripEmpty(s[..|s| - 1]);
      assert forall k | 0 <= k < |s| - 1 :: s[..|s| - 1][k] == s[k];
    }
  }

  /** A string that starts with a non-space character does not strip to
      nothing. */
  lemma {:induction false} StripKeepsHead(s: string)
    requires |s| > 0 && !IsSpace(s[0])
    decreases |s|
    ensures Strip(s) != ""
  {
    if IsSpace(s[|s| - 1]) {
      assert s[..|s| - 1][0] == s[0];
      StripKeepsHead(s[..|s| - 1]);
    }
  }

  lemma StripIdempotent(s: string)
    ensures Strip(Strip(s)) == Strip(s)
  {
  }

  // ---------------------------------------------------------------------------
  // int(x), int(x, 16)
  // ---------------------------------------------------------------------------

  predicate AllDigits(s: string) {
    forall k | 0 <= k < |s| :: IsDigit(s[k])
  }

  predicate AllHexDigits(s: string) {
    forall k | 0 <= k < |s| :: IsHexDigit(s[k])
  }

  function DigitValue(c: char): nat
    requires IsDigit(c)
  {
    c as int - '0' as int
  }

  function HexDigitValue(c: char): nat
    requires IsHexDigit(c)
  {
    if IsDigit(c) then c as int - '0' as int
    else if 'a' <= c <= 'f' then c as int - 'a' as int + 10
    else c as int - 'A' as int + 10
  }

  /** Value of a big-endian decimal digit string. */
  function DecimalValue(ds: string): nat
    requires AllDigits(ds)
  {
    if |ds| == 0 then 0 else DecimalValue(ds[..|ds| - 1]) * 10 + DigitValue(ds[|ds| - 1])
  }

  /** Value of a big-endian hexadecimal digit string. */
  function HexValue(ds: string): nat
    requires AllHexDigits(ds)
  {
    if |ds| == 0 then 0 else HexValue(ds[..|ds| - 1]) * 16 + HexDigitValue(ds[|ds| - 1])
  }

  function ApplySign(negative: bool, v: nat): int {
    if negative then -(v as int) else v
  }

  /** A digit of base 16 (`hex`) or base 10. */
  predicate IsDigitOf(hex: bool, c: char) {
    if hex then IsHexDigit(c) else IsDigit(c)
  }

  /** The digit part `int()` accepts: a digit, then the rest after at most
      one `_`, so a `_` only ever stands between two digits. */
  predicate Grouped(hex: bool, ds: string)
    decreases |ds|
  {
    && |ds| > 0 && IsDigitOf(hex, ds[0])
    && (|ds| == 1 || if ds[1] == '_' then Grouped(hex, ds[2..]) else Grouped(hex, ds[1..]))
  }

  /** A digit's value in base 16 (`hex`) or 10; any other character
      counts 0. */
  function DigitOf(hex: bool, c: char): nat {
    if hex && IsHexDigit(c) then HexDigitValue(c)
    else if !hex && IsDigit(c) then DigitValue(c)
    else 0
  }

  /** The digits of a digit part read big-endian, separators skipped. */
  function GroupedDigits(hex: bool, ds: string): nat
    decreases |ds|
  {
    if |ds| == 0 then 0
    else if ds[|ds| - 1] == '_' then GroupedDigits(hex, ds[..|ds| - 1])
    else GroupedDigits(hex, ds[..|ds| - 1]) * (if hex then 16 else 10) + DigitOf(hex, ds[|ds| - 1])
  }

  /** A digit is never whitespace, a sign or a separator. */
  lemma HexDigitNotSpace(c: char)
    requires IsHexDigit(c)
    ensures !IsSpace(c) && c != '-' && c != '+' && c != '_'
  {
  }

  /** Without separators the digits read as plain digits. */
  lemma {:induction false} PlainDigitsValue(hex: bool, ds: string)
    requires if hex then AllHexDigits(ds) else AllDigits(ds)
    decreases |ds|
    ensures GroupedDigits(hex, ds) == if hex then HexValue(ds) else DecimalValue(ds)
  {
    if |ds| > 0 {
      var init := ds[..|ds| - 1];
      assert forall k | 0 <= k < |init| :: init[k] == ds[k];
      HexDigitNotSpace(ds[|ds| - 1]);
      PlainDigitsValue(hex, init);
    }
  }

  /** A plain digit string is its own digit part, with nothing to strip. */
  lemma PlainGrouped(hex: bool, ds: string)
    requires |ds| > 0 && if hex then AllHexDigits(ds) else AllDigits(ds)
    ensures Grouped(hex, ds) && Strip(ds) == ds
  {
    HexDigitNotSpace(ds[0]);
    HexDigitNotSpace(ds[|ds| - 1]);
    PlainDigitsGrouped(hex, ds);
  }

  lemma {:induction false} PlainDigitsGrouped(hex: bool, ds: string)
    requires |ds| > 0 && if hex then AllHexDigits(ds) else AllDigits(ds)
    decreases |ds|
    ensures Grouped(hex, ds)
  {
    if |ds| > 1 {
      HexDigitNotSpace(ds[1]);
      assert forall k | 0 <= k < |ds[1..]| :: ds[1..][k] == ds[k + 1];
      PlainDigitsGrouped(hex, ds[1..]);
    }
  }

  /** The value of a digit part, `None` when the digits are not grouped as
      `int()` requires. */
  function GroupedValue(hex: bool, ds: string): Option<nat> {
    if Grouped(hex, ds) then Some(GroupedDigits(hex, ds)) else None
  }

  /** A plain digit string has its plain value. */
  lemma PlainValue(hex: bool, ds: string)
    requires |ds| > 0 && if hex then AllHexDigits(ds) else AllDigits(ds)
    ensures Strip(ds) == ds
    ensures GroupedValue(hex, ds) == Some(if hex then HexValue(ds) else DecimalValue(ds))
  {
    PlainGrouped(hex, ds);
    PlainDigitsValue(hex, ds);
  }

  /** The sign `int()` reads after stripping: whether it is a minus, and
      what follows it. */
  function Signed(t: string): (r: (bool, string))
    ensures r.0 ==> |t| > 0 && t[0] == '-'
    ensures |r.1| <= |t|
  {
    if |t| > 0 && (t[0] == '-' || t[0] == '+') then (t[0] == '-', t[1..]) else (false, t)
  }

  /** Python `int(s)`: surrounding whitespace is ignored; then an optional
      sign and decimal digits, with single `_` separators between
      digits. */
  function ParseInt(s: string): (r: Option<int>)
    ensures r.Some? ==> |s| > 0
    ensures AllDigits(s) && |s| > 0 ==> r == Some(DecimalValue(s))
  {
    var (negative, body) := Signed(Strip(s));
    var r :=
      match GroupedValue(false, body)
      case Some(v) => Some(ApplySign(negative, v))
      case None => None;
    assert AllDigits(s) && |s| > 0 ==> r == Some(DecimalValue(s)) by {
      if AllDigits(s) && |s| > 0 {
        PlainValue(false, s);
        HexDigitNotSpace(s[0]);
      }
    }
    r
  }

  /** The digit part of `int(s, 16)` once the sign is read: an optional
      `0x`/`0X` prefix, which a single `_` may follow, is skipped. */
  function HexBody(unsigned: string): string {
    if StartsWith(unsigned, "0x") || StartsWith(unsigned, "0X") then
      var rest := unsigned[2..];
      if |rest| > 0 && rest[0] == '_' then rest[1..] else rest
    else unsigned
  }

  /** Python `int(s, 16)`: surrounding whitespace is ignored; then an
      optional sign, an optional `0x`/`0X` prefix and hexadecimal digits of
      either case, with single `_` separators between digits (and one
      allowed right after the prefix). */
  function ParseHex(s: string): (r: Option<int>)
    ensures r.Some? ==> |s| > 0
  {
    var (negative, unsigned) := Signed(Strip(s));
    match GroupedValue(true, HexBody(unsigned))
    case Some(v) => Some(ApplySign(negative, v))
    case None => None
  }

  // ---------------------------------------------------------------------------
  // %d and %03X
  // ---------------------------------------------------------------------------

  function DecimalDigit(d: nat): char
    requires d < 10
  {
    ('0' as int + d) as char
  }

  function HexUpperDigit(d: nat): char
    requires d < 16
  {
    if d < 10 then ('0' as int + d) as char else ('A' as int + d - 10) as char
  }

  /** Minimal decimal rendering of a natural number (`str(n)`). */
  function NatToDecimal(n: nat): (r: string)
    ensures |r| > 0 && AllDigits(r)
  {
    (if n < 10 then "" else NatToDecimal(n / 10)) + [DecimalDigit(n % 10)]
  }

  /** Python `str(i)` for an integer. */
  function IntToDecimal(i: int): (r: string)
    ensures |r| > 0
  {
    if i < 0 then "-" + NatToDecimal(-i) else NatToDecimal(i)
  }

  /** Minimal upper-case hexadecimal rendering (`%X`). */
  function NatToHexUpper(n: nat): (r: string)
    ensures |r| > 0 && AllHexDigits(r)
  {
    (if n < 16 then "" else NatToHexUpper(n / 16)) + [HexUpperDigit(n % 16)]
  }

  function Zeros(k: nat): (r: string)
    ensures |r| == k && AllDigits(r) && AllHexDigits(r)
    ensures forall j | 0 <= j < k :: r[j] == '0'
  {
    if k == 0 then "" else Zeros(k - 1) + "0"
  }

  /** `%03X`: upper-case hexadecimal, left-padded with zeros to three digits. */
  function Hex3(n: nat): (r: string)
    ensures |r| >= 3 && AllHexDigits(r)
  {
    var h := NatToHexUpper(n);
    if |h| < 3 then Zeros(3 - |h|) + h else h
  }

  lemma {:induction false} DecimalRoundTrip(n: nat)
    ensures DecimalValue(NatToDecimal(n)) == n
  {
    var pre := if n < 10 then "" else NatToDecimal(n / 10);
    DecimalSnoc(pre, n % 10);
    if n >= 10 {
      DecimalRoundTrip(n / 10);
    }
  }

  /** One more digit at the end multiplies the value by ten and adds it. */
  lemma DecimalSnoc(pre: string, d: nat)
    requires AllDigits(pre) && d < 10
    ensures AllDigits(pre + [DecimalDigit(d)])
    ensures DecimalValue(pre + [DecimalDigit(d)]) == DecimalValue(pre) * 10 + d
  {
    var r := pre + [DecimalDigit(d)];
    assert r[..|r| - 1] == pre;
  }

  lemma HexDigitRoundTrip(d: nat)
    requires d < 16
    ensures HexDigitValue(HexUpperDigit(d)) == d
  {
  }

  lemma {:induction false} HexRoundTrip(n: nat)
    ensures HexValue(NatToHexUpper(n)) == n
  {
    var r := NatToHexUpper(n);
    var d := n % 16;
    var pre := if n < 16 then "" else NatToHexUpper(n / 16);
    assert r == pre + [HexUpperDigit(d)];
    assert r[..|r| - 1] == pre;
    assert r[|r| - 1] == HexUpperDigit(d);
    HexDigitRoundTrip(d);
    var hp := HexValue(pre);
    assert hp == n / 16 by {
      if n >= 16 {
        HexRoundTrip(n / 16);
      }
    }
    assert HexValue(r) == hp * 16 + d;
    assert n == (n / 16) * 16 + d;
  }

  /** `int(ds, 16)` of a plain hexadecimal digit string is its value. */
  lemma ParseHexDigits(ds: string)
    requires |ds| > 0 && AllHexDigits(ds)
    ensures ParseHex(ds) == Some(HexValue(ds))
  {
    PlainValue(true, ds);
    HexDigitNotSpace(ds[0]);
    assert Signed(ds) == (false, ds);
    assert !StartsWith(ds, "0x") && !StartsWith(ds, "0X") by {
      if |ds| >= 2 {
        assert IsHexDigit(ds[1]);
        assert ds[..2][1] == ds[1];
      }
    }
  }

  lemma {:induction false} HexLeadingZeros(k: nat, ds: string)
    requires AllHexDigits(ds)
    decreases |ds|
    ensures AllHexDigits(Zeros(k) + ds) && HexValue(Zeros(k) + ds) == HexValue(ds)
  {
    var s := Zeros(k) + ds;
    assert AllHexDigits(s);
    if |ds| == 0 {
      assert s == Zeros(k);
      ZerosValue(k);
    } else {
      assert s[..|s| - 1] == Zeros(k) + ds[..|ds| - 1];
      HexLeadingZeros(k, ds[..|ds| - 1]);
    }
  }

  lemma {:induction false} ZerosValue(k: nat)
    ensures HexValue(Zeros(k)) == 0
  {
    if k > 0 {
      assert Zeros(k)[..k - 1] == Zeros(k - 1);
      ZerosValue(k - 1);
    }
  }

  /** A minus sign and a plain digit string of value `v` read back as
      `-v`. */
  lemma ParseNegative(ds: string, v: nat)
    requires |ds| > 0 && AllDigits(ds) && DecimalValue(ds) == v
    ensures ParseInt("-" + ds) == Some(-(v as int))
  {
    var s := "-" + ds;
    MinusNotStripped(s, ds);
    PlainValue(false, ds);
    assert Signed(s) == (true, ds) by {
      assert s[1..] == ds;
    }
  }

  /** A minus sign in front of digits is not whitespace. */
  lemma MinusNotStripped(s: string, ds: string)
    requires s == "-" + ds && |ds| > 0 && AllDigits(ds)
    ensures Strip(s) == s
  {
    assert s[|s| - 1] == ds[|ds| - 1];
    HexDigitNotSpace(ds[|ds| - 1]);
  }

  /** `str(n)` read back by `int(...)` gives `n`. */
  lemma IntRoundTrip(i: int)
    ensures ParseInt(IntToDecimal(i)) == Some(i)
  {
    if i < 0 {
      NegativeRoundTrip(i);
    } else {
      NatRoundTrip(i);
    }
  }

  lemma NatRoundTrip(n: nat)
    ensures ParseInt(NatToDecimal(n)) == Some(n)
  {
    DecimalRoundTrip(n);
  }

  lemma NegativeRoundTrip(i: int)
    requires i < 0
    ensures ParseInt(IntToDecimal(i)) == Some(i)
  {
    var ds := NatToDecimal(-i);
    DecimalRoundTrip(-i);
    ParseNegative(ds, -i);
  }

  /** `%03X` read back by `int(..., 16)` gives the number. */
  lemma Hex3RoundTrip(n: nat)
    ensures ParseHex(Hex3(n)) == Some(n)
  {
    var h := NatToHexUpper(n);
    HexRoundTrip(n);
    if |h| < 3 {
      HexLeadingZeros(3 - |h|, h);
    }
    ParseHexDigits(Hex3(n));
  }

  // ---------------------------------------------------------------------------
  // What int() tolerates
  // ---------------------------------------------------------------------------

  /** Surrounding whitespace never changes what `int()` reads. */
  lemma ParseIgnoresWhitespace(s: string)
    ensures ParseInt(Strip(s)) == ParseInt(s)
    ensures ParseHex(Strip(s)) == ParseHex(s)
  {
    StripIdempotent(s);
  }

  /** A single `_` between digits is skipped; two in a row are refused. */
  lemma IntSeparators()
    ensures ParseInt("1_0") == Some(10)
    ensures ParseInt("1__0") == None
  {
    assert Strip("1_0") == "1_0";
    assert "1_0"[2..] == "0";
    assert Grouped(false, "1_0");
    assert "1_0"[..2] == "1_" && "1_"[..1] == "1" && "1"[..0] == "";
    assert GroupedDigits(false, "1_0") == 10;
  }

  /** In base 16 a `_` may also follow the `0x` prefix. */
  lemma HexPrefixSeparator()
    ensures ParseHex("0x_1A") == Some(26)
  {
    var s := "0x_1A";
    assert Strip(s) == s;
    assert StartsWith(s, "0x") by {
      assert s[..2] == "0x";
    }
    assert s[2..] == "_1A" && "_1A"[1..] == "1A";
    assert HexBody(s) == "1A";
    assert "1A"[1..] == "A" && "1A"[..1] == "1" && "1"[..0] == "";
    assert GroupedDigits(true, "1A") == 26;
  }
}

=== FILE: time_resolution.dfy ===
/** How src/core/segment_importer.py dates a segment: the wall-time offset
    from `initData`, the segment's own GPS fix from `liveLocationKalman`, the
    scan of sibling segment directories (`get_route_start_time`) and the
    ordered chain of fallbacks in `import_segment`, together with the route
    start it decides to persist. Times are Unix seconds unless named `...Ns`. */
module TimeResolution {
  import opened Wrappers
  import opened Events
  import opened Strings
  import opened Seqs
  import SegmentPath

  /** Only this many leading events are searched for `initData`. */
  const InitDataWindow: nat := 100
  /** Every segment is taken to last one minute. */
  const SegmentSeconds: int := 60
  const NanosPerSecond: int := 1_000_000_000
  const MillisPerSecond: int := 1000

  /** Python truthiness of an optional integer: `None` and `0` are false. */
  predicate Truthy(o: Option<int>) {
    o.Some? && o.value != 0
  }

  // ---------------------------------------------------------------------------
  // Readings taken from the events
  // ---------------------------------------------------------------------------

  /** An `initData` event whose `wallTimeNanos` can be read. */
  predicate HasWallTime(e: Event) {
    MessageOf(e, "initData").Some? && IntField(MessageOf(e, "initData").value, "wallTimeNanos").Some?
  }

  function WallTimeNanos(e: Event): int
    requires HasWallTime(e)
  {
    IntField(MessageOf(e, "initData").value, "wallTimeNanos").value
  }

  /** `wall_time_offset`: `wallTimeNanos - logMonoTime` of the first readable
      `initData` among the first 100 events, else 0. */
  function WallTimeOffset(events: seq<Event>): (r: int)
    ensures (forall k | 0 <= k < |events| && k < InitDataWindow :: !HasWallTime(events[k])) ==> r == 0
    ensures (exists k | 0 <= k < |events| && k < InitDataWindow :: HasWallTime(events[k])) ==>
              exists k | 0 <= k < |events| && k < InitDataWindow ::
                && HasWallTime(events[k])
                && (forall j | 0 <= j < k :: !HasWallTime(events[j]))
                && r == WallTimeNanos(events[k]) - events[k].logMonoTime
  {
    var head := Take(events, InitDataWindow);
    match FirstIndex(head, HasWallTime)
    case None => 0
    case Some(k) => WallTimeNanos(head[k]) - head[k].logMonoTime
  }

  /** A `liveLocationKalman` event with a positive `unixTimestampMillis`:
      a locked GPS fix. */
  predicate HasFix(e: Event) {
    MessageOf(e, "liveLocationKalman").Some?
    && IntField(MessageOf(e, "liveLocationKalman").value, "unixTimestampMillis").Some?
    && IntField(MessageOf(e, "liveLocationKalman").value, "unixTimestampMillis").value > 0
  }

  function FixMillis(e: Event): (r: int)
    requires HasFix(e)
    ensures r > 0
  {
    IntField(MessageOf(e, "liveLocationKalman").value, "unixTimestampMillis").value
  }

  /** The first GPS fix of a segment in whole seconds (`int(ms / 1000)`),
      `None` when no event carries one. */
  function FirstFixSeconds(events: seq<Event>): (r: Option<int>)
    ensures r.None? <==> forall k | 0 <= k < |events| :: !HasFix(events[k])
    ensures r.Some? ==> r.value >= 0 && exists k | 0 <= k < |events| ::
              HasFix(events[k]) && r.value == FixMillis(events[k]) / MillisPerSecond
              && forall j | 0 <= j < k :: !HasFix(events[j])
  {
    match FirstIndex(events, HasFix)
    case None => None
    case Some(k) => Some(FixMillis(events[k]) / MillisPerSecond)
  }

  // ---------------------------------------------------------------------------
  // The full-route scan
  // ---------------------------------------------------------------------------

  /** An entry of the route directory: its name, whether it is a directory,
      and its `rlog` file. */
  datatype RlogFile = Missing | Unreadable | Readable(events: seq<Event>)
  datatype DirEntry = DirEntry(name: string, isDir: bool, rlog: RlogFile)

  /** A sibling segment of the route that the scan will open. */
  datatype Candidate = Candidate(num: int, rlog: RlogFile)

  /** A directory `<d>--<h>--<n>` of the same route, with an integer `n` and
      an `rlog` file. */
  predicate IsRouteSegment(d: DirEntry, routeId: string) {
    var parts := Split(d.name, SegmentPath.Sep);
    d.isDir && |parts| == 3 && parts[0] + SegmentPath.Sep + parts[1] == routeId
    && ParseInt(parts[2]).Some? && !d.rlog.Missing?
  }

  function CandidateOf(d: DirEntry, routeId: string): Candidate
    requires IsRouteSegment(d, routeId)
  {
    Candidate(ParseInt(Split(d.name, SegmentPath.Sep)[2]).value, d.rlog)
  }

  /** The candidates in directory order. */
  function Candidates(dirs: seq<DirEntry>, routeId: string): (r: seq<Candidate>)
    ensures forall c | c in r :: exists d | d in dirs :: IsRouteSegment(d, routeId) && c == CandidateOf(d, routeId)
    ensures forall d | d in dirs && IsRouteSegment(d, routeId) :: CandidateOf(d, routeId) in r
  {
    if |dirs| == 0 then []
    else
      var rest := Candidates(dirs[1..], routeId);
      assert dirs == [dirs[0]] + dirs[1..];
      if IsRouteSegment(dirs[0], routeId) then [CandidateOf(dirs[0], routeId)] + rest else rest
  }

  function CandidateNum(c: Candidate): int {
    c.num
  }

  /** A candidate whose readable rlog holds a GPS fix. */
  predicate CandidateHasFix(c: Candidate) {
    c.rlog.Readable? && FirstFixSeconds(c.rlog.events).Some?
  }

  /** The route start implied by a candidate's fix: the fix back-dated by one
      minute per segment. */
  function BackDated(c: Candidate): int
    requires CandidateHasFix(c)
  {
    FirstFixSeconds(c.rlog.events).value - c.num * SegmentSeconds
  }

  /** The order the scan visits the candidates: ascending segment number. */
  function ScanOrder(dirs: seq<DirEntry>, routeId: string): (r: seq<Candidate>)
    ensures SortedBy(r, CandidateNum)
    ensures multiset(r) == multiset(Candidates(dirs, routeId))
  {
    SortBy(Candidates(dirs, routeId), CandidateNum)
  }

  /** The back-dated start from the first visited segment with a fix. */
  function ScanFix(dirs: seq<DirEntry>, routeId: string): (r: Option<int>)
  {
    var order := ScanOrder(dirs, routeId);
    match FirstIndex(order, CandidateHasFix)
    case None => None
    case Some(k) => Some(BackDated(order[k]))
  }

  /** `get_route_start_time`: 0 when the directory is missing or no sibling
      segment has a fix. */
  function ScanRouteStart(routeDirExists: bool, dirs: seq<DirEntry>, routeId: string): (r: int)
    ensures !routeDirExists ==> r == 0
  {
    if routeDirExists then ScanFix(dirs, routeId).GetOr(0) else 0
  }

  /** The scan's answer, characterised without the sort: it is the back-dated
      fix of a segment of the route with the lowest number among those with a
      fix, and there is none exactly when no segment has a fix. */
  lemma ScanFixLowest(dirs: seq<DirEntry>, routeId: string)
    ensures ScanFix(dirs, routeId).None? <==>
              forall c | c in Candidates(dirs, routeId) :: !CandidateHasFix(c)
    ensures ScanFix(dirs, routeId).Some? ==>
              exists c | c in Candidates(dirs, routeId) ::
                CandidateHasFix(c) && ScanFix(dirs, routeId).value == BackDated(c)
                && forall c' | c' in Candidates(dirs, routeId) && CandidateHasFix(c') :: c.num <= c'.num
  {
    var cands := Candidates(dirs, routeId);
    var order := ScanOrder(dirs, routeId);
    FirstSortedIsLowest(order, cands, CandidateHasFix, CandidateNum);
    match FirstIndex(order, CandidateHasFix)
    case None =>
    case Some(k) =>
      assert order[k] in cands;
  }

  /** In a list sorted by key, the first element with a property has the
      least key among all elements of any rearrangement that have it. */
  lemma FirstSortedIsLowest<T>(order: seq<T>, cands: seq<T>, p: T -> bool, key: T -> int)
    requires multiset(order) == multiset(cands) && SortedBy(order, key)
    ensures FirstIndex(order, p).None? <==> forall c | c in cands :: !p(c)
    ensures FirstIndex(order, p).Some? ==>
      (&& order[FirstIndex(order, p).value] in cands
       && forall c | c in cands && p(c) :: key(order[FirstIndex(order, p).value]) <= key(c))
  {
    forall c ensures c in order <==> c in cands {
      assert c in order <==> c in multiset(order);
      assert c in cands <==> c in multiset(cands);
    }
    match FirstIndex(order, p)
    case None =>
      forall c | c in cands ensures !p(c) {
        assert c in order;
      }
    case Some(k) =>
      forall c | c in cands && p(c) ensures key(order[k]) <= key(c) {
        var j :| 0 <= j < |order| && order[j] == c;
        assert k <= j;
      }
  }

  /** A route whose fixes all back-date to one start (the segments of one
      drive, a minute apart): the scan finds that start. */
  lemma ScanFindsConsistentStart(dirs: seq<DirEntry>, routeId: string, start: int)
    requires exists c | c in Candidates(dirs, routeId) :: CandidateHasFix(c)
    requires forall c | c in Candidates(dirs, routeId) && CandidateHasFix(c) :: BackDated(c) == start
    ensures ScanRouteStart(true, dirs, routeId) == start
  {
    ScanFixLowest(dirs, routeId);
  }

  // ---------------------------------------------------------------------------
  // The tier chain
  // ---------------------------------------------------------------------------

  /** The timestamp stored for the segment and the route start to persist
      (`None` leaves the stored one in place). */
  datatype Resolution = Resolution(timestamp: int, startToSave: Option<int>)

  /** `import_segment` lines choosing `timestamp`: the segment's own fix,
      else the stored route start plus one minute per segment, else the
      scanned route start (when positive) likewise, else the wall-time offset
      in whole seconds (when positive), else the directory's hex stamp. A route
      start is persisted only when none (or 0) is stored yet. */
  function Resolve(gps: Option<int>, storedStart: Option<int>, scanned: int,
                   wallOffsetNs: int, dirStamp: int, n: int): (r: Resolution)
    ensures Truthy(gps) ==> r.timestamp == gps.value
    ensures !Truthy(gps) && Truthy(storedStart) ==> r.timestamp == storedStart.value + n * SegmentSeconds
    ensures !Truthy(gps) && !Truthy(storedStart) && scanned > 0 ==> r.timestamp == scanned + n * SegmentSeconds
    ensures !Truthy(gps) && !Truthy(storedStart) && scanned <= 0 && wallOffsetNs > 0 ==>
              r.timestamp == wallOffsetNs / NanosPerSecond
    ensures !Truthy(gps) && !Truthy(storedStart) && scanned <= 0 && wallOffsetNs <= 0 ==> r.timestamp == dirStamp
    // the ratchet: a start is written only over a falsy one, and only when
    // the fix or the scan supplied the time ...
    ensures r.startToSave.Some? <==> !Truthy(storedStart) && (Truthy(gps) || scanned > 0)
    // ... as the fix back-dated to segment 0, or the scanned start itself
    ensures Truthy(gps) && r.startToSave.Some? ==> r.startToSave.value == gps.value - n * SegmentSeconds
    ensures !Truthy(gps) && r.startToSave.Some? ==> r.startToSave.value == scanned
    ensures r.startToSave.Some? ==> r.startToSave.value + n * SegmentSeconds == r.timestamp
  {
    if Truthy(gps) then
      Resolution(gps.value, if Truthy(storedStart) then None else Some(gps.value - n * SegmentSeconds))
    else if Truthy(storedStart) then
      Resolution(storedStart.value + n * SegmentSeconds, None)
    else if scanned > 0 then
      Resolution(scanned + n * SegmentSeconds, Some(scanned))
    else if wallOffsetNs > 0 then
      Resolution(wallOffsetNs / NanosPerSecond, None)
    else
      Resolution(dirStamp, None)
  }

  /** Tier-1 back-dating and the tier-2 reconstruction are inverse: a start
      persisted from segment `n`'s fix gives back that fix for segment `n`. */
  lemma ResolveRoundTrip(gps: int, n: int, scanned: int, wall: int, stamp: int, scanned2: int, wall2: int, stamp2: int)
    requires gps != 0 && gps - n * SegmentSeconds != 0
    ensures var first := Resolve(Some(gps), None, scanned, wall, stamp, n);
            Resolve(None, first.startToSave, scanned2, wall2, stamp2, n).timestamp == gps
  {
  }
}

=== FILE: translate_comments.dfy ===
/** The docstring translator of release/v1.0/tools/translate_comments.py:
    every triple-quoted body holding a CJK ideograph has the word table's
    replacements applied, and a file is rewritten only when that changed
    it. The word table and the files' contents are parameters. */
module TranslateComments {
  import opened Wrappers
  import opened Strings
  import Seqs
  import DbcParser

  type Table = DbcParser.Table

  /** A character of the CJK Unified Ideographs block, U+4E00 to U+9FFF. */
  predicate Cjk(c: char) {
    '\U{4E00}' <= c <= '\U{9FFF}'
  }

  predicate HasCjk(s: string) {
    exists k | 0 <= k < |s| :: Cjk(s[k])
  }

  /** `translate_docstring`: each entry's replacement applied, in table
      order, to the running text. */
  function TranslateDocstring(table: Table, text: string): string
    requires DbcParser.KeysNonEmpty(table)
  {
    DbcParser.ReplaceEach(text, table)
  }

  /** A text holding none of the keys comes back unchanged. */
  lemma {:induction false} TranslateNoKeys(table: Table, text: string)
    requires DbcParser.KeysNonEmpty(table)
    requires forall k | 0 <= k < |table| :: !Contains(text, table[k].0)
    ensures TranslateDocstring(table, text) == text
    decreases |table|
  {
    if |table| > 0 {
      assert forall k | 0 <= k < |table[1..]| :: table[1..][k] == table[k + 1];
      TranslateNoKeys(table[1..], text);
    }
  }

  /** With a table of Chinese keys, a text without ideographs is left alone. */
  lemma TranslateCjkFree(table: Table, text: string)
    requires DbcParser.KeysNonEmpty(table)
    requires forall k | 0 <= k < |table| :: HasCjk(table[k].0)
    requires !HasCjk(text)
    ensures TranslateDocstring(table, text) == text
  {
    forall k | 0 <= k < |table| ensures !Contains(text, table[k].0) {
      var key := table[k].0;
      var m :| 0 <= m < |key| && Cjk(key[m]);
      forall i: nat | i <= |text| ensures !OccursAt(text, key, i) {
        if i + |key| <= |text| {
          assert text[i..i + |key|][m] == text[i + m];
        }
      }
    }
    TranslateNoKeys(table, text);
  }

  // ---------------------------------------------------------------------------
  // The pattern `"""([^"]+)"""`

  const Quotes: string := "\"\"\""

  /** The end of the run of non-quote characters starting at `k`. */
  function BodyEnd(s: string, k: nat): (r: nat)
    requires k <= |s|
    decreases |s| - k
    ensures k <= r <= |s|
    ensures forall m | k <= m < r :: s[m] != '"'
    ensures r < |s| ==> s[r] == '"'
  {
    if k == |s| || s[k] == '"' then k else BodyEnd(s, k + 1)
  }

  /** Where the docstring body opened at the start of `s` ends, if the
      pattern matches there: a non-empty quote-free body closed by three
      quotes. Backtracking cannot help, since a shorter body would be
      followed by a non-quote character. */
  function MatchAt(s: string): (r: Option<nat>)
    ensures r.Some? ==> (3 < r.value && r.value + 3 <= |s| && StartsWith(s, Quotes)
      && '"' !in s[3..r.value] && s[r.value..r.value + 3] == Quotes)
  {
    if |s| >= 3 && s[..3] == Quotes then
      var j := BodyEnd(s, 3);
      if 3 < j && j + 3 <= |s| && s[j..j + 3] == Quotes then
        assert forall m | 0 <= m < |s[3..j]| :: s[3..j][m] == s[3 + m];
        Some(j)
      else None
    else None
  }

  /** `replace_docstring`: a body holding an ideograph is translated, any
      other is left as it is. */
  function Convert(table: Table, body: string): string
    requires DbcParser.KeysNonEmpty(table)
  {
    if HasCjk(body) then TranslateDocstring(table, body) else body
  }

  /** The replacement function handed to `re.sub`. */
  function Converter(table: Table): string -> string
    requires DbcParser.KeysNonEmpty(table)
  {
    (body: string) => Convert(table, body)
  }

  /** The converter leaves a body without ideographs alone. */
  lemma ConverterKeepsCjkFree(table: Table)
    requires DbcParser.KeysNonEmpty(table)
    ensures forall b :: !HasCjk(b) ==> Converter(table)(b) == b
  {
  }

  /** `re.sub` with the pattern: from left to right, a match is replaced
      and scanning resumes after it; elsewhere a character is copied. */
  function Rewrite(convert: string -> string, s: string): string
    decreases |s|
  {
    if |s| == 0 then ""
    else match MatchAt(s)
      case Some(j) => Quotes + convert(s[3..j]) + Quotes + Rewrite(convert, s[j + 3..])
      case None => [s[0]] + Rewrite(convert, s[1..])
  }

  /** A docstring at the front is converted and the scan goes on after its
      closing quotes. */
  lemma RewriteDocstring(convert: string -> string, body: string, rest: string)
    requires body != "" && '"' !in body
    ensures Rewrite(convert, Quotes + body + Quotes + rest)
         == Quotes + convert(body) + Quotes + Rewrite(convert, rest)
  {
    var s := Quotes + body + Quotes + rest;
    assert s[..3] == Quotes;
    var j := BodyEnd(s, 3);
    assert forall m | 3 <= m < 3 + |body| :: s[m] == body[m - 3];
    assert s[3 + |body|] == '"';
    assert forall m | 3 <= m < 3 + |body| :: s[m] != '"';
    assert j == 3 + |body|;
    assert s[j..j + 3] == Quotes;
    assert s[3..j] == body;
    assert s[j + 3..] == rest;
  }

  /** Text without a run of three quotes is never touched. */
  lemma {:induction false} RewriteNoQuotes(convert: string -> string, s: string)
    requires !Contains(s, Quotes)
    ensures Rewrite(convert, s) == s
    decreases |s|
  {
    if |s| > 0 {
      if |s| >= 3 && s[..3] == Quotes {
        assert OccursAt(s, Quotes, 0);
        assert false;
      }
      assert !Contains(s[1..], Quotes) by {
        if Contains(s[1..], Quotes) {
          var i: nat :| i + 3 <= |s[1..]| && s[1..][i..i + 3] == Quotes;
          assert s[i + 1..i + 4] == s[1..][i..i + 3];
          assert OccursAt(s, Quotes, i + 1);
        }
      }
      RewriteNoQuotes(convert, s[1..]);
      assert s == [s[0]] + s[1..];
    }
  }

  /** A piece of a text without ideographs has none either. */
  lemma CjkFreeSlice(s: string, a: nat, b: nat)
    requires a <= b <= |s| && !HasCjk(s)
    ensures !HasCjk(s[a..b])
  {
    forall k | 0 <= k < b - a ensures !Cjk(s[a..b][k]) {
      assert s[a..b][k] == s[a + k];
    }
  }

  /** A file without ideographs comes back unchanged, whatever its quotes. */
  lemma {:induction false} RewriteCjkFree(convert: string -> string, s: string)
    requires forall b :: !HasCjk(b) ==> convert(b) == b
    requires !HasCjk(s)
    ensures Rewrite(convert, s) == s
    decreases |s|
  {
    if |s| > 0 {
      match MatchAt(s)
      case Some(j) =>
        CjkFreeSlice(s, 3, j);
        CjkFreeSlice(s, j + 3, |s|);
        RewriteCjkFree(convert, s[j + 3..]);
        RejoinDocstring(s, j);
      case None =>
        CjkFreeSlice(s, 1, |s|);
        RewriteCjkFree(convert, s[1..]);
        assert s == [s[0]] + s[1..];
    }
  }

  /** A text matched at its front is its quotes, body, quotes and rest. */
  lemma RejoinDocstring(s: string, j: nat)
    requires 3 < j && j + 3 <= |s| && s[..3] == Quotes && s[j..j + 3] == Quotes
    ensures s == Quotes + s[3..j] + Quotes + s[j + 3..]
  {
    assert s == s[..3] + s[3..j] + s[j..j + 3] + s[j + 3..];
  }

  // ---------------------------------------------------------------------------
  // Files

  /** `process_file`: the file's new content, and whether it was written. */
  datatype Processed = Processed(content: string, written: bool)

  function ProcessFile(table: Table, content: string): (r: Processed)
    requires DbcParser.KeysNonEmpty(table)
    ensures r.written <==> r.content != content
    ensures r.written ==> r.content == Rewrite(Converter(table), content)
    ensures !HasCjk(content) ==> !r.written
  {
    var updated := Rewrite(Converter(table), content);
    assert !HasCjk(content) ==> updated == content by {
      if !HasCjk(content) {
        ConverterKeepsCjkFree(table);
        RewriteCjkFree(Converter(table), content);
      }
    }
    if updated != content then Processed(updated, true) else Processed(content, false)
  }

  /** Whether `process_file` reports a file written: exactly when the
      rewrite changed its content. */
  function Updates(table: Table): string -> bool
    requires DbcParser.KeysNonEmpty(table)
  {
    (content: string) => Rewrite(Converter(table), content) != content
  }

  /** Files without ideographs are never written. */
  lemma UnwrittenWithoutCjk(table: Table, content: string)
    requires DbcParser.KeysNonEmpty(table)
    requires !HasCjk(content)
    ensures !Updates(table)(content)
  {
    ConverterKeepsCjkFree(table);
    RewriteCjkFree(Converter(table), content);
  }

  lemma NoneWritten(table: Table, files: seq<string>)
    requires DbcParser.KeysNonEmpty(table)
    requires forall i | 0 <= i < |files| :: !HasCjk(files[i])
    ensures forall i | 0 <= i < |files| :: !Updates(table)(files[i])
  {
    forall i | 0 <= i < |files| ensures !Updates(table)(files[i]) {
      UnwrittenWithoutCjk(table, files[i]);
    }
  }

  /** The loop of `main`: one step per file, counting those the step
      reports written. */
  method CountWritten<T>(files: seq<T>, written: T -> bool) returns (n: nat)
    ensures n == Seqs.Count(files, written)
    ensures n <= |files|
    ensures (forall i | 0 <= i < |files| :: !written(files[i])) ==> n == 0
  {
    n := 0;
    for i := 0 to |files|
      invariant n == Seqs.Count(files[..i], written)
      invariant n <= i
      invariant (forall k | 0 <= k < i :: !written(files[k])) ==> n == 0
    {
      Seqs.FilterAppend(files[..i], [files[i]], written);
      assert files[..i + 1] == files[..i] + [files[i]];
      if written(files[i]) {
        n := n + 1;
      }
    }
    assert files[..|files|] == files;
  }

  /** `main`: the number of files written; none when no file holds an
      ideograph. */
  method CountUpdated(table: Table, files: seq<string>) returns (n: nat)
    requires DbcParser.KeysNonEmpty(table)
    ensures n == Seqs.Count(files, Updates(table))
    ensures n <= |files|
    ensures (forall i | 0 <= i < |files| :: !HasCjk(files[i])) ==> n == 0
  {
    var written := Updates(table);
    n := CountWritten(files, written);
    if forall i | 0 <= i < |files| :: !HasCjk(files[i]) {
      NoneWritten(table, files);
    }
  }
}

=== FILE: translation.dfy ===
/** The JSON-backed translation manager of src/i18n/translator.py: the
    current language and its translation table, how a language is loaded,
    how a key is looked up, and how the start-up language is chosen. The
    translation files, the system locale and the saved preference are
    parameters. */
module Translation {
  import opened Wrappers
  import opened Strings

  const English: string := "en_US"
  const Chinese: string := "zh_TW"

  /** The supported language codes. */
  predicate Supported(code: string) {
    code == English || code == Chinese
  }

  /** The display name of a language code, `Unknown` for others. */
  function LanguageName(code: string): (r: string)
    ensures Supported(code) <==> r != "Unknown"
  {
    if code == Chinese then "\U{7E41}\U{9AD4}\U{4E2D}\U{6587} (Traditional Chinese)"
    else if code == English then "English"
    else "Unknown"
  }

  /** The manager's state. */
  datatype Manager = Manager(current: string, translations: map<string, string>)

  /** A language file as the loader finds it. */
  datatype TranslationFile = Missing | Unreadable | Loaded(table: map<string, string>)

  /** The state every call keeps: a supported language, and no translations
      while it is English. */
  predicate Valid(m: Manager) {
    Supported(m.current) && (m.current == English ==> m.translations == map[])
  }

  /** A new manager: English, no translations. */
  function Initial(): (m: Manager)
    ensures Valid(m)
  {
    Manager(English, map[])
  }

  /** `t`: a key's translation, the key itself when there is none. */
  function T(m: Manager, key: string): (r: string)
    ensures key !in m.translations ==> r == key
    ensures key in m.translations ==> r == m.translations[key]
  {
    if key in m.translations then m.translations[key] else key
  }

  /** `load_language`: the new state and the flag returned. The file of a
      code is named after it. */
  function LoadLanguage(m: Manager, code: string, files: string -> TranslationFile): (r: (Manager, bool))
    ensures !Supported(code) ==> r == (m, false)
    ensures code == English ==> r == (Manager(English, map[]), true)
    ensures Supported(code) && code != English ==>
      match files(code + ".json")
      case Loaded(table) => r == (Manager(code, table), true)
      case _ => r == (Manager(English, map[]), false)
    ensures Valid(m) ==> Valid(r.0)
  {
    if !Supported(code) then (m, false)
    else if code == English then (Manager(English, map[]), true)
    else
      match files(code + ".json")
      case Loaded(table) => (Manager(code, table), true)
      case _ => (Manager(English, map[]), false)
  }

  /** The flag says whether the requested language is now the current one. */
  lemma LoadReportsCurrent(m: Manager, code: string, files: string -> TranslationFile)
    requires Valid(m)
    ensures var (m', ok) := LoadLanguage(m, code, files);
      ok <==> m'.current == code
  {
  }

  /** In English every key shows as itself. */
  lemma EnglishShowsKeys(m: Manager, key: string)
    requires Valid(m) && m.current == English
    ensures T(m, key) == key
  {
  }

  /** After a load, keys show the loaded file's entries when it succeeded,
      and themselves when it failed or the language is English. */
  lemma LoadedKeys(m: Manager, code: string, files: string -> TranslationFile, key: string)
    requires Supported(code)
    ensures var (m', ok) := LoadLanguage(m, code, files);
      && (!ok || code == English ==> T(m', key) == key)
      && (ok && code != English ==>
            files(code + ".json").Loaded?
            && T(m', key) == (if key in files(code + ".json").table then files(code + ".json").table[key] else key))
  {
  }

  /** Every state reached from a new manager by loads keeps the invariant,
      so the current language always has a name. */
  lemma {:induction false} LoadsKeepValid(codes: seq<string>, files: string -> TranslationFile)
    decreases |codes|
    ensures Valid(LoadAll(Initial(), codes, files))
    ensures LanguageName(LoadAll(Initial(), codes, files).current) != "Unknown"
  {
    if |codes| > 0 {
      LoadsKeepValid(codes[..|codes| - 1], files);
    }
  }

  /** Loading the codes one after another. */
  function LoadAll(m: Manager, codes: seq<string>, files: string -> TranslationFile): Manager
    decreases |codes|
  {
    if |codes| == 0 then m
    else LoadLanguage(LoadAll(m, codes[..|codes| - 1], files), codes[|codes| - 1], files).0
  }

  // ---------------------------------------------------------------------------
  // Choosing the language

  /** The part of a locale name before its first `_`. */
  function LanguagePart(locale: string): (r: string)
    ensures '_' !in r
  {
    var r := Split(locale, "_")[0];
    assert '_' !in r by {
      if '_' in r {
        var j :| 0 <= j < |r| && r[j] == '_';
        assert OccursAt(r, "_", j);
      }
    }
    r
  }

  /** The part before the first `_` is `p` iff the locale is `p` or starts
      with `p_`. */
  lemma LanguagePartIs(locale: string, p: string)
    requires '_' !in p
    ensures LanguagePart(locale) == p <==> locale == p || StartsWith(locale, p + "_")
  {
    match Find(locale, "_")
    case None =>
      assert LanguagePart(locale) == locale;
      forall j | 0 <= j < |locale| ensures locale[j] != '_' {
        assert !OccursAt(locale, "_", j);
        assert locale[j..j + 1] == [locale[j]];
      }
    case Some(i) =>
      assert LanguagePart(locale) == locale[..i];
      assert locale[i] == '_';
      assert '_' in locale;
      if StartsWith(locale, p + "_") {
        assert forall k | 0 <= k < |p| :: locale[k] == p[k];
        assert locale[|p|..|p| + 1] == "_";
        assert OccursAt(locale, "_", |p|);
      }
  }

  /** `get_system_language`: a supported locale as it is; otherwise by the
      language part, `zh` giving Traditional Chinese and anything else
      English. */
  function SystemLanguage(locale: string): (r: string)
    ensures Supported(r)
    ensures Supported(locale) ==> r == locale
  {
    if Supported(locale) then locale
    else
      var part := LanguagePart(locale);
      if part == "zh" then Chinese
      else if part == "en" then English
      else English
  }

  /** Only Chinese locales give Chinese: the system language is Chinese iff
      the locale is `zh`, or starts with `zh_`. */
  lemma SystemLanguageChinese(locale: string)
    ensures SystemLanguage(locale) == Chinese <==> locale == "zh" || StartsWith(locale, "zh_")
  {
    LanguagePartIs(locale, "zh");
    if locale == Chinese {
      assert StartsWith(locale, "zh_");
    }
  }

  /** `load_language_preference`: a saved, non-empty, supported code wins;
      otherwise the system language. */
  function LanguagePreference(saved: Option<string>, locale: string): (r: string)
    ensures Supported(r)
    ensures saved.Some? && Supported(saved.value) ==> r == saved.value
    ensures !(saved.Some? && Supported(saved.value)) ==> r == SystemLanguage(locale)
  {
    if saved.Some? && saved.value != "" && Supported(saved.value) then saved.value
    else SystemLanguage(locale)
  }
}

=== FILE: upsert.dfy ===
/** `INSERT ... ON CONFLICT` over a table modelled as a map: a sequence of
    keyed rows inserted in order, where a row whose key is already present
    is merged into the stored one. `INSERT OR REPLACE` is the merge that
    keeps the new row. */
module Upsert {
  import opened Wrappers

  /** Inserts each entry in order; on a key already present the stored row
      becomes `merge(stored, incoming)`. */
  function UpsertAll<K(==), V>(t: map<K, V>, entries: seq<(K, V)>, merge: (V, V) -> V): map<K, V>
    decreases |entries|
  {
    if |entries| == 0 then t
    else
      var (k, v) := entries[0];
      UpsertAll(t[k := if k in t then merge(t[k], v) else v], entries[1..], merge)
  }

  /** The merge of `INSERT OR REPLACE`: the new row wins. */
  function Replace<V>(): (V, V) -> V {
    (stored: V, incoming: V) => incoming
  }

  /** Some entry has key `k`. */
  predicate HasKey<K(==), V>(entries: seq<(K, V)>, k: K) {
    exists i | 0 <= i < |entries| :: entries[i].0 == k
  }

  /** The last index whose entry has key `k`. */
  function LastIndex<K(==), V>(entries: seq<(K, V)>, k: K): (r: Option<nat>)
    decreases |entries|
    ensures r.None? <==> !HasKey(entries, k)
    ensures r.Some? ==>
      r.value < |entries| && entries[r.value].0 == k && forall j | r.value < j < |entries| :: entries[j].0 != k
  {
    if |entries| == 0 then None
    else if entries[|entries| - 1].0 == k then Some(|entries| - 1)
    else
      var r := LastIndex(entries[..|entries| - 1], k);
      if r.Some? then
        assert entries[..|entries| - 1][r.value] == entries[r.value];
        r
      else
        assert forall i | 0 <= i < |entries| - 1 :: entries[..|entries| - 1][i] == entries[i];
        r
  }

  /** The table afterwards holds the old keys and the entries' keys, and no
      others; a key no entry has keeps its row. */
  lemma {:induction false} UpsertKeys<K, V>(t: map<K, V>, entries: seq<(K, V)>, merge: (V, V) -> V)
    decreases |entries|
    ensures var r := UpsertAll(t, entries, merge);
      && (forall k :: k in r <==> k in t || HasKey(entries, k))
      && (forall k | k in t && !HasKey(entries, k) :: r[k] == t[k])
  {
    if |entries| > 0 {
      var (k0, v0) := entries[0];
      var t1 := t[k0 := if k0 in t then merge(t[k0], v0) else v0];
      UpsertKeys(t1, entries[1..], merge);
      var r := UpsertAll(t, entries, merge);
      assert r == UpsertAll(t1, entries[1..], merge);
      forall k ensures HasKey(entries, k) <==> k == k0 || HasKey(entries[1..], k) {
        if HasKey(entries, k) && k != k0 {
          var i :| 0 <= i < |entries| && entries[i].0 == k;
          assert entries[1..][i - 1] == entries[i];
        }
        if HasKey(entries[1..], k) {
          var i :| 0 <= i < |entries[1..]| && entries[1..][i].0 == k;
          assert entries[i + 1].0 == k;
        }
      }
      assert entries[0].0 == k0;
    }
  }

  /** A key that occurs in exactly one entry holds that entry merged into
      the old row, or the entry itself when there was none. */
  lemma {:induction false} UpsertOnce<K, V>(t: map<K, V>, entries: seq<(K, V)>, merge: (V, V) -> V, i: nat)
    decreases |entries|
    requires i < |entries|
    requires forall j | 0 <= j < |entries| && j != i :: entries[j].0 != entries[i].0
    ensures var (k, v) := entries[i];
      var r := UpsertAll(t, entries, merge);
      k in r && r[k] == if k in t then merge(t[k], v) else v
  {
    var (k0, v0) := entries[0];
    var t1 := t[k0 := if k0 in t then merge(t[k0], v0) else v0];
    assert UpsertAll(t, entries, merge) == UpsertAll(t1, entries[1..], merge);
    if i == 0 {
      UpsertKeys(t1, entries[1..], merge);
      assert !HasKey(entries[1..], k0) by {
        forall j | 0 <= j < |entries[1..]| ensures entries[1..][j].0 != k0 {
          assert entries[1..][j] == entries[j + 1];
        }
      }
    } else {
      assert entries[1..][i - 1] == entries[i];
      forall j | 0 <= j < |entries[1..]| && j != i - 1 ensures entries[1..][j].0 != entries[1..][i - 1].0 {
        assert entries[1..][j] == entries[j + 1];
      }
      UpsertOnce(t1, entries[1..], merge, i - 1);
    }
  }

  /** Under `INSERT OR REPLACE` a key holds the row of the last entry with
      that key. */
  lemma {:induction false} ReplaceLastWins<K, V>(t: map<K, V>, entries: seq<(K, V)>, i: nat)
    decreases |entries|
    requires i < |entries|
    requires forall j | i < j < |entries| :: entries[j].0 != entries[i].0
    ensures var r := UpsertAll(t, entries, Replace());
      entries[i].0 in r && r[entries[i].0] == entries[i].1
  {
    var (k0, v0) := entries[0];
    var t1 := t[k0 := if k0 in t then Replace()(t[k0], v0) else v0];
    assert UpsertAll(t, entries, Replace()) == UpsertAll(t1, entries[1..], Replace());
    if i == 0 {
      UpsertKeys(t1, entries[1..], Replace());
      assert !HasKey(entries[1..], k0) by {
        forall j | 0 <= j < |entries[1..]| ensures entries[1..][j].0 != k0 {
          assert entries[1..][j] == entries[j + 1];
        }
      }
    } else {
      assert entries[1..][i - 1] == entries[i];
      forall j | i - 1 < j < |entries[1..]| ensures entries[1..][j].0 != entries[1..][i - 1].0 {
        assert entries[1..][j] == entries[j + 1];
      }
      ReplaceLastWins(t1, entries[1..], i - 1);
    }
  }

  /** Under `INSERT OR REPLACE` every row afterwards is an old row no entry
      touched or the row of the last entry with its key. */
  lemma ReplaceRows<K, V>(t: map<K, V>, entries: seq<(K, V)>)
    ensures var r := UpsertAll(t, entries, Replace());
      forall k | k in r :: (k in t && !HasKey(entries, k) && r[k] == t[k])
        || (LastIndex(entries, k).Some? && entries[LastIndex(entries, k).value] == (k, r[k]))
  {
    var r := UpsertAll(t, entries, Replace());
    UpsertKeys(t, entries, Replace());
    forall k | k in r
      ensures (k in t && !HasKey(entries, k) && r[k] == t[k])
        || (LastIndex(entries, k).Some? && entries[LastIndex(entries, k).value] == (k, r[k]))
    {
      if HasKey(entries, k) {
        var i := LastIndex(entries, k).value;
        ReplaceLastWins(t, entries, i);
      }
    }
  }
}

=== FILE: video_player.dfy ===
/** The frame navigation of release/v1.0/src/ui/video_player.py: which
    frame is shown, the time announced for it, how playback advances in
    sync mode and on the timer, and which frame timestamps are kept. The
    decoded frames are represented by their count; the frame rate is an
    exact positive real. */
module VideoPlayer {
  import opened Wrappers

  datatype Player = Player(
    frames: nat,            // number of decoded frames
    current: nat,           // current_frame_idx
    playing: bool,
    sync: bool,             // sync_mode
    timestamps: seq<int>,   // frame_timestamps
    startNs: int,           // start_time_ns
    fps: real)

  /** What every operation keeps: the current frame exists when there are
      frames, the timestamps are absent or one per frame, and the frame
      rate is positive. */
  predicate Valid(p: Player) {
    && (p.frames == 0 ==> p.current == 0)
    && (p.frames > 0 ==> p.current < p.frames)
    && (|p.timestamps| == 0 || |p.timestamps| == p.frames)
    && p.fps > 0.0
  }

  // ---------------------------------------------------------------------------
  // Times

  /** `load_segment`: the earliest stored sample time of the segment, and
      the segment's start when there is none (or it is 0, which reads as
      false). */
  function StartTime(minTime: Option<int>, segmentStart: int): (r: int)
    ensures minTime.Some? && minTime.value != 0 ==> r == minTime.value
    ensures minTime.None? ==> r == segmentStart
    ensures minTime == Some(0) ==> r == segmentStart
  {
    if minTime.Some? && minTime.value != 0 then minTime.value else segmentStart
  }

  /** `_load_frame_timestamps`: the stored timestamps are kept only when
      there is a database and a segment, the read succeeds (`None` is an
      exception), and there is one per decoded frame. */
  function LoadTimestamps(hasDb: bool, segmentId: string, frames: nat, read: Option<seq<int>>): (r: seq<int>)
    ensures |r| == 0 || |r| == frames
    ensures |r| > 0 <==> hasDb && segmentId != "" && read.Some? && |read.value| == frames && frames > 0
    ensures |r| > 0 ==> r == read.value
  {
    if !hasDb || segmentId == "" then []
    else match read
      case None => []
      case Some(ts) => if |ts| != frames then [] else ts
  }

  /** The offset of frame `idx` from the start time: `int(idx / fps * 1e9)`
      (truncation is the floor here, since it is not negative). */
  function FrameOffset(idx: nat, fps: real): (r: int)
    requires fps > 0.0
    ensures r >= 0
  {
    ((idx as real / fps) * 1_000_000_000.0).Floor
  }

  /** The time announced for frame `idx`: its stored timestamp when there
      is one, otherwise the start time plus its offset at the frame rate. */
  function FrameTime(p: Player, idx: nat): (r: int)
    requires p.fps > 0.0
  {
    if |p.timestamps| > 0 && idx < |p.timestamps| then p.timestamps[idx]
    else p.startNs + FrameOffset(idx, p.fps)
  }

  /** Without timestamps, later frames are announced no earlier. */
  lemma CalculatedTimesAscend(p: Player, i: nat, j: nat)
    requires p.fps > 0.0 && |p.timestamps| == 0 && i <= j
    ensures FrameTime(p, i) <= FrameTime(p, j)
  {
    assert i as real / p.fps <= j as real / p.fps;
  }

  /** With one timestamp per frame, every frame is announced at its own. */
  lemma StoredTimesUsed(p: Player, idx: nat)
    requires Valid(p) && |p.timestamps| > 0 && idx < p.frames
    ensures FrameTime(p, idx) == p.timestamps[idx]
  {
  }

  // ---------------------------------------------------------------------------
  // Showing a frame

  /** The `time_changed` and `frame_changed` emissions of one display. */
  datatype Shown = Shown(timeNs: int, frame: nat)

  /** `display_frame`: an index outside the frames does nothing; otherwise
      it becomes current and its time and index are announced. */
  function DisplayFrame(p: Player, idx: int): (r: (Player, Option<Shown>))
    requires Valid(p)
    ensures Valid(r.0)
    ensures idx < 0 || idx >= p.frames ==> r == (p, None)
    ensures 0 <= idx < p.frames ==>
      r.0 == p.(current := idx) && r.1 == Some(Shown(FrameTime(p, idx), idx))
  {
    if idx < 0 || idx >= p.frames then (p, None)
    else (p.(current := idx), Some(Shown(FrameTime(p, idx), idx)))
  }

  function Clamp(x: int, lo: int, hi: int): int
    requires lo <= hi
  {
    if x < lo then lo else if x > hi then hi else x
  }

  /** `step_frame`: nothing without frames; otherwise the frame `delta`
      away, held within the first and the last. */
  function StepFrame(p: Player, delta: int): (r: (Player, Option<Shown>))
    requires Valid(p)
    ensures Valid(r.0)
    ensures p.frames == 0 ==> r == (p, None)
    ensures p.frames > 0 ==> r.1.Some? && r.1.value.frame == r.0.current
  {
    if p.frames == 0 then (p, None)
    else DisplayFrame(p, Clamp(p.current + delta, 0, p.frames - 1))
  }

  /** A step lands exactly `delta` away when that frame exists, and on the
      nearer end otherwise. */
  lemma StepLands(p: Player, delta: int)
    requires Valid(p) && p.frames > 0
    ensures var c := StepFrame(p, delta).0.current;
      && (0 <= p.current + delta < p.frames ==> c == p.current + delta)
      && (p.current + delta < 0 ==> c == 0)
      && (p.current + delta >= p.frames ==> c == p.frames - 1)
  {
  }

  /** Stepping back undoes a step that stayed inside the frames. */
  lemma StepBack(p: Player, delta: int)
    requires Valid(p) && 0 <= p.current + delta < p.frames
    ensures StepFrame(StepFrame(p, delta).0, -delta).0 == p
  {
  }

  // ---------------------------------------------------------------------------
  // Playback

  /** `stop`. */
  function Stop(p: Player): (r: Player)
    ensures !r.playing
  {
    p.(playing := false)
  }

  /** `advance_frame`, the sync-mode step: nothing without frames or when
      not playing; otherwise the next frame, or a stop at the last one.
      The flag says whether it advanced. */
  function AdvanceFrame(p: Player): (r: (Player, bool, Option<Shown>))
    requires Valid(p)
    ensures Valid(r.0)
    ensures r.1 <==> p.frames > 0 && p.playing && p.current < p.frames - 1
    ensures r.1 ==> r.0.current == p.current + 1 && r.2 == Some(Shown(FrameTime(p, p.current + 1), p.current + 1))
    ensures !r.1 ==> r.0.current == p.current && r.2.None?
    ensures p.frames > 0 && p.playing && !r.1 ==> !r.0.playing
  {
    if p.frames == 0 || !p.playing then (p, false, None)
    else if p.current < p.frames - 1 then
      var (q, shown) := DisplayFrame(p, p.current + 1);
      (q, true, shown)
    else (Stop(p), false, None)
  }

  /** `on_timer_tick`: nothing in sync mode; otherwise the next frame, or
      a stop at the last one. */
  function TimerTick(p: Player): (r: (Player, Option<Shown>))
    requires Valid(p)
    ensures Valid(r.0)
    ensures p.sync ==> r == (p, None)
    ensures !p.sync && p.current + 1 < p.frames ==> r.0.current == p.current + 1 && r.1 == Some(Shown(FrameTime(p, p.current + 1), p.current + 1))
    ensures !p.sync && p.current + 1 >= p.frames ==> !r.0.playing && r.0.current == p.current && r.1.None?
  {
    if p.sync then (p, None)
    else if p.current + 1 < p.frames then DisplayFrame(p, p.current + 1)
    else (Stop(p), None)
  }

  /** `n` advances in a row. */
  function Advances(p: Player, n: nat): (r: Player)
    requires Valid(p)
    ensures Valid(r)
    decreases n
  {
    if n == 0 then p else Advances(AdvanceFrame(p).0, n - 1)
  }

  /** Playing from frame c, the advances walk frame by frame to the last
      frame, and the next one stops playback there. */
  lemma {:induction false} AdvanceToEnd(p: Player, k: nat)
    requires Valid(p) && p.playing && p.frames > 0
    requires k <= p.frames - 1 - p.current
    decreases k
    ensures Advances(p, k) == p.(current := p.current + k)
    ensures k == p.frames - 1 - p.current ==>
      && AdvanceFrame(Advances(p, k)).1 == false
      && !AdvanceFrame(Advances(p, k)).0.playing
      && AdvanceFrame(Advances(p, k)).0.current == p.frames - 1
  {
    if k > 0 {
      var q := AdvanceFrame(p).0;
      assert q == p.(current := p.current + 1);
      AdvanceToEnd(q, k - 1);
    }
  }
}

=== FILE: wrappers.dfy ===
/** Failure-compatible wrappers used throughout the model: `Option` stands for
    Python's `None`-or-value, `Result` for a value-or-raised-exception. */
module Wrappers {

  datatype Option<+T> = None | Some(value: T) {

    predicate IsFailure() {
      None?
    }

    function PropagateFailure<U>(): Option<U>
      requires None?
    {
      None
    }

    function Extract(): T
      requires Some?
    {
      value
    }

    function GetOr(default: T): T {
      match this
      case Some(v) => v
      case None => default
    }
  }

  datatype Result<+R, +E> = Success(value: R) | Failure(error: E) {

    predicate IsFailure() {
      Failure?
    }

    function PropagateFailure<U>(): Result<U, E>
      requires Failure?
    {
      Failure(error)
    }

    function Extract(): R
      requires Success?
    {
      value
    }
  }
}
